=== FILE: README.md ===
# ChipFlow digital IP: coverage engine, Verilog wrapper and timer driver

This project is a Dafny model of three parts of the ChipFlow digital IP repository.

- **The coverage engine of the test helpers** (`tests/test_utils.py`). A design is
  a tree: fragments, each with domain lists of statements (assignments and
  `Switch` statements with cases) and named subfragments. The engine has four
  facets: statements, blocks, assertions and boolean expressions.
  - A *tagger* walks the tree. It gives every coverable node a coverage id
    `(path, domain, serial)` and records a descriptor for it.
  - An *injector* then puts probe assignments into the tree (`cov := 1`, or the
    truth of a condition), one signal per id.
  - The *merge* functions add the hit counts of one run into the session-wide
    aggregates. The *summary* functions count how many ids were hit.
  - The naming helpers build the signal names and the short location strings.
  - `_pattern_to_mask_value` turns a case pattern into a mask and a value.
  - `_boolean_exprs_from_switch` lists the conditions a `Switch` tests.
- **The external Verilog wrapper** (`chipflow_digital_ip/io/_verilog_wrapper.py`):
  - the configuration checks;
  - interface-name resolution and signal directions;
  - the flattening of nested port maps;
  - parameter substitution in port signatures;
  - the port tables that `__init__` builds;
  - the port names `elaborate` formats for the Verilog instance.
- **The Wishbone timer driver** (`chipflow_digital_ip/io/sv_timer/drivers/wb_timer.h`).
  It is a class holding the four registers, with one method per inline driver
  function.

Object identity matters in the coverage engine:
- The taggers attach attributes to statement objects.
- The block table is keyed by `id(list)`.

The model therefore gives every statement its attributes as fields. Every statement
list carries a key that stands for its identity:
- a list the design was built with has an original key;
- a list an injector builds in place of an old one has a key derived from the old
  key. The model takes it never to be equal to a key in use or freed before (see
  "## Left out");
- a list changed in place keeps its key.

Each imperative Python function is a `method` proved equal to a
specification function, and the properties are lemmas about those functions.

The block injector skips any list its table does not know
(`tests/test_utils.py:330-342`), and so does the model. In `mk_sim_with_all_cov`
this means root blocks get no probe: see Findings.

## Model

| member | source | states |
|---|---|---|
| CoverageNaming.ShortenFilenameShape | tests/test_utils.py:27-31 | an empty name gives "unknown"; otherwise the result is the suffix that starts at the first occurrence of `chipflow-digital-ip`, or, when there is none, the last `/`-separated component |
| CoverageNaming.ShortLocShape | tests/test_utils.py:33-37 | no location gives "unknown"; otherwise the result starts with the short file name and a colon, and its last `:`-separated piece reads back as the line number |
| CoverageNaming.SafePathStr | tests/test_utils.py:39-42 | the root path gives "top" |
| CoverageNaming.SafePathStrRoundTrip | tests/test_utils.py:39-42 | for a non-empty path whose shown components hold no `/`, splitting the string on `/` gives back every component as shown (`anon` for a missing or empty one) |
| CoverageNaming.SafeComponents | tests/test_utils.py:39-42 | one shown component per path component: `anon` for a missing or empty one, else its text |
| CoverageNaming.CovSignalNameShape | tests/test_utils.py:61-64 | a signal name starts with the prefix and `_`, and its last `_`-separated piece reads back as the serial |
| CoverageNaming.SignalComponents | tests/test_utils.py:61-64 | one shown component per path component: `anon` exactly for a missing one, and any other component, the empty one included, as its text |
| Text.NatToString | tests/test_utils.py:61-64 | `str(n)` is a non-empty string of decimal digits |
| Text.DigitsValueOfNatToString | tests/test_utils.py:61-64 | reading `str(n)` back as a decimal gives `n` |
| Text.Find | tests/test_utils.py:27-31 | `s.find(t)` is the first index at which `t` occurs, or -1 when it does not occur |
| Text.Split | tests/test_utils.py:31 | `s.split(sep)` has at least one piece, and no piece contains the separator |
| Text.SplitJoin | tests/test_utils.py:39-42 | joining pieces that contain no separator and splitting again gives the pieces back |
| Text.ReprRoundTrip | tests/test_utils.py:673 | Python's `repr` of a string loses nothing: reading the literal back, escape by escape, gives the string |
| Text.ReprQuotes | tests/test_utils.py:673 | the literal starts and ends with the same quote, a double quote exactly when the text holds a single quote and no double quote |
| Text.ReprPlain | tests/test_utils.py:151 | printable ASCII text without quotes or backslashes is shown between plain single quotes |
| Text.DigitRun | chipflow_digital_ip/io/_verilog_wrapper.py:145-149 | the length of the leading run of decimal digits: all digits up to it, and the next character is not a digit |
| StatementCoverage.CaseEntries | tests/test_utils.py:149-163 | one record per case of a Switch, with consecutive serials and the Switch's path and domain |
| StatementCoverage.NumberedDistinct | tests/test_utils.py:130-179 | records with consecutive serials have pairwise distinct ids |
| StatementCoverage.TagListNumbered | tests/test_utils.py:139-171 | a list's records have consecutive serials starting at the counter, under the list's path and domain; case bodies keep their parent's path |
| StatementCoverage.TagFragmentNumbered | tests/test_utils.py:130-179 | a fragment's records have consecutive serials and lie under its path |
| StatementCoverage.TagSubNumbered | tests/test_utils.py:173-178 | a subfragment's records lie under `parent_path + (name,)` |
| StatementCoverage.SwitchNumbering | tests/test_utils.py:149-163 | an untagged Switch takes serial n and its case i takes n+1+i; the case-id list names exactly those ids, recorded right after the Switch |
| StatementCoverage.TagListSettles | tests/test_utils.py:139-171 | after tagging, every Assign and Switch carries an id, and no statement changes kind |
| StatementCoverage.TagFragmentSettles | tests/test_utils.py:130-179 | after tagging, every coverable statement of the whole tree carries an id |
| StatementCoverage.TagSettledList | tests/test_utils.py:139-171 | tagging an already tagged list changes nothing and records nothing |
| StatementCoverage.TagSettledFragment | tests/test_utils.py:130-179 | tagging an already tagged tree changes nothing and records nothing |
| StatementCoverage.TagTwice | tests/test_utils.py:130-179 | tagging twice is tagging once: the second run changes nothing and records nothing |
| StatementCoverage.TagFragmentStrip | tests/test_utils.py:130-179 | tagging only attaches attributes; the design without them is unchanged |
| StatementCoverage.RecordKeys | tests/test_utils.py:139-171 | the descriptor map's keys are the old keys plus the recorded ids; unrecorded keys keep their descriptors |
| StatementCoverage.RecordValues | tests/test_utils.py:139-171 | when no id is recorded twice, the map holds every recorded descriptor under its id |
| StatementCoverage.TagStatementList | tests/test_utils.py:139-171 | the statement loop equals `TagList` (tree, next serial and records), whose properties are `TagListNumbered` and `TagListSettles` |
| StatementCoverage.TagAllStatements | tests/test_utils.py:130-179 | returns the tree, next serial and map of `TagFragment` and `Record`, writing the records in walk order; every record of the walk is in the map under its own id (via `NumberedDistinct`) |
| StatementProbes.SignalFor | tests/test_utils.py:189-199 | an id's signal is reused when it exists; otherwise exactly one new key is added, and no existing entry changes |
| StatementProbes.SignalNameEndsInSerial | tests/test_utils.py:189-199 | every signal the pass makes ends in its id's serial |
| StatementProbes.InsertFragmentNamed | tests/test_utils.py:181-226 | every signal is named `_cov_signal_name("cov", ...)` after its id |
| StatementProbes.InsertListPlacement | tests/test_utils.py:185-199 | a probe `cov := 1` goes right before every pending statement; every statement is kept, in order, and nothing else is added |
| StatementProbes.InsertStmtShape | tests/test_utils.py:187-213 | one statement becomes its probe (when it is pending) followed by the instrumented statement |
| StatementProbes.InsertCasesHeads | tests/test_utils.py:202-213 | every numbered case body starts with its case probe, followed by the instrumented old body, in the same list object |
| StatementProbes.InsertListProbeHead | tests/test_utils.py:202-213 | instrumenting a body that starts with the case probe keeps the probe first and does not instrument it |
| StatementProbes.PendingCount | tests/test_utils.py:185-199 | at most one probe per statement of the list |
| StatementProbes.InsertListDone | tests/test_utils.py:185-213 | afterwards every tagged Assign and Switch, down through the case bodies, is flagged as instrumented |
| StatementProbes.TagThenInsert | tests/test_utils.py:139-199 | after tagging a list no pass has instrumented, every Assign and Switch gets a probe of its own id right before it |
| StatementProbes.InsertFragmentStrip | tests/test_utils.py:181-226 | apart from the probes and flags, the design is unchanged |
| StatementProbes.InjectStmtList | tests/test_utils.py:185-214 | the loop equals `InsertList`, whose placement is `InsertListPlacement` |
| StatementProbes.InjectStatement | tests/test_utils.py:187-213 | one statement's chunk and signals equal `InsertStmt` (see `InsertStmtShape`) |
| StatementProbes.InjectCases | tests/test_utils.py:202-213 | the case loop equals `InsertCases`, rewriting each body in place (see `InsertCasesHeads`) |
| StatementProbes.InjectCase | tests/test_utils.py:205-213 | one case equals `InsertCase`: a head probe, then the rest of the body instrumented in place |
| StatementProbes.WalkFragment | tests/test_utils.py:216-223 | `walk_fragment` equals `InsertFragment`: every domain list is replaced with its instrumented copy, then the subfragments are walked |
| StatementProbes.InjectDomainLists | tests/test_utils.py:216-220 | the domain loop equals `InsertDomains` |
| StatementProbes.WalkSubfragments | tests/test_utils.py:221-223 | the subfragment loop equals `InsertSubs` |
| StatementProbes.InsertCoverageSignals | tests/test_utils.py:181-226 | the whole pass equals `InsertFragment` from an empty signal map; the stripped design is unchanged and every signal is named after its id |
| BlockCoverage.RootSites | tests/test_utils.py:282-288 | one root block per domain |
| BlockCoverage.CaseSites | tests/test_utils.py:290-300 | one block per case of a Switch |
| BlockCoverage.NumberNumbered | tests/test_utils.py:282-300 | blocks are numbered consecutively, and each table pair carries its block's id |
| BlockCoverage.TagBlocksNumbered | tests/test_utils.py:278-308 | block serials are consecutive from the counter; every record lies under the fragment's path and has its `(id(list), block)` pair |
| BlockCoverage.TagBlocksRoots | tests/test_utils.py:282-288 | the first records are the roots: domain i takes serial n+i, its block is its own list, and an empty list shows its location as "unknown" |
| BlockCoverage.SwitchSitesPlacement | tests/test_utils.py:290-300 | the case blocks are exactly the cases of the top-level Switches, in statement and case order, each being the case's own body list |
| BlockCoverage.SwitchSiteAt | tests/test_utils.py:290-300 | case j of the k-th statement is the block at the position counted by the cases before it |
| BlockCoverage.TagAllBlocks | tests/test_utils.py:278-308 | `tag_all_blocks` equals `TagBlocks` (next serial, records and table pairs), whose properties are `TagBlocksNumbered` and `TagBlocksRoots` |
| BlockCoverage.NumberRoots | tests/test_utils.py:282-288 | the root loop extends the numbering to `Number` over the sites so far followed by `RootSites` of the domains |
| BlockCoverage.NumberCaseLists | tests/test_utils.py:290-300 | the Switch and case loops extend the numbering to `Number` over the sites so far followed by `DomainSwitchSites` of the domains |
| BlockProbes.TableLookup | tests/test_utils.py:314-327 | a list is in the harvested table exactly when some pair names it, and the last such pair wins |
| BlockProbes.Harvest | tests/test_utils.py:314-327 | `harvest_block_ids` fills the table pair by pair and equals `Table` of the pairs (see `TableLookup`) |
| BlockProbes.BlockSignalFor | tests/test_utils.py:329-336 | a block's signal is reused or made, and exactly its key is added |
| BlockProbes.HeadHeaded | tests/test_utils.py:329-336 | `inject_head` puts one probe in front of a list the table knows and leaves every other list alone |
| BlockProbes.HeadFragmentHeaded | tests/test_utils.py:338-349 | every list of the design ends up headed as its table entry says, and every signal belongs to a table block |
| BlockProbes.HeadFragmentStrip | tests/test_utils.py:338-349 | apart from the probes, the design is unchanged |
| BlockProbes.TagThenHeadRoots | tests/test_utils.py:282-342 | with the tagger's table, domain i's root list starts with the probe of block `((), domain, i)`, followed by the old statements |
| BlockProbes.RootInTable | tests/test_utils.py:282-327 | the harvested table maps a root list to its root block |
| BlockProbes.InjectHead | tests/test_utils.py:329-336 | `inject_head` equals `Head`: a known list gets its block's probe at its head, an unknown list is skipped (see `HeadHeaded`) |
| BlockProbes.HeadSwitchStatements | tests/test_utils.py:343-346 | equals `HeadSwitches`: the case lists of each Switch directly in a domain list are headed |
| BlockProbes.HeadDomainList | tests/test_utils.py:341-346 | equals `HeadDomain`: the domain list is headed, then its Switches are visited |
| BlockProbes.WalkBlocks | tests/test_utils.py:338-349 | `walk_fragment` equals `HeadFragment` over the domains and subfragments (see `HeadFragmentHeaded`) |
| BlockProbes.InsertBlockCoverageSignals | tests/test_utils.py:310-352 | the pass equals `HeadFragment` on `Table` of the pairs; every known list is headed, nothing else changes, and every signal is a table block's, named after it |
| AssertionCoverage.ProbesMatchSignals | tests/test_utils.py:559-575 | one probe per outcome of the node's kind; the "true" probe copies the condition and the others its negation; one signal record per outcome |
| AssertionCoverage.SkipsNoCondition | tests/test_utils.py:561-563 | a node without a condition changes neither the tree nor the signals |
| AssertionCoverage.DomainIndex | tests/test_utils.py:565-576 | the first position of a domain among a fragment's domains, or the count when it is absent |
| AssertionCoverage.UpdateAtEffect | tests/test_utils.py:565-576 | only the addressed list changes, by gaining the probes at its end |
| AssertionCoverage.InsertAssertsLists | tests/test_utils.py:559-576 | every list ends as its old contents followed by the probes of the nodes found in its fragment and domain, in order |
| AssertionCoverage.InsertAssertsSignals | tests/test_utils.py:545-578 | a signal is recorded exactly for each outcome of each found node that has a condition |
| AssertionCoverage.InsertAssertCoverageSignals | tests/test_utils.py:545-578 | the injector loop equals `InsertAsserts`, whose properties are `InsertAssertsLists` and `InsertAssertsSignals` |
| ExpressionWalk.WalkSound | tests/test_utils.py:652-669 | the walk yields only one-bit expressions under the root that were not visited before, and no object twice |
| ExpressionWalk.WalkCloses | tests/test_utils.py:652-669 | walking to the end leaves the operands of every visited object visited, and every object that was on the stack visited |
| ExpressionWalk.BoolSubexprsExact | tests/test_utils.py:652-669 | the result is exactly the set of one-bit subexpressions, with no object repeated |
| ExpressionWalk.BooleanSubexpressions | tests/test_utils.py:652-669 | the stack loop equals `BoolSubexprs` (see `BoolSubexprsExact`) |
| ExpressionCoverage.CaseCondsShape | tests/test_utils.py:706-722 | the call fails exactly on an empty pattern list; otherwise one condition per non-default case, then the `default` condition `~any_match` whenever there is at least one non-default case, whether or not the Switch has a default case |
| ExpressionCoverage.SwitchCondsShape | tests/test_utils.py:706-722 | the conditions of a Switch, or the error |
| ExpressionCoverage.BooleanExprsFromSwitch | tests/test_utils.py:706-722 | the loop equals `SwitchConds` (see `SwitchCondsShape`) |
| ExpressionCoverage.CondEntries | tests/test_utils.py:742-752 | one record per condition, with consecutive serials |
| ExpressionCoverage.TagExprFragmentNumbered | tests/test_utils.py:724-759 | expression records have consecutive serials, all under the fragment's path, and no id already set on an expression object is replaced |
| ExpressionCoverage.TagExprListStrip | tests/test_utils.py:730-752 | as `tests/test_utils.py` is written, tagging leaves the tree exactly as it was; with the conditions kept, only a Switch's condition ids change |
| ExpressionCoverage.TagExprListFails | tests/test_utils.py:730-752 | a domain's list fails exactly when one of its top-level statements fails (a Switch with a patternless case); statements nested in case bodies are never looked at |
| ExpressionCoverage.TagAllExpressions | tests/test_utils.py:724-759 | `tag_all_expressions` succeeds exactly when `TagExprFragment` does, returns its result and writes its records with `Record` |
| ExpressionProbes.ProbeWalkedKeys | tests/test_utils.py:767-782 | an assignment gets the T and F signals of exactly the tagged one-bit subexpressions |
| ExpressionProbes.ProbeCondsKeys | tests/test_utils.py:784-803 | the condition probes make exactly the T and F signals of the ids paired with a condition; with no ids, as `tests/test_utils.py` is written, they make none |
| ExpressionProbes.InjectFragmentStrip | tests/test_utils.py:808-815 | apart from the probes (and the identity of the top-level lists), the design is unchanged |
| ExpressionProbes.TagInjectFragment | tests/test_utils.py:724-815 | with the ids kept on the Switch, every record of the tagger gets its T and F signals from the injector |
| ExpressionProbes.ExprCoverageComplete | tests/test_utils.py:820-832 | with the ids kept on the Switch, tagging from serial 0 and then injecting gives every recorded id its T and F signals |
| ExpressionProbes.RebuiltConditionsUninstrumented | tests/test_utils.py:784-803 | as written, a Switch's conditions are recorded but get no signal |
| ExpressionProbes.KeptConditionsInstrumented | tests/test_utils.py:742-803 | corrected: the same Switch gets the signals of both conditions |
| ExpressionProbes.InsertExpressionCoverageSignals | tests/test_utils.py:761-818 | the injector equals `InjectFragment` from an empty signal map; every signal is named after its id and outcome, and the stripped design is unchanged |
| ExpressionProbes.ProbeAssign | tests/test_utils.py:767-782 | one assignment's T and F probes and signals equal `ProbeWalked` over `BoolSubexprs` of its right-hand side (see `ProbeWalkedKeys`) |
| ExpressionProbes.ProbeSwitch | tests/test_utils.py:784-803 | one Switch's condition probes and signals equal `ProbeConds` (see `ProbeCondsKeys`) |
| PatternMask.PatternToMask | tests/test_utils.py:671-687 | Ok exactly when the pattern matches the regular expression and has the test's width; otherwise "Unsupported switch pattern string: " followed by Python's `repr` of the pattern, or "Pattern width ... != test width ..." |
| PatternMask.QuotedPatternMessage | tests/test_utils.py:672-673 | the pattern `a'b` is rejected with the message `Unsupported switch pattern string: "a'b"`, in double quotes |
| PatternMask.MaskBit | tests/test_utils.py:671-687 | mask bit i is set exactly when the i-th character from the right is `0` or `1` |
| PatternMask.ValueBit | tests/test_utils.py:671-687 | value bit k is set exactly when pattern character k from the right is `1` |
| PatternMask.NoBitsAbove | tests/test_utils.py:671-687 | neither mask nor value has a bit at or above the width |
| PatternMask.PatternBits | tests/test_utils.py:671-687 | on success, the mask has exactly the fixed bits and the value exactly the `1` bits, so the value is a submask of the mask and nothing lies above the width |
| PatternMask.PatternToMaskValue | tests/test_utils.py:671-687 | the loop equals `PatternToMask`, whose bits `PatternBits` describes |
| Counters.AddAllCounts | tests/test_utils.py:241-245 | after a merge the keys are those of both maps, and every key's count is the old count plus the run's count, so no count goes down |
| Counters.AddAllCommutes | tests/test_utils.py:241-245 | merging two runs in either order gives the same aggregate |
| Counters.AddAllAssociates | tests/test_utils.py:241-245 | merging a run then another equals merging their sum |
| Counters.SetDefaultsKeeps | tests/test_utils.py:241-245 | `setdefault`: the keys of both maps; an existing descriptor is kept, and a new key takes the incoming one |
| Counters.SetDefaultsIdempotent | tests/test_utils.py:241-245 | merging the same descriptors twice is merging them once |
| Counters.SetDefaultsCommutes | tests/test_utils.py:241-245 | the key set does not depend on the merge order; when the two runs agree wherever they overlap, the whole map does not depend on it either |
| Counters.AddCounts | tests/test_utils.py:244-245 | the counting loop equals `AddAll` (see `AddAllCounts`) |
| Counters.SetDefaultAll | tests/test_utils.py:242-243 | the descriptor loop equals `SetDefaults` (see `SetDefaultsKeeps`) |
| CoverageAggregate.TFCountsGet | tests/test_utils.py:834-839 | each expression id gives a T and an F bucket, each holding its own count |
| CoverageAggregate.NonZeroCountsGet | tests/test_utils.py:592-598 | a bucket is kept exactly when its count is positive, and it keeps that count |
| CoverageAggregate.AddBuckets | tests/test_utils.py:592-598 | one id's buckets are added to the aggregate; a zero bucket makes no key |
| CoverageAggregate.AddNonZeroPositive | tests/test_utils.py:592-598 | merging into an aggregate that has no zero counts leaves no zero counts |
| CoverageAggregate.CountSummary | tests/test_utils.py:247-250 | the total is the number of recorded ids, and the hit count is at most the total |
| CoverageAggregate.CountSummaryBounds | tests/test_utils.py:247-250 | the summary is full exactly when every recorded id was hit, and zero exactly when none was |
| CoverageAggregate.ExprSummaryFull | tests/test_utils.py:842-845 | the summary is full exactly when every recorded id was seen both true and false |
| CoverageAggregate.AssertSummaryFull | tests/test_utils.py:601-608 | the summary is full exactly when every known or hit node was active |
| CoverageAggregate.HitNodesActive | tests/test_utils.py:601-608 | with no zero counts stored, a node with a true, false or fail bucket is active |
| CoverageAggregate.Percent | tests/test_utils.py:247-250 | the percentage, as a fraction: 100 when there are no ids; otherwise 100 times hit over total, at most 100, and exactly 100 when every id was hit |
| CoverageAggregate.MergeRaisesSummary | tests/test_utils.py:241-250 | a merge never lowers the statement or block summary |
| CoverageAggregate.MergeRaisesExprSummary | tests/test_utils.py:834-845 | a merge never lowers the expression summary |
| CoverageAggregate.Aggregate.constructor | tests/test_utils.py:113-114 | the session aggregates start empty |
| CoverageAggregate.Aggregate.MergeStmtCov | tests/test_utils.py:241-245 | `merge_stmtcov`: the descriptors are merged with `setdefault` and the counts added; no stored assertion count becomes zero, and no other aggregate changes |
| CoverageAggregate.Aggregate.MergeBlockCov | tests/test_utils.py:367-371 | `merge_blockcov`: the same for the block aggregates |
| CoverageAggregate.Aggregate.MergeAssertCov | tests/test_utils.py:592-598 | `merge_assertcov`: the descriptors are merged and only non-zero buckets are added, so no stored count is zero |
| CoverageAggregate.Aggregate.MergeExprCov | tests/test_utils.py:834-839 | `merge_exprcov`: the descriptors are merged and each id's T and F counts are added |
| CoverageSession.MkSimWithStatementAndBlockCoverage | tests/test_utils.py:868-910 | the session's statement and block passes, in the session's order |
| CoverageSession.InsertDomainsKeys | tests/test_utils.py:216-223 | the statement injector gives every domain a new list object, never the old one |
| CoverageSession.InsertDomainsKeepProbe | tests/test_utils.py:185-199 | a domain list that starts with a probe still starts with it after the statement injector |
| CoverageSession.AsWrittenLosesRoot | tests/test_utils.py:868-910 | as written, a tagged root block gets no signal and no probe |
| CoverageSession.CorrectedRootProbed | tests/test_utils.py:868-910 | corrected order: every root block has its signal and a probe at the head of its list |
| CoverageSession.CorrectedKeepsRoot | tests/test_utils.py:868-910 | corrected order, on the same example: the root block is probed |
| VerilogWrapper.VerifyModuleOrPath | chipflow_digital_ip/io/_verilog_wrapper.py:32-42 | accepted, unchanged, exactly when exactly one of module and path is set; otherwise the "exactly one" error |
| VerilogWrapper.EmptyModuleIsUnset | chipflow_digital_ip/io/_verilog_wrapper.py:38-42 | an empty module string counts as unset: refused with no path, accepted next to a path |
| VerilogWrapper.MatchWidthOf | chipflow_digital_ip/io/_verilog_wrapper.py:145-149 | the digits after `Out(` or `In(`, closed by `)`, give the width |
| VerilogWrapper.MatchDirectionOf | chipflow_digital_ip/io/_verilog_wrapper.py:145-149 | `Out(` and `In(` choose the direction and the width is read after them |
| VerilogWrapper.ResolveSimple | chipflow_digital_ip/io/_verilog_wrapper.py:145-149 | `amaranth.lib.wiring.Out(n)` and `In(n)` resolve to their direction and width, whatever follows |
| VerilogWrapper.LastDot | chipflow_digital_ip/io/_verilog_wrapper.py:151-154 | the index of the last `.`, or -1 exactly when there is none |
| VerilogWrapper.ResolveClassPath | chipflow_digital_ip/io/_verilog_wrapper.py:151-154 | a dotted name that is not of the simple form splits at its last dot into module path and class name |
| VerilogWrapper.ResolveNoDot | chipflow_digital_ip/io/_verilog_wrapper.py:151-161 | a name without a dot fails with "Invalid interface specification" |
| VerilogWrapper.ParseSignalDirection | chipflow_digital_ip/io/_verilog_wrapper.py:164-179 | "o" exactly for a name starting `o_`; "i" for every other name, including unknown prefixes |
| VerilogWrapper.FlattenPortMap | chipflow_digital_ip/io/_verilog_wrapper.py:182-204 | `_flatten_port_map` equals `Flatten` (see `FlattenLookup`) |
| VerilogWrapper.WriteGroup | chipflow_digital_ip/io/_verilog_wrapper.py:200-202 | the inner loop writes one `key.sub` entry per group member, in order |
| VerilogWrapper.GroupWritesDotted | chipflow_digital_ip/io/_verilog_wrapper.py:196-202 | a group never writes a key without a dot |
| VerilogWrapper.FlattenLookup | chipflow_digital_ip/io/_verilog_wrapper.py:182-204 | the flattened map has unique keys, and each key holds its last written signal |
| VerilogWrapper.FlattenNamedEntry | chipflow_digital_ip/io/_verilog_wrapper.py:196-199 | a plain entry with no dot in its key keeps its signal |
| VerilogWrapper.FlattenNestedExample | chipflow_digital_ip/io/_verilog_wrapper.py:182-204 | `{cyc, dat: {r, w}}` flattens to `cyc`, `dat.r`, `dat.w`, in that order |
| VerilogWrapper.ResolveParamMeaning | chipflow_digital_ip/io/_verilog_wrapper.py:266-277 | a `{name}` value takes the generation parameter of that name when there is one and stays as it is otherwise; other values are unchanged |
| VerilogWrapper.ResolvedParamsShape | chipflow_digital_ip/io/_verilog_wrapper.py:266-277 | the resolved parameters have the same names, in the same order, each with its resolved value |
| VerilogWrapper.ResolveParams | chipflow_digital_ip/io/_verilog_wrapper.py:266-277 | the parameter loop equals `ResolvedParams` (see `ResolvedParamsShape`), over no parameters when `params` is unset |
| VerilogWrapper.CreateSignatureMember | chipflow_digital_ip/io/_verilog_wrapper.py:251-296 | `_create_signature_member` equals `SignatureMember` (see `SimpleMember` and `IfaceMemberFlow`), up to instantiating the interface class |
| VerilogWrapper.SimpleMember | chipflow_digital_ip/io/_verilog_wrapper.py:257-263 | a simple interface gives a member of its own direction and width |
| VerilogWrapper.IfaceMemberFlow | chipflow_digital_ip/io/_verilog_wrapper.py:279-296 | an interface class member is `Out` exactly when the first mapped signal does not start `o_` (so an empty map gives `Out`), and carries the resolved parameters |
| VerilogWrapper.TraverseFirstError | chipflow_digital_ip/io/_verilog_wrapper.py:238-247 | a failing loop reports the first failing element's error |
| VerilogWrapper.TraverseOk | chipflow_digital_ip/io/_verilog_wrapper.py:238-247 | the loop succeeds exactly when every element succeeds, and then holds each result in order |
| VerilogWrapper.BuildWrapper | chipflow_digital_ip/io/_verilog_wrapper.py:223-249 | `__init__` equals `WrapperTables` (see `MemberWritesAt` and `WrapperTablesKeys`) |
| VerilogWrapper.MemberWritesAt | chipflow_digital_ip/io/_verilog_wrapper.py:238-247 | the construction succeeds exactly when every port and pin gives a member, and then writes one member per port or pin, in order |
| VerilogWrapper.WrapperMemberAt | chipflow_digital_ip/io/_verilog_wrapper.py:238-247 | a port or pin not followed by a pin of the same name has its own member, so a pin replaces a port of its name |
| VerilogWrapper.WrapperMappingAt | chipflow_digital_ip/io/_verilog_wrapper.py:238-247 | such a port or pin has its own flattened map in `_port_mappings` |
| VerilogWrapper.WrapperTablesKeys | chipflow_digital_ip/io/_verilog_wrapper.py:235-247 | both tables have unique keys, and those keys are the names of the ports and the pins |
| PortFormat.FormatPrefix | chipflow_digital_ip/io/_verilog_wrapper.py:332-336 | `str.format(n=0)` copies text without braces unchanged |
| PortFormat.FormatField | chipflow_digital_ip/io/_verilog_wrapper.py:332-336 | a replacement field without nested braces is replaced by the value of its text, or its error is the result |
| PortFormat.PortNameField | chipflow_digital_ip/io/_verilog_wrapper.py:332-336 | a name with one field between brace-free text becomes that text with the field's value in the middle, or fails with the field's error |
| PortFormat.PortNameCases | chipflow_digital_ip/io/_verilog_wrapper.py:332-336 | a name without `{` is used as it is; a name with one `{n}` field between brace-free text gets index 0 there |
| PortFormat.FieldValueConversions | chipflow_digital_ip/io/_verilog_wrapper.py:332-336 | `{n}`, `{n!s}`, `{n!r}` and `{n!a}` all give `0` |
| PortFormat.FieldValueSpec | chipflow_digital_ip/io/_verilog_wrapper.py:332-336 | a field `n:<spec>` gives `format(0, spec)` |
| PortFormat.FormatZeroSpaces | chipflow_digital_ip/io/_verilog_wrapper.py:332-336 | a spec of a width and an optional integer type pads 0 with spaces to that width |
| PortFormat.FormatZeroZeros | chipflow_digital_ip/io/_verilog_wrapper.py:332-336 | the `0` flag before the width pads 0 with zeros instead |
| PortFormat.FieldValueSpaces | chipflow_digital_ip/io/_verilog_wrapper.py:332-336 | `{n:<width><type>}` gives 0 padded with spaces to the width |
| PortFormat.FieldValueZeros | chipflow_digital_ip/io/_verilog_wrapper.py:332-336 | `{n:0<width><type>}` gives 0 padded with zeros to the width |
| PortFormat.FormatZeroExample | chipflow_digital_ip/io/_verilog_wrapper.py:332-336 | `format(0, "02d")` is `00`, so `o_dat_{n:02d}` names the port `o_dat_00` |
| WrapperElaborate.WritePortSignals | chipflow_digital_ip/io/_verilog_wrapper.py:328-343 | one port's signals are written under their `PortName`s, or the loop stops at the first name `PortName` refuses, with its error |
| WrapperElaborate.WriteClocks | chipflow_digital_ip/io/_verilog_wrapper.py:314-319 | the clock loop fails with Amaranth's "does not have a clock" error when a clock names the `comb` domain; otherwise it equals `Apply` of `ClockWrites` (see `ClockWritesAt`) |
| WrapperElaborate.WriteResets | chipflow_digital_ip/io/_verilog_wrapper.py:321-326 | the reset loop fails with "does not have a reset" when a reset names `comb`; otherwise it equals `Apply` of `ResetWrites` (see `ResetWritesAt`) |
| WrapperElaborate.WritePorts | chipflow_digital_ip/io/_verilog_wrapper.py:328-343 | the port loop writes every port mapping in order, stopping at the first name `PortName` refuses |
| WrapperElaborate.PortWritesOk | chipflow_digital_ip/io/_verilog_wrapper.py:328-343 | the port writes succeed exactly when `PortName` accepts every mapped signal name |
| WrapperElaborate.ElaborateFails | chipflow_digital_ip/io/_verilog_wrapper.py:303-343 | a `comb` clock is the error, else a `comb` reset; otherwise elaboration succeeds exactly when `PortName` accepts every mapped name |
| WrapperElaborate.CombClockRefused | chipflow_digital_ip/io/_verilog_wrapper.py:314-319 | a clock named `comb` makes `elaborate` fail, whatever the ports |
| WrapperElaborate.Elaborate | chipflow_digital_ip/io/_verilog_wrapper.py:303-343 | `elaborate` up to building the instance equals `InstancePorts`: the `comb` refusals, then clocks, resets and ports (see `ElaborateFails`, `InstancePortsLookup`) |
| WrapperElaborate.ConstructAndElaborate | chipflow_digital_ip/io/_verilog_wrapper.py:223-343 | `__init__` followed by `elaborate` on the `_port_mappings` it stored equals `WrapperInstance`: a construction error, or `InstancePorts` over the built mappings |
| WrapperElaborate.WrapperInstancePorts | chipflow_digital_ip/io/_verilog_wrapper.py:223-343 | a construction error is the wrapper's error; when the wrapper elaborates, `elaborate` loops over exactly the port and pin names, the instance ports have unique names, every clock and reset has its `i_<signal>` port, and each name holds its last write among the clocks, resets and stored mapping signals |
| WrapperElaborate.ClockWritesAt | chipflow_digital_ip/io/_verilog_wrapper.py:314-319 | clock i is written as `i_<signal>` with its domain's clock (`sys` gives the default domain) |
| WrapperElaborate.ResetWritesAt | chipflow_digital_ip/io/_verilog_wrapper.py:321-326 | reset i is written as `i_<signal>` with its domain's inverted reset |
| WrapperElaborate.InstancePortsLookup | chipflow_digital_ip/io/_verilog_wrapper.py:303-343 | the instance ports have unique names; each holds its last write, so a port signal replaces a clock or reset of the same name |
| WrapperElaborate.ClockAndResetPorts | chipflow_digital_ip/io/_verilog_wrapper.py:314-326 | every clock and every reset gives an instance port `i_<signal>` |
| WrapperElaborate.ElaborateExample | chipflow_digital_ip/io/_verilog_wrapper.py:303-343 | a sys clock and reset plus a bus with one plain and one `{n}` signal give the expected instance ports |
| WishboneTimer.InitCtrl | chipflow_digital_ip/io/sv_timer/drivers/wb_timer.h:32-38 | the prescaler is in bits 31..16, enable and irq-enable are set, and bits 2..15 are clear |
| WishboneTimer.WithEnable | chipflow_digital_ip/io/sv_timer/drivers/wb_timer.h:40-42 | bit 0 is set and every other bit is kept |
| WishboneTimer.WithoutEnable | chipflow_digital_ip/io/sv_timer/drivers/wb_timer.h:44-46 | bit 0 is clear and every other bit is kept |
| WishboneTimer.EnableIdempotent | chipflow_digital_ip/io/sv_timer/drivers/wb_timer.h:40-42 | enabling twice is enabling once |
| WishboneTimer.DisableIdempotent | chipflow_digital_ip/io/sv_timer/drivers/wb_timer.h:44-46 | disabling twice is disabling once |
| WishboneTimer.DisableThenEnable | chipflow_digital_ip/io/sv_timer/drivers/wb_timer.h:40-46 | a disable then an enable restores an enabled control word |
| WishboneTimer.TimerRegs.constructor | chipflow_digital_ip/io/sv_timer/drivers/wb_timer.h:25-30 | the register block with its four registers |
| WishboneTimer.TimerRegs.Init | chipflow_digital_ip/io/sv_timer/drivers/wb_timer.h:32-38 | sets compare, clears the counter, sets the control word, and leaves status alone |
| WishboneTimer.TimerRegs.Enable | chipflow_digital_ip/io/sv_timer/drivers/wb_timer.h:40-42 | only ctrl changes, to its enabled form |
| WishboneTimer.TimerRegs.Disable | chipflow_digital_ip/io/sv_timer/drivers/wb_timer.h:44-46 | only ctrl changes, to its disabled form |
| WishboneTimer.TimerRegs.SetCompare | chipflow_digital_ip/io/sv_timer/drivers/wb_timer.h:48-50 | only compare changes |
| WishboneTimer.TimerRegs.GetCounter | chipflow_digital_ip/io/sv_timer/drivers/wb_timer.h:52-54 | returns the counter and changes nothing |
| WishboneTimer.TimerRegs.ClearIrq | chipflow_digital_ip/io/sv_timer/drivers/wb_timer.h:56-58 | writes pending and match (3) to status |
| WishboneTimer.TimerRegs.IrqPending | chipflow_digital_ip/io/sv_timer/drivers/wb_timer.h:60-62 | 1 exactly when the pending bit is set, else 0 |
| WishboneTimer.InitDisableEnable | chipflow_digital_ip/io/sv_timer/drivers/wb_timer.h:32-46 | init, disable, enable leaves the control word as init set it |

## Left out

- Running the simulator, the testbench observers that count hits, writing JSON, and printing reports: the model starts from hit-count maps given as inputs.
- Summary percentages: the model computes them on integers, not as Python floats.
- The reflection walkers over Amaranth objects, including `tag_all_asserts` and `_iter_formal_roots`: the design is an explicit tree, and the assertion injector takes the list of found nodes as its input.
- `_match_case`, `_is_bool_width` and `collect_all_signals`: they are not part of this model.
- `_resolve_interface_type`: importing the module and looking up the class (`importlib`, `getattr`) is left out; the model stops at the module path and class name.
- `_create_signature_member`: instantiating the interface class and its error path (`chipflow_digital_ip/io/_verilog_wrapper.py:297-301`) are left out.
- The `Instance` object, `_get_nested_attr`, `load_wrapper_from_toml`, the pydantic validation machinery, the SpinalHDL generator and `get_source_path`: they are not part of this model.
- WrapperElaborate.WritePortSignals, WrapperElaborate.WritePorts, WrapperElaborate.PortWritesOk, WrapperElaborate.Elaborate, WrapperElaborate.ConstructAndElaborate, PortFormat.FormatN and PortFormat.PortName: `str.format(n=0)` is modelled for `{{`, `}}`, `{n}`, `{n!s}`, `{n!r}`, `{n!a}` and `{n:<spec>}` where the spec is an optional `0` flag, a width and an optional type among `d`, `n`, `x`, `X`, `o` and `b`. Python also formats other fields that these members treat as errors: an attribute of `n` (`{n.real}`), a conversion followed by a spec (`{n!s:3}`), a spec with a fill and alignment, a sign, `#`, grouping, a precision or a float or `c` type, and nested fields. Errors do not carry Python's exact messages, and the width is not bounded as Python bounds it.
- WrapperElaborate.WriteClocks, WriteResets, Elaborate: the refusal of the `comb` domain and its messages follow Amaranth's `ClockSignal` and `ResetSignal`, which are not part of this model; the other check those constructors make, a domain that is not a string, cannot arise from configured names.
- VerilogWrapper.MatchWidthOf: `\d` matches ASCII digits only, not every Unicode digit.
- VerilogWrapper.BuildWrapper: the ports loop and the pins loop are one loop over the ports followed by the pins.
- The register offsets and the `volatile` memory-mapped semantics of the timer driver: the registers are plain fields.
- StatementCoverage.TagList, StatementProbes.InsertList, BlockProbes.HeadFragment, ExpressionCoverage.TagExprList and ExpressionProbes.InjectList: injected probes are a separate `Probe` statement kind that every tagger and injector skips. In the source they are ordinary `Assign` statements (`tests/test_utils.py:196`, `:336`, `:569-573`, `:780`), so a later pass can see them. In particular `insert_expression_coverage_signals` in `mk_sim_with_all_cov` (`:879-882`) walks the `c != Const(0)` of the assertion probes and adds T/F probes for any tagged one-bit node of `c`; the model adds none.
- StatementCoverage.AssignName and ExpressionCoverage.ExprName: `_expr_name` (`tests/test_utils.py:44-59`), which renders slices, signals and constants, is not modelled; every expression carries its rendered name as a given `name` field.
- CoverageSession.AsWrittenLosesRoot and the list keys: a rebuilt list's key is never equal to an old one. In CPython `id()` is unique only among live objects, so after `walk_fragment` drops a fragment's old root lists (`tests/test_utils.py:218-220`), a list built later for a subfragment can receive a freed id, and the block injector as written can then head that list with the wrong root block's probe. The model does not capture that.
- Text.Repr: characters above U+00FF are written as themselves; Python escapes the ones its Unicode database counts as non-printable (`\u`/`\U` escapes).
- CoverageSession.MkSimWithStatementAndBlockCoverage: the assertion and expression passes of `mk_sim_with_all_cov` and its simulator set-up are not included.

## Findings

| source | as written | input that shows it | evidently intended | confidence | as-written member | corrected member |
|---|---|---|---|---|---|---|
| tests/test_utils.py:874-882 | `mk_sim_with_all_cov` runs the statement injector before the block injector. The statement injector replaces every domain list with a new list (line 220), and the block injector looks lists up by `id` (line 342), so in a design without subfragments it finds no root list | one `sync` domain holding an empty statement list: its root block is recorded but gets no signal and no probe | every block that is tagged and counted also gets a probe (block injection first, or tables keyed by something the statement pass keeps) | high (not executed) | CoverageSession.AsWrittenLosesRoot | CoverageSession.CorrectedRootProbed |
| tests/test_utils.py:706-798 | `_boolean_exprs_from_switch` builds new condition objects on every call. The ids the tagger attaches (lines 744-752) are therefore never seen by the injector (lines 785-798) | a comb domain with `Switch(sel)` and one `Case("1")`: two records, no signal, both at 0 hits | the conditions tagged are the ones instrumented (ids kept on the Switch) | high (not executed) | ExpressionProbes.RebuiltConditionsUninstrumented | ExpressionProbes.KeptConditionsInstrumented |


=== FILE: aggregate.dfy ===
/** The session-wide coverage aggregation (tests/test_utils.py:113-114, 241-250,
    270-271, 367-377, 397-398, 592-608, 834-845). Each test run hands its hit
    counters and its id descriptors to a `merge_*` function, which adds the hits
    into a module-level `Counter` and records each descriptor with `setdefault`;
    the `emit_*` functions reduce the aggregate to a covered/total pair. */
module CoverageAggregate {
  import opened Design
  import opened Counters

  /** A summary line's figures: how many ids are covered out of how many. */
  datatype Summary = Summary(hit: nat, total: nat)

  /** One run's expression result or assertion result: per id, a count per
      outcome ("T"/"F", or "true"/"false"/"fail"). */
  type Buckets = map<CovId, map<string, nat>>

  lemma SubsetCard<T>(a: set<T>, b: set<T>)
    requires a <= b
    ensures |a| <= |b| && (|a| == |b| ==> a == b)
  {
    assert b == a + (b - a);
    assert |b| == |a| + |b - a|;
    if |a| == |b| {
      assert |b - a| == 0;
      assert b - a == {};
    }
  }

  // ---------------------------------------------------------------------------
  // merge_exprcov: per id, "T" and "F" are both added, zero or not.
  // ---------------------------------------------------------------------------

  /** The keys `merge_exprcov` touches: both outcomes of every id in the run. */
  function TFKeys(results: Buckets): set<(CovId, string)>
  {
    (set e | e in results :: (e, "T")) + (set e | e in results :: (e, "F"))
  }

  /** The run's counts as one flat counter over `(id, outcome)`, the way
      `merge_exprcov` adds them: `tf.get("T", 0)` and `tf.get("F", 0)`. */
  function TFCounts(results: Buckets): map<(CovId, string), nat>
  {
    map k | k in TFKeys(results) :: Get(results[k.0], k.1)
  }

  lemma TFCountsGet(results: Buckets, k: (CovId, string))
    ensures k in TFCounts(results) <==> k.0 in results && (k.1 == "T" || k.1 == "F")
    ensures Get(TFCounts(results), k)
      == if k.0 in results && (k.1 == "T" || k.1 == "F") then Get(results[k.0], k.1) else 0
  {
    if k.0 in results && (k.1 == "T" || k.1 == "F") {
      assert k in TFKeys(results);
    }
  }

  /** The `(id, outcome)` keys the `merge_exprcov` loop has reached once the ids
      in `todo` are left. */
  predicate TFDone(results: Buckets, todo: set<CovId>, k: (CovId, string))
  {
    k.0 in results && k.0 !in todo && (k.1 == "T" || k.1 == "F")
  }

  /** `for eid, tf in results.items(): AGG_EXPR_HITS[(eid, "T")] += ...;
      AGG_EXPR_HITS[(eid, "F")] += ...`. */
  method AddTFCounts(c: map<(CovId, string), nat>, results: Buckets) returns (c': map<(CovId, string), nat>)
    ensures c' == AddAll(c, TFCounts(results))
  {
    c' := c;
    var todo := results.Keys;
    while todo != {}
      invariant todo <= results.Keys
      invariant forall k :: k in c' <==> k in c || TFDone(results, todo, k)
      invariant forall k :: Get(c', k) == Get(c, k) + if TFDone(results, todo, k) then Get(results[k.0], k.1) else 0
      decreases todo
    {
      var e :| e in todo;
      var tf := results[e];
      c' := c'[(e, "T") := Get(c', (e, "T")) + Get(tf, "T")];
      c' := c'[(e, "F") := Get(c', (e, "F")) + Get(tf, "F")];
      todo := todo - {e};
    }
    AddAllCounts(c, TFCounts(results));
    forall k ensures (k in c' <==> k in AddAll(c, TFCounts(results))) && Get(c', k) == Get(AddAll(c, TFCounts(results)), k) {
      TFCountsGet(results, k);
    }
    SameCounts(c', AddAll(c, TFCounts(results)));
  }

  // ---------------------------------------------------------------------------
  // merge_assertcov: only the buckets with a non-zero count are added.
  // ---------------------------------------------------------------------------

  /** The keys `merge_assertcov` touches: the buckets with a non-zero count. */
  function NonZeroKeys(results: Buckets): set<(CovId, string)>
  {
    set a, o | a in results && o in results[a] && results[a][o] > 0 :: (a, o)
  }

  /** The run's non-zero buckets as one flat counter over `(id, outcome)`. */
  function NonZeroCounts(results: Buckets): map<(CovId, string), nat>
  {
    map k | k in NonZeroKeys(results) :: results[k.0][k.1]
  }

  lemma NonZeroCountsGet(results: Buckets, k: (CovId, string))
    ensures k in NonZeroCounts(results) <==> k.0 in results && Get(results[k.0], k.1) > 0
    ensures Get(NonZeroCounts(results), k) == if k.0 in results then Get(results[k.0], k.1) else 0
  {
    if k.0 in results && Get(results[k.0], k.1) > 0 {
      assert k in NonZeroKeys(results);
    }
  }

  /** Adding a run's non-zero buckets to a counter without zero counts leaves
      a counter without zero counts. */
  lemma AddNonZeroPositive(c: map<(CovId, string), nat>, results: Buckets)
    requires forall k :: k in c ==> c[k] > 0
    ensures var c' := AddAll(c, NonZeroCounts(results));
      forall k :: k in c' ==> c'[k] > 0
  {
    var c' := AddAll(c, NonZeroCounts(results));
    AddAllCounts(c, NonZeroCounts(results));
    forall k | k in c' ensures c'[k] > 0 {
      NonZeroCountsGet(results, k);
      assert Get(c', k) == Get(c, k) + Get(NonZeroCounts(results), k);
    }
  }

  /** `for outcome, hits in buckets.items(): if hits: AGG_ASSERT_HITS[(aid, outcome)] += hits`:
      each bucket of `aid` added, and no key made for a zero bucket. */
  method AddBuckets(c: map<(CovId, string), nat>, a: CovId, buckets: map<string, nat>)
    returns (c': map<(CovId, string), nat>)
    ensures forall k :: k in c' <==> k in c || (k.0 == a && Get(buckets, k.1) > 0)
    ensures forall k :: Get(c', k) == Get(c, k) + if k.0 == a then Get(buckets, k.1) else 0
  {
    c' := c;
    var todo := buckets.Keys;
    while todo != {}
      invariant todo <= buckets.Keys
      invariant forall k :: k in c' <==> k in c || (k.0 == a && k.1 !in todo && Get(buckets, k.1) > 0)
      invariant forall k :: Get(c', k) == Get(c, k) + if k.0 == a && k.1 !in todo then Get(buckets, k.1) else 0
      decreases todo
    {
      var o :| o in todo;
      var hits := buckets[o];
      if hits > 0 {
        c' := c'[(a, o) := Get(c', (a, o)) + hits];
      }
      todo := todo - {o};
    }
  }

  /** `for aid, buckets in results.items(): ...`. */
  method AddNonZeroCounts(c: map<(CovId, string), nat>, results: Buckets) returns (c': map<(CovId, string), nat>)
    ensures c' == AddAll(c, NonZeroCounts(results))
  {
    c' := c;
    var todo := results.Keys;
    while todo != {}
      invariant todo <= results.Keys
      invariant forall k :: k in c' <==> k in c || (k.0 in results && k.0 !in todo && Get(results[k.0], k.1) > 0)
      invariant forall k :: Get(c', k) == Get(c, k) + if k.0 in results && k.0 !in todo then Get(results[k.0], k.1) else 0
      decreases todo
    {
      var a :| a in todo;
      c' := AddBuckets(c', a, results[a]);
      todo := todo - {a};
    }
    AddAllCounts(c, NonZeroCounts(results));
    forall k ensures (k in c' <==> k in AddAll(c, NonZeroCounts(results))) && Get(c', k) == Get(AddAll(c, NonZeroCounts(results)), k) {
      NonZeroCountsGet(results, k);
    }
    SameCounts(c', AddAll(c, NonZeroCounts(results)));
  }

  // ---------------------------------------------------------------------------
  // The counting parts of emit_agg_summary, emit_agg_block_summary,
  // emit_expr_summary and emit_agg_assert_summary.
  // ---------------------------------------------------------------------------

  /** The recorded ids with at least one hit. */
  function HitIds(info: map<CovId, Descriptor>, hits: map<CovId, nat>): set<CovId>
  {
    set id | id in info && Get(hits, id) > 0
  }

  /** Statement and block summaries: `total = len(INFO)`, `hit` the recorded ids
      whose count is positive. */
  function CountSummary(info: map<CovId, Descriptor>, hits: map<CovId, nat>): (s: Summary)
    ensures s.total == |info| && s.hit <= s.total
  {
    SubsetCard(HitIds(info, hits), info.Keys);
    Summary(|HitIds(info, hits)|, |info|)
  }

  /** Every recorded id has been hit exactly when the summary is full, and none
      has exactly when it is zero. */
  lemma CountSummaryBounds(info: map<CovId, Descriptor>, hits: map<CovId, nat>)
    ensures var s := CountSummary(info, hits);
      && (s.hit == s.total <==> forall id :: id in info ==> Get(hits, id) > 0)
      && (s.hit == 0 <==> forall id :: id in info ==> Get(hits, id) == 0)
  {
    var h := HitIds(info, hits);
    SubsetCard(h, info.Keys);
    if forall id :: id in info ==> Get(hits, id) > 0 {
      assert h == info.Keys;
    }
    if |h| == |info.Keys| {
      forall id | id in info ensures Get(hits, id) > 0 {
        assert id in h;
      }
    }
    if exists id :: id in info && Get(hits, id) > 0 {
      var id :| id in info && Get(hits, id) > 0;
      assert id in h;
    }
  }

  /** An expression is covered when both its outcomes have been seen. */
  predicate ExprCovered(hits: map<(CovId, string), nat>, id: CovId)
  {
    Get(hits, (id, "T")) > 0 && Get(hits, (id, "F")) > 0
  }

  function CoveredExprs(info: map<CovId, Descriptor>, hits: map<(CovId, string), nat>): set<CovId>
  {
    set id | id in info && ExprCovered(hits, id)
  }

  /** `emit_expr_summary`: `total = len(AGG_EXPR_INFO)`, `hit` the recorded ids
      with both a T and an F hit. */
  function ExprSummary(info: map<CovId, Descriptor>, hits: map<(CovId, string), nat>): (s: Summary)
    ensures s.total == |info| && s.hit <= s.total
  {
    SubsetCard(CoveredExprs(info, hits), info.Keys);
    Summary(|CoveredExprs(info, hits)|, |info|)
  }

  /** The expression summary is full exactly when every recorded id has been
      seen both true and false. */
  lemma ExprSummaryFull(info: map<CovId, Descriptor>, hits: map<(CovId, string), nat>)
    ensures var s := ExprSummary(info, hits);
      s.hit == s.total <==> forall id :: id in info ==> ExprCovered(hits, id)
  {
    var h := CoveredExprs(info, hits);
    SubsetCard(h, info.Keys);
    if forall id :: id in info ==> ExprCovered(hits, id) {
      assert h == info.Keys;
    }
    if |h| == |info.Keys| {
      forall id | id in info ensures ExprCovered(hits, id) {
        assert id in h;
      }
    }
  }

  /** The ids of `emit_agg_assert_summary`: the recorded ones and every id with a
      hit bucket, recorded or not. */
  function NodeIds(info: map<CovId, Descriptor>, hits: map<(CovId, string), nat>): set<CovId>
  {
    info.Keys + set k | k in hits :: k.0
  }

  /** An assertion node was active when any of its three outcomes was seen. */
  predicate Active(hits: map<(CovId, string), nat>, id: CovId)
  {
    Get(hits, (id, "true")) + Get(hits, (id, "false")) + Get(hits, (id, "fail")) > 0
  }

  function ActiveIds(info: map<CovId, Descriptor>, hits: map<(CovId, string), nat>): set<CovId>
  {
    set id | id in NodeIds(info, hits) && Active(hits, id)
  }

  /** `emit_agg_assert_summary`: `total_nodes` over the union of recorded and hit
      ids, `any_activity` the active ones among them. */
  function AssertSummary(info: map<CovId, Descriptor>, hits: map<(CovId, string), nat>): (s: Summary)
    ensures s.total >= |info| && s.hit <= s.total
  {
    SubsetCard(info.Keys, NodeIds(info, hits));
    SubsetCard(ActiveIds(info, hits), NodeIds(info, hits));
    Summary(|ActiveIds(info, hits)|, |NodeIds(info, hits)|)
  }

  /** The assertion summary is full exactly when every known or hit id was
      active. */
  lemma AssertSummaryFull(info: map<CovId, Descriptor>, hits: map<(CovId, string), nat>)
    ensures var s := AssertSummary(info, hits);
      s.hit == s.total <==> forall id :: id in NodeIds(info, hits) ==> Active(hits, id)
  {
    var h, n := ActiveIds(info, hits), NodeIds(info, hits);
    SubsetCard(h, n);
    if forall id :: id in n ==> Active(hits, id) {
      assert h == n;
    }
    if |h| == |n| {
      forall id | id in n ensures Active(hits, id) {
        assert id in h;
      }
    }
  }

  /** With no zero bucket stored, as `merge_assertcov` guarantees, every id that
      has a bucket for one of the three outcomes counts as active. */
  lemma HitNodesActive(info: map<CovId, Descriptor>, hits: map<(CovId, string), nat>, k: (CovId, string))
    requires forall j :: j in hits ==> hits[j] > 0
    requires k in hits && (k.1 == "true" || k.1 == "false" || k.1 == "fail")
    ensures k.0 in ActiveIds(info, hits)
  {
    assert k.0 in NodeIds(info, hits);
  }

  /** `pct = 100.0 if total == 0 else (hit / total) * 100.0`, as the fraction
      `r.0 / r.1` (the floating-point division is not modelled). */
  function Percent(s: Summary): (r: (nat, nat))
    ensures r.1 > 0
    ensures s.total == 0 ==> r.0 == 100 * r.1
    ensures s.total > 0 ==> r.0 * s.total == 100 * s.hit * r.1
    ensures s.hit <= s.total ==> r.0 <= 100 * r.1
    ensures s.hit <= s.total ==> (r.0 == 100 * r.1 <==> s.hit == s.total)
  {
    if s.total == 0 then (100, 1) else (100 * s.hit, s.total)
  }

  /** A merge never lowers a statement or block summary. */
  lemma MergeRaisesSummary(info: map<CovId, Descriptor>, hits: map<CovId, nat>,
                           incoming: map<CovId, Descriptor>, results: map<CovId, nat>)
    ensures var s, s' := CountSummary(info, hits), CountSummary(SetDefaults(info, incoming), AddAll(hits, results));
      s.hit <= s'.hit && s.total <= s'.total
  {
    SetDefaultsKeeps(info, incoming);
    AddAllCounts(hits, results);
    var a, b := HitIds(info, hits), HitIds(SetDefaults(info, incoming), AddAll(hits, results));
    assert a <= b;
    SubsetCard(a, b);
    SubsetCard(info.Keys, SetDefaults(info, incoming).Keys);
  }

  /** A merge never lowers the expression summary. */
  lemma MergeRaisesExprSummary(info: map<CovId, Descriptor>, hits: map<(CovId, string), nat>,
                               incoming: map<CovId, Descriptor>, results: Buckets)
    ensures var s, s' := ExprSummary(info, hits), ExprSummary(SetDefaults(info, incoming), AddAll(hits, TFCounts(results)));
      s.hit <= s'.hit && s.total <= s'.total
  {
    SetDefaultsKeeps(info, incoming);
    AddAllCounts(hits, TFCounts(results));
    var a, b := CoveredExprs(info, hits), CoveredExprs(SetDefaults(info, incoming), AddAll(hits, TFCounts(results)));
    assert a <= b;
    SubsetCard(a, b);
    SubsetCard(info.Keys, SetDefaults(info, incoming).Keys);
  }

  // ---------------------------------------------------------------------------
  // The module-level AGG_* dictionaries and the merge_* functions.
  // ---------------------------------------------------------------------------

  class Aggregate {
    var stmtInfo: map<CovId, Descriptor>
    var stmtHits: map<CovId, nat>
    var blockInfo: map<CovId, Descriptor>
    var blockHits: map<CovId, nat>
    var assertInfo: map<CovId, Descriptor>
    var assertHits: map<(CovId, string), nat>
    var exprInfo: map<CovId, Descriptor>
    var exprHits: map<(CovId, string), nat>

    /** No assertion bucket is ever stored with a zero count. */
    ghost predicate Valid()
      reads this
    {
      forall k :: k in assertHits ==> assertHits[k] > 0
    }

    /** The dictionaries as the module defines them: all empty. */
    constructor ()
      ensures Valid()
      ensures stmtInfo == map[] && stmtHits == map[] && blockInfo == map[] && blockHits == map[]
      ensures assertInfo == map[] && assertHits == map[] && exprInfo == map[] && exprHits == map[]
    {
      stmtInfo, stmtHits, blockInfo, blockHits := map[], map[], map[], map[];
      assertInfo, assertHits, exprInfo, exprHits := map[], map[], map[], map[];
    }

    /** `merge_stmtcov`. */
    method MergeStmtCov(results: map<CovId, nat>, info: map<CovId, Descriptor>)
      requires Valid()
      modifies this`stmtInfo, this`stmtHits
      ensures Valid()
      ensures stmtInfo == SetDefaults(old(stmtInfo), info) && stmtHits == AddAll(old(stmtHits), results)
    {
      stmtInfo := SetDefaultAll(stmtInfo, info);
      stmtHits := AddCounts(stmtHits, results);
    }

    /** `merge_blockcov`. */
    method MergeBlockCov(results: map<CovId, nat>, info: map<CovId, Descriptor>)
      requires Valid()
      modifies this`blockInfo, this`blockHits
      ensures Valid()
      ensures blockInfo == SetDefaults(old(blockInfo), info) && blockHits == AddAll(old(blockHits), results)
    {
      blockInfo := SetDefaultAll(blockInfo, info);
      blockHits := AddCounts(blockHits, results);
    }

    /** `merge_assertcov`: zero buckets are skipped, so no stored count is 0. */
    method MergeAssertCov(results: Buckets, info: map<CovId, Descriptor>)
      requires Valid()
      modifies this`assertInfo, this`assertHits
      ensures Valid()
      ensures assertInfo == SetDefaults(old(assertInfo), info)
      ensures assertHits == AddAll(old(assertHits), NonZeroCounts(results))
    {
      assertInfo := SetDefaultAll(assertInfo, info);
      AddNonZeroPositive(assertHits, results);
      assertHits := AddNonZeroCounts(assertHits, results);
    }

    /** `merge_exprcov`. */
    method MergeExprCov(results: Buckets, info: map<CovId, Descriptor>)
      requires Valid()
      modifies this`exprInfo, this`exprHits
      ensures Valid()
      ensures exprInfo == SetDefaults(old(exprInfo), info) && exprHits == AddAll(old(exprHits), TFCounts(results))
    {
      exprInfo := SetDefaultAll(exprInfo, info);
      exprHits := AddTFCounts(exprHits, results);
    }
  }
}

=== FILE: all_coverage.dfy ===
/** `mk_sim_with_all_cov` (tests/test_utils.py:868-910), for its statement and block
    passes: both taggers run on the elaborated fragment, then the statement
    injector, then the block injector with the table the block tagger recorded.

    The block table is keyed by the identities of the lists the tagger saw, and the
    statement injector puts a new list in place of every domain list
    (`frag.statements[domain] = ...`, tests/test_utils.py:220). So when the block
    injector runs second, as the session does, the table knows no root list any
    more: every root block is counted in the block records and never gets a signal
    (`AsWrittenLosesRoot`). Case lists are rewritten in place and keep their blocks.
    Running the block injector first (`Corrected`) puts the probe of every root
    block at the head of its list (`CorrectedRootProbed`). The assertion and
    expression passes, which the session runs afterwards, are not modelled here.

    List keys stand for `id(list)` and are never reused. CPython can hand the id
    of a freed list to a list built later, so with subfragments the block injector
    as written may also find a stale id and head the wrong list; the model does
    not capture that. */
module CoverageSession {
  import opened Design
  import opened StatementCoverage
  import opened StatementProbes
  import opened BlockCoverage
  import opened BlockProbes

  /** What the two passes leave: the instrumented tree, the statement and block
      signal maps, and the block records (`blockid_to_info`, in tagging order). */
  datatype Session = Session(
    tree: Fragment,
    stmtSignals: map<CovId, string>,
    blockSignals: map<CovId, string>,
    blockInfo: seq<Entry>)

  /** The order the session uses: statement injection, then block injection. */
  function AsWritten(f: Fragment): Session
  {
    var t := TagFragment(f, [], 0).tree;
    var tags := TagBlocks(t, [], 0);
    var s := InsertFragment(t, map[]);
    var b := HeadFragment(s.tree, Table(tags.links), map[]);
    Session(b.tree, s.signals, b.signals, tags.entries)
  }

  /** Block injection first, while the table still names the lists of the design. */
  function Corrected(f: Fragment): Session
  {
    var t := TagFragment(f, [], 0).tree;
    var tags := TagBlocks(t, [], 0);
    var b := HeadFragment(t, Table(tags.links), map[]);
    var s := InsertFragment(b.tree, map[]);
    Session(s.tree, s.signals, b.signals, tags.entries)
  }

  /** The session's statement and block passes, in the order `mk_sim_with_all_cov` runs them. */
  method MkSimWithStatementAndBlockCoverage(f: Fragment) returns (s: Session)
    ensures s == AsWritten(f)
  {
    var t, _, _ := TagAllStatements(f, 0, [], map[]);
    var _, entries, links := TagAllBlocks(t, [], 0);
    var g, stmtSigs := InsertCoverageSignals(t);
    var h, blkSigs := InsertBlockCoverageSignals(g, links);
    s := Session(h, stmtSigs, blkSigs, entries);
  }

  /** The statement injector hands every domain a new list: the key of domain `i`'s
      list afterwards is a copy of the old one, never the old one. */
  lemma {:induction false} InsertDomainsKeys(ds: seq<Domain>, sigs: map<CovId, string>, i: nat)
    requires i < |ds|
    ensures InsertDomains(ds, sigs).tree[i].name == ds[i].name
    ensures InsertDomains(ds, sigs).tree[i].list.key == Copy(ds[i].list.key, StatementFacet)
    ensures InsertDomains(ds, sigs).tree[i].list.key != ds[i].list.key
    decreases i
  {
    var h := InsertList(ds[0].list.stmts, ds[0].name, sigs);
    if i > 0 {
      InsertDomainsKeys(ds[1..], h.signals, i - 1);
    }
  }

  /** A domain list that starts with a probe still starts with it after the
      statement injector. */
  lemma {:induction false} InsertDomainsKeepProbe(ds: seq<Domain>, sigs: map<CovId, string>, i: nat)
    requires i < |ds| && ds[i].list.stmts != [] && ds[i].list.stmts[0].Probe?
    ensures InsertDomains(ds, sigs).tree[i].list.stmts != []
    ensures InsertDomains(ds, sigs).tree[i].list.stmts[0] == ds[i].list.stmts[0]
    decreases i
  {
    var h := InsertList(ds[0].list.stmts, ds[0].name, sigs);
    if i > 0 {
      InsertDomainsKeepProbe(ds[1..], h.signals, i - 1);
    } else {
      var ss := ds[0].list.stmts;
      var p := ss[0];
      assert ss == [Probe(p.signal, p.value)] + ss[1..];
      InsertListProbeHead(p.signal, p.value, ss[1..], ds[0].name, sigs);
    }
  }

  /** One clock domain with an empty list: the block tagger records its root block,
      and the session's order gives that block no signal and no probe. */
  lemma AsWrittenLosesRoot()
    ensures var f := Fragment([Domain("sync", StmtList(Orig(0), []))], []);
      var s := AsWritten(f);
      && |s.blockInfo| == 1 && s.blockInfo[0].id == CovId([], "sync", 0)
      && s.blockSignals == map[]
      && s.tree.domains[0].list.stmts == []
  {
    var f := Fragment([Domain("sync", StmtList(Orig(0), []))], []);
    var t := TagFragment(f, [], 0).tree;
    assert t == f;
    var tags := TagBlocks(t, [], 0);
    assert tags.links == [Link(Orig(0), CovId([], "sync", 0))];
    var s := InsertFragment(t, map[]);
    InsertDomainsKeys(t.domains, map[], 0);
    assert s.tree == Fragment([Domain("sync", StmtList(Copy(Orig(0), StatementFacet), []))], []);
    assert Copy(Orig(0), StatementFacet) !in Table(tags.links);
  }

  /** With the block injector first, the root list of every domain starts with the
      probe of its root block, and that block has its signal, named after it;
      provided no later table pair names the same list. */
  lemma CorrectedRootProbed(f: Fragment, i: nat)
    requires var t := TagFragment(f, [], 0).tree;
      var links := TagBlocks(t, [], 0).links;
      && i < |t.domains|
      && forall j :: i < j < |links| ==> links[j].key != t.domains[i].list.key
    ensures var t := TagFragment(f, [], 0).tree;
      var s := Corrected(f);
      var id := CovId([], t.domains[i].name, i);
      && s.blockInfo[i].id == id
      && id in s.blockSignals && s.blockSignals[id] == BlockSignalName(id)
      && i < |s.tree.domains| && s.tree.domains[i].list.stmts != []
      && s.tree.domains[i].list.stmts[0] == Probe(BlockSignalName(id), Const1)
  {
    var t := TagFragment(f, [], 0).tree;
    var tags := TagBlocks(t, [], 0);
    var table := Table(tags.links);
    var b := HeadFragment(t, table, map[]);
    var id := CovId([], t.domains[i].name, i);
    TagThenHeadRoots(t, i);
    RootInTable(t, i);
    HeadFragmentHeaded(t, table, map[], b.signals);
    assert HeadedDomain(t.domains[i], b.tree.domains[i], table, b.signals);
    InsertDomainsKeepProbe(b.tree.domains, map[], i);
  }

  /** The same one-domain design with the corrected order: its root block has a
      signal and a probe. */
  lemma CorrectedKeepsRoot()
    ensures var f := Fragment([Domain("sync", StmtList(Orig(0), []))], []);
      var s := Corrected(f);
      var id := CovId([], "sync", 0);
      && |s.blockInfo| == 1 && s.blockInfo[0].id == id
      && s.blockSignals == map[id := BlockSignalName(id)]
      && s.tree.domains[0].list.stmts == [Probe(BlockSignalName(id), Const1)]
  {
    var f := Fragment([Domain("sync", StmtList(Orig(0), []))], []);
    var t := TagFragment(f, [], 0).tree;
    assert t == f;
    var tags := TagBlocks(t, [], 0);
    assert tags.links == [Link(Orig(0), CovId([], "sync", 0))];
    CorrectedRootProbed(f, 0);
  }
}

=== FILE: assert_coverage.dfy ===
/** The assertion facet's injector (tests/test_utils.py:545-578). For every
    assert, assume and cover node the tagging pass found, shadow assignments that
    record the outcome of the node's condition are appended to the end of the
    node's domain list, and each shadow signal is remembered with the id and the
    outcome it records. */
module AssertionCoverage {
  import opened Wrappers
  import opened Design
  import opened CoverageNaming

  /** One `found_nodes` entry: the node's id, the fragment holding it (the indices
      of the subfragments that lead to it from the top fragment), the domain it was
      found under, and the node's type and condition. */
  datatype Found = Found(aid: CovId, at: seq<nat>, domain: string, kind: FormalKind, cond: Option<Expr>)

  /** One `coverage_signal_map` entry: a created signal (known by its name) and the
      `(aid, outcome)` it records. */
  datatype SigInfo = SigInfo(signal: string, aid: CovId, outcome: string)

  /** What the injector returns: the instrumented tree and the signal records in
      the order the signals were created. */
  datatype Instrumented = Instrumented(tree: Fragment, signals: seq<SigInfo>)

  /** `_assert_type` of a node. */
  function KindName(k: FormalKind): string
  {
    match k
    case Assert => "assert"
    case Assume => "assume"
    case Cover => "cover"
  }

  /** The outcomes recorded for each type of node. */
  function Outcomes(k: FormalKind): seq<string>
  {
    if k == Cover then ["true"] else ["true", "false", "fail"]
  }

  /** `make_sig`'s name: `_cov_signal_name("cov", *aid, typ, outcome)`. */
  function AssertSignalName(aid: CovId, k: FormalKind, outcome: string): string
  {
    CovSignalName("cov", aid.path, aid.domain, aid.serial, [KindName(k), outcome])
  }

  /** The shadow assignments added for a node with a condition `c`:
      `[true := c != 0, false := ~(c != 0), fail := ~(c != 0)]` for assert and
      assume, `[true := c != 0]` for cover. */
  function Probes(x: Found): seq<Stmt>
    requires x.cond.Some?
  {
    var t := NonZero(x.cond.value);
    if x.kind == Cover then [Probe(AssertSignalName(x.aid, x.kind, "true"), t)]
    else [Probe(AssertSignalName(x.aid, x.kind, "true"), t),
          Probe(AssertSignalName(x.aid, x.kind, "false"), Inverted(t)),
          Probe(AssertSignalName(x.aid, x.kind, "fail"), Inverted(t))]
  }

  /** The signal records made for a node with a condition, in creation order. */
  function Signals(x: Found): seq<SigInfo>
    requires x.cond.Some?
  {
    if x.kind == Cover then [SigInfo(AssertSignalName(x.aid, x.kind, "true"), x.aid, "true")]
    else [SigInfo(AssertSignalName(x.aid, x.kind, "true"), x.aid, "true"),
          SigInfo(AssertSignalName(x.aid, x.kind, "false"), x.aid, "false"),
          SigInfo(AssertSignalName(x.aid, x.kind, "fail"), x.aid, "fail")]
  }

  /** One probe per outcome of the node's type, in the order of `Outcomes`, each
      assigning to the signal recorded for that outcome: the "true" probe copies
      the condition's truth and the others its negation. A record is made exactly
      for each outcome of the node's type, under the node's id and the name built
      from the id, the type and the outcome. */
  lemma ProbesMatchSignals(x: Found)
    requires x.cond.Some?
    ensures |Probes(x)| == |Signals(x)| == |Outcomes(x.kind)|
    ensures forall i :: 0 <= i < |Probes(x)| ==>
      && Probes(x)[i].Probe?
      && Probes(x)[i].signal == Signals(x)[i].signal
      && Signals(x)[i].outcome == Outcomes(x.kind)[i]
      && Probes(x)[i].value == (if i == 0 then NonZero(x.cond.value) else Inverted(NonZero(x.cond.value)))
    ensures forall s :: s in Signals(x) <==>
      s.aid == x.aid && s.outcome in Outcomes(x.kind) && s.signal == AssertSignalName(x.aid, x.kind, s.outcome)
  {
  }

  // ---------------------------------------------------------------------------
  // Reading and replacing one domain list of one fragment of the tree.
  // ---------------------------------------------------------------------------

  /** The position of `domain` among the fragment's domains, or `|ds|` when absent. */
  function DomainIndex(ds: seq<Domain>, domain: string): (i: nat)
    ensures i <= |ds|
    ensures i < |ds| ==> ds[i].name == domain
    ensures forall j :: 0 <= j < i ==> ds[j].name != domain
  {
    if ds == [] then 0
    else if ds[0].name == domain then 0
    else 1 + DomainIndex(ds[1..], domain)
  }

  /** `statements.get(domain, [])`. */
  function ListOf(ds: seq<Domain>, domain: string): seq<Stmt>
  {
    var i := DomainIndex(ds, domain);
    if i < |ds| then ds[i].list.stmts else []
  }

  /** `statements[domain] = list(statements.get(domain, [])) + extra`: a present
      domain keeps its place and gets a new list object; an absent one is added at
      the end. */
  function AppendToDomain(ds: seq<Domain>, domain: string, extra: seq<Stmt>): seq<Domain>
  {
    var i := DomainIndex(ds, domain);
    if i < |ds| then ds[i := Domain(domain, StmtList(Copy(ds[i].list.key, AssertionFacet), ds[i].list.stmts + extra))]
    else ds + [Domain(domain, StmtList(Fresh(AssertionFacet), extra))]
  }

  /** The list of `domain` gains `extra` at its end and every other domain reads
      as before; the domains present keep their names and positions. */
  lemma AppendToDomainEffect(ds: seq<Domain>, domain: string, extra: seq<Stmt>, d: string)
    ensures ListOf(AppendToDomain(ds, domain, extra), d) == ListOf(ds, d) + (if d == domain then extra else [])
    ensures var r := AppendToDomain(ds, domain, extra);
      |ds| <= |r| <= |ds| + 1 && forall j :: 0 <= j < |ds| ==> r[j].name == ds[j].name
  {
    var i := DomainIndex(ds, domain);
    var r := AppendToDomain(ds, domain, extra);
    if i < |ds| {
      DomainIndexUpdate(ds, i, Domain(domain, StmtList(Copy(ds[i].list.key, AssertionFacet), ds[i].list.stmts + extra)), d);
    } else {
      DomainIndexSnoc(ds, Domain(domain, StmtList(Fresh(AssertionFacet), extra)), d);
      if d != domain {
        assert ListOf(ds, d) + [] == ListOf(ds, d);
      }
    }
  }

  lemma {:induction false} DomainIndexUpdate(ds: seq<Domain>, i: nat, nd: Domain, d: string)
    requires i < |ds| && nd.name == ds[i].name
    ensures DomainIndex(ds[i := nd], d) == DomainIndex(ds, d)
    decreases |ds|
  {
    if ds[0].name != d && i > 0 {
      assert ds[i := nd][1..] == ds[1..][i - 1 := nd];
      DomainIndexUpdate(ds[1..], i - 1, nd, d);
    }
  }

  lemma {:induction false} DomainIndexSnoc(ds: seq<Domain>, nd: Domain, d: string)
    requires DomainIndex(ds, nd.name) == |ds|
    ensures ListOf(ds + [nd], d) == if d == nd.name then nd.list.stmts else ListOf(ds, d)
    decreases |ds|
  {
    if ds != [] && ds[0].name != d {
      assert (ds + [nd])[1..] == ds[1..] + [nd];
      DomainIndexSnoc(ds[1..], nd, d);
    }
  }

  /** The statements of `domain` in the fragment reached by `at` (as
      `statements.get(domain, [])` reads them), or `None` when `at` leads to no
      fragment of the tree. */
  function DomainStmts(f: Fragment, at: seq<nat>, domain: string): Option<seq<Stmt>>
    decreases |at|
  {
    if at == [] then Some(ListOf(f.domains, domain))
    else if at[0] < |f.subs| then DomainStmts(f.subs[at[0]].frag, at[1..], domain)
    else None
  }

  /** Appends `extra` to the list of `domain` in the fragment reached by `at`; a
      fragment outside the tree is not part of the design, so nothing changes then. */
  function UpdateAt(f: Fragment, at: seq<nat>, domain: string, extra: seq<Stmt>): (r: Fragment)
    ensures |r.subs| == |f.subs| && forall j :: 0 <= j < |f.subs| ==> r.subs[j].name == f.subs[j].name
    decreases |at|
  {
    if at == [] then Fragment(AppendToDomain(f.domains, domain, extra), f.subs)
    else if at[0] < |f.subs| then
      var s := f.subs[at[0]];
      Fragment(f.domains, f.subs[at[0] := Sub(s.name, UpdateAt(s.frag, at[1..], domain, extra))])
    else f
  }

  /** Only the addressed list changes, and only by gaining `extra` at its end;
      every list of every fragment reads as before otherwise. */
  lemma {:induction false} UpdateAtEffect(f: Fragment, at: seq<nat>, domain: string, extra: seq<Stmt>,
                                          q: seq<nat>, d: string)
    ensures var before := DomainStmts(f, q, d);
      DomainStmts(UpdateAt(f, at, domain, extra), q, d)
        == if before.Some? && q == at && d == domain then Some(before.value + extra) else before
    decreases |at|
  {
    var r := UpdateAt(f, at, domain, extra);
    if at == [] {
      if q == [] {
        AppendToDomainEffect(f.domains, domain, extra, d);
        if d != domain {
          assert ListOf(f.domains, d) + [] == ListOf(f.domains, d);
        }
      }
    } else if at[0] < |f.subs| {
      if q != [] && q[0] == at[0] {
        UpdateAtEffect(f.subs[at[0]].frag, at[1..], domain, extra, q[1..], d);
        assert q == at <==> q[1..] == at[1..];
      }
    }
  }

  // ---------------------------------------------------------------------------
  // The injector.
  // ---------------------------------------------------------------------------

  /** `insert_assert_coverage_signals`: the found nodes are handled in order; a
      node without a condition is skipped, every other one appends its probes to
      the current list of its domain and adds its signal records. */
  function InsertAsserts(f: Fragment, found: seq<Found>): Instrumented
    decreases |found|
  {
    if found == [] then Instrumented(f, [])
    else
      var r := InsertAsserts(f, found[..|found| - 1]);
      var x := found[|found| - 1];
      if x.cond.None? then r
      else Instrumented(UpdateAt(r.tree, x.at, x.domain, Probes(x)), r.signals + Signals(x))
  }

  /** Everything appended to the list of domain `d` of the fragment reached by `q`:
      the probes of the found nodes with a condition that sit there, in order. */
  function Appended(found: seq<Found>, q: seq<nat>, d: string): seq<Stmt>
    decreases |found|
  {
    if found == [] then []
    else
      var x := found[|found| - 1];
      Appended(found[..|found| - 1], q, d) + (if x.cond.Some? && x.at == q && x.domain == d then Probes(x) else [])
  }

  /** Every domain list of every fragment ends up as its old contents, unchanged,
      followed by the probes of the nodes with a condition found in that fragment
      and domain, in the order they were found; fragments outside the tree stay
      outside it. */
  lemma {:induction false} InsertAssertsLists(f: Fragment, found: seq<Found>, q: seq<nat>, d: string)
    ensures var before := DomainStmts(f, q, d);
      DomainStmts(InsertAsserts(f, found).tree, q, d)
        == if before.Some? then Some(before.value + Appended(found, q, d)) else None
    decreases |found|
  {
    var before := DomainStmts(f, q, d);
    if found == [] {
      assert before.Some? ==> before.value + [] == before.value;
    } else {
      var init := found[..|found| - 1];
      var x := found[|found| - 1];
      var r := InsertAsserts(f, init);
      InsertAssertsLists(f, init, q, d);
      var a0 := Appended(init, q, d);
      var extra := if x.cond.Some? && x.at == q && x.domain == d then Probes(x) else [];
      assert Appended(found, q, d) == a0 + extra;
      if x.cond.None? {
        assert InsertAsserts(f, found) == r;
        assert a0 + [] == a0;
      } else {
        assert InsertAsserts(f, found).tree == UpdateAt(r.tree, x.at, x.domain, Probes(x));
        UpdateAtEffect(r.tree, x.at, x.domain, Probes(x), q, d);
        if before.Some? {
          assert before.value + a0 + extra == before.value + (a0 + extra);
          assert extra == [] ==> a0 + extra == a0;
        }
      }
    }
  }

  /** `s` is a record of one of the found nodes that have a condition. */
  ghost predicate MadeFor(s: SigInfo, found: seq<Found>)
  {
    exists j :: 0 <= j < |found| && found[j].cond.Some? && s in Signals(found[j])
  }

  lemma MadeForSnoc(s: SigInfo, init: seq<Found>, x: Found)
    ensures MadeFor(s, init + [x]) <==> MadeFor(s, init) || (x.cond.Some? && s in Signals(x))
  {
    var found := init + [x];
    if MadeFor(s, found) {
      var j :| 0 <= j < |found| && found[j].cond.Some? && s in Signals(found[j]);
      if j < |init| {
        assert init[j] == found[j];
      }
    }
    if MadeFor(s, init) {
      var j :| 0 <= j < |init| && init[j].cond.Some? && s in Signals(init[j]);
      assert found[j] == init[j];
    }
    if x.cond.Some? && s in Signals(x) {
      assert found[|init|] == x;
    }
  }

  /** A signal is recorded exactly for each outcome of each found node that has a
      condition, under the node's id and the name built from it. */
  lemma {:induction false} InsertAssertsSignals(f: Fragment, found: seq<Found>)
    ensures forall s :: s in InsertAsserts(f, found).signals <==> MadeFor(s, found)
    decreases |found|
  {
    if found != [] {
      var init := found[..|found| - 1];
      var x := found[|found| - 1];
      assert found == init + [x];
      InsertAssertsSignals(f, init);
      forall s
        ensures s in InsertAsserts(f, found).signals <==> MadeFor(s, found)
      {
        MadeForSnoc(s, init, x);
      }
    }
  }

  /** Every probe appended anywhere assigns a signal that the map records. */
  lemma {:induction false} AppendedSignalsRecorded(f: Fragment, found: seq<Found>, q: seq<nat>, d: string)
    ensures forall p :: p in Appended(found, q, d) ==>
      p.Probe? && exists s :: s in InsertAsserts(f, found).signals && s.signal == p.signal
    decreases |found|
  {
    if found != [] {
      var init := found[..|found| - 1];
      var x := found[|found| - 1];
      AppendedSignalsRecorded(f, init, q, d);
      var sigs := InsertAsserts(f, found).signals;
      forall p | p in Appended(found, q, d)
        ensures p.Probe? && exists s :: s in sigs && s.signal == p.signal
      {
        if p in Appended(init, q, d) {
          var s :| s in InsertAsserts(f, init).signals && s.signal == p.signal;
          assert s in sigs;
        } else {
          assert x.cond.Some? && p in Probes(x);
          ProbesMatchSignals(x);
          var i :| 0 <= i < |Probes(x)| && Probes(x)[i] == p;
          assert Signals(x)[i] in sigs;
        }
      }
    }
  }

  /** A node without a condition changes neither the tree nor the signal map. */
  lemma SkipsNoCondition(f: Fragment, found: seq<Found>, x: Found)
    requires x.cond.None?
    ensures InsertAsserts(f, found + [x]) == InsertAsserts(f, found)
  {
    assert (found + [x])[..|found|] == found;
  }

  /** The injector as written: one pass over the found nodes that
      replaces the node's domain list by a copy with the probes appended and
      creates one signal per probe. */
  method InsertAssertCoverageSignals(f: Fragment, found: seq<Found>) returns (g: Fragment, signals: seq<SigInfo>)
    ensures Instrumented(g, signals) == InsertAsserts(f, found)
  {
    g, signals := f, [];
    for i := 0 to |found|
      invariant Instrumented(g, signals) == InsertAsserts(f, found[..i])
    {
      var x := found[i];
      assert found[..i + 1][..i] == found[..i];
      if x.cond.Some? {
        var t := NonZero(x.cond.value);
        var extra: seq<Stmt>;
        if x.kind == Assert || x.kind == Assume {
          var sTrue := AssertSignalName(x.aid, x.kind, "true");
          var sFalse := AssertSignalName(x.aid, x.kind, "false");
          var sFail := AssertSignalName(x.aid, x.kind, "fail");
          signals := signals + [SigInfo(sTrue, x.aid, "true"), SigInfo(sFalse, x.aid, "false"), SigInfo(sFail, x.aid, "fail")];
          extra := [Probe(sTrue, t), Probe(sFalse, Inverted(t)), Probe(sFail, Inverted(t))];
        } else {
          var sTrue := AssertSignalName(x.aid, x.kind, "true");
          signals := signals + [SigInfo(sTrue, x.aid, "true")];
          extra := [Probe(sTrue, t)];
        }
        g := UpdateAt(g, x.at, x.domain, extra);
      }
    }
    assert found[..|found|] == found;
  }
}

=== FILE: block_coverage.dfy ===
/** Block coverage (tests/test_utils.py:266-371): one block per domain's root
    statement list and one per case of every Switch that sits directly in a domain
    list, and a `blk := 1` probe at the head of each block's list. */
module BlockCoverage {
  import opened Wrappers
  import opened Text
  import opened Design
  import opened CoverageNaming
  import opened StatementCoverage

  /** `get_block_name(domain, parent_path, tag, src_loc)`. */
  function BlockName(domain: string, path: Path, tag: string, loc: Option<Loc>): string
  {
    ShortLoc(loc) + " | " + SafePathStr(path) + " | " + domain + ":block(" + tag + ")"
  }

  /** The location of a list's first statement; `None` for an empty list. */
  function FirstLoc(ss: seq<Stmt>): Option<Loc>
  {
    if ss == [] then None else LocOf(ss[0])
  }

  /** What a block's descriptor calls it: "root", or "case:" and the case's patterns. */
  datatype Tag = RootTag | CaseTag(patterns: Option<seq<string>>)

  function TagText(t: Tag): string
  {
    match t
    case RootTag => "root"
    case CaseTag(patterns) => "case:" + PatternsText(patterns)
  }

  /** A statement list that forms a block, with what its descriptor shows. */
  datatype Site = Site(key: ListKey, domain: string, tag: Tag, loc: Option<Loc>)

  /** One `(id(list), blk_id)` pair of a `_block_cov_ids` table. */
  datatype Link = Link(key: ListKey, id: CovId)

  /** What the block tagger returns: the next serial, the records in order, and the
      `_block_cov_ids` pairs in the order they were appended. */
  datatype BlockTags = BlockTags(next: nat, entries: seq<Entry>, links: seq<Link>)

  // ---------------------------------------------------------------------------
  // tag_all_blocks
  // ---------------------------------------------------------------------------

  /** The root block of every domain, in dictionary order. */
  function RootSites(ds: seq<Domain>): (r: seq<Site>)
    ensures |r| == |ds|
  {
    seq(|ds|, i requires 0 <= i < |ds| => Site(ds[i].list.key, ds[i].name, RootTag, FirstLoc(ds[i].list.stmts)))
  }

  /** One block per case of a Switch, in case order. */
  function CaseSites(cs: seq<Case>, domain: string): (r: seq<Site>)
    ensures |r| == |cs|
  {
    seq(|cs|, j requires 0 <= j < |cs| =>
      Site(cs[j].body.key, domain, CaseTag(cs[j].patterns), cs[j].loc))
  }

  /** The case blocks of the Switches sitting directly in a list; case bodies are
      not searched. */
  function SwitchSites(ss: seq<Stmt>, domain: string): seq<Site>
    decreases ss
  {
    if ss == [] then []
    else (if ss[0].Switch? then CaseSites(ss[0].cases, domain) else []) + SwitchSites(ss[1..], domain)
  }

  function DomainSwitchSites(ds: seq<Domain>): seq<Site>
    decreases ds
  {
    if ds == [] then [] else SwitchSites(ds[0].list.stmts, ds[0].name) + DomainSwitchSites(ds[1..])
  }

  /** The blocks of one fragment in the order they are numbered: all roots first,
      then the cases, domain by domain. */
  function Sites(f: Fragment): seq<Site>
  {
    RootSites(f.domains) + DomainSwitchSites(f.domains)
  }

  function SiteId(s: Site, path: Path, serial: nat): CovId
  {
    CovId(path, s.domain, serial)
  }

  function Number(sites: seq<Site>, path: Path, n: nat): (r: BlockTags)
    ensures r.next == n + |sites| && |r.entries| == |sites| && |r.links| == |sites|
  {
    BlockTags(n + |sites|,
      seq(|sites|, i requires 0 <= i < |sites| =>
        Entry(SiteId(sites[i], path, n + i),
              Descriptor(BlockName(sites[i].domain, path, TagText(sites[i].tag), sites[i].loc), "block"))),
      seq(|sites|, i requires 0 <= i < |sites| => Link(sites[i].key, SiteId(sites[i], path, n + i))))
  }

  /** `tag_all_blocks(fragment, coverage_id, parent_path)`: the fragment's own blocks,
      then every subfragment's under `parent_path + (name,)`. */
  function TagBlocks(f: Fragment, path: Path, n: nat): (r: BlockTags)
    ensures r.next == n + |r.entries| && |r.links| == |r.entries|
    decreases f
  {
    var own := Number(Sites(f), path, n);
    var rest := TagBlocksSubs(f.subs, path, own.next);
    BlockTags(rest.next, own.entries + rest.entries, own.links + rest.links)
  }

  function TagBlocksSubs(subs: seq<Sub>, path: Path, n: nat): (r: BlockTags)
    ensures r.next == n + |r.entries| && |r.links| == |r.entries|
    decreases subs
  {
    if subs == [] then BlockTags(n, [], [])
    else
      var h := TagBlocksSub(subs[0], path, n);
      var t := TagBlocksSubs(subs[1..], path, h.next);
      BlockTags(t.next, h.entries + t.entries, h.links + t.links)
  }

  function TagBlocksSub(s: Sub, path: Path, n: nat): (r: BlockTags)
    ensures r.next == n + |r.entries| && |r.links| == |r.entries|
    decreases s
  {
    TagBlocks(s.frag, path + [s.name], n)
  }

  /** Each table pair names the list of the record at the same position. */
  ghost predicate Aligned(t: BlockTags)
  {
    |t.links| == |t.entries| && forall i :: 0 <= i < |t.links| ==> t.links[i].id == t.entries[i].id
  }

  /** The record and the table pair of the `i`-th site. */
  lemma NumberAt(sites: seq<Site>, path: Path, n: nat, i: nat)
    requires i < |sites|
    ensures var r := Number(sites, path, n);
      && r.entries[i] == Entry(CovId(path, sites[i].domain, n + i),
                               Descriptor(BlockName(sites[i].domain, path, TagText(sites[i].tag), sites[i].loc), "block"))
      && r.links[i] == Link(sites[i].key, CovId(path, sites[i].domain, n + i))
  {
  }

  lemma NumberNumbered(sites: seq<Site>, path: Path, n: nat)
    ensures var r := Number(sites, path, n); Numbered(r.entries, n) && AllUnder(r.entries, path) && Aligned(r)
  {
    var r := Number(sites, path, n);
    forall i | 0 <= i < |sites|
      ensures r.entries[i].id == CovId(path, sites[i].domain, n + i) && r.links[i].id == r.entries[i].id
    {
      NumberAt(sites, path, n, i);
    }
  }

  /** Block serials are consecutive from the counter's value, every record lies
      under the fragment's path, and each table pair carries its record's id. */
  lemma {:induction false} TagBlocksNumbered(f: Fragment, path: Path, n: nat)
    ensures var r := TagBlocks(f, path, n); Numbered(r.entries, n) && AllUnder(r.entries, path) && Aligned(r)
    decreases f
  {
    var own := Number(Sites(f), path, n);
    var rest := TagBlocksSubs(f.subs, path, own.next);
    NumberNumbered(Sites(f), path, n);
    TagBlocksSubsNumbered(f.subs, path, own.next);
    NumberedAppend(own.entries, rest.entries, n);
    AlignedAppend(own, rest);
  }

  lemma AlignedAppend(a: BlockTags, b: BlockTags)
    requires Aligned(a) && Aligned(b)
    ensures Aligned(BlockTags(b.next, a.entries + b.entries, a.links + b.links))
  {
    var links := a.links + b.links;
    var entries := a.entries + b.entries;
    forall i | 0 <= i < |links| ensures links[i].id == entries[i].id {
      if i >= |a.links| { assert links[i] == b.links[i - |a.links|] && entries[i] == b.entries[i - |a.links|]; }
    }
  }

  lemma UnderAppend(a: seq<Entry>, b: seq<Entry>, path: Path)
    requires AllUnder(a, path) && AllUnder(b, path)
    ensures AllUnder(a + b, path)
  {
    forall i | 0 <= i < |a + b| ensures path <= (a + b)[i].id.path {
      if i >= |a| { assert (a + b)[i] == b[i - |a|]; }
    }
  }

  lemma {:induction false} TagBlocksSubsNumbered(subs: seq<Sub>, path: Path, n: nat)
    ensures var r := TagBlocksSubs(subs, path, n); Numbered(r.entries, n) && AllUnder(r.entries, path) && Aligned(r)
    decreases subs
  {
    if subs != [] {
      var h := TagBlocksSub(subs[0], path, n);
      var t := TagBlocksSubs(subs[1..], path, h.next);
      TagBlocksSubNumbered(subs[0], path, n);
      TagBlocksSubsNumbered(subs[1..], path, h.next);
      NumberedAppend(h.entries, t.entries, n);
      UnderAppend(h.entries, t.entries, path);
      AlignedAppend(h, t);
    }
  }

  lemma {:induction false} TagBlocksSubNumbered(s: Sub, path: Path, n: nat)
    ensures var r := TagBlocksSub(s, path, n); Numbered(r.entries, n) && AllUnder(r.entries, path) && Aligned(r)
    decreases s
  {
    TagBlocksNumbered(s.frag, path + [s.name], n);
    var r := TagBlocks(s.frag, path + [s.name], n);
    forall i | 0 <= i < |r.entries| ensures path <= r.entries[i].id.path {
      assert path <= path + [s.name] <= r.entries[i].id.path;
    }
  }

  /** The first records are the roots: domain `i` takes serial `n + i`, its block is
      its own list, and an empty list's location shows as "unknown". */
  lemma TagBlocksRoots(f: Fragment, path: Path, n: nat)
    ensures var r := TagBlocks(f, path, n);
      forall i :: 0 <= i < |f.domains| ==>
        var d := f.domains[i];
        && r.entries[i] == Entry(CovId(path, d.name, n + i),
                                 Descriptor(BlockName(d.name, path, "root", FirstLoc(d.list.stmts)), "block"))
        && r.links[i] == Link(d.list.key, CovId(path, d.name, n + i))
        && (d.list.stmts == [] ==> "unknown | " <= r.entries[i].desc.name)
  {
    forall i | 0 <= i < |f.domains| {
      TagBlocksRootAt(f, path, n, i);
    }
  }

  /** The record and the table pair of domain `i`'s root block. */
  lemma TagBlocksRootAt(f: Fragment, path: Path, n: nat, i: nat)
    requires i < |f.domains|
    ensures var r := TagBlocks(f, path, n);
      var d := f.domains[i];
      && r.entries[i] == Entry(CovId(path, d.name, n + i),
                               Descriptor(BlockName(d.name, path, "root", FirstLoc(d.list.stmts)), "block"))
      && r.links[i] == Link(d.list.key, CovId(path, d.name, n + i))
      && (d.list.stmts == [] ==> "unknown | " <= r.entries[i].desc.name)
  {
    var d := f.domains[i];
    RootSiteAt(f, i);
    TagBlocksOwn(f, path, n, i);
    NumberAt(Sites(f), path, n, i);
    if d.list.stmts == [] {
      UnknownBlockName(d.name, path, "root");
    }
  }

  /** The first sites of a fragment are its domains' root lists. */
  lemma RootSiteAt(f: Fragment, i: nat)
    requires i < |f.domains|
    ensures i < |Sites(f)|
    ensures Sites(f)[i] == Site(f.domains[i].list.key, f.domains[i].name, RootTag, FirstLoc(f.domains[i].list.stmts))
  {
    assert Sites(f)[i] == RootSites(f.domains)[i];
  }

  /** The fragment's own records and pairs come first. */
  lemma TagBlocksOwn(f: Fragment, path: Path, n: nat, i: nat)
    requires i < |Sites(f)|
    ensures TagBlocks(f, path, n).entries[i] == Number(Sites(f), path, n).entries[i]
    ensures TagBlocks(f, path, n).links[i] == Number(Sites(f), path, n).links[i]
  {
  }

  /** A block without a location is named from "unknown". */
  lemma UnknownBlockName(domain: string, path: Path, tag: string)
    ensures "unknown | " <= BlockName(domain, path, tag, None)
  {
    assert ShortLoc(None) == "unknown";
  }

  /** Number of cases of the Switches among the first `k` statements of a list. */
  function CasesBefore(ss: seq<Stmt>, k: nat): nat
    requires k <= |ss|
    decreases k
  {
    if k == 0 then 0 else (if ss[0].Switch? then |ss[0].cases| else 0) + CasesBefore(ss[1..], k - 1)
  }

  /** Case `j` of the `k`-th top-level statement sits at its running offset among the case blocks. */
  ghost predicate CaseSiteAt(ss: seq<Stmt>, domain: string, k: nat, j: nat)
    requires k < |ss| && ss[k].Switch? && j < |ss[k].cases|
  {
    CasesBefore(ss, k) + j < |SwitchSites(ss, domain)|
    && SwitchSites(ss, domain)[CasesBefore(ss, k) + j] == CaseSites(ss[k].cases, domain)[j]
  }

  /** The case blocks of a list are exactly the cases of its top-level Switches: one
      per case, in statement and case order, each the case's own body list. */
  lemma SwitchSitesPlacement(ss: seq<Stmt>, domain: string)
    ensures |SwitchSites(ss, domain)| == CasesBefore(ss, |ss|)
    ensures forall k: nat, j: nat :: k < |ss| && ss[k].Switch? && j < |ss[k].cases| ==>
      CaseSiteAt(ss, domain, k, j)
  {
    SwitchSitesCount(ss, domain);
    forall k: nat, j: nat | k < |ss| && ss[k].Switch? && j < |ss[k].cases|
      ensures CaseSiteAt(ss, domain, k, j)
    {
      SwitchSiteAt(ss, domain, k, j);
    }
  }

  lemma {:induction false} SwitchSitesCount(ss: seq<Stmt>, domain: string)
    ensures |SwitchSites(ss, domain)| == CasesBefore(ss, |ss|)
    decreases ss
  {
    if ss != [] {
      SwitchSitesCount(ss[1..], domain);
    }
  }

  lemma {:induction false} SwitchSiteAt(ss: seq<Stmt>, domain: string, k: nat, j: nat)
    requires k < |ss| && ss[k].Switch? && j < |ss[k].cases|
    ensures CasesBefore(ss, k) + j < |SwitchSites(ss, domain)|
    ensures SwitchSites(ss, domain)[CasesBefore(ss, k) + j] == CaseSites(ss[k].cases, domain)[j]
    decreases k
  {
    var own := if ss[0].Switch? then CaseSites(ss[0].cases, domain) else [];
    var rest := SwitchSites(ss[1..], domain);
    assert SwitchSites(ss, domain) == own + rest;
    if k > 0 {
      assert ss[1..][k - 1] == ss[k];
      SwitchSiteAt(ss[1..], domain, k - 1, j);
    } else {
      SwitchSitesCount(ss[1..], domain);
    }
  }

  // ---------------------------------------------------------------------------
  // The tagger as written: a counter and two tables grown in loops.
  // ---------------------------------------------------------------------------

  /** Numbering one more site appends its record and its table pair. */
  lemma NumberSnoc(sites: seq<Site>, s: Site, path: Path, n: nat, t: BlockTags)
    requires t == Number(sites, path, n)
    ensures var id := CovId(path, s.domain, t.next);
      Number(sites + [s], path, n)
        == BlockTags(t.next + 1,
                     t.entries + [Entry(id, Descriptor(BlockName(s.domain, path, TagText(s.tag), s.loc), "block"))],
                     t.links + [Link(s.key, id)])
  {
    NumberSnocEntries(sites, s, path, n);
    NumberSnocLinks(sites, s, path, n);
  }

  lemma NumberSnocEntries(sites: seq<Site>, s: Site, path: Path, n: nat)
    ensures Number(sites + [s], path, n).entries
      == Number(sites, path, n).entries
         + [Entry(CovId(path, s.domain, n + |sites|), Descriptor(BlockName(s.domain, path, TagText(s.tag), s.loc), "block"))]
  {
    var u := Number(sites + [s], path, n).entries;
    var t := Number(sites, path, n).entries;
    assert |u| == |t| + 1;
    forall i | 0 <= i < |sites|
      ensures u[i] == t[i]
    {
      NumberAt(sites + [s], path, n, i);
      NumberAt(sites, path, n, i);
      assert (sites + [s])[i] == sites[i];
    }
    assert u[|sites|] == Entry(CovId(path, s.domain, n + |sites|), Descriptor(BlockName(s.domain, path, TagText(s.tag), s.loc), "block")) by {
      NumberAt(sites + [s], path, n, |sites|);
      assert (sites + [s])[|sites|] == s;
    }
    SnocFromElements(t, u);
  }

  lemma NumberSnocLinks(sites: seq<Site>, s: Site, path: Path, n: nat)
    ensures Number(sites + [s], path, n).links
      == Number(sites, path, n).links + [Link(s.key, CovId(path, s.domain, n + |sites|))]
  {
    var u := Number(sites + [s], path, n).links;
    var t := Number(sites, path, n).links;
    assert |u| == |t| + 1;
    forall i | 0 <= i < |sites|
      ensures u[i] == t[i]
    {
      NumberAt(sites + [s], path, n, i);
      NumberAt(sites, path, n, i);
      assert (sites + [s])[i] == sites[i];
    }
    assert u[|sites|] == Link(s.key, CovId(path, s.domain, n + |sites|)) by {
      NumberAt(sites + [s], path, n, |sites|);
      assert (sites + [s])[|sites|] == s;
    }
    SnocFromElements(t, u);
  }

  lemma SnocFromElements<T>(a: seq<T>, b: seq<T>)
    requires |b| == |a| + 1 && forall i :: 0 <= i < |a| ==> b[i] == a[i]
    ensures b == a + [b[|a|]]
  {
  }

  /** One more case block: its site ends the sites numbered so far, and its record
      and pair are the ones the loop appends. */
  lemma NumberCaseStep(cs: seq<Case>, j: nat, domain: string, path: Path, n: nat, sites: seq<Site>, done: seq<Site>, t: BlockTags)
    requires j < |cs| && done == sites + CaseSites(cs[..j], domain) && t == Number(done, path, n)
    ensures var c := cs[j];
      var site := Site(c.body.key, domain, CaseTag(c.patterns), c.loc);
      var id := CovId(path, domain, t.next);
      var patStr := if c.patterns.None? then "default" else PatternsText(c.patterns);
      && done + [site] == sites + CaseSites(cs[..j + 1], domain)
      && Number(done + [site], path, n)
           == BlockTags(t.next + 1,
                        t.entries + [Entry(id, Descriptor(BlockName(domain, path, "case:" + patStr, c.loc), "block"))],
                        t.links + [Link(c.body.key, id)])
  {
    var c := cs[j];
    var site := Site(c.body.key, domain, CaseTag(c.patterns), c.loc);
    NumberSnoc(done, site, path, n, t);
    CaseSitesSnoc(cs, j, domain);
    assert CaseSites(cs, domain)[j] == site;
  }

  lemma RootSitesSnoc(ds: seq<Domain>, i: nat)
    requires i < |ds|
    ensures RootSites(ds[..i + 1]) == RootSites(ds[..i]) + [RootSites(ds)[i]]
  {
  }

  lemma CaseSitesSnoc(cs: seq<Case>, j: nat, domain: string)
    requires j < |cs|
    ensures CaseSites(cs[..j + 1], domain) == CaseSites(cs[..j], domain) + [CaseSites(cs, domain)[j]]
  {
  }

  lemma {:induction false} SwitchSitesAppend(a: seq<Stmt>, b: seq<Stmt>, domain: string)
    ensures SwitchSites(a + b, domain) == SwitchSites(a, domain) + SwitchSites(b, domain)
    decreases a
  {
    if a == [] {
      assert a + b == b;
    } else {
      assert (a + b)[1..] == a[1..] + b;
      SwitchSitesAppend(a[1..], b, domain);
    }
  }

  lemma {:induction false} DomainSwitchSitesAppend(a: seq<Domain>, b: seq<Domain>)
    ensures DomainSwitchSites(a + b) == DomainSwitchSites(a) + DomainSwitchSites(b)
    decreases a
  {
    if a == [] {
      assert a + b == b;
    } else {
      assert (a + b)[1..] == a[1..] + b;
      DomainSwitchSitesAppend(a[1..], b);
    }
  }

  lemma TagBlocksSubsUnfold(subs: seq<Sub>, i: nat, path: Path, n: nat)
    requires i < |subs|
    ensures var h := TagBlocks(subs[i].frag, path + [subs[i].name], n);
      var t := TagBlocksSubs(subs[i + 1..], path, h.next);
      TagBlocksSubs(subs[i..], path, n) == BlockTags(t.next, h.entries + t.entries, h.links + t.links)
  {
    assert subs[i..][1..] == subs[i + 1..];
  }

  /** The loop invariant of `TagAllBlocks` carried over one subfragment. */
  lemma TagBlocksSubsStep(subs: seq<Sub>, i: nat, path: Path, next: nat, own: BlockTags, whole: BlockTags,
                          entries: seq<Entry>, links: seq<Link>)
    requires i < |subs|
    requires whole.next == TagBlocksSubs(subs[i..], path, next).next
    requires own.entries + whole.entries == entries + TagBlocksSubs(subs[i..], path, next).entries
    requires own.links + whole.links == links + TagBlocksSubs(subs[i..], path, next).links
    ensures var h := TagBlocks(subs[i].frag, path + [subs[i].name], next);
      var t := TagBlocksSubs(subs[i + 1..], path, h.next);
      && whole.next == t.next
      && own.entries + whole.entries == (entries + h.entries) + t.entries
      && own.links + whole.links == (links + h.links) + t.links
  {
    TagBlocksSubsUnfold(subs, i, path, next);
    var h := TagBlocks(subs[i].frag, path + [subs[i].name], next);
    var t := TagBlocksSubs(subs[i + 1..], path, h.next);
    assert entries + (h.entries + t.entries) == (entries + h.entries) + t.entries;
    assert links + (h.links + t.links) == (links + h.links) + t.links;
  }

  /** `tag_all_blocks(fragment, coverage_id, parent_path)`: numbers the root list of
      every domain, then the case lists of the Switches directly in those lists,
      then recurses into the subfragments; returns the next serial, the records and
      the `_block_cov_ids` pairs. */
  method TagAllBlocks(f: Fragment, path: Path, n: nat) returns (next: nat, entries: seq<Entry>, links: seq<Link>)
    ensures BlockTags(next, entries, links) == TagBlocks(f, path, n)
    decreases f
  {
    next, entries, links := NumberRoots(f.domains, path, n, [], n, [], []);
    assert [] + RootSites(f.domains) == RootSites(f.domains);
    next, entries, links := NumberCaseLists(f.domains, path, n, RootSites(f.domains), next, entries, links);
    ghost var own := BlockTags(next, entries, links);
    ghost var whole := TagBlocksSubs(f.subs, path, next);
    var subs := f.subs;
    var i := 0;
    assert subs[0..] == subs;
    while i < |subs|
      invariant 0 <= i <= |subs|
      invariant whole.next == TagBlocksSubs(subs[i..], path, next).next
      invariant own.entries + whole.entries == entries + TagBlocksSubs(subs[i..], path, next).entries
      invariant own.links + whole.links == links + TagBlocksSubs(subs[i..], path, next).links
    {
      TagBlocksSubsStep(subs, i, path, next, own, whole, entries, links);
      var es, ls;
      next, es, ls := TagAllBlocks(subs[i].frag, path + [subs[i].name], next);
      entries := entries + es;
      links := links + ls;
      i := i + 1;
    }
    assert subs[|subs|..] == [];
    assert entries + [] == entries && links + [] == links;
  }

  /** The first loop of the tagger: one root block per domain, in dictionary order;
      the location is the first statement's, or none for an empty list. */
  method NumberRoots(ds: seq<Domain>, path: Path, n: nat, ghost sites: seq<Site>, next0: nat, entries0: seq<Entry>, links0: seq<Link>)
    returns (next: nat, entries: seq<Entry>, links: seq<Link>)
    requires BlockTags(next0, entries0, links0) == Number(sites, path, n)
    ensures BlockTags(next, entries, links) == Number(sites + RootSites(ds), path, n)
  {
    next, entries, links := next0, entries0, links0;
    ghost var done := sites;
    var i := 0;
    assert sites + RootSites(ds[..0]) == sites;
    while i < |ds|
      invariant 0 <= i <= |ds|
      invariant done == sites + RootSites(ds[..i])
      invariant BlockTags(next, entries, links) == Number(done, path, n)
    {
      var d := ds[i];
      var firstSrc := if d.list.stmts != [] then LocOf(d.list.stmts[0]) else None;
      var id := CovId(path, d.name, next);
      ghost var site := Site(d.list.key, d.name, RootTag, FirstLoc(d.list.stmts));
      NumberSnoc(done, site, path, n, BlockTags(next, entries, links));
      RootSitesSnoc(ds, i);
      entries := entries + [Entry(id, Descriptor(BlockName(d.name, path, "root", firstSrc), "block"))];
      links := links + [Link(d.list.key, id)];
      done := done + [site];
      next := next + 1;
      i := i + 1;
    }
    assert ds[..|ds|] == ds;
  }

  /** The second loop of the tagger: for each domain, the case blocks of the
      Switches directly in its list. */
  method NumberCaseLists(ds: seq<Domain>, path: Path, n: nat, ghost sites: seq<Site>, next0: nat, entries0: seq<Entry>, links0: seq<Link>)
    returns (next: nat, entries: seq<Entry>, links: seq<Link>)
    requires BlockTags(next0, entries0, links0) == Number(sites, path, n)
    ensures BlockTags(next, entries, links) == Number(sites + DomainSwitchSites(ds), path, n)
  {
    next, entries, links := next0, entries0, links0;
    ghost var done := sites;
    var i := 0;
    assert sites + DomainSwitchSites(ds[..0]) == sites;
    while i < |ds|
      invariant 0 <= i <= |ds|
      invariant done == sites + DomainSwitchSites(ds[..i])
      invariant BlockTags(next, entries, links) == Number(done, path, n)
    {
      DomainSwitchSitesSnoc(ds, i);
      next, entries, links := NumberSwitches(ds[i].list.stmts, ds[i].name, path, n, done, next, entries, links);
      done := done + SwitchSites(ds[i].list.stmts, ds[i].name);
      i := i + 1;
    }
    assert ds[..|ds|] == ds;
  }

  lemma DomainSwitchSitesSnoc(ds: seq<Domain>, i: nat)
    requires i < |ds|
    ensures DomainSwitchSites(ds[..i + 1]) == DomainSwitchSites(ds[..i]) + SwitchSites(ds[i].list.stmts, ds[i].name)
  {
    assert DomainSwitchSites([ds[i]]) == SwitchSites(ds[i].list.stmts, ds[i].name);
    assert ds[..i + 1] == ds[..i] + [ds[i]];
    DomainSwitchSitesAppend(ds[..i], [ds[i]]);
  }

  lemma SwitchSitesSnoc(ss: seq<Stmt>, k: nat, domain: string)
    requires k < |ss|
    ensures SwitchSites(ss[..k + 1], domain)
      == SwitchSites(ss[..k], domain) + (if ss[k].Switch? then CaseSites(ss[k].cases, domain) else [])
  {
    assert SwitchSites([ss[k]], domain) == (if ss[k].Switch? then CaseSites(ss[k].cases, domain) else []);
    assert ss[..k + 1] == ss[..k] + [ss[k]];
    SwitchSitesAppend(ss[..k], [ss[k]], domain);
  }

  /** The statements of one domain list, in order: each Switch's cases are numbered. */
  method NumberSwitches(stmts: seq<Stmt>, domain: string, path: Path, n: nat, ghost sites: seq<Site>, next0: nat, entries0: seq<Entry>, links0: seq<Link>)
    returns (next: nat, entries: seq<Entry>, links: seq<Link>)
    requires BlockTags(next0, entries0, links0) == Number(sites, path, n)
    ensures BlockTags(next, entries, links) == Number(sites + SwitchSites(stmts, domain), path, n)
  {
    next, entries, links := next0, entries0, links0;
    ghost var done := sites;
    var k := 0;
    assert sites + SwitchSites(stmts[..0], domain) == sites;
    while k < |stmts|
      invariant 0 <= k <= |stmts|
      invariant done == sites + SwitchSites(stmts[..k], domain)
      invariant BlockTags(next, entries, links) == Number(done, path, n)
    {
      SwitchSitesSnoc(stmts, k, domain);
      var stmt := stmts[k];
      if stmt.Switch? {
        next, entries, links := NumberCases(stmt.cases, domain, path, n, done, next, entries, links);
        done := done + CaseSites(stmt.cases, domain);
      } else {
        assert done + [] == done;
      }
      k := k + 1;
    }
    assert stmts[..|stmts|] == stmts;
  }

  /** The innermost loop of the tagger: one block per case of one Switch, tagged
      "case:" and the patterns ("default" for the default case). */
  method NumberCases(cs: seq<Case>, domain: string, path: Path, n: nat, ghost sites: seq<Site>, next0: nat, entries0: seq<Entry>, links0: seq<Link>)
    returns (next: nat, entries: seq<Entry>, links: seq<Link>)
    requires BlockTags(next0, entries0, links0) == Number(sites, path, n)
    ensures BlockTags(next, entries, links) == Number(sites + CaseSites(cs, domain), path, n)
  {
    next, entries, links := next0, entries0, links0;
    ghost var done := sites;
    var j := 0;
    assert sites + CaseSites(cs[..0], domain) == sites;
    while j < |cs|
      invariant 0 <= j <= |cs|
      invariant done == sites + CaseSites(cs[..j], domain)
      invariant BlockTags(next, entries, links) == Number(done, path, n)
    {
      var c := cs[j];
      var id := CovId(path, domain, next);
      var patStr := if c.patterns.None? then "default" else PatternsText(c.patterns);
      var name := BlockName(domain, path, "case:" + patStr, c.loc);
      ghost var site := Site(c.body.key, domain, CaseTag(c.patterns), c.loc);
      NumberCaseStep(cs, j, domain, path, n, sites, done, BlockTags(next, entries, links));
      entries := entries + [Entry(id, Descriptor(name, "block"))];
      links := links + [Link(c.body.key, id)];
      done := done + [site];
      next := next + 1;
      j := j + 1;
    }
    assert cs[..|cs|] == cs;
  }
}

=== FILE: block_probes.dfy ===
/** The block-coverage injector, `insert_block_coverage_signals`
    (tests/test_utils.py:310-352): the `_block_cov_ids` pairs left by the tagger
    are gathered into one `id(list) -> block id` table, and every domain list and
    every case list of a Switch directly in a domain list that the table knows gets
    a `blk := 1` probe at its head. */
module BlockProbes {
  import opened Wrappers
  import opened Text
  import opened Design
  import opened CoverageNaming
  import opened BlockCoverage

  /** The name `_cov_signal_name("blk", path, domain, serial)` of a block's signal. */
  function BlockSignalName(id: CovId): string
  {
    CovSignalName("blk", id.path, id.domain, id.serial, [])
  }

  // ---------------------------------------------------------------------------
  // harvest_block_ids: the pairs in the order they were recorded, later ones
  // overwriting earlier ones for the same list.
  // ---------------------------------------------------------------------------

  function Table(links: seq<Link>): map<ListKey, CovId>
    decreases |links|
  {
    if links == [] then map[]
    else Table(links[..|links| - 1])[links[|links| - 1].key := links[|links| - 1].id]
  }

  /** A list is in the table exactly when some pair names it, and then it maps to
      the block of the last pair that names it. */
  lemma {:induction false} TableLookup(links: seq<Link>, k: ListKey)
    ensures k in Table(links) <==> exists i :: 0 <= i < |links| && links[i].key == k
    ensures k in Table(links) ==>
      exists i :: 0 <= i < |links| && links[i].key == k && Table(links)[k] == links[i].id
        && forall j :: i < j < |links| ==> links[j].key != k
    decreases |links|
  {
    if links != [] {
      var p := links[..|links| - 1];
      var last := links[|links| - 1];
      TableLookup(p, k);
      if last.key == k {
        assert links[|links| - 1].key == k;
      } else {
        if k in Table(p) {
          var i :| 0 <= i < |p| && p[i].key == k && Table(p)[k] == p[i].id
            && forall j :: i < j < |p| ==> p[j].key != k;
          assert links[i] == p[i];
          forall j | i < j < |links| ensures links[j].key != k {
            if j < |p| { assert links[j] == p[j]; }
          }
        }
        if exists i :: 0 <= i < |links| && links[i].key == k {
          var i :| 0 <= i < |links| && links[i].key == k;
          assert i < |p| && p[i] == links[i];
        }
      }
    }
  }

  /** `harvest_block_ids(fragment)`: the table, filled pair by pair. */
  method Harvest(links: seq<Link>) returns (table: map<ListKey, CovId>)
    ensures table == Table(links)
  {
    table := map[];
    var i := 0;
    while i < |links|
      invariant 0 <= i <= |links|
      invariant table == Table(links[..i])
    {
      assert links[..i + 1][..i] == links[..i];
      table := table[links[i].key := links[i].id];
      i := i + 1;
    }
    assert links[..|links|] == links;
  }

  // ---------------------------------------------------------------------------
  // inject_head and walk_fragment
  // ---------------------------------------------------------------------------

  /** The new map holds the old one, and each signal it adds belongs to a block of
      the table and is named after it. */
  ghost predicate MadeFrom(sigs: map<CovId, string>, table: map<ListKey, CovId>, sigs': map<CovId, string>)
  {
    Grows(sigs, sigs')
    && forall k :: k in sigs' && k !in sigs ==> k in table.Values && sigs'[k] == BlockSignalName(k)
  }

  /** Every signal of the map is named after its block. */
  ghost predicate BlockNamed(sigs: map<CovId, string>)
  {
    forall k :: k in sigs ==> sigs[k] == BlockSignalName(k)
  }

  lemma MadeFromTrans(a: map<CovId, string>, b: map<CovId, string>, c: map<CovId, string>, table: map<ListKey, CovId>)
    requires MadeFrom(a, table, b) && MadeFrom(b, table, c)
    ensures MadeFrom(a, table, c)
  {
  }

  /** The block's signal: the one already made for it, else a fresh one. */
  function BlockSignalFor(sigs: map<CovId, string>, id: CovId): (r: (string, map<CovId, string>))
    ensures id in r.1 && r.1[id] == r.0 && Grows(sigs, r.1)
    ensures r.1.Keys == sigs.Keys + {id}
  {
    if id in sigs then (sigs[id], sigs)
    else (BlockSignalName(id), sigs[id := BlockSignalName(id)])
  }

  /** `inject_head(stmts, table.get(id(stmts)))`: a probe in front of a list the
      table knows; the list stays the same object. */
  function Head(l: StmtList, table: map<ListKey, CovId>, sigs: map<CovId, string>): (r: Injected<StmtList>)
    ensures r.tree.key == l.key && Grows(sigs, r.signals)
  {
    if l.key !in table then Injected(l, sigs)
    else
      var p := BlockSignalFor(sigs, table[l.key]);
      Injected(StmtList(l.key, [Probe(p.0, Const1)] + l.stmts), p.1)
  }

  function HeadCases(cs: seq<Case>, table: map<ListKey, CovId>, sigs: map<CovId, string>): (r: Injected<seq<Case>>)
    ensures |r.tree| == |cs| && Grows(sigs, r.signals)
    decreases cs
  {
    if cs == [] then Injected([], sigs)
    else
      var h := Head(cs[0].body, table, sigs);
      var t := HeadCases(cs[1..], table, h.signals);
      Injected([Case(cs[0].patterns, h.tree, cs[0].loc)] + t.tree, t.signals)
  }

  /** A Switch gets its case lists headed; every other statement is left alone. */
  function HeadStmt(s: Stmt, table: map<ListKey, CovId>, sigs: map<CovId, string>): (r: Injected<Stmt>)
    ensures Grows(sigs, r.signals)
  {
    match s
    case Switch(test, cases, loc, mark, caseIds, condIds) =>
      var c := HeadCases(cases, table, sigs);
      Injected(Switch(test, c.tree, loc, mark, caseIds, condIds), c.signals)
    case _ => Injected(s, sigs)
  }

  /** The statements of a domain list, in order; case bodies are not searched. */
  function HeadSwitches(ss: seq<Stmt>, table: map<ListKey, CovId>, sigs: map<CovId, string>): (r: Injected<seq<Stmt>>)
    ensures |r.tree| == |ss| && Grows(sigs, r.signals)
    decreases ss
  {
    if ss == [] then Injected([], sigs)
    else
      var h := HeadStmt(ss[0], table, sigs);
      var t := HeadSwitches(ss[1..], table, h.signals);
      Injected([h.tree] + t.tree, t.signals)
  }

  /** A domain list is headed in place, then the Switches in it (the new probe
      among them) are visited. */
  function HeadDomain(d: Domain, table: map<ListKey, CovId>, sigs: map<CovId, string>): (r: Injected<Domain>)
    ensures Grows(sigs, r.signals)
  {
    var h := Head(d.list, table, sigs);
    var w := HeadSwitches(h.tree.stmts, table, h.signals);
    Injected(Domain(d.name, StmtList(d.list.key, w.tree)), w.signals)
  }

  function HeadDomains(ds: seq<Domain>, table: map<ListKey, CovId>, sigs: map<CovId, string>): (r: Injected<seq<Domain>>)
    ensures |r.tree| == |ds| && Grows(sigs, r.signals)
    decreases ds
  {
    if ds == [] then Injected([], sigs)
    else
      var h := HeadDomain(ds[0], table, sigs);
      var t := HeadDomains(ds[1..], table, h.signals);
      Injected([h.tree] + t.tree, t.signals)
  }

  function HeadFragment(f: Fragment, table: map<ListKey, CovId>, sigs: map<CovId, string>): (r: Injected<Fragment>)
    ensures Grows(sigs, r.signals)
    decreases f
  {
    var ds := HeadDomains(f.domains, table, sigs);
    var ss := HeadSubs(f.subs, table, ds.signals);
    Injected(Fragment(ds.tree, ss.tree), ss.signals)
  }

  function HeadSubs(subs: seq<Sub>, table: map<ListKey, CovId>, sigs: map<CovId, string>): (r: Injected<seq<Sub>>)
    ensures |r.tree| == |subs| && Grows(sigs, r.signals)
    decreases subs
  {
    if subs == [] then Injected([], sigs)
    else
      var h := HeadSub(subs[0], table, sigs);
      var t := HeadSubs(subs[1..], table, h.signals);
      Injected([h.tree] + t.tree, t.signals)
  }

  function HeadSub(s: Sub, table: map<ListKey, CovId>, sigs: map<CovId, string>): (r: Injected<Sub>)
    ensures Grows(sigs, r.signals)
    decreases s
  {
    var f := HeadFragment(s.frag, table, sigs);
    Injected(Sub(s.name, f.tree), f.signals)
  }

  // ---------------------------------------------------------------------------
  // What the pass guarantees
  // ---------------------------------------------------------------------------

  /** A list after the pass: the same object, with its block's probe in front when
      the table knows it, and otherwise unchanged. */
  ghost predicate HeadedList(l: StmtList, l': StmtList, table: map<ListKey, CovId>, sigs: map<CovId, string>)
  {
    l'.key == l.key
    && (l.key in table ==> table[l.key] in sigs && l'.stmts == [Probe(sigs[table[l.key]], Const1)] + l.stmts)
    && (l.key !in table ==> l'.stmts == l.stmts)
  }

  ghost predicate HeadedCase(c: Case, c': Case, table: map<ListKey, CovId>, sigs: map<CovId, string>)
  {
    c'.patterns == c.patterns && c'.loc == c.loc && HeadedList(c.body, c'.body, table, sigs)
  }

  /** A Switch keeps everything but its case lists, which are headed; any other
      statement is unchanged. */
  ghost predicate HeadedStmt(s: Stmt, s': Stmt, table: map<ListKey, CovId>, sigs: map<CovId, string>)
  {
    if s.Switch? then
      && s'.Switch? && s'.test == s.test && s'.loc == s.loc && s'.mark == s.mark
      && s'.caseIds == s.caseIds && s'.condIds == s.condIds && |s'.cases| == |s.cases|
      && forall j :: 0 <= j < |s.cases| ==> HeadedCase(s.cases[j], s'.cases[j], table, sigs)
    else s' == s
  }

  /** A domain after the pass: same name and list object, the block's probe first
      when the table knows the list, then each old statement headed in turn. */
  ghost predicate HeadedDomain(d: Domain, d': Domain, table: map<ListKey, CovId>, sigs: map<CovId, string>)
  {
    var off := if d.list.key in table then 1 else 0;
    && d'.name == d.name && d'.list.key == d.list.key
    && |d'.list.stmts| == |d.list.stmts| + off
    && (d.list.key in table ==>
          table[d.list.key] in sigs && d'.list.stmts[0] == Probe(sigs[table[d.list.key]], Const1))
    && forall k :: 0 <= k < |d.list.stmts| ==> HeadedStmt(d.list.stmts[k], d'.list.stmts[k + off], table, sigs)
  }

  ghost predicate HeadedFragment(f: Fragment, g: Fragment, table: map<ListKey, CovId>, sigs: map<CovId, string>)
    decreases f
  {
    && |g.domains| == |f.domains|
    && (forall i :: 0 <= i < |f.domains| ==> HeadedDomain(f.domains[i], g.domains[i], table, sigs))
    && |g.subs| == |f.subs|
    && forall i :: 0 <= i < |f.subs| ==>
         g.subs[i].name == f.subs[i].name && HeadedFragment(f.subs[i].frag, g.subs[i].frag, table, sigs)
  }

  lemma HeadHeaded(l: StmtList, table: map<ListKey, CovId>, sigs: map<CovId, string>, fin: map<CovId, string>)
    requires Grows(Head(l, table, sigs).signals, fin)
    ensures HeadedList(l, Head(l, table, sigs).tree, table, fin)
    ensures MadeFrom(sigs, table, Head(l, table, sigs).signals)
  {
  }

  lemma {:induction false} HeadCasesHeaded(cs: seq<Case>, table: map<ListKey, CovId>, sigs: map<CovId, string>, fin: map<CovId, string>)
    requires Grows(HeadCases(cs, table, sigs).signals, fin)
    ensures var r := HeadCases(cs, table, sigs);
      && MadeFrom(sigs, table, r.signals)
      && forall j :: 0 <= j < |cs| ==> HeadedCase(cs[j], r.tree[j], table, fin)
    decreases cs
  {
    if cs != [] {
      var h := Head(cs[0].body, table, sigs);
      var t := HeadCases(cs[1..], table, h.signals);
      HeadHeaded(cs[0].body, table, sigs, fin);
      HeadCasesHeaded(cs[1..], table, h.signals, fin);
      var r := HeadCases(cs, table, sigs);
      forall j | 0 <= j < |cs| ensures HeadedCase(cs[j], r.tree[j], table, fin) {
        if j > 0 { assert cs[j] == cs[1..][j - 1] && r.tree[j] == t.tree[j - 1]; }
      }
    }
  }

  lemma HeadStmtHeaded(s: Stmt, table: map<ListKey, CovId>, sigs: map<CovId, string>, fin: map<CovId, string>)
    requires Grows(HeadStmt(s, table, sigs).signals, fin)
    ensures HeadedStmt(s, HeadStmt(s, table, sigs).tree, table, fin)
    ensures MadeFrom(sigs, table, HeadStmt(s, table, sigs).signals)
  {
    if s.Switch? {
      HeadCasesHeaded(s.cases, table, sigs, fin);
    }
  }

  lemma {:induction false} HeadSwitchesHeaded(ss: seq<Stmt>, table: map<ListKey, CovId>, sigs: map<CovId, string>, fin: map<CovId, string>)
    requires Grows(HeadSwitches(ss, table, sigs).signals, fin)
    ensures var r := HeadSwitches(ss, table, sigs);
      && MadeFrom(sigs, table, r.signals)
      && forall k :: 0 <= k < |ss| ==> HeadedStmt(ss[k], r.tree[k], table, fin)
    decreases ss
  {
    if ss != [] {
      var h := HeadStmt(ss[0], table, sigs);
      var t := HeadSwitches(ss[1..], table, h.signals);
      HeadStmtHeaded(ss[0], table, sigs, fin);
      HeadSwitchesHeaded(ss[1..], table, h.signals, fin);
      var r := HeadSwitches(ss, table, sigs);
      forall k | 0 <= k < |ss| ensures HeadedStmt(ss[k], r.tree[k], table, fin) {
        if k > 0 { assert ss[k] == ss[1..][k - 1] && r.tree[k] == t.tree[k - 1]; }
      }
    }
  }

  /** One domain: the list is headed, then its statements are visited. */
  lemma HeadDomainHeaded(d: Domain, table: map<ListKey, CovId>, sigs: map<CovId, string>, fin: map<CovId, string>)
    requires Grows(HeadDomain(d, table, sigs).signals, fin)
    ensures MadeFrom(sigs, table, HeadDomain(d, table, sigs).signals)
    ensures HeadedDomain(d, HeadDomain(d, table, sigs).tree, table, fin)
  {
    var h := Head(d.list, table, sigs);
    var w := HeadSwitches(h.tree.stmts, table, h.signals);
    var off := if d.list.key in table then 1 else 0;
    HeadSwitchesHeaded(h.tree.stmts, table, h.signals, fin);
    assert |h.tree.stmts| == |d.list.stmts| + off;
    forall k | 0 <= k < |d.list.stmts| ensures HeadedStmt(d.list.stmts[k], w.tree[k + off], table, fin) {
      assert h.tree.stmts[k + off] == d.list.stmts[k];
    }
    if d.list.key in table {
      assert HeadedStmt(h.tree.stmts[0], w.tree[0], table, fin);
    }
  }

  lemma {:induction false} HeadDomainsHeaded(ds: seq<Domain>, table: map<ListKey, CovId>, sigs: map<CovId, string>, fin: map<CovId, string>)
    requires Grows(HeadDomains(ds, table, sigs).signals, fin)
    ensures var r := HeadDomains(ds, table, sigs);
      && MadeFrom(sigs, table, r.signals)
      && forall i :: 0 <= i < |ds| ==> HeadedDomain(ds[i], r.tree[i], table, fin)
    decreases ds
  {
    if ds != [] {
      var h := HeadDomain(ds[0], table, sigs);
      var t := HeadDomains(ds[1..], table, h.signals);
      HeadDomainHeaded(ds[0], table, sigs, fin);
      HeadDomainsHeaded(ds[1..], table, h.signals, fin);
      var r := HeadDomains(ds, table, sigs);
      forall i | 0 <= i < |ds| ensures HeadedDomain(ds[i], r.tree[i], table, fin) {
        if i > 0 { assert ds[i] == ds[1..][i - 1] && r.tree[i] == t.tree[i - 1]; }
      }
    }
  }

  /** Every list of the design ends up headed exactly as its table entry says:
      one probe in front when the table knows it, nothing else changed. */
  lemma {:induction false} HeadFragmentHeaded(f: Fragment, table: map<ListKey, CovId>, sigs: map<CovId, string>, fin: map<CovId, string>)
    requires Grows(HeadFragment(f, table, sigs).signals, fin)
    ensures HeadedFragment(f, HeadFragment(f, table, sigs).tree, table, fin)
    ensures MadeFrom(sigs, table, HeadFragment(f, table, sigs).signals)
    decreases f
  {
    var ds := HeadDomains(f.domains, table, sigs);
    HeadDomainsHeaded(f.domains, table, sigs, fin);
    HeadSubsHeaded(f.subs, table, ds.signals, fin);
  }

  lemma {:induction false} HeadSubsHeaded(subs: seq<Sub>, table: map<ListKey, CovId>, sigs: map<CovId, string>, fin: map<CovId, string>)
    requires Grows(HeadSubs(subs, table, sigs).signals, fin)
    ensures var r := HeadSubs(subs, table, sigs);
      && MadeFrom(sigs, table, r.signals)
      && forall i :: 0 <= i < |subs| ==>
        r.tree[i].name == subs[i].name && HeadedFragment(subs[i].frag, r.tree[i].frag, table, fin)
    decreases subs
  {
    if subs != [] {
      var h := HeadSub(subs[0], table, sigs);
      var t := HeadSubs(subs[1..], table, h.signals);
      HeadSubHeaded(subs[0], table, sigs, fin);
      HeadSubsHeaded(subs[1..], table, h.signals, fin);
      var r := HeadSubs(subs, table, sigs);
      forall i | 0 <= i < |subs|
        ensures r.tree[i].name == subs[i].name && HeadedFragment(subs[i].frag, r.tree[i].frag, table, fin)
      {
        if i > 0 { assert subs[i] == subs[1..][i - 1] && r.tree[i] == t.tree[i - 1]; }
      }
    }
  }

  lemma {:induction false} HeadSubHeaded(s: Sub, table: map<ListKey, CovId>, sigs: map<CovId, string>, fin: map<CovId, string>)
    requires Grows(HeadSub(s, table, sigs).signals, fin)
    ensures HeadSub(s, table, sigs).tree.name == s.name
    ensures HeadedFragment(s.frag, HeadSub(s, table, sigs).tree.frag, table, fin)
    ensures MadeFrom(sigs, table, HeadSub(s, table, sigs).signals)
    decreases s
  {
    HeadFragmentHeaded(s.frag, table, sigs, fin);
  }

  // The pass adds probes only: the design without them is unchanged.

  lemma HeadStrip(l: StmtList, table: map<ListKey, CovId>, sigs: map<CovId, string>)
    ensures StripList(Head(l, table, sigs).tree.stmts) == StripList(l.stmts)
  {
    if l.key in table {
      var p := BlockSignalFor(sigs, table[l.key]);
      StripListProbe(p.0, Const1, l.stmts);
    }
  }

  lemma {:induction false} HeadCasesStrip(cs: seq<Case>, table: map<ListKey, CovId>, sigs: map<CovId, string>)
    ensures StripCases(HeadCases(cs, table, sigs).tree) == StripCases(cs)
    decreases cs
  {
    if cs != [] {
      var h := Head(cs[0].body, table, sigs);
      var t := HeadCases(cs[1..], table, h.signals);
      HeadStrip(cs[0].body, table, sigs);
      HeadCasesStrip(cs[1..], table, h.signals);
      var r := [Case(cs[0].patterns, h.tree, cs[0].loc)] + t.tree;
      assert r[1..] == t.tree;
    }
  }

  lemma HeadStmtStrip(s: Stmt, table: map<ListKey, CovId>, sigs: map<CovId, string>)
    ensures HeadStmt(s, table, sigs).tree.Probe? == s.Probe?
    ensures StripStmt(HeadStmt(s, table, sigs).tree) == StripStmt(s)
  {
    if s.Switch? {
      HeadCasesStrip(s.cases, table, sigs);
    }
  }

  lemma {:induction false} HeadSwitchesStrip(ss: seq<Stmt>, table: map<ListKey, CovId>, sigs: map<CovId, string>)
    ensures StripList(HeadSwitches(ss, table, sigs).tree) == StripList(ss)
    decreases ss
  {
    if ss != [] {
      var h := HeadStmt(ss[0], table, sigs);
      var t := HeadSwitches(ss[1..], table, h.signals);
      HeadStmtStrip(ss[0], table, sigs);
      HeadSwitchesStrip(ss[1..], table, h.signals);
      StripListCons(h.tree, t.tree);
    }
  }

  lemma {:induction false} HeadDomainsStrip(ds: seq<Domain>, table: map<ListKey, CovId>, sigs: map<CovId, string>)
    ensures StripDomains(HeadDomains(ds, table, sigs).tree) == StripDomains(ds)
    decreases ds
  {
    if ds != [] {
      var h := Head(ds[0].list, table, sigs);
      var d := HeadDomain(ds[0], table, sigs);
      var t := HeadDomains(ds[1..], table, d.signals);
      HeadStrip(ds[0].list, table, sigs);
      HeadSwitchesStrip(h.tree.stmts, table, h.signals);
      HeadDomainsStrip(ds[1..], table, d.signals);
      var r := [d.tree] + t.tree;
      assert r[1..] == t.tree;
    }
  }

  /** Apart from the probes, the design is unchanged: same domains, same
      statements, same subfragments. */
  lemma {:induction false} HeadFragmentStrip(f: Fragment, table: map<ListKey, CovId>, sigs: map<CovId, string>)
    ensures StripFragment(HeadFragment(f, table, sigs).tree) == StripFragment(f)
    decreases f
  {
    var ds := HeadDomains(f.domains, table, sigs);
    HeadDomainsStrip(f.domains, table, sigs);
    HeadSubsStrip(f.subs, table, ds.signals);
  }

  lemma {:induction false} HeadSubsStrip(subs: seq<Sub>, table: map<ListKey, CovId>, sigs: map<CovId, string>)
    ensures StripSubs(HeadSubs(subs, table, sigs).tree) == StripSubs(subs)
    decreases subs
  {
    if subs != [] {
      var h := HeadSub(subs[0], table, sigs);
      var t := HeadSubs(subs[1..], table, h.signals);
      HeadSubStrip(subs[0], table, sigs);
      HeadSubsStrip(subs[1..], table, h.signals);
      var r := [h.tree] + t.tree;
      assert r[1..] == t.tree;
    }
  }

  lemma {:induction false} HeadSubStrip(s: Sub, table: map<ListKey, CovId>, sigs: map<CovId, string>)
    ensures StripSub(HeadSub(s, table, sigs).tree) == StripSub(s)
    decreases s
  {
    HeadFragmentStrip(s.frag, table, sigs);
  }

  /** With the tables the tagger leaves on the top fragment (path `()`, serials from
      0), the root list of domain `i` starts with a probe of the signal named after
      block `((), domain, i)`, followed by the old statements, provided no later
      pair names the same list (distinct list objects have distinct identities). */
  lemma TagThenHeadRoots(f: Fragment, i: nat)
    requires i < |f.domains|
    requires var links := TagBlocks(f, [], 0).links;
      forall j :: i < j < |links| ==> links[j].key != f.domains[i].list.key
    ensures var tags := TagBlocks(f, [], 0);
      var g := HeadFragment(f, Table(tags.links), map[]).tree;
      var d := f.domains[i];
      var id := CovId([], d.name, i);
      && tags.entries[i].id == id
      && |g.domains| == |f.domains| && g.domains[i].list.key == d.list.key
      && |g.domains[i].list.stmts| == |d.list.stmts| + 1
      && g.domains[i].list.stmts[0] == Probe(BlockSignalName(id), Const1)
  {
    var table := Table(TagBlocks(f, [], 0).links);
    var d := f.domains[i];
    RootInTable(f, i);
    var r := HeadFragment(f, table, map[]);
    HeadFragmentHeaded(f, table, map[], r.signals);
    assert HeadedDomain(d, r.tree.domains[i], table, r.signals);
  }

  /** The harvested table maps a root list to its root block, when no later pair
      names the same list. */
  lemma RootInTable(f: Fragment, i: nat)
    requires i < |f.domains|
    requires var links := TagBlocks(f, [], 0).links;
      forall j :: i < j < |links| ==> links[j].key != f.domains[i].list.key
    ensures var tags := TagBlocks(f, [], 0);
      var d := f.domains[i];
      && tags.entries[i].id == CovId([], d.name, i)
      && d.list.key in Table(tags.links) && Table(tags.links)[d.list.key] == CovId([], d.name, i)
  {
    var links := TagBlocks(f, [], 0).links;
    var d := f.domains[i];
    TagBlocksRoots(f, [], 0);
    assert links[i] == Link(d.list.key, CovId([], d.name, i));
    TableLookup(links, d.list.key);
    var i' :| 0 <= i' < |links| && links[i'].key == d.list.key && Table(links)[d.list.key] == links[i'].id
      && forall j :: i' < j < |links| ==> links[j].key != d.list.key;
    assert i' == i;
  }

  // ---------------------------------------------------------------------------
  // The pass as written.
  // ---------------------------------------------------------------------------

  // One loop iteration of each walk: the part still to do loses its first element,
  // whose result is appended to what is done.

  lemma HeadCasesStep(cs: seq<Case>, j: nat, table: map<ListKey, CovId>, sigs: map<CovId, string>, out: seq<Case>, whole: Injected<seq<Case>>)
    requires j < |cs|
    requires whole.tree == out + HeadCases(cs[j..], table, sigs).tree
    requires whole.signals == HeadCases(cs[j..], table, sigs).signals
    ensures var h := Head(cs[j].body, table, sigs);
      && whole.tree == (out + [Case(cs[j].patterns, h.tree, cs[j].loc)]) + HeadCases(cs[j + 1..], table, h.signals).tree
      && whole.signals == HeadCases(cs[j + 1..], table, h.signals).signals
  {
    assert cs[j..][1..] == cs[j + 1..];
  }

  lemma HeadSwitchesStep(ss: seq<Stmt>, k: nat, table: map<ListKey, CovId>, sigs: map<CovId, string>, out: seq<Stmt>, whole: Injected<seq<Stmt>>)
    requires k < |ss|
    requires whole.tree == out + HeadSwitches(ss[k..], table, sigs).tree
    requires whole.signals == HeadSwitches(ss[k..], table, sigs).signals
    ensures var h := HeadStmt(ss[k], table, sigs);
      && whole.tree == (out + [h.tree]) + HeadSwitches(ss[k + 1..], table, h.signals).tree
      && whole.signals == HeadSwitches(ss[k + 1..], table, h.signals).signals
  {
    assert ss[k..][1..] == ss[k + 1..];
  }

  lemma HeadDomainsStep(ds: seq<Domain>, i: nat, table: map<ListKey, CovId>, sigs: map<CovId, string>, out: seq<Domain>, whole: Injected<seq<Domain>>)
    requires i < |ds|
    requires whole.tree == out + HeadDomains(ds[i..], table, sigs).tree
    requires whole.signals == HeadDomains(ds[i..], table, sigs).signals
    ensures var h := HeadDomain(ds[i], table, sigs);
      && whole.tree == (out + [h.tree]) + HeadDomains(ds[i + 1..], table, h.signals).tree
      && whole.signals == HeadDomains(ds[i + 1..], table, h.signals).signals
  {
    assert ds[i..][1..] == ds[i + 1..];
  }

  lemma HeadSubsStep(subs: seq<Sub>, i: nat, table: map<ListKey, CovId>, sigs: map<CovId, string>, out: seq<Sub>, whole: Injected<seq<Sub>>)
    requires i < |subs|
    requires whole.tree == out + HeadSubs(subs[i..], table, sigs).tree
    requires whole.signals == HeadSubs(subs[i..], table, sigs).signals
    ensures var h := HeadSub(subs[i], table, sigs);
      && whole.tree == (out + [h.tree]) + HeadSubs(subs[i + 1..], table, h.signals).tree
      && whole.signals == HeadSubs(subs[i + 1..], table, h.signals).signals
  {
    assert subs[i..][1..] == subs[i + 1..];
  }

  /** `inject_head(stmts, blk_id)`: nothing without a block; else the block's signal
      is looked up, made when missing, and assigned 1 at the head of the list. */
  method InjectHead(l: StmtList, table: map<ListKey, CovId>, sigs: map<CovId, string>)
    returns (l': StmtList, sigs': map<CovId, string>)
    ensures Injected(l', sigs') == Head(l, table, sigs)
  {
    if l.key !in table {
      return l, sigs;
    }
    var blkId := table[l.key];
    var sig: string;
    if blkId in sigs {
      sig, sigs' := sigs[blkId], sigs;
    } else {
      sig := CovSignalName("blk", blkId.path, blkId.domain, blkId.serial, []);
      sigs' := sigs[blkId := sig];
    }
    l' := StmtList(l.key, [Probe(sig, Const1)] + l.stmts);
  }

  method HeadCaseLists(cs: seq<Case>, table: map<ListKey, CovId>, sigs: map<CovId, string>)
    returns (out: seq<Case>, sigs': map<CovId, string>)
    ensures Injected(out, sigs') == HeadCases(cs, table, sigs)
  {
    out, sigs' := [], sigs;
    ghost var whole := HeadCases(cs, table, sigs);
    var j := 0;
    assert cs[0..] == cs;
    assert out + whole.tree == whole.tree;
    while j < |cs|
      invariant 0 <= j <= |cs|
      invariant whole.tree == out + HeadCases(cs[j..], table, sigs').tree
      invariant whole.signals == HeadCases(cs[j..], table, sigs').signals
    {
      HeadCasesStep(cs, j, table, sigs', out, whole);
      var c := cs[j];
      var body;
      body, sigs' := InjectHead(c.body, table, sigs');
      out := out + [Case(c.patterns, body, c.loc)];
      j := j + 1;
    }
    assert cs[|cs|..] == [] && out + [] == out;
  }

  /** `for stmt in stmts: if isinstance(stmt, Switch): ...`: the case lists of each
      Switch directly in the list are headed. */
  method HeadSwitchStatements(ss: seq<Stmt>, table: map<ListKey, CovId>, sigs: map<CovId, string>)
    returns (out: seq<Stmt>, sigs': map<CovId, string>)
    ensures Injected(out, sigs') == HeadSwitches(ss, table, sigs)
  {
    out, sigs' := [], sigs;
    ghost var whole := HeadSwitches(ss, table, sigs);
    var k := 0;
    assert ss[0..] == ss;
    assert out + whole.tree == whole.tree;
    while k < |ss|
      invariant 0 <= k <= |ss|
      invariant whole.tree == out + HeadSwitches(ss[k..], table, sigs').tree
      invariant whole.signals == HeadSwitches(ss[k..], table, sigs').signals
    {
      HeadSwitchesStep(ss, k, table, sigs', out, whole);
      var stmt := ss[k];
      if stmt.Switch? {
        var cases;
        cases, sigs' := HeadCaseLists(stmt.cases, table, sigs');
        out := out + [Switch(stmt.test, cases, stmt.loc, stmt.mark, stmt.caseIds, stmt.condIds)];
      } else {
        out := out + [stmt];
      }
      k := k + 1;
    }
    assert ss[|ss|..] == [] && out + [] == out;
  }

  method HeadDomainLists(ds: seq<Domain>, table: map<ListKey, CovId>, sigs: map<CovId, string>)
    returns (out: seq<Domain>, sigs': map<CovId, string>)
    ensures Injected(out, sigs') == HeadDomains(ds, table, sigs)
  {
    out, sigs' := [], sigs;
    ghost var whole := HeadDomains(ds, table, sigs);
    var i := 0;
    assert ds[0..] == ds;
    assert out + whole.tree == whole.tree;
    while i < |ds|
      invariant 0 <= i <= |ds|
      invariant whole.tree == out + HeadDomains(ds[i..], table, sigs').tree
      invariant whole.signals == HeadDomains(ds[i..], table, sigs').signals
    {
      HeadDomainsStep(ds, i, table, sigs', out, whole);
      var d';
      d', sigs' := HeadDomainList(ds[i], table, sigs');
      out := out + [d'];
      i := i + 1;
    }
    assert ds[|ds|..] == [] && out + [] == out;
  }

  /** One iteration of the domain loop: `inject_head` on the list, then its Switches. */
  method HeadDomainList(d: Domain, table: map<ListKey, CovId>, sigs: map<CovId, string>)
    returns (d': Domain, sigs': map<CovId, string>)
    ensures Injected(d', sigs') == HeadDomain(d, table, sigs)
  {
    var l, stmts;
    l, sigs' := InjectHead(d.list, table, sigs);
    stmts, sigs' := HeadSwitchStatements(l.stmts, table, sigs');
    d' := Domain(d.name, StmtList(d.list.key, stmts));
  }

  /** `walk_fragment(frag)`: the domain lists, then the subfragments. */
  method WalkBlocks(f: Fragment, table: map<ListKey, CovId>, sigs: map<CovId, string>)
    returns (g: Fragment, sigs': map<CovId, string>)
    ensures Injected(g, sigs') == HeadFragment(f, table, sigs)
    decreases f
  {
    var domains, subs;
    domains, sigs' := HeadDomainLists(f.domains, table, sigs);
    subs, sigs' := WalkBlockSubs(f.subs, table, sigs');
    g := Fragment(domains, subs);
  }

  method WalkBlockSubs(subs: seq<Sub>, table: map<ListKey, CovId>, sigs: map<CovId, string>)
    returns (out: seq<Sub>, sigs': map<CovId, string>)
    ensures Injected(out, sigs') == HeadSubs(subs, table, sigs)
    decreases subs
  {
    out, sigs' := [], sigs;
    ghost var whole := HeadSubs(subs, table, sigs);
    var i := 0;
    assert subs[0..] == subs;
    assert out + whole.tree == whole.tree;
    while i < |subs|
      invariant 0 <= i <= |subs|
      invariant whole.tree == out + HeadSubs(subs[i..], table, sigs').tree
      invariant whole.signals == HeadSubs(subs[i..], table, sigs').signals
    {
      HeadSubsStep(subs, i, table, sigs', out, whole);
      var sub';
      sub', sigs' := WalkBlockSub(subs[i], table, sigs');
      out := out + [sub'];
      i := i + 1;
    }
    assert subs[|subs|..] == [] && out + [] == out;
  }

  method WalkBlockSub(s: Sub, table: map<ListKey, CovId>, sigs: map<CovId, string>)
    returns (s': Sub, sigs': map<CovId, string>)
    ensures Injected(s', sigs') == HeadSub(s, table, sigs)
    decreases s
  {
    var frag;
    frag, sigs' := WalkBlocks(s.frag, table, sigs);
    s' := Sub(s.name, frag);
  }

  /** `insert_block_coverage_signals(fragment, blockid_to_info)`, given the
      `_block_cov_ids` pairs in the order the harvest meets them: every list the
      table knows gets its block's probe at its head and nothing else changes, and
      every signal belongs to a block of the table and is named after it. */
  method InsertBlockCoverageSignals(f: Fragment, links: seq<Link>) returns (g: Fragment, signals: map<CovId, string>)
    ensures Injected(g, signals) == HeadFragment(f, Table(links), map[])
    ensures HeadedFragment(f, g, Table(links), signals)
    ensures StripFragment(g) == StripFragment(f)
    ensures BlockNamed(signals) && forall k :: k in signals ==> k in Table(links).Values
  {
    var table := Harvest(links);
    g, signals := WalkBlocks(f, table, map[]);
    HeadFragmentHeaded(f, table, map[], signals);
    HeadFragmentStrip(f, table, map[]);
  }
}

=== FILE: counters.dfy ===
/** The two dictionary operations the merge step of the coverage aggregation is
    built from (tests/test_utils.py:241-245, 367-371, 592-598, 834-839): a
    `collections.Counter` that `+=` adds hit counts into, and a descriptor
    dictionary that `setdefault` fills, keeping the first descriptor seen. */
module Counters {

  /** `counter.get(k, 0)`. */
  function Get<K>(c: map<K, nat>, k: K): nat
  {
    if k in c then c[k] else 0
  }

  /** The counter after `c[k] += r[k]` for every key of `r`: a key of either
      map is present afterwards, even when the count it gained is 0. */
  function AddAll<K>(c: map<K, nat>, r: map<K, nat>): map<K, nat>
  {
    map k | k in c.Keys + r.Keys :: Get(c, k) + Get(r, k)
  }

  /** The dictionary after `info.setdefault(k, v)` for every item of `incoming`. */
  function SetDefaults<K, V>(info: map<K, V>, incoming: map<K, V>): map<K, V>
  {
    map k | k in info.Keys + incoming.Keys :: if k in info then info[k] else incoming[k]
  }

  /** The items of `m` whose key is in `ks`. */
  function Restrict<K, V>(m: map<K, V>, ks: set<K>): (r: map<K, V>)
    ensures r.Keys == m.Keys * ks
    ensures forall k :: k in r ==> r[k] == m[k]
  {
    map k | k in m.Keys && k in ks :: m[k]
  }

  /** Adding counts: the keys of both maps, each count the sum of the two, so no
      count goes down. */
  lemma AddAllCounts<K>(c: map<K, nat>, r: map<K, nat>)
    ensures AddAll(c, r).Keys == c.Keys + r.Keys
    ensures forall k :: Get(AddAll(c, r), k) == Get(c, k) + Get(r, k)
    ensures forall k :: Get(c, k) <= Get(AddAll(c, r), k)
  {
    forall k ensures Get(AddAll(c, r), k) == Get(c, k) + Get(r, k) {
      if k in c.Keys + r.Keys {
        assert k in AddAll(c, r);
      }
    }
  }

  /** Two counters with the same keys and the same counts are the same. */
  lemma SameCounts<K>(x: map<K, nat>, y: map<K, nat>)
    requires forall k :: (k in x <==> k in y) && Get(x, k) == Get(y, k)
    ensures x == y
  {
    assert x.Keys == y.Keys;
    forall k | k in x ensures x[k] == y[k] {
      assert Get(x, k) == Get(y, k);
    }
  }

  /** Two runs merged in either order leave the same counter. */
  lemma AddAllCommutes<K>(c: map<K, nat>, a: map<K, nat>, b: map<K, nat>)
    ensures AddAll(AddAll(c, a), b) == AddAll(AddAll(c, b), a)
  {
    AddAllCounts(c, a);
    AddAllCounts(c, b);
    AddAllCounts(AddAll(c, a), b);
    AddAllCounts(AddAll(c, b), a);
    var x, y := AddAll(AddAll(c, a), b), AddAll(AddAll(c, b), a);
    assert x.Keys == y.Keys;
    forall k | k in x ensures x[k] == y[k] {
      assert Get(x, k) == Get(y, k);
    }
  }

  /** Merging one run's counts and then another's is merging their sum. */
  lemma AddAllAssociates<K>(c: map<K, nat>, a: map<K, nat>, b: map<K, nat>)
    ensures AddAll(AddAll(c, a), b) == AddAll(c, AddAll(a, b))
  {
    AddAllCounts(c, a);
    AddAllCounts(a, b);
    AddAllCounts(AddAll(c, a), b);
    AddAllCounts(c, AddAll(a, b));
    var x, y := AddAll(AddAll(c, a), b), AddAll(c, AddAll(a, b));
    assert x.Keys == y.Keys;
    forall k | k in x ensures x[k] == y[k] {
      assert Get(x, k) == Get(y, k);
    }
  }

  /** `setdefault`: the keys of both maps, the first descriptor kept for a key
      already present and the incoming one taken for a new key. */
  lemma SetDefaultsKeeps<K, V>(info: map<K, V>, incoming: map<K, V>)
    ensures SetDefaults(info, incoming).Keys == info.Keys + incoming.Keys
    ensures forall k :: k in info ==> SetDefaults(info, incoming)[k] == info[k]
    ensures forall k :: k in incoming && k !in info ==> SetDefaults(info, incoming)[k] == incoming[k]
  {
  }

  /** Merging the same descriptors twice changes nothing the first merge did not. */
  lemma {:induction false} SetDefaultsIdempotent<K, V>(info: map<K, V>, incoming: map<K, V>)
    ensures SetDefaults(SetDefaults(info, incoming), incoming) == SetDefaults(info, incoming)
  {
    var s := SetDefaults(info, incoming);
    SetDefaultsKeeps(info, incoming);
    SetDefaultsKeeps(s, incoming);
    assert SetDefaults(s, incoming).Keys == s.Keys;
  }

  /** Two descriptor maps that agree where they overlap merge to the same map in
      either order; the key set never depends on the order. */
  lemma {:induction false} SetDefaultsCommutes<K, V>(info: map<K, V>, a: map<K, V>, b: map<K, V>)
    ensures SetDefaults(SetDefaults(info, a), b).Keys == SetDefaults(SetDefaults(info, b), a).Keys
    ensures (forall k :: k in a && k in b ==> a[k] == b[k])
      ==> SetDefaults(SetDefaults(info, a), b) == SetDefaults(SetDefaults(info, b), a)
  {
    SetDefaultsKeeps(info, a);
    SetDefaultsKeeps(info, b);
    SetDefaultsKeeps(SetDefaults(info, a), b);
    SetDefaultsKeeps(SetDefaults(info, b), a);
  }

  /** One key more of `r` processed by the `+=` loop. */
  lemma AddAllStep<K>(c: map<K, nat>, r: map<K, nat>, done: set<K>, k: K)
    requires k in r && k !in done
    ensures AddAll(c, Restrict(r, done + {k}))
      == AddAll(c, Restrict(r, done))[k := Get(AddAll(c, Restrict(r, done)), k) + r[k]]
  {
    var x := AddAll(c, Restrict(r, done + {k}));
    var y := AddAll(c, Restrict(r, done))[k := Get(AddAll(c, Restrict(r, done)), k) + r[k]];
    AddAllCounts(c, Restrict(r, done + {k}));
    AddAllCounts(c, Restrict(r, done));
    assert x.Keys == y.Keys;
    forall j | j in x ensures x[j] == y[j] {
      assert Get(x, j) == Get(y, j);
    }
  }

  /** `for k, hits in results.items(): counter[k] += hits`. */
  method AddCounts<K>(c: map<K, nat>, r: map<K, nat>) returns (c': map<K, nat>)
    ensures c' == AddAll(c, r)
  {
    c' := c;
    var todo := r.Keys;
    assert Restrict(r, r.Keys - todo) == map[];
    assert AddAll(c, map[]) == c;
    while todo != {}
      invariant todo <= r.Keys
      invariant c' == AddAll(c, Restrict(r, r.Keys - todo))
      decreases todo
    {
      var k :| k in todo;
      AddAllStep(c, r, r.Keys - todo, k);
      assert r.Keys - todo + {k} == r.Keys - (todo - {k});
      c' := c'[k := Get(c', k) + r[k]];
      todo := todo - {k};
    }
    assert Restrict(r, r.Keys - todo) == r;
  }

  /** One key more of `incoming` processed by the `setdefault` loop. */
  lemma SetDefaultsStep<K, V>(info: map<K, V>, incoming: map<K, V>, done: set<K>, k: K)
    requires k in incoming && k !in done
    ensures var s := SetDefaults(info, Restrict(incoming, done));
      SetDefaults(info, Restrict(incoming, done + {k})) == if k in s then s else s[k := incoming[k]]
  {
  }

  /** `for k, v in incoming.items(): info.setdefault(k, v)`. */
  method SetDefaultAll<K, V>(info: map<K, V>, incoming: map<K, V>) returns (info': map<K, V>)
    ensures info' == SetDefaults(info, incoming)
  {
    info' := info;
    var todo := incoming.Keys;
    assert Restrict(incoming, incoming.Keys - todo) == map[];
    assert SetDefaults(info, map[]) == info;
    while todo != {}
      invariant todo <= incoming.Keys
      invariant info' == SetDefaults(info, Restrict(incoming, incoming.Keys - todo))
      decreases todo
    {
      var k :| k in todo;
      SetDefaultsStep(info, incoming, incoming.Keys - todo, k);
      assert incoming.Keys - todo + {k} == incoming.Keys - (todo - {k});
      if k !in info' {
        info' := info'[k := incoming[k]];
      }
      todo := todo - {k};
    }
    assert Restrict(incoming, incoming.Keys - todo) == incoming;
  }
}

=== FILE: design.dfy ===
/** The elaborated design tree the coverage engine walks, with the runtime
    attributes the engine attaches to nodes turned into explicit fields. */
module Design {
  import opened Wrappers

  /** A subfragment's name; `None` for an anonymous subfragment. */
  type Name = Option<string>

  /** The names of the subfragments leading from the top fragment to a fragment. */
  type Path = seq<Name>

  /** A coverage identity `(parent_path, domain, serial)`. */
  datatype CovId = CovId(path: Path, domain: string, serial: nat)

  /** A source location `(filename, lineno)`. */
  datatype Loc = Loc(file: string, line: nat)

  /** The `(name, type)` pair recorded for an identity. */
  datatype Descriptor = Descriptor(name: string, kind: string)

  /** One `id -> descriptor` record made by a tagging pass, in the order the pass made it. */
  datatype Entry = Entry(id: CovId, desc: Descriptor)

  /** An expression node. `node` stands for the object's identity (two occurrences of
      one shared Signal carry the same `node`), `isBool` for a one-bit shape, `name`
      for its printed form; `operands` are its children in the order the walker of
      `_iter_boolean_subexpressions_from_assign` pushes them. */
  datatype Expr = Expr(node: nat, isBool: bool, name: string, operands: seq<Expr>)

  /** The right-hand side of an injected assignment. The wrappers (`Const(1)`, `~v`,
      `e != 0`, the match tests built from a Switch's patterns) are objects created
      by the injector; only the design expressions inside them existed before. */
  datatype Value =
    | Const1
    | Of(e: Expr)
    | Inverted(v: Value)
    | NonZero(e: Expr)
    | CaseMatch(test: Expr, patterns: seq<string>)
    | AnyMatch(test: Expr, cases: seq<seq<string>>)

  datatype FormalKind = Assert | Assume | Cover

  /** The four coverage facets; an injector that replaces a list tags the new list with its facet. */
  datatype Facet = StatementFacet | BlockFacet | AssertionFacet | ExpressionFacet

  /** The identity of a statement-list object: an original list of the elaborated
      design, a fresh list an injector built from another one, or a list an
      injector made for a domain the fragment did not have. */
  datatype ListKey = Orig(n: nat) | Copy(base: ListKey, facet: Facet) | Fresh(facet: Facet)

  /** `_coverage_id` (absent when `None`) and `_coverage_injected` of an Assign or Switch. */
  datatype Mark = Mark(id: Option<CovId>, injected: bool)

  const Unmarked := Mark(None, false)

  datatype Stmt =
    | Assign(lhs: Expr, rhs: Expr, loc: Option<Loc>, mark: Mark)
      /** `caseIds` is `_coverage_case_ids`; `condIds` holds the expression ids of the
          case/default match tests (kept only by the corrected expression facet). */
    | Switch(test: Option<Expr>, cases: seq<Case>, loc: Option<Loc>, mark: Mark,
             caseIds: seq<CovId>, condIds: seq<CovId>)
      /** An assert/assume/cover node; `assertId` is `_assert_id`. */
    | Formal(kind: FormalKind, cond: Option<Expr>, loc: Option<Loc>, assertId: Option<CovId>)
      /** A shadow assignment `signal := value` added by an injector. */
    | Probe(signal: string, value: Value)

  /** One case of a Switch: its patterns (`None` for the default case), its body and location. */
  datatype Case = Case(patterns: Option<seq<string>>, body: StmtList, loc: Option<Loc>)

  datatype StmtList = StmtList(key: ListKey, stmts: seq<Stmt>)

  /** One `domain -> statement list` entry of `fragment.statements`, in dictionary order. */
  datatype Domain = Domain(name: string, list: StmtList)

  datatype Fragment = Fragment(domains: seq<Domain>, subs: seq<Sub>)

  /** One `(subfragment, name)` entry of `fragment.subfragments`. */
  datatype Sub = Sub(name: Name, frag: Fragment)

  /** True for the statements the statement facet numbers and instruments. */
  predicate Coverable(s: Stmt) { s.Assign? || s.Switch? }

  function LocOf(s: Stmt): Option<Loc>
  {
    match s
    case Assign(_, _, loc, _) => loc
    case Switch(_, _, loc, _, _, _) => loc
    case Formal(_, _, loc, _) => loc
    case Probe(_, _) => None
  }

  /** What an injection pass returns: the instrumented tree and the `id -> signal`
      map (`coverage_signals`), a signal being known by its name. */
  datatype Injected<T> = Injected(tree: T, signals: map<CovId, string>)

  /** Signals once created are never replaced. */
  ghost predicate Grows(sigs: map<CovId, string>, sigs': map<CovId, string>)
  {
    forall k :: k in sigs ==> k in sigs' && sigs'[k] == sigs[k]
  }

  // ---------------------------------------------------------------------------
  // The design without instrumentation: probes removed, coverage attributes cleared.
  // Every tagging and injection pass leaves this view unchanged.
  // ---------------------------------------------------------------------------

  function StripList(ss: seq<Stmt>): seq<Stmt>
    decreases ss
  {
    if ss == [] then []
    else (if ss[0].Probe? then [] else [StripStmt(ss[0])]) + StripList(ss[1..])
  }

  function StripStmt(s: Stmt): Stmt
    decreases s
  {
    match s
    case Assign(lhs, rhs, loc, _) => Assign(lhs, rhs, loc, Unmarked)
    case Switch(test, cases, loc, _, _, _) => Switch(test, StripCases(cases), loc, Unmarked, [], [])
    case Formal(kind, cond, loc, _) => Formal(kind, cond, loc, None)
    case Probe(_, _) => s
  }

  function StripCases(cs: seq<Case>): seq<Case>
    decreases cs
  {
    if cs == [] then [] else [StripCase(cs[0])] + StripCases(cs[1..])
  }

  function StripCase(c: Case): Case
    decreases c
  {
    Case(c.patterns, StmtList(c.body.key, StripList(c.body.stmts)), c.loc)
  }

  /** The stripped view of a fragment: domain names with their stripped lists, and the subfragments'. */
  datatype Shape = Shape(domains: seq<(string, seq<Stmt>)>, subs: seq<(Name, Shape)>)

  function StripFragment(f: Fragment): Shape
    decreases f
  {
    Shape(StripDomains(f.domains), StripSubs(f.subs))
  }

  function StripDomains(ds: seq<Domain>): seq<(string, seq<Stmt>)>
  {
    if ds == [] then [] else [(ds[0].name, StripList(ds[0].list.stmts))] + StripDomains(ds[1..])
  }

  function StripSubs(subs: seq<Sub>): seq<(Name, Shape)>
    decreases subs
  {
    if subs == [] then [] else [StripSub(subs[0])] + StripSubs(subs[1..])
  }

  function StripSub(s: Sub): (Name, Shape)
    decreases s
  {
    (s.name, StripFragment(s.frag))
  }

  lemma {:induction false} StripListAppend(a: seq<Stmt>, b: seq<Stmt>)
    ensures StripList(a + b) == StripList(a) + StripList(b)
    decreases |a|
  {
    if a != [] {
      assert (a + b)[1..] == a[1..] + b;
      StripListAppend(a[1..], b);
    } else {
      assert a + b == b;
    }
  }

  lemma StripListCons(s: Stmt, rest: seq<Stmt>)
    ensures StripList([s] + rest) == (if s.Probe? then [] else [StripStmt(s)]) + StripList(rest)
  {
    assert ([s] + rest)[1..] == rest;
  }

  /** Replacing the head and the tail of a list by ones that strip the same keeps
      the stripped list. */
  lemma StripListStep(s: Stmt, rest: seq<Stmt>, s': Stmt, rest': seq<Stmt>)
    requires s'.Probe? == s.Probe? && StripStmt(s') == StripStmt(s) && StripList(rest') == StripList(rest)
    ensures StripList([s'] + rest') == StripList([s] + rest)
  {
    StripListCons(s', rest');
    StripListCons(s, rest);
  }

  lemma StripListProbe(sig: string, v: Value, rest: seq<Stmt>)
    ensures StripList([Probe(sig, v)] + rest) == StripList(rest)
  {
    StripListCons(Probe(sig, v), rest);
  }
}

=== FILE: expr_coverage.dfy ===
/** The expression facet's tagger (tests/test_utils.py:689-747): the match
    conditions `_boolean_exprs_from_switch` builds for a Switch, and
    `tag_all_expressions`, which numbers the one-bit subexpressions of every
    top-level assignment and the match conditions of every top-level Switch. */
module ExpressionCoverage {
  import opened Wrappers
  import opened Design
  import opened CoverageNaming
  import opened ExpressionWalk
  import opened StatementCoverage

  /** How a Switch's match conditions reach the injector. `Rebuilt` is the code as written:
      `_boolean_exprs_from_switch` builds new condition objects on every call, so
      the ids the tagger sets on them are lost with them. `Kept` records those ids
      on the Switch (its `condIds`), so the injector finds them. */
  datatype CondMode = Rebuilt | Kept

  /** One `(role, expr, patterns)` triple: a case's match test, or the default's
      negated union of them all. */
  datatype Cond = Cond(role: string, value: Value, patterns: Option<seq<string>>)

  /** A case with an empty pattern tuple leaves `eqs` empty and `eqs[0]` raises. */
  const EmptyPatterns := "IndexError: list index out of range"

  /** `_boolean_exprs_from_switch`. */
  function SwitchConds(test: Option<Expr>, cases: seq<Case>): Result<seq<Cond>>
  {
    if test.None? then Ok([]) else CaseConds(test.value, cases, [])
  }

  /** The conditions of the remaining cases, `matched` holding the pattern tuples
      already folded into `any_match`. */
  function CaseConds(t: Expr, cases: seq<Case>, matched: seq<seq<string>>): Result<seq<Cond>>
    decreases |cases|
  {
    if cases == [] then
      Ok(if matched == [] then [] else [Cond("default", Inverted(AnyMatch(t, matched)), None)])
    else if cases[0].patterns.None? then CaseConds(t, cases[1..], matched)
    else if cases[0].patterns.value == [] then Err(EmptyPatterns)
    else
      var ps := cases[0].patterns.value;
      Prepend([Cond("case", CaseMatch(t, ps), Some(ps))], CaseConds(t, cases[1..], matched + [ps]))
  }

  function Prepend<T>(done: seq<T>, r: Result<seq<T>>): Result<seq<T>>
  {
    if r.Ok? then Ok(done + r.value) else r
  }

  /** The pattern tuples of the cases that are not the default, in order. */
  function Explicit(cases: seq<Case>): seq<seq<string>>
  {
    if cases == [] then []
    else (if cases[0].patterns.Some? then [cases[0].patterns.value] else []) + Explicit(cases[1..])
  }

  /** Some case has an empty pattern tuple. */
  ghost predicate Malformed(cases: seq<Case>)
  {
    exists i :: 0 <= i < |cases| && cases[i].patterns == Some([])
  }

  lemma MalformedCons(cases: seq<Case>)
    requires cases != []
    ensures Malformed(cases) <==> cases[0].patterns == Some([]) || Malformed(cases[1..])
  {
    if Malformed(cases[1..]) {
      var i :| 0 <= i < |cases[1..]| && cases[1..][i].patterns == Some([]);
      assert cases[i + 1] == cases[1..][i];
    }
    if Malformed(cases) && cases[0].patterns != Some([]) {
      var i :| 0 <= i < |cases| && cases[i].patterns == Some([]);
      assert cases[1..][i - 1] == cases[i];
    }
  }

  /** The fold fails exactly on a case with no patterns. Otherwise it yields one
      "case" condition per non-default case, in order, followed by a single
      "default" condition negating the union of all pattern tuples, present
      exactly when there is at least one. */
  lemma {:induction false} CaseCondsShape(t: Expr, cases: seq<Case>, matched: seq<seq<string>>)
    ensures CaseConds(t, cases, matched).Ok? <==> !Malformed(cases)
    ensures CaseConds(t, cases, matched).Ok? ==>
      var cs := CaseConds(t, cases, matched).value;
      var e := Explicit(cases);
      && |cs| == |e| + (if matched + e == [] then 0 else 1)
      && (forall j :: 0 <= j < |e| ==> cs[j] == Cond("case", CaseMatch(t, e[j]), Some(e[j])))
      && (matched + e != [] ==> cs[|e|] == Cond("default", Inverted(AnyMatch(t, matched + e)), None))
    decreases |cases|
  {
    if cases == [] {
      assert matched + [] == matched;
    } else {
      MalformedCons(cases);
      var rest := cases[1..];
      var e := Explicit(cases);
      if cases[0].patterns.None? {
        CaseCondsShape(t, rest, matched);
        assert e == Explicit(rest);
      } else if cases[0].patterns.value != [] {
        var ps := cases[0].patterns.value;
        CaseCondsShape(t, rest, matched + [ps]);
        assert e == [ps] + Explicit(rest);
        assert (matched + [ps]) + Explicit(rest) == matched + e;
      }
    }
  }

  /** Without a test there is nothing; with one, the conditions are as the fold
      gives them, starting from no matched patterns. */
  lemma SwitchCondsShape(test: Option<Expr>, cases: seq<Case>)
    ensures test.None? ==> SwitchConds(test, cases) == Ok([])
    ensures test.Some? ==> (SwitchConds(test, cases).Ok? <==> !Malformed(cases))
    ensures test.Some? && SwitchConds(test, cases).Ok? ==>
      var cs := SwitchConds(test, cases).value;
      var e := Explicit(cases);
      && |cs| == |e| + (if e == [] then 0 else 1)
      && (forall j :: 0 <= j < |e| ==> cs[j] == Cond("case", CaseMatch(test.value, e[j]), Some(e[j])))
      && (e != [] ==> cs[|e|] == Cond("default", Inverted(AnyMatch(test.value, e)), None))
  {
    if test.Some? {
      CaseCondsShape(test.value, cases, []);
      assert [] + Explicit(cases) == Explicit(cases);
    }
  }

  lemma CaseCondsStep(t: Expr, cases: seq<Case>, i: nat, matched: seq<seq<string>>, out: seq<Cond>)
    requires i < |cases|
    ensures var ps := cases[i].patterns;
      Prepend(out, CaseConds(t, cases[i..], matched))
        == if ps.None? then Prepend(out, CaseConds(t, cases[i + 1..], matched))
           else if ps.value == [] then Err(EmptyPatterns)
           else Prepend(out + [Cond("case", CaseMatch(t, ps.value), Some(ps.value))],
                        CaseConds(t, cases[i + 1..], matched + [ps.value]))
  {
    assert cases[i..][1..] == cases[i + 1..];
    var ps := cases[i].patterns;
    if ps.Some? && ps.value != [] {
      var c := Cond("case", CaseMatch(t, ps.value), Some(ps.value));
      var r := CaseConds(t, cases[i + 1..], matched + [ps.value]);
      if r.Ok? {
        assert out + ([c] + r.value) == (out + [c]) + r.value;
      }
    }
  }

  /** The loop of `_boolean_exprs_from_switch` over the cases, accumulating `any_match`. */
  method BooleanExprsFromSwitch(test: Option<Expr>, cases: seq<Case>) returns (r: Result<seq<Cond>>)
    ensures r == SwitchConds(test, cases)
  {
    if test.None? {
      return Ok([]);
    }
    var t := test.value;
    var out: seq<Cond> := [];
    var matched: seq<seq<string>> := [];
    assert cases[0..] == cases;
    ghost var whole := CaseConds(t, cases, []);
    assert whole.Ok? ==> out + whole.value == whole.value;
    for i := 0 to |cases|
      invariant SwitchConds(test, cases) == Prepend(out, CaseConds(t, cases[i..], matched))
    {
      CaseCondsStep(t, cases, i, matched, out);
      var ps := cases[i].patterns;
      if ps.Some? {
        if ps.value == [] {
          return Err(EmptyPatterns);
        }
        out := out + [Cond("case", CaseMatch(t, ps.value), Some(ps.value))];
        matched := matched + [ps.value];
      }
    }
    if matched != [] {
      out := out + [Cond("default", Inverted(AnyMatch(t, matched)), None)];
    } else {
      assert out + [] == out;
    }
    return Ok(out);
  }

  // ---------------------------------------------------------------------------
  // tag_all_expressions
  // ---------------------------------------------------------------------------

  /** The record name of a subexpression: "<loc> | <domain>:expr(<expr>)". */
  function ExprName(src: string, domain: string, e: Expr): string
  {
    src + " | " + domain + ":expr(" + e.name + ")"
  }

  /** The record name of a match condition: "<loc> | <domain>:switch_<role>(<patterns>)". */
  function CondName(src: string, domain: string, c: Cond): string
  {
    src + " | " + domain + ":switch_" + c.role + "(" + PatternsText(c.patterns) + ")"
  }

  /** A tagging pass's result: the tree, the `_expr_coverage_id` of each expression
      object (keyed by identity), the next serial and the records made, in order. */
  datatype Numbering<T> = Numbering(tree: T, known: map<nat, CovId>, next: nat, entries: seq<Entry>)

  /** Ids once set on an expression object are never replaced. */
  ghost predicate Keeps(known: map<nat, CovId>, known': map<nat, CovId>)
  {
    forall k :: k in known ==> k in known' && known'[k] == known[k]
  }

  /** The walked subexpressions of one assignment: those already carrying an id are
      skipped, each other one gets the next serial. */
  function TagWalked(es: seq<Expr>, src: string, path: Path, domain: string,
                     known: map<nat, CovId>, n: nat): (r: Numbering<()>)
    ensures r.next == n + |r.entries|
    decreases |es|
  {
    if es == [] then Numbering((), known, n, [])
    else if es[0].node in known then TagWalked(es[1..], src, path, domain, known, n)
    else
      var id := CovId(path, domain, n);
      var t := TagWalked(es[1..], src, path, domain, known[es[0].node := id], n + 1);
      Numbering((), t.known, t.next, [Entry(id, Descriptor(ExprName(src, domain, es[0]), "expr"))] + t.entries)
  }

  /** The records of a Switch's conditions, numbered from `n`. */
  function CondEntries(cs: seq<Cond>, src: string, path: Path, domain: string, n: nat): (r: seq<Entry>)
    ensures |r| == |cs| && Numbered(r, n) && AllAt(r, path, domain)
  {
    seq(|cs|, j requires 0 <= j < |cs| =>
      Entry(CovId(path, domain, n + j), Descriptor(CondName(src, domain, cs[j]), "expr")))
  }

  /** One top-level statement: an Assign numbers its walked subexpressions; a
      Switch numbers its conditions (and, when they are kept, records their ids on
      it, skipping a Switch that has them already); anything else is left alone. */
  function TagExprStmt(s: Stmt, path: Path, domain: string, mode: CondMode,
                       known: map<nat, CovId>, n: nat): (r: Result<Numbering<Stmt>>)
    ensures r.Ok? ==> r.value.next == n + |r.value.entries|
  {
    match s
    case Assign(_, rhs, loc, _) =>
      var w := TagWalked(BoolSubexprs(rhs), ShortLoc(loc), path, domain, known, n);
      Ok(Numbering(s, w.known, w.next, w.entries))
    case Switch(test, cases, loc, mark, caseIds, condIds) =>
      if mode == Kept && condIds != [] then Ok(Numbering(s, known, n, []))
      else
        var cs := SwitchConds(test, cases);
        if cs.Err? then Err(cs.msg)
        else
          var es := CondEntries(cs.value, ShortLoc(loc), path, domain, n);
          var t := if mode == Kept then Switch(test, cases, loc, mark, caseIds, EntryIds(es)) else s;
          Ok(Numbering(t, known, n + |es|, es))
    case _ => Ok(Numbering(s, known, n, []))
  }

  /** A domain's top-level statements in order; case bodies are not entered. */
  function TagExprList(ss: seq<Stmt>, path: Path, domain: string, mode: CondMode,
                       known: map<nat, CovId>, n: nat): (r: Result<Numbering<seq<Stmt>>>)
    ensures r.Ok? ==> |r.value.tree| == |ss| && r.value.next == n + |r.value.entries|
    decreases |ss|
  {
    if ss == [] then Ok(Numbering([], known, n, []))
    else
      var h := TagExprStmt(ss[0], path, domain, mode, known, n);
      if h.Err? then Err(h.msg)
      else
        var t := TagExprList(ss[1..], path, domain, mode, h.value.known, h.value.next);
        if t.Err? then Err(t.msg)
        else Ok(Numbering([h.value.tree] + t.value.tree, t.value.known, t.value.next, h.value.entries + t.value.entries))
  }

  function TagExprFragment(f: Fragment, path: Path, mode: CondMode,
                           known: map<nat, CovId>, n: nat): (r: Result<Numbering<Fragment>>)
    ensures r.Ok? ==> r.value.next == n + |r.value.entries|
    decreases f
  {
    var ds := TagExprDomains(f.domains, path, mode, known, n);
    if ds.Err? then Err(ds.msg)
    else
      var ss := TagExprSubs(f.subs, path, mode, ds.value.known, ds.value.next);
      if ss.Err? then Err(ss.msg)
      else Ok(Numbering(Fragment(ds.value.tree, ss.value.tree), ss.value.known, ss.value.next,
                        ds.value.entries + ss.value.entries))
  }

  function TagExprDomains(ds: seq<Domain>, path: Path, mode: CondMode,
                          known: map<nat, CovId>, n: nat): (r: Result<Numbering<seq<Domain>>>)
    ensures r.Ok? ==> |r.value.tree| == |ds| && r.value.next == n + |r.value.entries|
    decreases ds
  {
    if ds == [] then Ok(Numbering([], known, n, []))
    else
      var h := TagExprList(ds[0].list.stmts, path, ds[0].name, mode, known, n);
      if h.Err? then Err(h.msg)
      else
        var t := TagExprDomains(ds[1..], path, mode, h.value.known, h.value.next);
        if t.Err? then Err(t.msg)
        else Ok(Numbering([Domain(ds[0].name, StmtList(ds[0].list.key, h.value.tree))] + t.value.tree,
                          t.value.known, t.value.next, h.value.entries + t.value.entries))
  }

  function TagExprSubs(subs: seq<Sub>, path: Path, mode: CondMode,
                       known: map<nat, CovId>, n: nat): (r: Result<Numbering<seq<Sub>>>)
    ensures r.Ok? ==> |r.value.tree| == |subs| && r.value.next == n + |r.value.entries|
    decreases subs
  {
    if subs == [] then Ok(Numbering([], known, n, []))
    else
      var h := TagExprSub(subs[0], path, mode, known, n);
      if h.Err? then Err(h.msg)
      else
        var t := TagExprSubs(subs[1..], path, mode, h.value.known, h.value.next);
        if t.Err? then Err(t.msg)
        else Ok(Numbering([h.value.tree] + t.value.tree, t.value.known, t.value.next, h.value.entries + t.value.entries))
  }

  /** A subfragment is tagged under `parent_path + (name,)`. */
  function TagExprSub(s: Sub, path: Path, mode: CondMode,
                      known: map<nat, CovId>, n: nat): (r: Result<Numbering<Sub>>)
    ensures r.Ok? ==> r.value.next == n + |r.value.entries|
    decreases s
  {
    var t := TagExprFragment(s.frag, path + [s.name], mode, known, n);
    if t.Err? then Err(t.msg) else Ok(Numbering(Sub(s.name, t.value.tree), t.value.known, t.value.next, t.value.entries))
  }

  // ---------------------------------------------------------------------------
  // What a successful tagging pass guarantees.
  // ---------------------------------------------------------------------------

  /** Each new record takes the next serial under the assignment's path and
      domain, and ids already set on expression objects stay as they were. */
  lemma {:induction false} TagWalkedNumbered(es: seq<Expr>, src: string, path: Path, domain: string,
                                             known: map<nat, CovId>, n: nat)
    ensures var r := TagWalked(es, src, path, domain, known, n);
      Numbered(r.entries, n) && AllAt(r.entries, path, domain) && Keeps(known, r.known)
    decreases |es|
  {
    if es != [] {
      if es[0].node in known {
        TagWalkedNumbered(es[1..], src, path, domain, known, n);
      } else {
        var id := CovId(path, domain, n);
        var t := TagWalked(es[1..], src, path, domain, known[es[0].node := id], n + 1);
        TagWalkedNumbered(es[1..], src, path, domain, known[es[0].node := id], n + 1);
        NumberedAppend([Entry(id, Descriptor(ExprName(src, domain, es[0]), "expr"))], t.entries, n);
      }
    }
  }

  lemma TagExprStmtNumbered(s: Stmt, path: Path, domain: string, mode: CondMode, known: map<nat, CovId>, n: nat)
    ensures var r := TagExprStmt(s, path, domain, mode, known, n);
      r.Ok? ==> Numbered(r.value.entries, n) && AllAt(r.value.entries, path, domain) && Keeps(known, r.value.known)
  {
    if s.Assign? {
      TagWalkedNumbered(BoolSubexprs(s.rhs), ShortLoc(s.loc), path, domain, known, n);
    }
  }

  /** The records of a domain's list carry consecutive serials from `n`, under
      the fragment's path and the domain. */
  lemma {:induction false} TagExprListNumbered(ss: seq<Stmt>, path: Path, domain: string, mode: CondMode,
                                               known: map<nat, CovId>, n: nat)
    ensures var r := TagExprList(ss, path, domain, mode, known, n);
      r.Ok? ==> Numbered(r.value.entries, n) && AllAt(r.value.entries, path, domain) && Keeps(known, r.value.known)
    decreases |ss|
  {
    if ss != [] {
      var h := TagExprStmt(ss[0], path, domain, mode, known, n);
      TagExprStmtNumbered(ss[0], path, domain, mode, known, n);
      if h.Ok? {
        var t := TagExprList(ss[1..], path, domain, mode, h.value.known, h.value.next);
        TagExprListNumbered(ss[1..], path, domain, mode, h.value.known, h.value.next);
        if t.Ok? {
          NumberedAppend(h.value.entries, t.value.entries, n);
          var es := h.value.entries + t.value.entries;
          forall i | 0 <= i < |es|
            ensures es[i].id.path == path && es[i].id.domain == domain
          {
            if i >= |h.value.entries| {
              assert es[i] == t.value.entries[i - |h.value.entries|];
            }
          }
        }
      }
    }
  }

  /** The records of a fragment carry consecutive serials from `n`, all under the
      fragment's path, and no id set on an expression object is replaced. */
  lemma {:induction false} TagExprFragmentNumbered(f: Fragment, path: Path, mode: CondMode,
                                                   known: map<nat, CovId>, n: nat)
    ensures var r := TagExprFragment(f, path, mode, known, n);
      r.Ok? ==> Numbered(r.value.entries, n) && AllUnder(r.value.entries, path) && Keeps(known, r.value.known)
    decreases f
  {
    var ds := TagExprDomains(f.domains, path, mode, known, n);
    TagExprDomainsNumbered(f.domains, path, mode, known, n);
    if ds.Ok? {
      var ss := TagExprSubs(f.subs, path, mode, ds.value.known, ds.value.next);
      TagExprSubsNumbered(f.subs, path, mode, ds.value.known, ds.value.next);
      if ss.Ok? {
        NumberedAppend(ds.value.entries, ss.value.entries, n);
        var es := ds.value.entries + ss.value.entries;
        forall i | 0 <= i < |es|
          ensures path <= es[i].id.path
        {
          if i >= |ds.value.entries| {
            assert es[i] == ss.value.entries[i - |ds.value.entries|];
          }
        }
      }
    }
  }

  lemma {:induction false} TagExprDomainsNumbered(ds: seq<Domain>, path: Path, mode: CondMode,
                                                  known: map<nat, CovId>, n: nat)
    ensures var r := TagExprDomains(ds, path, mode, known, n);
      r.Ok? ==> (Numbered(r.value.entries, n) && Keeps(known, r.value.known)
                 && forall i :: 0 <= i < |r.value.entries| ==> r.value.entries[i].id.path == path)
    decreases ds
  {
    if ds != [] {
      var h := TagExprList(ds[0].list.stmts, path, ds[0].name, mode, known, n);
      TagExprListNumbered(ds[0].list.stmts, path, ds[0].name, mode, known, n);
      if h.Ok? {
        var t := TagExprDomains(ds[1..], path, mode, h.value.known, h.value.next);
        TagExprDomainsNumbered(ds[1..], path, mode, h.value.known, h.value.next);
        if t.Ok? {
          var es := h.value.entries + t.value.entries;
          assert TagExprDomains(ds, path, mode, known, n).value.entries == es;
          assert TagExprDomains(ds, path, mode, known, n).value.known == t.value.known;
          NumberedAppend(h.value.entries, t.value.entries, n);
          KeepsTrans(known, h.value.known, t.value.known);
          forall i | 0 <= i < |es|
            ensures es[i].id.path == path
          {
            if i >= |h.value.entries| {
              assert es[i] == t.value.entries[i - |h.value.entries|];
            }
          }
        }
      }
    }
  }

  lemma KeepsTrans(a: map<nat, CovId>, b: map<nat, CovId>, c: map<nat, CovId>)
    requires Keeps(a, b) && Keeps(b, c)
    ensures Keeps(a, c)
  {
  }

  lemma {:induction false} TagExprSubsNumbered(subs: seq<Sub>, path: Path, mode: CondMode,
                                               known: map<nat, CovId>, n: nat)
    ensures var r := TagExprSubs(subs, path, mode, known, n);
      r.Ok? ==> Numbered(r.value.entries, n) && AllUnder(r.value.entries, path) && Keeps(known, r.value.known)
    decreases subs
  {
    if subs != [] {
      var h := TagExprSub(subs[0], path, mode, known, n);
      TagExprSubNumbered(subs[0], path, mode, known, n);
      if h.Ok? {
        var t := TagExprSubs(subs[1..], path, mode, h.value.known, h.value.next);
        TagExprSubsNumbered(subs[1..], path, mode, h.value.known, h.value.next);
        if t.Ok? {
          NumberedAppend(h.value.entries, t.value.entries, n);
          var es := h.value.entries + t.value.entries;
          forall i | 0 <= i < |es|
            ensures path <= es[i].id.path
          {
            if i >= |h.value.entries| {
              assert es[i] == t.value.entries[i - |h.value.entries|];
            } else {
              assert path + [subs[0].name] <= es[i].id.path;
            }
          }
        }
      }
    }
  }

  /** A subfragment's records lie under `parent_path + (name,)`. */
  lemma {:induction false} TagExprSubNumbered(s: Sub, path: Path, mode: CondMode, known: map<nat, CovId>, n: nat)
    ensures var r := TagExprSub(s, path, mode, known, n);
      r.Ok? ==> Numbered(r.value.entries, n) && AllUnder(r.value.entries, path + [s.name]) && Keeps(known, r.value.known)
    decreases s
  {
    TagExprFragmentNumbered(s.frag, path + [s.name], mode, known, n);
  }

  /** Tagging changes no statement of the design: as written, the tree is
      left exactly as it was; with kept conditions only a Switch's `condIds`
      change. */
  lemma {:induction false} TagExprListStrip(ss: seq<Stmt>, path: Path, domain: string, mode: CondMode,
                                            known: map<nat, CovId>, n: nat)
    ensures var r := TagExprList(ss, path, domain, mode, known, n);
      r.Ok? ==> StripList(r.value.tree) == StripList(ss) && (mode == Rebuilt ==> r.value.tree == ss)
    decreases |ss|
  {
    if ss != [] {
      var h := TagExprStmt(ss[0], path, domain, mode, known, n);
      if h.Ok? {
        var t := TagExprList(ss[1..], path, domain, mode, h.value.known, h.value.next);
        TagExprListStrip(ss[1..], path, domain, mode, h.value.known, h.value.next);
        if t.Ok? {
          TagExprStmtStrip(ss[0], path, domain, mode, known, n);
          StripListStep(ss[0], ss[1..], h.value.tree, t.value.tree);
          assert [ss[0]] + ss[1..] == ss;
        }
      }
    }
  }

  /** One statement: tagging changes at most a Switch's `condIds`, and with rebuilt
      conditions nothing. */
  lemma TagExprStmtStrip(s: Stmt, path: Path, domain: string, mode: CondMode, known: map<nat, CovId>, n: nat)
    ensures var r := TagExprStmt(s, path, domain, mode, known, n);
      r.Ok? ==> r.value.tree.Probe? == s.Probe? && StripStmt(r.value.tree) == StripStmt(s)
                && (mode == Rebuilt ==> r.value.tree == s)
  {
  }

  lemma {:induction false} TagExprFragmentStrip(f: Fragment, path: Path, mode: CondMode,
                                                known: map<nat, CovId>, n: nat)
    ensures var r := TagExprFragment(f, path, mode, known, n);
      r.Ok? ==> StripFragment(r.value.tree) == StripFragment(f) && (mode == Rebuilt ==> r.value.tree == f)
    decreases f
  {
    var ds := TagExprDomains(f.domains, path, mode, known, n);
    TagExprDomainsStrip(f.domains, path, mode, known, n);
    if ds.Ok? {
      TagExprSubsStrip(f.subs, path, mode, ds.value.known, ds.value.next);
    }
  }

  lemma {:induction false} TagExprDomainsStrip(ds: seq<Domain>, path: Path, mode: CondMode,
                                               known: map<nat, CovId>, n: nat)
    ensures var r := TagExprDomains(ds, path, mode, known, n);
      r.Ok? ==> StripDomains(r.value.tree) == StripDomains(ds) && (mode == Rebuilt ==> r.value.tree == ds)
    decreases ds
  {
    if ds != [] {
      var h := TagExprList(ds[0].list.stmts, path, ds[0].name, mode, known, n);
      TagExprListStrip(ds[0].list.stmts, path, ds[0].name, mode, known, n);
      if h.Ok? {
        var t := TagExprDomains(ds[1..], path, mode, h.value.known, h.value.next);
        TagExprDomainsStrip(ds[1..], path, mode, h.value.known, h.value.next);
        if t.Ok? {
          var head := Domain(ds[0].name, StmtList(ds[0].list.key, h.value.tree));
          assert TagExprDomains(ds, path, mode, known, n).value.tree == [head] + t.value.tree;
          assert ds == [ds[0]] + ds[1..];
          StripDomainsStep(ds[0], ds[1..], h.value.tree, t.value.tree);
          if mode == Rebuilt {
            assert head == ds[0];
          }
        }
      }
    }
  }

  /** A domain whose list strips the same, ahead of domains that strip the same. */
  lemma StripDomainsStep(d: Domain, rest: seq<Domain>, stmts: seq<Stmt>, tree: seq<Domain>)
    requires StripList(stmts) == StripList(d.list.stmts) && StripDomains(tree) == StripDomains(rest)
    ensures StripDomains([Domain(d.name, StmtList(d.list.key, stmts))] + tree) == StripDomains([d] + rest)
  {
    StripDomainsCons(Domain(d.name, StmtList(d.list.key, stmts)), tree);
    StripDomainsCons(d, rest);
  }

  lemma StripDomainsCons(d: Domain, rest: seq<Domain>)
    ensures StripDomains([d] + rest) == [(d.name, StripList(d.list.stmts))] + StripDomains(rest)
  {
    assert ([d] + rest)[1..] == rest;
  }

  lemma {:induction false} TagExprSubsStrip(subs: seq<Sub>, path: Path, mode: CondMode,
                                            known: map<nat, CovId>, n: nat)
    ensures var r := TagExprSubs(subs, path, mode, known, n);
      r.Ok? ==> StripSubs(r.value.tree) == StripSubs(subs) && (mode == Rebuilt ==> r.value.tree == subs)
    decreases subs
  {
    if subs != [] {
      var h := TagExprSub(subs[0], path, mode, known, n);
      TagExprSubStrip(subs[0], path, mode, known, n);
      if h.Ok? {
        TagExprSubsStrip(subs[1..], path, mode, h.value.known, h.value.next);
        assert subs == [subs[0]] + subs[1..];
      }
    }
  }

  lemma {:induction false} TagExprSubStrip(s: Sub, path: Path, mode: CondMode, known: map<nat, CovId>, n: nat)
    ensures var r := TagExprSub(s, path, mode, known, n);
      r.Ok? ==> StripSub(r.value.tree) == StripSub(s) && (mode == Rebuilt ==> r.value.tree == s)
    decreases s
  {
    TagExprFragmentStrip(s.frag, path + [s.name], mode, known, n);
  }

  /** A top-level statement on which the tagger raises: a Switch with a test and a
      case whose pattern tuple is empty (unless its kept ids make it skip). */
  ghost predicate Fails(s: Stmt, mode: CondMode)
  {
    s.Switch? && s.test.Some? && Malformed(s.cases) && !(mode == Kept && s.condIds != [])
  }

  ghost predicate AnyFails(ss: seq<Stmt>, mode: CondMode)
  {
    exists i :: 0 <= i < |ss| && Fails(ss[i], mode)
  }

  lemma TagExprStmtFails(s: Stmt, path: Path, domain: string, mode: CondMode, known: map<nat, CovId>, n: nat)
    ensures TagExprStmt(s, path, domain, mode, known, n).Err? <==> Fails(s, mode)
  {
    if s.Switch? {
      SwitchCondsShape(s.test, s.cases);
    }
  }

  /** A domain's list fails exactly when one of its top-level statements does; the
      statements nested in case bodies are never looked at. */
  lemma {:induction false} TagExprListFails(ss: seq<Stmt>, path: Path, domain: string, mode: CondMode,
                                            known: map<nat, CovId>, n: nat)
    ensures TagExprList(ss, path, domain, mode, known, n).Err? <==> AnyFails(ss, mode)
    decreases |ss|
  {
    if ss != [] {
      var h := TagExprStmt(ss[0], path, domain, mode, known, n);
      TagExprStmtFails(ss[0], path, domain, mode, known, n);
      if h.Ok? {
        TagExprListFails(ss[1..], path, domain, mode, h.value.known, h.value.next);
        if AnyFails(ss[1..], mode) {
          var i :| 0 <= i < |ss[1..]| && Fails(ss[1..][i], mode);
          assert ss[i + 1] == ss[1..][i];
        }
        if AnyFails(ss, mode) {
          var i :| 0 <= i < |ss| && Fails(ss[i], mode);
          assert i != 0;
          assert ss[1..][i - 1] == ss[i];
        }
      }
    }
  }

  // ---------------------------------------------------------------------------
  // tag_all_expressions as written.
  // ---------------------------------------------------------------------------

  /** A result with `tree` and `es` put in front of what a fold over the rest makes. */
  function After<T>(tree: seq<T>, es: seq<Entry>, r: Result<Numbering<seq<T>>>): Result<Numbering<seq<T>>>
  {
    if r.Err? then r else Ok(Numbering(tree + r.value.tree, r.value.known, r.value.next, es + r.value.entries))
  }

  /** The walked subexpressions of one assignment, with `made` records in front. */
  function WalkedAfter(made: seq<Entry>, r: Numbering<()>): Numbering<()>
  {
    r.(entries := made + r.entries)
  }

  lemma TagWalkedStep(es: seq<Expr>, i: nat, src: string, path: Path, domain: string,
                      known: map<nat, CovId>, n: nat, made: seq<Entry>)
    requires i < |es|
    ensures var e := es[i];
      WalkedAfter(made, TagWalked(es[i..], src, path, domain, known, n))
        == if e.node in known then WalkedAfter(made, TagWalked(es[i + 1..], src, path, domain, known, n))
           else var id := CovId(path, domain, n);
             WalkedAfter(made + [Entry(id, Descriptor(ExprName(src, domain, e), "expr"))],
                         TagWalked(es[i + 1..], src, path, domain, known[e.node := id], n + 1))
  {
    assert es[i..][1..] == es[i + 1..];
    var e := es[i];
    if e.node !in known {
      var id := CovId(path, domain, n);
      var x := Entry(id, Descriptor(ExprName(src, domain, e), "expr"));
      var t := TagWalked(es[i + 1..], src, path, domain, known[e.node := id], n + 1);
      assert made + ([x] + t.entries) == (made + [x]) + t.entries;
      assert t.tree == ();
    }
  }

  /** The subexpressions of one assignment, numbered one by one; an expression
      object that already has an id is skipped. */
  method TagSubexpressions(es: seq<Expr>, src: string, path: Path, domain: string,
                           known: map<nat, CovId>, n: nat)
    returns (known': map<nat, CovId>, next: nat, made: seq<Entry>)
    ensures var r := TagWalked(es, src, path, domain, known, n);
      known' == r.known && next == r.next && made == r.entries
  {
    known', next, made := known, n, [];
    ghost var whole := TagWalked(es, src, path, domain, known, n);
    assert es[0..] == es && [] + whole.entries == whole.entries;
    for i := 0 to |es|
      invariant whole == WalkedAfter(made, TagWalked(es[i..], src, path, domain, known', next))
    {
      TagWalkedStep(es, i, src, path, domain, known', next, made);
      var e := es[i];
      if e.node !in known' {
        var id := CovId(path, domain, next);
        known' := known'[e.node := id];
        made := made + [Entry(id, Descriptor(ExprName(src, domain, e), "expr"))];
        next := next + 1;
      }
    }
    assert es[|es|..] == [] && made + [] == made;
  }

  /** The records of a Switch's conditions, one per condition in order. */
  method NumberConds(cs: seq<Cond>, src: string, path: Path, domain: string, n: nat)
    returns (es: seq<Entry>)
    ensures es == CondEntries(cs, src, path, domain, n)
  {
    ghost var ce := CondEntries(cs, src, path, domain, n);
    es := [];
    for j := 0 to |cs|
      invariant es == ce[..j]
    {
      assert ce[..j + 1] == ce[..j] + [ce[j]];
      es := es + [Entry(CovId(path, domain, n + j), Descriptor(CondName(src, domain, cs[j]), "expr"))];
    }
    assert ce[..|cs|] == ce;
  }

  /** One top-level statement of a domain. */
  method TagExpressionStmt(s: Stmt, path: Path, domain: string, mode: CondMode,
                           known: map<nat, CovId>, n: nat)
    returns (r: Result<Numbering<Stmt>>)
    ensures r == TagExprStmt(s, path, domain, mode, known, n)
  {
    match s {
      case Assign(_, rhs, loc, _) =>
        var es := BooleanSubexpressions(rhs);
        var known', next, made := TagSubexpressions(es, ShortLoc(loc), path, domain, known, n);
        r := Ok(Numbering(s, known', next, made));
      case Switch(test, cases, loc, mark, caseIds, condIds) =>
        if mode == Kept && condIds != [] {
          return Ok(Numbering(s, known, n, []));
        }
        var cs := BooleanExprsFromSwitch(test, cases);
        if cs.Err? {
          return Err(cs.msg);
        }
        var es := NumberConds(cs.value, ShortLoc(loc), path, domain, n);
        var t := if mode == Kept then Switch(test, cases, loc, mark, caseIds, EntryIds(es)) else s;
        r := Ok(Numbering(t, known, n + |es|, es));
      case _ =>
        r := Ok(Numbering(s, known, n, []));
    }
  }

  lemma TagExprListStep(ss: seq<Stmt>, i: nat, path: Path, domain: string, mode: CondMode,
                        known: map<nat, CovId>, n: nat, out: seq<Stmt>, es: seq<Entry>)
    requires i < |ss|
    ensures var h := TagExprStmt(ss[i], path, domain, mode, known, n);
      After(out, es, TagExprList(ss[i..], path, domain, mode, known, n))
        == if h.Err? then Err(h.msg)
           else After(out + [h.value.tree], es + h.value.entries,
                      TagExprList(ss[i + 1..], path, domain, mode, h.value.known, h.value.next))
  {
    assert ss[i..][1..] == ss[i + 1..];
    var h := TagExprStmt(ss[i], path, domain, mode, known, n);
    if h.Ok? {
      var t := TagExprList(ss[i + 1..], path, domain, mode, h.value.known, h.value.next);
      if t.Ok? {
        FoldStep(out, h.value.tree, t.value.tree, es, h.value.entries, t.value.entries);
      }
    }
  }

  /** The top-level statements of one domain, in order. */
  method TagExpressionList(ss: seq<Stmt>, path: Path, domain: string, mode: CondMode,
                           known: map<nat, CovId>, n: nat)
    returns (r: Result<Numbering<seq<Stmt>>>)
    ensures r == TagExprList(ss, path, domain, mode, known, n)
  {
    var out: seq<Stmt>, es: seq<Entry>, known', next := [], [], known, n;
    ghost var whole := TagExprList(ss, path, domain, mode, known, n);
    assert ss[0..] == ss;
    assert whole.Ok? ==> out + whole.value.tree == whole.value.tree && es + whole.value.entries == whole.value.entries;
    for i := 0 to |ss|
      invariant whole == After(out, es, TagExprList(ss[i..], path, domain, mode, known', next))
    {
      TagExprListStep(ss, i, path, domain, mode, known', next, out, es);
      var h := TagExpressionStmt(ss[i], path, domain, mode, known', next);
      if h.Err? {
        return Err(h.msg);
      }
      out, es, known', next := out + [h.value.tree], es + h.value.entries, h.value.known, h.value.next;
    }
    assert ss[|ss|..] == [] && out + [] == out && es + [] == es;
    r := Ok(Numbering(out, known', next, es));
  }

  lemma TagExprDomainsStep(ds: seq<Domain>, i: nat, path: Path, mode: CondMode,
                           known: map<nat, CovId>, n: nat, out: seq<Domain>, es: seq<Entry>)
    requires i < |ds|
    ensures var d := ds[i];
      var h := TagExprList(d.list.stmts, path, d.name, mode, known, n);
      After(out, es, TagExprDomains(ds[i..], path, mode, known, n))
        == if h.Err? then Err(h.msg)
           else After(out + [Domain(d.name, StmtList(d.list.key, h.value.tree))], es + h.value.entries,
                      TagExprDomains(ds[i + 1..], path, mode, h.value.known, h.value.next))
  {
    assert ds[i..][1..] == ds[i + 1..];
    var d := ds[i];
    var h := TagExprList(d.list.stmts, path, d.name, mode, known, n);
    if h.Ok? {
      var t := TagExprDomains(ds[i + 1..], path, mode, h.value.known, h.value.next);
      if t.Ok? {
        FoldStep(out, Domain(d.name, StmtList(d.list.key, h.value.tree)), t.value.tree, es, h.value.entries, t.value.entries);
      }
    }
  }

  /** `for domain, stmts in fragment.statements.items()`. */
  method TagExpressionDomains(ds: seq<Domain>, path: Path, mode: CondMode, known: map<nat, CovId>, n: nat)
    returns (r: Result<Numbering<seq<Domain>>>)
    ensures r == TagExprDomains(ds, path, mode, known, n)
  {
    var out: seq<Domain>, es: seq<Entry>, known', next := [], [], known, n;
    ghost var whole := TagExprDomains(ds, path, mode, known, n);
    assert ds[0..] == ds;
    assert whole.Ok? ==> out + whole.value.tree == whole.value.tree && es + whole.value.entries == whole.value.entries;
    for i := 0 to |ds|
      invariant whole == After(out, es, TagExprDomains(ds[i..], path, mode, known', next))
    {
      TagExprDomainsStep(ds, i, path, mode, known', next, out, es);
      var d := ds[i];
      var h := TagExpressionList(d.list.stmts, path, d.name, mode, known', next);
      if h.Err? {
        return Err(h.msg);
      }
      out := out + [Domain(d.name, StmtList(d.list.key, h.value.tree))];
      es, known', next := es + h.value.entries, h.value.known, h.value.next;
    }
    assert ds[|ds|..] == [] && out + [] == out && es + [] == es;
    r := Ok(Numbering(out, known', next, es));
  }

  lemma TagExprSubsStep(subs: seq<Sub>, i: nat, path: Path, mode: CondMode,
                        known: map<nat, CovId>, n: nat, out: seq<Sub>, es: seq<Entry>)
    requires i < |subs|
    ensures var h := TagExprSub(subs[i], path, mode, known, n);
      After(out, es, TagExprSubs(subs[i..], path, mode, known, n))
        == if h.Err? then Err(h.msg)
           else After(out + [h.value.tree], es + h.value.entries,
                      TagExprSubs(subs[i + 1..], path, mode, h.value.known, h.value.next))
  {
    assert subs[i..][1..] == subs[i + 1..];
    var h := TagExprSub(subs[i], path, mode, known, n);
    if h.Ok? {
      var t := TagExprSubs(subs[i + 1..], path, mode, h.value.known, h.value.next);
      if t.Ok? {
        FoldStep(out, h.value.tree, t.value.tree, es, h.value.entries, t.value.entries);
      }
    }
  }

  /** `for subfragment, name, _ in fragment.subfragments`. */
  method TagExpressionSubs(subs: seq<Sub>, path: Path, mode: CondMode, known: map<nat, CovId>, n: nat)
    returns (r: Result<Numbering<seq<Sub>>>)
    ensures r == TagExprSubs(subs, path, mode, known, n)
    decreases subs
  {
    var out: seq<Sub>, es: seq<Entry>, known', next := [], [], known, n;
    ghost var whole := TagExprSubs(subs, path, mode, known, n);
    assert subs[0..] == subs;
    assert whole.Ok? ==> out + whole.value.tree == whole.value.tree && es + whole.value.entries == whole.value.entries;
    for i := 0 to |subs|
      invariant whole == After(out, es, TagExprSubs(subs[i..], path, mode, known', next))
    {
      TagExprSubsStep(subs, i, path, mode, known', next, out, es);
      var h := TagExpressionSub(subs[i], path, mode, known', next);
      if h.Err? {
        return Err(h.msg);
      }
      out, es, known', next := out + [h.value.tree], es + h.value.entries, h.value.known, h.value.next;
    }
    assert subs[|subs|..] == [] && out + [] == out && es + [] == es;
    r := Ok(Numbering(out, known', next, es));
  }

  /** The recursive call for one subfragment, under `parent_path + (name,)`. */
  method TagExpressionSub(s: Sub, path: Path, mode: CondMode, known: map<nat, CovId>, n: nat)
    returns (r: Result<Numbering<Sub>>)
    ensures r == TagExprSub(s, path, mode, known, n)
    decreases s
  {
    var t := TagExpressionFragment(s.frag, path + [s.name], mode, known, n);
    if t.Err? {
      return Err(t.msg);
    }
    r := Ok(Numbering(Sub(s.name, t.value.tree), t.value.known, t.value.next, t.value.entries));
  }

  /** One fragment: its domains' lists, then its subfragments. */
  method TagExpressionFragment(f: Fragment, path: Path, mode: CondMode, known: map<nat, CovId>, n: nat)
    returns (r: Result<Numbering<Fragment>>)
    ensures r == TagExprFragment(f, path, mode, known, n)
    decreases f
  {
    var ds := TagExpressionDomains(f.domains, path, mode, known, n);
    if ds.Err? {
      return Err(ds.msg);
    }
    var ss := TagExpressionSubs(f.subs, path, mode, ds.value.known, ds.value.next);
    if ss.Err? {
      return Err(ss.msg);
    }
    r := Ok(Numbering(Fragment(ds.value.tree, ss.value.tree), ss.value.known, ss.value.next,
                      ds.value.entries + ss.value.entries));
  }

  /** `tag_all_expressions(fragment, coverage_id, parent_path, exprid_to_info)`:
      tags the fragment and writes every record into the descriptor map in the
      order the walk makes them. */
  method TagAllExpressions(f: Fragment, n: nat, path: Path, mode: CondMode,
                           known: map<nat, CovId>, info: map<CovId, Descriptor>)
    returns (r: Result<(Numbering<Fragment>, map<CovId, Descriptor>)>)
    ensures var spec := TagExprFragment(f, path, mode, known, n);
      && (r.Ok? <==> spec.Ok?)
      && (r.Ok? ==> r.value.0 == spec.value && r.value.1 == Record(info, spec.value.entries))
  {
    var t := TagExpressionFragment(f, path, mode, known, n);
    if t.Err? {
      return Err(t.msg);
    }
    var es := t.value.entries;
    var info' := info;
    for k := 0 to |es|
      invariant info' == Record(info, es[..k])
    {
      assert es[..k + 1][..k] == es[..k];
      info' := info'[es[k].id := es[k].desc];
    }
    assert es[..|es|] == es;
    r := Ok((t.value, info'));
  }
}

=== FILE: expr_probes.dfy ===
/** The expression-coverage injector, `insert_expression_coverage_signals`
    (tests/test_utils.py:761-816): for every walked one-bit subexpression that
    carries an id, a pair of probes `t := e` and `f := ~e` in front of its
    statement, the signals shared per id and outcome; the same for the match
    conditions of a Switch whose ids can be found; case bodies instrumented in
    place, domain lists replaced. */
module ExpressionProbes {
  import opened Wrappers
  import opened Design
  import opened CoverageNaming
  import opened ExpressionWalk
  import opened StatementCoverage
  import opened ExpressionCoverage

  /** `coverage_signals`: `(id, "T" | "F") -> signal`, a signal known by its name. */
  type Signals = map<(CovId, string), string>

  /** What an injection pass returns: the instrumented tree and the signal map. */
  datatype Probed<T> = Probed(tree: T, signals: Signals)

  /** `_cov_name_for_expr`: `_cov_signal_name("cov", path, domain, serial, "expr", outcome)`. */
  function ExprSignalName(id: CovId, outcome: string): string
  {
    CovSignalName("cov", id.path, id.domain, id.serial, ["expr", outcome])
  }

  /** Signals once made are never replaced. */
  ghost predicate SigsGrow(sigs: Signals, sigs': Signals)
  {
    forall k :: k in sigs ==> k in sigs' && sigs'[k] == sigs[k]
  }

  /** Every signal is named after its id and outcome. */
  ghost predicate AllNamed(sigs: Signals)
  {
    forall k :: k in sigs ==> sigs[k] == ExprSignalName(k.0, k.1)
  }

  /** Both outcome signals of `id` exist. */
  ghost predicate Covers(sigs: Signals, id: CovId)
  {
    (id, "T") in sigs && (id, "F") in sigs
  }

  /** Every statement is an injected probe. */
  ghost predicate AllProbes(ss: seq<Stmt>)
  {
    forall i :: 0 <= i < |ss| ==> ss[i].Probe?
  }

  /** `coverage_signals.get((cov_id, outcome))`, made and stored when missing. */
  function SignalOf(sigs: Signals, id: CovId, outcome: string): (r: (string, Signals))
    ensures (id, outcome) in r.1 && r.1[(id, outcome)] == r.0 && SigsGrow(sigs, r.1)
    ensures r.1.Keys == sigs.Keys + {(id, outcome)}
    ensures AllNamed(sigs) ==> AllNamed(r.1)
  {
    if (id, outcome) in sigs then (sigs[(id, outcome)], sigs)
    else (ExprSignalName(id, outcome), sigs[(id, outcome) := ExprSignalName(id, outcome)])
  }

  /** The `t_sig := v`, `f_sig := ~v` pair of one id. */
  function ProbePair(v: Value, id: CovId, sigs: Signals): (r: Probed<seq<Stmt>>)
    ensures SigsGrow(sigs, r.signals) && Covers(r.signals, id) && AllProbes(r.tree)
    ensures AllNamed(sigs) ==> AllNamed(r.signals)
  {
    var t := SignalOf(sigs, id, "T");
    var f := SignalOf(t.1, id, "F");
    Probed([Probe(t.0, v), Probe(f.0, Inverted(v))], f.1)
  }

  /** The probes of an assignment's walked subexpressions: an expression object
      without an id is skipped. */
  function ProbeWalked(es: seq<Expr>, known: map<nat, CovId>, sigs: Signals): (r: Probed<seq<Stmt>>)
    ensures SigsGrow(sigs, r.signals) && AllProbes(r.tree)
    ensures AllNamed(sigs) ==> AllNamed(r.signals)
  {
    ProbeWalkedUpTo(es, |es|, known, sigs)
  }

  /** The probes of the first `m` walked subexpressions. */
  function ProbeWalkedUpTo(es: seq<Expr>, m: nat, known: map<nat, CovId>, sigs: Signals): (r: Probed<seq<Stmt>>)
    requires m <= |es|
    ensures SigsGrow(sigs, r.signals) && AllProbes(r.tree)
    ensures AllNamed(sigs) ==> AllNamed(r.signals)
  {
    if m == 0 then Probed([], sigs)
    else
      var p := ProbeWalkedUpTo(es, m - 1, known, sigs);
      if es[m - 1].node !in known then p
      else
        var h := ProbePair(Of(es[m - 1]), known[es[m - 1].node], p.signals);
        Probed(p.tree + h.tree, h.signals)
  }

  /** The probes of a Switch's conditions, condition `j` paired with `ids[j]`
      while there is one. */
  function ProbeConds(cs: seq<Cond>, ids: seq<CovId>, sigs: Signals): (r: Probed<seq<Stmt>>)
    ensures SigsGrow(sigs, r.signals) && AllProbes(r.tree)
    ensures AllNamed(sigs) ==> AllNamed(r.signals)
  {
    ProbeCondsUpTo(cs, ids, if |cs| < |ids| then |cs| else |ids|, sigs)
  }

  function ProbeCondsUpTo(cs: seq<Cond>, ids: seq<CovId>, m: nat, sigs: Signals): (r: Probed<seq<Stmt>>)
    requires m <= |cs| && m <= |ids|
    ensures SigsGrow(sigs, r.signals) && AllProbes(r.tree)
    ensures AllNamed(sigs) ==> AllNamed(r.signals)
  {
    if m == 0 then Probed([], sigs)
    else
      var p := ProbeCondsUpTo(cs, ids, m - 1, sigs);
      var h := ProbePair(cs[m - 1].value, ids[m - 1], p.signals);
      Probed(p.tree + h.tree, h.signals)
  }

  /** The ids the injector can find on a Switch's rebuilt conditions: none as
      written, the ones the tagger kept on the Switch otherwise. */
  function CondIdsSeen(s: Stmt, mode: CondMode): seq<CovId>
    requires s.Switch?
  {
    if mode == Kept then s.condIds else []
  }

  // ---------------------------------------------------------------------------
  // _inject_in_stmt_list
  // ---------------------------------------------------------------------------

  function InjectList(ss: seq<Stmt>, domain: string, mode: CondMode, known: map<nat, CovId>,
                      sigs: Signals): (r: Result<Probed<seq<Stmt>>>)
    ensures r.Ok? ==> SigsGrow(sigs, r.value.signals)
    ensures r.Ok? && AllNamed(sigs) ==> AllNamed(r.value.signals)
    decreases ss
  {
    if ss == [] then Ok(Probed([], sigs))
    else
      var h := InjectStmt(ss[0], domain, mode, known, sigs);
      if h.Err? then Err(h.msg)
      else
        var t := InjectList(ss[1..], domain, mode, known, h.value.signals);
        if t.Err? then Err(t.msg)
        else Ok(Probed(h.value.tree + t.value.tree, t.value.signals))
  }

  /** What one statement becomes: an Assign its probes then itself; a Switch the
      probes of its conditions, then itself with every case body instrumented;
      anything else itself. Rebuilding a Switch's conditions can raise. */
  function InjectStmt(s: Stmt, domain: string, mode: CondMode, known: map<nat, CovId>,
                      sigs: Signals): (r: Result<Probed<seq<Stmt>>>)
    ensures r.Ok? ==> SigsGrow(sigs, r.value.signals)
    ensures r.Ok? && AllNamed(sigs) ==> AllNamed(r.value.signals)
    decreases s
  {
    match s
    case Assign(_, rhs, _, _) =>
      var p := ProbeWalked(BoolSubexprs(rhs), known, sigs);
      Ok(Probed(p.tree + [s], p.signals))
    case Switch(test, cases, loc, mark, caseIds, condIds) =>
      var cs := SwitchConds(test, cases);
      if cs.Err? then Err(cs.msg)
      else
        var p := ProbeConds(cs.value, CondIdsSeen(s, mode), sigs);
        var c := InjectCases(cases, domain, mode, known, p.signals);
        if c.Err? then Err(c.msg)
        else Ok(Probed(p.tree + [Switch(test, c.value.tree, loc, mark, caseIds, condIds)], c.value.signals))
    case _ => Ok(Probed([s], sigs))
  }

  function InjectCases(cs: seq<Case>, domain: string, mode: CondMode, known: map<nat, CovId>,
                       sigs: Signals): (r: Result<Probed<seq<Case>>>)
    ensures r.Ok? ==> |r.value.tree| == |cs| && SigsGrow(sigs, r.value.signals)
    ensures r.Ok? && AllNamed(sigs) ==> AllNamed(r.value.signals)
    decreases cs
  {
    if cs == [] then Ok(Probed([], sigs))
    else
      var h := InjectCase(cs[0], domain, mode, known, sigs);
      if h.Err? then Err(h.msg)
      else
        var t := InjectCases(cs[1..], domain, mode, known, h.value.signals);
        if t.Err? then Err(t.msg)
        else Ok(Probed([h.value.tree] + t.value.tree, t.value.signals))
  }

  /** `sub_stmts[:] = instrumented`: the case keeps its body list object. */
  function InjectCase(c: Case, domain: string, mode: CondMode, known: map<nat, CovId>,
                      sigs: Signals): (r: Result<Probed<Case>>)
    ensures r.Ok? ==> SigsGrow(sigs, r.value.signals)
    ensures r.Ok? && AllNamed(sigs) ==> AllNamed(r.value.signals)
    decreases c
  {
    var b := InjectList(c.body.stmts, domain, mode, known, sigs);
    if b.Err? then Err(b.msg)
    else Ok(Probed(Case(c.patterns, StmtList(c.body.key, b.value.tree), c.loc), b.value.signals))
  }

  // ---------------------------------------------------------------------------
  // _walk_fragment: every domain list is replaced by a new instrumented list.
  // ---------------------------------------------------------------------------

  function InjectFragment(f: Fragment, mode: CondMode, known: map<nat, CovId>, sigs: Signals): (r: Result<Probed<Fragment>>)
    ensures r.Ok? ==> SigsGrow(sigs, r.value.signals)
    ensures r.Ok? && AllNamed(sigs) ==> AllNamed(r.value.signals)
    decreases f
  {
    var ds := InjectDomains(f.domains, mode, known, sigs);
    if ds.Err? then Err(ds.msg)
    else
      var ss := InjectSubs(f.subs, mode, known, ds.value.signals);
      if ss.Err? then Err(ss.msg)
      else Ok(Probed(Fragment(ds.value.tree, ss.value.tree), ss.value.signals))
  }

  function InjectDomains(ds: seq<Domain>, mode: CondMode, known: map<nat, CovId>, sigs: Signals): (r: Result<Probed<seq<Domain>>>)
    ensures r.Ok? ==> |r.value.tree| == |ds| && SigsGrow(sigs, r.value.signals)
    ensures r.Ok? && AllNamed(sigs) ==> AllNamed(r.value.signals)
    decreases ds
  {
    if ds == [] then Ok(Probed([], sigs))
    else
      var h := InjectList(ds[0].list.stmts, ds[0].name, mode, known, sigs);
      if h.Err? then Err(h.msg)
      else
        var t := InjectDomains(ds[1..], mode, known, h.value.signals);
        if t.Err? then Err(t.msg)
        else Ok(Probed([Domain(ds[0].name, StmtList(Copy(ds[0].list.key, ExpressionFacet), h.value.tree))] + t.value.tree,
                       t.value.signals))
  }

  function InjectSubs(subs: seq<Sub>, mode: CondMode, known: map<nat, CovId>, sigs: Signals): (r: Result<Probed<seq<Sub>>>)
    ensures r.Ok? ==> |r.value.tree| == |subs| && SigsGrow(sigs, r.value.signals)
    ensures r.Ok? && AllNamed(sigs) ==> AllNamed(r.value.signals)
    decreases subs
  {
    if subs == [] then Ok(Probed([], sigs))
    else
      var h := InjectSub(subs[0], mode, known, sigs);
      if h.Err? then Err(h.msg)
      else
        var t := InjectSubs(subs[1..], mode, known, h.value.signals);
        if t.Err? then Err(t.msg)
        else Ok(Probed([h.value.tree] + t.value.tree, t.value.signals))
  }

  function InjectSub(s: Sub, mode: CondMode, known: map<nat, CovId>, sigs: Signals): (r: Result<Probed<Sub>>)
    ensures r.Ok? ==> SigsGrow(sigs, r.value.signals)
    ensures r.Ok? && AllNamed(sigs) ==> AllNamed(r.value.signals)
    decreases s
  {
    var t := InjectFragment(s.frag, mode, known, sigs);
    if t.Err? then Err(t.msg) else Ok(Probed(Sub(s.name, t.value.tree), t.value.signals))
  }

  // ---------------------------------------------------------------------------
  // Which signals a probe run makes.
  // ---------------------------------------------------------------------------

  /** Some walked subexpression carries `id`. */
  ghost predicate Found(es: seq<Expr>, known: map<nat, CovId>, id: CovId)
  {
    FoundBefore(es, |es|, known, id)
  }

  /** One of the first `m` walked subexpressions carries `id`. */
  ghost predicate FoundBefore(es: seq<Expr>, m: nat, known: map<nat, CovId>, id: CovId)
    requires m <= |es|
  {
    exists j :: 0 <= j < m && es[j].node in known && known[es[j].node] == id
  }

  ghost predicate AllFound(es: seq<Expr>, known: map<nat, CovId>, entries: seq<Entry>)
  {
    forall i :: 0 <= i < |entries| ==> Found(es, known, entries[i].id)
  }

  lemma FoundCons(es: seq<Expr>, known: map<nat, CovId>, id: CovId)
    requires es != []
    ensures Found(es, known, id) <==> (es[0].node in known && known[es[0].node] == id) || Found(es[1..], known, id)
  {
    if Found(es[1..], known, id) {
      var j :| 0 <= j < |es[1..]| && es[1..][j].node in known && known[es[1..][j].node] == id;
      assert es[j + 1] == es[1..][j];
    }
    if Found(es, known, id) && !(es[0].node in known && known[es[0].node] == id) {
      var j :| 0 <= j < |es| && es[j].node in known && known[es[j].node] == id;
      assert es[1..][j - 1] == es[j];
    }
  }

  /** The walked probes make exactly the T and F signals of the ids found on the
      walked subexpressions, and no other. */
  lemma {:induction false} ProbeWalkedKeys(es: seq<Expr>, m: nat, known: map<nat, CovId>, sigs: Signals)
    requires m <= |es|
    ensures var r := ProbeWalkedUpTo(es, m, known, sigs);
      forall k :: k in r.signals <==> k in sigs || ((k.1 == "T" || k.1 == "F") && FoundBefore(es, m, known, k.0))
    decreases m
  {
    if m > 0 {
      ProbeWalkedKeys(es, m - 1, known, sigs);
      forall id
        ensures FoundBefore(es, m, known, id)
          <==> FoundBefore(es, m - 1, known, id) || (es[m - 1].node in known && known[es[m - 1].node] == id)
      {
        if FoundBefore(es, m, known, id) && !(es[m - 1].node in known && known[es[m - 1].node] == id) {
          var j :| 0 <= j < m && es[j].node in known && known[es[j].node] == id;
          assert j < m - 1;
        }
      }
    }
  }

  /** One of the first `m` conditions is paired with `id`. */
  ghost predicate PairedBefore(ids: seq<CovId>, m: nat, id: CovId)
    requires m <= |ids|
  {
    exists j :: 0 <= j < m && ids[j] == id
  }

  /** The condition probes make exactly the T and F signals of the ids paired with
      a condition: with no ids (as written) they make none. */
  lemma {:induction false} ProbeCondsKeys(cs: seq<Cond>, ids: seq<CovId>, m: nat, sigs: Signals)
    requires m <= |cs| && m <= |ids|
    ensures var r := ProbeCondsUpTo(cs, ids, m, sigs);
      forall k :: k in r.signals <==> k in sigs || ((k.1 == "T" || k.1 == "F") && PairedBefore(ids, m, k.0))
    decreases m
  {
    if m > 0 {
      ProbeCondsKeys(cs, ids, m - 1, sigs);
      forall id ensures PairedBefore(ids, m, id) <==> PairedBefore(ids, m - 1, id) || ids[m - 1] == id {
        if PairedBefore(ids, m, id) && ids[m - 1] != id {
          var j :| 0 <= j < m && ids[j] == id;
          assert j < m - 1;
        }
      }
    }
  }

  // ---------------------------------------------------------------------------
  // The design is unchanged apart from the probes.
  // ---------------------------------------------------------------------------

  lemma {:induction false} StripProbes(pre: seq<Stmt>, rest: seq<Stmt>)
    requires AllProbes(pre)
    ensures StripList(pre + rest) == StripList(rest)
    decreases |pre|
  {
    if pre == [] {
      assert pre + rest == rest;
    } else {
      assert pre + rest == [pre[0]] + (pre[1..] + rest);
      StripListCons(pre[0], pre[1..] + rest);
      StripProbes(pre[1..], rest);
    }
  }

  lemma {:induction false} InjectListStrip(ss: seq<Stmt>, domain: string, mode: CondMode, known: map<nat, CovId>, sigs: Signals)
    ensures var r := InjectList(ss, domain, mode, known, sigs);
      r.Ok? ==> StripList(r.value.tree) == StripList(ss)
    decreases ss
  {
    if ss != [] {
      var h := InjectStmt(ss[0], domain, mode, known, sigs);
      InjectStmtStrip(ss[0], domain, mode, known, sigs);
      if h.Ok? {
        var t := InjectList(ss[1..], domain, mode, known, h.value.signals);
        InjectListStrip(ss[1..], domain, mode, known, h.value.signals);
        if t.Ok? {
          StripListAppend(h.value.tree, t.value.tree);
          StripListAppend([ss[0]], ss[1..]);
          assert [ss[0]] + ss[1..] == ss;
          calc {
            StripList(h.value.tree + t.value.tree);
            StripList(h.value.tree) + StripList(t.value.tree);
            StripList([ss[0]]) + StripList(ss[1..]);
            StripList(ss);
          }
        }
      }
    }
  }

  /** The statements one statement becomes strip to that statement. */
  lemma {:induction false} InjectStmtStrip(s: Stmt, domain: string, mode: CondMode, known: map<nat, CovId>, sigs: Signals)
    ensures var r := InjectStmt(s, domain, mode, known, sigs);
      r.Ok? ==> StripList(r.value.tree) == StripList([s])
    decreases s
  {
    var r := InjectStmt(s, domain, mode, known, sigs);
    if r.Ok? {
      match s
      case Assign(_, rhs, _, _) =>
        StripProbes(ProbeWalked(BoolSubexprs(rhs), known, sigs).tree, [s]);
      case Switch(test, cases, loc, mark, caseIds, condIds) =>
        var cs := SwitchConds(test, cases);
        var p := ProbeConds(cs.value, CondIdsSeen(s, mode), sigs);
        var c := InjectCases(cases, domain, mode, known, p.signals);
        InjectCasesStrip(cases, domain, mode, known, p.signals);
        var t := Switch(test, c.value.tree, loc, mark, caseIds, condIds);
        StripProbes(p.tree, [t]);
        StripListCons(t, []);
        StripListCons(s, []);
      case Formal(_, _, _, _) =>
      case Probe(_, _) =>
    }
  }

  lemma {:induction false} InjectCasesStrip(cs: seq<Case>, domain: string, mode: CondMode, known: map<nat, CovId>, sigs: Signals)
    ensures var r := InjectCases(cs, domain, mode, known, sigs);
      r.Ok? ==> StripCases(r.value.tree) == StripCases(cs)
    decreases cs
  {
    if cs != [] {
      var h := InjectCase(cs[0], domain, mode, known, sigs);
      InjectCaseStrip(cs[0], domain, mode, known, sigs);
      if h.Ok? {
        InjectCasesStrip(cs[1..], domain, mode, known, h.value.signals);
      }
    }
  }

  lemma {:induction false} InjectCaseStrip(c: Case, domain: string, mode: CondMode, known: map<nat, CovId>, sigs: Signals)
    ensures var r := InjectCase(c, domain, mode, known, sigs);
      r.Ok? ==> StripCase(r.value.tree) == StripCase(c)
    decreases c
  {
    InjectListStrip(c.body.stmts, domain, mode, known, sigs);
  }

  /** Instrumenting a fragment changes nothing of the design but the probes it adds
      (and the identity of the top-level lists). */
  lemma {:induction false} InjectFragmentStrip(f: Fragment, mode: CondMode, known: map<nat, CovId>, sigs: Signals)
    ensures var r := InjectFragment(f, mode, known, sigs);
      r.Ok? ==> StripFragment(r.value.tree) == StripFragment(f)
    decreases f
  {
    var ds := InjectDomains(f.domains, mode, known, sigs);
    InjectDomainsStrip(f.domains, mode, known, sigs);
    if ds.Ok? {
      InjectSubsStrip(f.subs, mode, known, ds.value.signals);
    }
  }

  lemma {:induction false} InjectDomainsStrip(ds: seq<Domain>, mode: CondMode, known: map<nat, CovId>, sigs: Signals)
    ensures var r := InjectDomains(ds, mode, known, sigs);
      r.Ok? ==> StripDomains(r.value.tree) == StripDomains(ds)
    decreases ds
  {
    if ds != [] {
      var h := InjectList(ds[0].list.stmts, ds[0].name, mode, known, sigs);
      InjectListStrip(ds[0].list.stmts, ds[0].name, mode, known, sigs);
      if h.Ok? {
        InjectDomainsStrip(ds[1..], mode, known, h.value.signals);
      }
    }
  }

  lemma {:induction false} InjectSubsStrip(subs: seq<Sub>, mode: CondMode, known: map<nat, CovId>, sigs: Signals)
    ensures var r := InjectSubs(subs, mode, known, sigs);
      r.Ok? ==> StripSubs(r.value.tree) == StripSubs(subs)
    decreases subs
  {
    if subs != [] {
      var h := InjectSub(subs[0], mode, known, sigs);
      InjectSubStrip(subs[0], mode, known, sigs);
      if h.Ok? {
        InjectSubsStrip(subs[1..], mode, known, h.value.signals);
      }
    }
  }

  lemma {:induction false} InjectSubStrip(s: Sub, mode: CondMode, known: map<nat, CovId>, sigs: Signals)
    ensures var r := InjectSub(s, mode, known, sigs);
      r.Ok? ==> StripSub(r.value.tree) == StripSub(s)
    decreases s
  {
    InjectFragmentStrip(s.frag, mode, known, sigs);
  }

  // ---------------------------------------------------------------------------
  // Tagging then instrumenting: with the conditions' ids kept, every record the
  // tagger makes gets both its signals.
  // ---------------------------------------------------------------------------

  ghost predicate CoversAll(sigs: Signals, entries: seq<Entry>)
  {
    forall i :: 0 <= i < |entries| ==> Covers(sigs, entries[i].id)
  }

  lemma CoversAllGrow(sigs: Signals, sigs': Signals, entries: seq<Entry>)
    requires CoversAll(sigs, entries) && SigsGrow(sigs, sigs')
    ensures CoversAll(sigs', entries)
  {
  }

  lemma CoversAllAppend(sigs: Signals, a: seq<Entry>, b: seq<Entry>)
    requires CoversAll(sigs, a) && CoversAll(sigs, b)
    ensures CoversAll(sigs, a + b)
  {
    forall i | 0 <= i < |a + b| ensures Covers(sigs, (a + b)[i].id) {
      if i >= |a| {
        assert (a + b)[i] == b[i - |a|];
      }
    }
  }

  /** Every record made for an assignment names an id that one of its walked
      subexpressions carries afterwards. */
  lemma {:induction false} TagWalkedFound(es: seq<Expr>, src: string, path: Path, domain: string,
                                          known: map<nat, CovId>, n: nat)
    ensures var t := TagWalked(es, src, path, domain, known, n);
      AllFound(es, t.known, t.entries)
    decreases |es|
  {
    if es != [] {
      var t := TagWalked(es, src, path, domain, known, n);
      if es[0].node in known {
        var tail := TagWalked(es[1..], src, path, domain, known, n);
        TagWalkedFound(es[1..], src, path, domain, known, n);
        assert t == tail;
        forall i | 0 <= i < |t.entries| ensures Found(es, t.known, t.entries[i].id) {
          assert AllFound(es[1..], tail.known, tail.entries);
          assert Found(es[1..], tail.known, tail.entries[i].id);
          FoundCons(es, t.known, t.entries[i].id);
        }
      } else {
        var id := CovId(path, domain, n);
        var k1 := known[es[0].node := id];
        var tail := TagWalked(es[1..], src, path, domain, k1, n + 1);
        TagWalkedFound(es[1..], src, path, domain, k1, n + 1);
        TagWalkedNumbered(es[1..], src, path, domain, k1, n + 1);
        assert t.known == tail.known && t.entries == [Entry(id, Descriptor(ExprName(src, domain, es[0]), "expr"))] + tail.entries;
        assert es[0].node in t.known && t.known[es[0].node] == id;
        forall i | 0 <= i < |t.entries| ensures Found(es, t.known, t.entries[i].id) {
          FoundCons(es, t.known, t.entries[i].id);
          if i > 0 {
            assert t.entries[i] == tail.entries[i - 1];
            assert AllFound(es[1..], tail.known, tail.entries);
            assert Found(es[1..], tail.known, tail.entries[i - 1].id);
          }
        }
      }
    }
  }

  lemma FoundKeeps(es: seq<Expr>, known: map<nat, CovId>, known': map<nat, CovId>, id: CovId)
    requires Found(es, known, id) && Keeps(known, known')
    ensures Found(es, known', id)
  {
    var j :| 0 <= j < |es| && es[j].node in known && known[es[j].node] == id;
    assert es[j].node in known' && known'[es[j].node] == id;
  }

  /** An assignment: every record made for it names an id its walked
      subexpressions still carry, and each of those gets both signals. */
  lemma TagInjectAssign(s: Stmt, path: Path, domain: string, known: map<nat, CovId>, n: nat,
                        known': map<nat, CovId>, sigs: Signals)
    requires s.Assign?
    requires Keeps(TagExprStmt(s, path, domain, Kept, known, n).value.known, known')
    ensures var h := TagExprStmt(s, path, domain, Kept, known, n).value;
      var r := InjectStmt(h.tree, domain, Kept, known', sigs);
      r.Ok? && CoversAll(r.value.signals, h.entries)
  {
    var es := BoolSubexprs(s.rhs);
    var w := TagWalked(es, ShortLoc(s.loc), path, domain, known, n);
    var h := TagExprStmt(s, path, domain, Kept, known, n).value;
    assert h == Numbering(s, w.known, w.next, w.entries);
    var p := ProbeWalked(es, known', sigs);
    assert InjectStmt(h.tree, domain, Kept, known', sigs) == Ok(Probed(p.tree + [s], p.signals));
    TagWalkedFound(es, ShortLoc(s.loc), path, domain, known, n);
    ProbeWalkedKeys(es, |es|, known', sigs);
    assert AllFound(es, w.known, w.entries);
    forall i | 0 <= i < |w.entries| ensures Covers(p.signals, w.entries[i].id) {
      FoundKeeps(es, w.known, known', w.entries[i].id);
    }
  }

  /** With at most one id per condition, every id gets both signals. */
  lemma ProbeCondsCovers(cs: seq<Cond>, ids: seq<CovId>, sigs: Signals)
    requires |ids| <= |cs|
    ensures var r := ProbeConds(cs, ids, sigs);
      forall i :: 0 <= i < |ids| ==> Covers(r.signals, ids[i])
  {
    ProbeCondsUpToCovers(cs, ids, sigs);
    assert ProbeConds(cs, ids, sigs) == ProbeCondsUpTo(cs, ids, |ids|, sigs);
  }

  lemma ProbeCondsUpToCovers(cs: seq<Cond>, ids: seq<CovId>, sigs: Signals)
    requires |ids| <= |cs|
    ensures forall i :: 0 <= i < |ids| ==> Covers(ProbeCondsUpTo(cs, ids, |ids|, sigs).signals, ids[i])
  {
    forall i | 0 <= i < |ids| ensures Covers(ProbeCondsUpTo(cs, ids, |ids|, sigs).signals, ids[i]) {
      PairedAt(ids, |ids|, i);
      ProbeCondsKey(cs, ids, |ids|, sigs, (ids[i], "T"));
      ProbeCondsKey(cs, ids, |ids|, sigs, (ids[i], "F"));
    }
  }

  lemma ProbeCondsKey(cs: seq<Cond>, ids: seq<CovId>, m: nat, sigs: Signals, k: (CovId, string))
    requires m <= |cs| && m <= |ids|
    requires (k.1 == "T" || k.1 == "F") && PairedBefore(ids, m, k.0)
    ensures k in ProbeCondsUpTo(cs, ids, m, sigs).signals
  {
    ProbeCondsKeys(cs, ids, m, sigs);
  }

  lemma PairedAt(ids: seq<CovId>, m: nat, i: nat)
    requires i < m <= |ids|
    ensures PairedBefore(ids, m, ids[i])
  {
  }

  lemma CoversIds(sigs: Signals, entries: seq<Entry>)
    requires forall i :: 0 <= i < |EntryIds(entries)| ==> Covers(sigs, EntryIds(entries)[i])
    ensures CoversAll(sigs, entries)
  {
    forall i | 0 <= i < |entries| ensures Covers(sigs, entries[i].id) {
      assert EntryIds(entries)[i] == entries[i].id;
    }
  }

  /** What the tagger leaves of a Switch it numbers with kept conditions. */
  lemma TagKeptSwitch(s: Stmt, path: Path, domain: string, known: map<nat, CovId>, n: nat)
    requires s.Switch? && s.condIds == [] && TagExprStmt(s, path, domain, Kept, known, n).Ok?
    ensures var h := TagExprStmt(s, path, domain, Kept, known, n).value;
      var cs := SwitchConds(s.test, s.cases);
      && cs.Ok? && |h.entries| == |cs.value|
      && h.tree == Switch(s.test, s.cases, s.loc, s.mark, s.caseIds, EntryIds(h.entries))
  {
  }

  /** The injector on a Switch: the condition probes come first, then the cases
      only add signals. */
  lemma InjectSwitchSignals(t: Stmt, domain: string, mode: CondMode, known: map<nat, CovId>, sigs: Signals)
    requires t.Switch?
    ensures var r := InjectStmt(t, domain, mode, known, sigs);
      r.Ok? ==> (SwitchConds(t.test, t.cases).Ok?
                 && SigsGrow(ProbeConds(SwitchConds(t.test, t.cases).value, CondIdsSeen(t, mode), sigs).signals,
                             r.value.signals))
  {
    var cs := SwitchConds(t.test, t.cases);
    if cs.Ok? {
      var p := ProbeConds(cs.value, CondIdsSeen(t, mode), sigs);
      var c := InjectCases(t.cases, domain, mode, known, p.signals);
      if c.Ok? {
        assert InjectStmt(t, domain, mode, known, sigs).value.signals == c.value.signals;
      }
    }
  }

  /** A Switch numbered with kept conditions: condition `j` carries the id of
      record `j`, so each record gets both signals. */
  lemma TagInjectSwitch(s: Stmt, path: Path, domain: string, known: map<nat, CovId>, n: nat,
                        known': map<nat, CovId>, sigs: Signals)
    requires s.Switch? && TagExprStmt(s, path, domain, Kept, known, n).Ok?
    ensures var h := TagExprStmt(s, path, domain, Kept, known, n).value;
      var r := InjectStmt(h.tree, domain, Kept, known', sigs);
      r.Ok? ==> CoversAll(r.value.signals, h.entries)
  {
    if s.condIds == [] {
      var h := TagExprStmt(s, path, domain, Kept, known, n).value;
      TagKeptSwitch(s, path, domain, known, n);
      InjectSwitchSignals(h.tree, domain, Kept, known', sigs);
      var r := InjectStmt(h.tree, domain, Kept, known', sigs);
      if r.Ok? {
        var cs := SwitchConds(s.test, s.cases).value;
        var ids := EntryIds(h.entries);
        assert CondIdsSeen(h.tree, Kept) == ids;
        var p := ProbeConds(cs, ids, sigs);
        ProbeCondsCovers(cs, ids, sigs);
        CoversIds(p.signals, h.entries);
        CoversAllGrow(p.signals, r.value.signals, h.entries);
      }
    }
  }

  /** One top-level statement: the records the tagger makes for it are covered by
      the signals the injector makes for what the tagger left. */
  lemma TagInjectStmt(s: Stmt, path: Path, domain: string, known: map<nat, CovId>, n: nat,
                      known': map<nat, CovId>, sigs: Signals)
    requires TagExprStmt(s, path, domain, Kept, known, n).Ok?
    requires Keeps(TagExprStmt(s, path, domain, Kept, known, n).value.known, known')
    ensures var h := TagExprStmt(s, path, domain, Kept, known, n).value;
      var r := InjectStmt(h.tree, domain, Kept, known', sigs);
      r.Ok? ==> CoversAll(r.value.signals, h.entries)
  {
    if s.Assign? {
      TagInjectAssign(s, path, domain, known, n, known', sigs);
    } else if s.Switch? {
      TagInjectSwitch(s, path, domain, known, n, known', sigs);
    }
  }

  lemma {:induction false} TagInjectList(ss: seq<Stmt>, path: Path, domain: string, known: map<nat, CovId>, n: nat,
                                         known': map<nat, CovId>, sigs: Signals)
    requires TagExprList(ss, path, domain, Kept, known, n).Ok?
    requires Keeps(TagExprList(ss, path, domain, Kept, known, n).value.known, known')
    ensures var t := TagExprList(ss, path, domain, Kept, known, n).value;
      var r := InjectList(t.tree, domain, Kept, known', sigs);
      r.Ok? ==> CoversAll(r.value.signals, t.entries)
    decreases |ss|
  {
    if ss != [] {
      var whole := TagExprList(ss, path, domain, Kept, known, n).value;
      var h := TagExprStmt(ss[0], path, domain, Kept, known, n).value;
      var t := TagExprList(ss[1..], path, domain, Kept, h.known, h.next).value;
      TagExprListNumbered(ss[1..], path, domain, Kept, h.known, h.next);
      assert whole.tree[1..] == t.tree;
      var r := InjectList(whole.tree, domain, Kept, known', sigs);
      if r.Ok? {
        var hr := InjectStmt(h.tree, domain, Kept, known', sigs).value;
        var tr := InjectList(t.tree, domain, Kept, known', hr.signals).value;
        TagInjectStmt(ss[0], path, domain, known, n, known', sigs);
        TagInjectList(ss[1..], path, domain, h.known, h.next, known', hr.signals);
        CoversAllGrow(hr.signals, tr.signals, h.entries);
        CoversAllAppend(tr.signals, h.entries, t.entries);
      }
    }
  }

  lemma {:induction false} TagInjectDomains(ds: seq<Domain>, path: Path, known: map<nat, CovId>, n: nat,
                                            known': map<nat, CovId>, sigs: Signals)
    requires TagExprDomains(ds, path, Kept, known, n).Ok?
    requires Keeps(TagExprDomains(ds, path, Kept, known, n).value.known, known')
    ensures var t := TagExprDomains(ds, path, Kept, known, n).value;
      var r := InjectDomains(t.tree, Kept, known', sigs);
      r.Ok? ==> CoversAll(r.value.signals, t.entries)
    decreases ds
  {
    if ds != [] {
      var whole := TagExprDomains(ds, path, Kept, known, n).value;
      var h := TagExprList(ds[0].list.stmts, path, ds[0].name, Kept, known, n).value;
      var t := TagExprDomains(ds[1..], path, Kept, h.known, h.next).value;
      TagExprDomainsNumbered(ds[1..], path, Kept, h.known, h.next);
      assert whole.tree[1..] == t.tree;
      var r := InjectDomains(whole.tree, Kept, known', sigs);
      if r.Ok? {
        var hr := InjectList(h.tree, ds[0].name, Kept, known', sigs).value;
        var tr := InjectDomains(t.tree, Kept, known', hr.signals).value;
        TagInjectList(ds[0].list.stmts, path, ds[0].name, known, n, known', sigs);
        TagInjectDomains(ds[1..], path, h.known, h.next, known', hr.signals);
        CoversAllGrow(hr.signals, tr.signals, h.entries);
        CoversAllAppend(tr.signals, h.entries, t.entries);
      }
    }
  }

  /** A fragment: every record of `tag_all_expressions` with kept conditions has
      its T and F signals after `insert_expression_coverage_signals`. */
  lemma {:induction false} TagInjectFragment(f: Fragment, path: Path, known: map<nat, CovId>, n: nat,
                                             known': map<nat, CovId>, sigs: Signals)
    requires TagExprFragment(f, path, Kept, known, n).Ok?
    requires Keeps(TagExprFragment(f, path, Kept, known, n).value.known, known')
    ensures var t := TagExprFragment(f, path, Kept, known, n).value;
      var r := InjectFragment(t.tree, Kept, known', sigs);
      r.Ok? ==> CoversAll(r.value.signals, t.entries)
    decreases f
  {
    var ds := TagExprDomains(f.domains, path, Kept, known, n).value;
    var ss := TagExprSubs(f.subs, path, Kept, ds.known, ds.next).value;
    TagExprSubsNumbered(f.subs, path, Kept, ds.known, ds.next);
    var r := InjectFragment(Fragment(ds.tree, ss.tree), Kept, known', sigs);
    if r.Ok? {
      var dr := InjectDomains(ds.tree, Kept, known', sigs).value;
      var sr := InjectSubs(ss.tree, Kept, known', dr.signals).value;
      TagInjectDomains(f.domains, path, known, n, known', sigs);
      TagInjectSubs(f.subs, path, ds.known, ds.next, known', dr.signals);
      CoversAllGrow(dr.signals, sr.signals, ds.entries);
      CoversAllAppend(sr.signals, ds.entries, ss.entries);
    }
  }

  lemma {:induction false} TagInjectSubs(subs: seq<Sub>, path: Path, known: map<nat, CovId>, n: nat,
                                         known': map<nat, CovId>, sigs: Signals)
    requires TagExprSubs(subs, path, Kept, known, n).Ok?
    requires Keeps(TagExprSubs(subs, path, Kept, known, n).value.known, known')
    ensures var t := TagExprSubs(subs, path, Kept, known, n).value;
      var r := InjectSubs(t.tree, Kept, known', sigs);
      r.Ok? ==> CoversAll(r.value.signals, t.entries)
    decreases subs
  {
    if subs != [] {
      var whole := TagExprSubs(subs, path, Kept, known, n).value;
      var h := TagExprSub(subs[0], path, Kept, known, n).value;
      var t := TagExprSubs(subs[1..], path, Kept, h.known, h.next).value;
      TagExprSubsNumbered(subs[1..], path, Kept, h.known, h.next);
      assert whole.tree[1..] == t.tree;
      var r := InjectSubs(whole.tree, Kept, known', sigs);
      if r.Ok? {
        var hr := InjectSub(h.tree, Kept, known', sigs).value;
        var tr := InjectSubs(t.tree, Kept, known', hr.signals).value;
        TagInjectSub(subs[0], path, known, n, known', sigs);
        TagInjectSubs(subs[1..], path, h.known, h.next, known', hr.signals);
        CoversAllGrow(hr.signals, tr.signals, h.entries);
        CoversAllAppend(tr.signals, h.entries, t.entries);
      }
    }
  }

  lemma {:induction false} TagInjectSub(s: Sub, path: Path, known: map<nat, CovId>, n: nat,
                                        known': map<nat, CovId>, sigs: Signals)
    requires TagExprSub(s, path, Kept, known, n).Ok?
    requires Keeps(TagExprSub(s, path, Kept, known, n).value.known, known')
    ensures var t := TagExprSub(s, path, Kept, known, n).value;
      var r := InjectSub(t.tree, Kept, known', sigs);
      r.Ok? ==> CoversAll(r.value.signals, t.entries)
    decreases s
  {
    TagInjectFragment(s.frag, path + [s.name], known, n, known', sigs);
  }

  /** `mk_sim_with_exprcov` with kept conditions: after tagging from serial 0 at
      the top and instrumenting with the ids the tagging left, every id of
      `exprid_to_info` has its T and F signals. */
  lemma ExprCoverageComplete(f: Fragment, known: map<nat, CovId>)
    requires TagExprFragment(f, [], Kept, known, 0).Ok?
    ensures var t := TagExprFragment(f, [], Kept, known, 0).value;
      var r := InjectFragment(t.tree, Kept, t.known, map[]);
      r.Ok? ==> forall id :: id in Record(map[], t.entries) ==> Covers(r.value.signals, id)
  {
    var t := TagExprFragment(f, [], Kept, known, 0).value;
    TagInjectFragment(f, [], known, 0, t.known, map[]);
    var r := InjectFragment(t.tree, Kept, t.known, map[]);
    if r.Ok? {
      CoversRecorded(r.value.signals, t.entries);
    }
  }

  /** Signals covering every record cover every key of the map built from them. */
  lemma CoversRecorded(sigs: Signals, es: seq<Entry>)
    requires CoversAll(sigs, es)
    ensures forall id :: id in Record(map[], es) ==> Covers(sigs, id)
  {
    RecordKeys(map[], es);
    forall id | id in Record(map[], es) ensures Covers(sigs, id) {
      var i :| 0 <= i < |es| && es[i].id == id;
    }
  }

  // ---------------------------------------------------------------------------
  // As written: a Switch's conditions are counted but never instrumented.
  // ---------------------------------------------------------------------------

  /** The select signal of the example below. */
  const Sel := Expr(0, false, "sel", [])

  /** `with m.Switch(sel): with m.Case("1"): pass` in the combinational domain. */
  const OneCase := Fragment([Domain("comb", StmtList(Orig(0), [
      Switch(Some(Sel), [Case(Some(["1"]), StmtList(Orig(1), []), None)], None, Unmarked, [], [])]))], [])

  /** As written, tagging the example makes two records and leaves the design
      as it was. */
  lemma RebuiltOneCaseTagged()
    ensures var t := TagExprFragment(OneCase, [], Rebuilt, map[], 0);
      t.Ok? && |t.value.entries| == 2 && t.value.tree == OneCase
  {
    var sw := OneCase.domains[0].list.stmts[0];
    var cs := SwitchConds(sw.test, sw.cases);
    assert |cs.value| == 2 by {
      assert sw.cases[1..] == [];
      var ps: seq<string> := ["1"];
      assert CaseConds(Sel, sw.cases[1..], [] + [ps]) == Ok([Cond("default", Inverted(AnyMatch(Sel, [] + [ps])), None)]);
    }
    var h := TagExprStmt(sw, [], "comb", Rebuilt, map[], 0);
    assert h.Ok? && |h.value.entries| == 2 && h.value.tree == sw;
    var l := TagExprList([sw], [], "comb", Rebuilt, map[], 0);
    assert [sw][1..] == [];
    assert TagExprList([], [], "comb", Rebuilt, h.value.known, h.value.next) == Ok(Numbering([], h.value.known, h.value.next, []));
    assert h.value.entries + [] == h.value.entries && [sw] + [] == [sw];
    assert l.Ok? && |l.value.entries| == 2 && l.value.tree == [sw];
    var ds := TagExprDomains(OneCase.domains, [], Rebuilt, map[], 0);
    assert OneCase.domains[1..] == [];
    assert TagExprDomains([], [], Rebuilt, l.value.known, l.value.next) == Ok(Numbering([], l.value.known, l.value.next, []));
    assert l.value.entries + [] == l.value.entries;
    assert ds.Ok? && |ds.value.entries| == 2 && ds.value.tree == OneCase.domains;
    assert TagExprSubs([], [], Rebuilt, ds.value.known, ds.value.next) == Ok(Numbering([], ds.value.known, ds.value.next, []));
    assert ds.value.entries + [] == ds.value.entries;
  }

  /** As written, instrumenting the example makes no signal, whatever ids the
      tagging left. */
  lemma RebuiltOneCaseInjectsNothing(known: map<nat, CovId>)
    ensures var r := InjectFragment(OneCase, Rebuilt, known, map[]);
      r.Ok? && r.value.signals == map[]
  {
    var sw := OneCase.domains[0].list.stmts[0];
    var cs := SwitchConds(sw.test, sw.cases);
    assert cs.Ok? by {
      assert sw.cases[1..] == [];
    }
    assert ProbeConds(cs.value, [], map[]) == Probed([], map[]);
    assert InjectList([], "comb", Rebuilt, known, map[]) == Ok(Probed([], map[]));
    var c0 := InjectCase(sw.cases[0], "comb", Rebuilt, known, map[]);
    assert c0.Ok? && c0.value.signals == map[];
    assert InjectCases([], "comb", Rebuilt, known, map[]) == Ok(Probed([], map[]));
    assert sw.cases[1..] == [];
    var c := InjectCases(sw.cases, "comb", Rebuilt, known, map[]);
    assert c.Ok? && c.value.signals == map[];
    var h := InjectStmt(sw, "comb", Rebuilt, known, map[]);
    assert h.Ok? && h.value.signals == map[];
    assert [sw][1..] == [];
    var l := InjectList([sw], "comb", Rebuilt, known, map[]);
    assert l.Ok? && l.value.signals == map[];
    assert OneCase.domains[1..] == [];
    assert InjectDomains([], Rebuilt, known, map[]) == Ok(Probed([], map[]));
    var d := InjectDomains(OneCase.domains, Rebuilt, known, map[]);
    assert d.Ok? && d.value.signals == map[];
    assert InjectSubs([], Rebuilt, known, map[]) == Ok(Probed([], map[]));
  }

  /** As written, the tagger records the case and the default condition of the
      Switch, but the injector finds no id on the rebuilt conditions: it makes
      no signal at all, so both records stay at 0 T and 0 F hits for ever. */
  lemma RebuiltConditionsUninstrumented()
    ensures var t := TagExprFragment(OneCase, [], Rebuilt, map[], 0);
      && t.Ok? && |t.value.entries| == 2
      && var r := InjectFragment(t.value.tree, Rebuilt, t.value.known, map[]);
      && r.Ok? && r.value.signals == map[]
      && !Covers(r.value.signals, t.value.entries[0].id)
  {
    RebuiltOneCaseTagged();
    var t := TagExprFragment(OneCase, [], Rebuilt, map[], 0);
    RebuiltOneCaseInjectsNothing(t.value.known);
  }

  /** The one case of the example. */
  const OneCaseCases := [Case(Some(["1"]), StmtList(Orig(1), []), None)]

  /** Tagging the example with kept conditions makes two records and leaves the
      Switch with its test and cases. */
  lemma KeptOneCaseTagged()
    ensures var t := TagExprFragment(OneCase, [], Kept, map[], 0);
      && t.Ok? && |t.value.entries| == 2 && t.value.tree.subs == [] && |t.value.tree.domains| == 1
      && t.value.tree.domains[0].name == "comb" && |t.value.tree.domains[0].list.stmts| == 1
      && var tw := t.value.tree.domains[0].list.stmts[0];
      && tw.Switch? && tw.test == Some(Sel) && tw.cases == OneCaseCases
      && t.value.tree == Fragment([Domain("comb", StmtList(Orig(0), [tw]))], [])
  {
    var sw := OneCase.domains[0].list.stmts[0];
    var cs := SwitchConds(sw.test, sw.cases);
    assert |cs.value| == 2 by {
      assert sw.cases[1..] == [];
      var ps: seq<string> := ["1"];
      assert CaseConds(Sel, sw.cases[1..], [] + [ps]) == Ok([Cond("default", Inverted(AnyMatch(Sel, [] + [ps])), None)]);
    }
    var h := TagExprStmt(sw, [], "comb", Kept, map[], 0);
    assert h.Ok? && |h.value.entries| == 2;
    var tw := h.value.tree;
    var l := TagExprList([sw], [], "comb", Kept, map[], 0);
    assert [sw][1..] == [];
    assert TagExprList([], [], "comb", Kept, h.value.known, h.value.next) == Ok(Numbering([], h.value.known, h.value.next, []));
    assert h.value.entries + [] == h.value.entries && [tw] + [] == [tw];
    assert l.Ok? && |l.value.entries| == 2 && l.value.tree == [tw];
    var ds := TagExprDomains(OneCase.domains, [], Kept, map[], 0);
    assert OneCase.domains[1..] == [];
    assert TagExprDomains([], [], Kept, l.value.known, l.value.next) == Ok(Numbering([], l.value.known, l.value.next, []));
    assert l.value.entries + [] == l.value.entries;
    assert ds.Ok? && |ds.value.entries| == 2;
    assert TagExprSubs([], [], Kept, ds.value.known, ds.value.next) == Ok(Numbering([], ds.value.known, ds.value.next, []));
    assert ds.value.entries + [] == ds.value.entries;
  }

  /** Instrumenting a design of that shape does not raise. */
  lemma OneCaseInjects(tw: Stmt, known: map<nat, CovId>)
    requires tw.Switch? && tw.test == Some(Sel) && tw.cases == OneCaseCases
    ensures InjectFragment(Fragment([Domain("comb", StmtList(Orig(0), [tw]))], []), Kept, known, map[]).Ok?
  {
    var cs := SwitchConds(tw.test, tw.cases);
    assert cs.Ok? by {
      assert tw.cases[1..] == [];
    }
    var p := ProbeConds(cs.value, CondIdsSeen(tw, Kept), map[]);
    assert InjectList([], "comb", Kept, known, p.signals) == Ok(Probed([], p.signals));
    var c0 := InjectCase(tw.cases[0], "comb", Kept, known, p.signals);
    assert c0.Ok?;
    assert InjectCases([], "comb", Kept, known, c0.value.signals).Ok?;
    assert tw.cases[1..] == [];
    var c := InjectCases(tw.cases, "comb", Kept, known, p.signals);
    assert c.Ok?;
    var h := InjectStmt(tw, "comb", Kept, known, map[]);
    assert h.Ok?;
    assert InjectList([], "comb", Kept, known, h.value.signals).Ok?;
    assert [tw][1..] == [];
    var l := InjectList([tw], "comb", Kept, known, map[]);
    assert l.Ok?;
    var ds := [Domain("comb", StmtList(Orig(0), [tw]))];
    assert ds[1..] == [];
    assert InjectDomains([], Kept, known, l.value.signals).Ok?;
    var d := InjectDomains(ds, Kept, known, map[]);
    assert d.Ok?;
    assert InjectSubs([], Kept, known, d.value.signals).Ok?;
  }

  /** Corrected: with the conditions' ids kept on the Switch, the same design
      gets the T and F signals of both conditions. */
  lemma KeptConditionsInstrumented()
    ensures var t := TagExprFragment(OneCase, [], Kept, map[], 0);
      && t.Ok? && |t.value.entries| == 2
      && var r := InjectFragment(t.value.tree, Kept, t.value.known, map[]);
      && r.Ok? && Covers(r.value.signals, t.value.entries[0].id) && Covers(r.value.signals, t.value.entries[1].id)
  {
    KeptOneCaseTagged();
    var t := TagExprFragment(OneCase, [], Kept, map[], 0).value;
    var tw := t.tree.domains[0].list.stmts[0];
    OneCaseInjects(tw, t.known);
    ExprCoverageComplete(OneCase, map[]);
    TagExprFragmentNumbered(OneCase, [], Kept, map[], 0);
    NumberedDistinct(t.entries, 0);
    RecordValues(map[], t.entries);
  }

  // ---------------------------------------------------------------------------
  // insert_expression_coverage_signals as written.
  // ---------------------------------------------------------------------------

  /** The `coverage_signals.get` / create-and-store step for one outcome. */
  method GetSignal(sigs: Signals, id: CovId, outcome: string) returns (sig: string, sigs': Signals)
    ensures (sig, sigs') == SignalOf(sigs, id, outcome)
  {
    sigs' := sigs;
    if (id, outcome) in sigs' {
      sig := sigs'[(id, outcome)];
    } else {
      sig := ExprSignalName(id, outcome);
      sigs' := sigs'[(id, outcome) := sig];
    }
  }

  /** The two probes of one id, their signals looked up or made. */
  method MakePair(v: Value, id: CovId, sigs: Signals) returns (pair: seq<Stmt>, sigs': Signals)
    ensures Probed(pair, sigs') == ProbePair(v, id, sigs)
  {
    var t, f;
    t, sigs' := GetSignal(sigs, id, "T");
    f, sigs' := GetSignal(sigs', id, "F");
    pair := [Probe(t, v), Probe(f, Inverted(v))];
  }

  /** The probes of an assignment: its walked subexpressions in walk order,
      skipping those without an id. */
  method ProbeAssign(rhs: Expr, known: map<nat, CovId>, sigs: Signals) returns (pre: seq<Stmt>, sigs': Signals)
    ensures Probed(pre, sigs') == ProbeWalked(BoolSubexprs(rhs), known, sigs)
  {
    var es := BooleanSubexpressions(rhs);
    pre, sigs' := [], sigs;
    for i := 0 to |es|
      invariant Probed(pre, sigs') == ProbeWalkedUpTo(es, i, known, sigs)
    {
      var e := es[i];
      if e.node in known {
        var pair;
        pair, sigs' := MakePair(Of(e), known[e.node], sigs');
        pre := pre + pair;
      }
    }
  }

  /** The probes of a Switch's conditions that carry an id. */
  method ProbeSwitch(cs: seq<Cond>, ids: seq<CovId>, sigs: Signals) returns (pre: seq<Stmt>, sigs': Signals)
    ensures Probed(pre, sigs') == ProbeConds(cs, ids, sigs)
  {
    pre, sigs' := [], sigs;
    var m := if |cs| < |ids| then |cs| else |ids|;
    for j := 0 to m
      invariant Probed(pre, sigs') == ProbeCondsUpTo(cs, ids, j, sigs)
    {
      var pair;
      pair, sigs' := MakePair(cs[j].value, ids[j], sigs');
      pre := pre + pair;
    }
  }

  /** A run's result with `out` in front. */
  function Then<T>(out: seq<T>, r: Result<Probed<seq<T>>>): Result<Probed<seq<T>>>
  {
    if r.Err? then r else Ok(Probed(out + r.value.tree, r.value.signals))
  }

  lemma InjectListStep(ss: seq<Stmt>, i: nat, domain: string, mode: CondMode, known: map<nat, CovId>,
                       sigs: Signals, out: seq<Stmt>)
    requires i < |ss|
    ensures var h := InjectStmt(ss[i], domain, mode, known, sigs);
      Then(out, InjectList(ss[i..], domain, mode, known, sigs))
        == if h.Err? then Err(h.msg)
           else Then(out + h.value.tree, InjectList(ss[i + 1..], domain, mode, known, h.value.signals))
  {
    assert ss[i..][1..] == ss[i + 1..];
    var h := InjectStmt(ss[i], domain, mode, known, sigs);
    if h.Ok? {
      var t := InjectList(ss[i + 1..], domain, mode, known, h.value.signals);
      if t.Ok? {
        assert out + (h.value.tree + t.value.tree) == (out + h.value.tree) + t.value.tree;
      }
    }
  }

  /** `_inject_in_stmt_list(domain, stmts, parent_path)`: the new list, statement
      by statement. */
  method InjectStmtList(ss: seq<Stmt>, domain: string, mode: CondMode, known: map<nat, CovId>, sigs: Signals)
    returns (r: Result<Probed<seq<Stmt>>>)
    ensures r == InjectList(ss, domain, mode, known, sigs)
    decreases ss, 1
  {
    var out: seq<Stmt>, sigs' := [], sigs;
    ghost var whole := InjectList(ss, domain, mode, known, sigs);
    assert ss[0..] == ss;
    assert whole.Ok? ==> out + whole.value.tree == whole.value.tree;
    for i := 0 to |ss|
      invariant whole == Then(out, InjectList(ss[i..], domain, mode, known, sigs'))
    {
      InjectListStep(ss, i, domain, mode, known, sigs', out);
      var h := InjectStatement(ss[i], domain, mode, known, sigs');
      if h.Err? {
        return Err(h.msg);
      }
      out, sigs' := out + h.value.tree, h.value.signals;
    }
    assert ss[|ss|..] == [] && out + [] == out;
    r := Ok(Probed(out, sigs'));
  }

  /** One statement: an Assign's probes then the Assign; a Switch's condition
      probes, then the Switch with its case bodies instrumented. */
  method InjectStatement(s: Stmt, domain: string, mode: CondMode, known: map<nat, CovId>, sigs: Signals)
    returns (r: Result<Probed<seq<Stmt>>>)
    ensures r == InjectStmt(s, domain, mode, known, sigs)
    decreases s, 0
  {
    match s {
      case Assign(_, rhs, _, _) =>
        var pre, sigs' := ProbeAssign(rhs, known, sigs);
        r := Ok(Probed(pre + [s], sigs'));
      case Switch(test, cases, loc, mark, caseIds, condIds) =>
        var cs := BooleanExprsFromSwitch(test, cases);
        if cs.Err? {
          return Err(cs.msg);
        }
        var pre, sigs' := ProbeSwitch(cs.value, CondIdsSeen(s, mode), sigs);
        var c := InjectCaseBodies(cases, domain, mode, known, sigs');
        if c.Err? {
          return Err(c.msg);
        }
        r := Ok(Probed(pre + [Switch(test, c.value.tree, loc, mark, caseIds, condIds)], c.value.signals));
      case _ =>
        r := Ok(Probed([s], sigs));
    }
  }

  lemma InjectCasesStep(cs: seq<Case>, j: nat, domain: string, mode: CondMode, known: map<nat, CovId>,
                        sigs: Signals, out: seq<Case>)
    requires j < |cs|
    ensures var h := InjectCase(cs[j], domain, mode, known, sigs);
      Then(out, InjectCases(cs[j..], domain, mode, known, sigs))
        == if h.Err? then Err(h.msg)
           else Then(out + [h.value.tree], InjectCases(cs[j + 1..], domain, mode, known, h.value.signals))
  {
    assert cs[j..][1..] == cs[j + 1..];
    var h := InjectCase(cs[j], domain, mode, known, sigs);
    if h.Ok? {
      var t := InjectCases(cs[j + 1..], domain, mode, known, h.value.signals);
      if t.Ok? {
        assert out + ([h.value.tree] + t.value.tree) == (out + [h.value.tree]) + t.value.tree;
      }
    }
  }

  /** `for idx, (patterns, sub_stmts, _) in enumerate(stmt.cases)`: each body
      instrumented and written back into its own list. */
  method InjectCaseBodies(cs: seq<Case>, domain: string, mode: CondMode, known: map<nat, CovId>, sigs: Signals)
    returns (r: Result<Probed<seq<Case>>>)
    ensures r == InjectCases(cs, domain, mode, known, sigs)
    decreases cs
  {
    var out: seq<Case>, sigs' := [], sigs;
    ghost var whole := InjectCases(cs, domain, mode, known, sigs);
    assert cs[0..] == cs;
    assert whole.Ok? ==> out + whole.value.tree == whole.value.tree;
    for j := 0 to |cs|
      invariant whole == Then(out, InjectCases(cs[j..], domain, mode, known, sigs'))
    {
      InjectCasesStep(cs, j, domain, mode, known, sigs', out);
      var c := InjectCaseBody(cs[j], domain, mode, known, sigs');
      if c.Err? {
        return Err(c.msg);
      }
      out, sigs' := out + [c.value.tree], c.value.signals;
    }
    assert cs[|cs|..] == [] && out + [] == out;
    r := Ok(Probed(out, sigs'));
  }

  /** One case body, instrumented and written back under its own key. */
  method InjectCaseBody(c: Case, domain: string, mode: CondMode, known: map<nat, CovId>, sigs: Signals)
    returns (r: Result<Probed<Case>>)
    ensures r == InjectCase(c, domain, mode, known, sigs)
    decreases c
  {
    var b := InjectStmtList(c.body.stmts, domain, mode, known, sigs);
    if b.Err? {
      return Err(b.msg);
    }
    r := Ok(Probed(Case(c.patterns, StmtList(c.body.key, b.value.tree), c.loc), b.value.signals));
  }

  lemma InjectDomainsStep(ds: seq<Domain>, i: nat, mode: CondMode, known: map<nat, CovId>,
                          sigs: Signals, out: seq<Domain>)
    requires i < |ds|
    ensures var d := ds[i];
      var h := InjectList(d.list.stmts, d.name, mode, known, sigs);
      Then(out, InjectDomains(ds[i..], mode, known, sigs))
        == if h.Err? then Err(h.msg)
           else Then(out + [Domain(d.name, StmtList(Copy(d.list.key, ExpressionFacet), h.value.tree))],
                     InjectDomains(ds[i + 1..], mode, known, h.value.signals))
  {
    assert ds[i..][1..] == ds[i + 1..];
    var d := ds[i];
    var h := InjectList(d.list.stmts, d.name, mode, known, sigs);
    if h.Ok? {
      var x := Domain(d.name, StmtList(Copy(d.list.key, ExpressionFacet), h.value.tree));
      var t := InjectDomains(ds[i + 1..], mode, known, h.value.signals);
      if t.Ok? {
        assert out + ([x] + t.value.tree) == (out + [x]) + t.value.tree;
      }
    }
  }

  /** `frag.statements[domain] = _inject_in_stmt_list(...)` for every domain. */
  method InjectDomainLists(ds: seq<Domain>, mode: CondMode, known: map<nat, CovId>, sigs: Signals)
    returns (r: Result<Probed<seq<Domain>>>)
    ensures r == InjectDomains(ds, mode, known, sigs)
  {
    var out: seq<Domain>, sigs' := [], sigs;
    ghost var whole := InjectDomains(ds, mode, known, sigs);
    assert ds[0..] == ds;
    assert whole.Ok? ==> out + whole.value.tree == whole.value.tree;
    for i := 0 to |ds|
      invariant whole == Then(out, InjectDomains(ds[i..], mode, known, sigs'))
    {
      InjectDomainsStep(ds, i, mode, known, sigs', out);
      var d := ds[i];
      var h := InjectStmtList(d.list.stmts, d.name, mode, known, sigs');
      if h.Err? {
        return Err(h.msg);
      }
      out := out + [Domain(d.name, StmtList(Copy(d.list.key, ExpressionFacet), h.value.tree))];
      sigs' := h.value.signals;
    }
    assert ds[|ds|..] == [] && out + [] == out;
    r := Ok(Probed(out, sigs'));
  }

  lemma InjectSubsStep(subs: seq<Sub>, i: nat, mode: CondMode, known: map<nat, CovId>,
                       sigs: Signals, out: seq<Sub>)
    requires i < |subs|
    ensures var h := InjectSub(subs[i], mode, known, sigs);
      Then(out, InjectSubs(subs[i..], mode, known, sigs))
        == if h.Err? then Err(h.msg)
           else Then(out + [h.value.tree], InjectSubs(subs[i + 1..], mode, known, h.value.signals))
  {
    assert subs[i..][1..] == subs[i + 1..];
    var h := InjectSub(subs[i], mode, known, sigs);
    if h.Ok? {
      var t := InjectSubs(subs[i + 1..], mode, known, h.value.signals);
      if t.Ok? {
        assert out + ([h.value.tree] + t.value.tree) == (out + [h.value.tree]) + t.value.tree;
      }
    }
  }

  method InjectSubfragments(subs: seq<Sub>, mode: CondMode, known: map<nat, CovId>, sigs: Signals)
    returns (r: Result<Probed<seq<Sub>>>)
    ensures r == InjectSubs(subs, mode, known, sigs)
    decreases subs
  {
    var out: seq<Sub>, sigs' := [], sigs;
    ghost var whole := InjectSubs(subs, mode, known, sigs);
    assert subs[0..] == subs;
    assert whole.Ok? ==> out + whole.value.tree == whole.value.tree;
    for i := 0 to |subs|
      invariant whole == Then(out, InjectSubs(subs[i..], mode, known, sigs'))
    {
      InjectSubsStep(subs, i, mode, known, sigs', out);
      var h := InjectSubfragment(subs[i], mode, known, sigs');
      if h.Err? {
        return Err(h.msg);
      }
      out, sigs' := out + [h.value.tree], h.value.signals;
    }
    assert subs[|subs|..] == [] && out + [] == out;
    r := Ok(Probed(out, sigs'));
  }

  method InjectSubfragment(s: Sub, mode: CondMode, known: map<nat, CovId>, sigs: Signals)
    returns (r: Result<Probed<Sub>>)
    ensures r == InjectSub(s, mode, known, sigs)
    decreases s
  {
    var t := WalkFragment(s.frag, mode, known, sigs);
    if t.Err? {
      return Err(t.msg);
    }
    r := Ok(Probed(Sub(s.name, t.value.tree), t.value.signals));
  }

  /** `_walk_fragment(frag, parent_path)`. */
  method WalkFragment(f: Fragment, mode: CondMode, known: map<nat, CovId>, sigs: Signals)
    returns (r: Result<Probed<Fragment>>)
    ensures r == InjectFragment(f, mode, known, sigs)
    decreases f
  {
    var ds := InjectDomainLists(f.domains, mode, known, sigs);
    if ds.Err? {
      return Err(ds.msg);
    }
    var ss := InjectSubfragments(f.subs, mode, known, ds.value.signals);
    if ss.Err? {
      return Err(ss.msg);
    }
    r := Ok(Probed(Fragment(ds.value.tree, ss.value.tree), ss.value.signals));
  }

  /** `insert_expression_coverage_signals(fragment)`: the instrumented fragment and
      `coverage_signals`, starting from no signals; every signal is named after
      its id and outcome, and the design apart from the probes is unchanged. */
  method InsertExpressionCoverageSignals(f: Fragment, mode: CondMode, known: map<nat, CovId>)
    returns (r: Result<Probed<Fragment>>)
    ensures r == InjectFragment(f, mode, known, map[])
    ensures r.Ok? ==> AllNamed(r.value.signals) && StripFragment(r.value.tree) == StripFragment(f)
  {
    r := WalkFragment(f, mode, known, map[]);
    InjectFragmentStrip(f, mode, known, map[]);
  }
}

=== FILE: expr_walk.dfy ===
/** `_iter_boolean_subexpressions_from_assign` (tests/test_utils.py:652-669): a
    depth-first walk of an assignment's right-hand side with an explicit stack and
    a set of visited object identities, yielding every one-bit expression object
    once, nested ones included. */
module ExpressionWalk {
  import opened Design

  /** Every expression of the tree under `e`, `e` included. */
  function Subs(e: Expr): set<Expr>
    decreases e
  {
    {e} + SubsOf(e.operands)
  }

  function SubsOf(es: seq<Expr>): set<Expr>
    decreases es
  {
    if es == [] then {} else Subs(es[0]) + SubsOf(es[1..])
  }

  /** The identities of the expression objects under `e`. */
  function NodeIds(e: Expr): set<nat>
  {
    set y | y in Subs(e) :: y.node
  }

  /** Two occurrences of one object are one and the same expression: `node` is an
      object identity. */
  ghost predicate Consistent(root: Expr)
  {
    forall a, b :: a in Subs(root) && b in Subs(root) && a.node == b.node ==> a == b
  }

  lemma {:induction false} SubsOfMember(es: seq<Expr>, i: nat)
    requires i < |es|
    ensures Subs(es[i]) <= SubsOf(es)
    decreases es
  {
    if i > 0 {
      SubsOfMember(es[1..], i - 1);
    }
  }

  lemma {:induction false} SubsOfWitness(es: seq<Expr>, e: Expr) returns (i: nat)
    requires e in SubsOf(es)
    ensures i < |es| && e in Subs(es[i])
    decreases es
  {
    if e in Subs(es[0]) {
      i := 0;
    } else {
      var j := SubsOfWitness(es[1..], e);
      i := j + 1;
    }
  }

  /** Everything under a subexpression is under the root. */
  lemma {:induction false} SubsTrans(root: Expr, e: Expr)
    requires e in Subs(root)
    ensures Subs(e) <= Subs(root)
    decreases root
  {
    if e != root {
      var i := SubsOfWitness(root.operands, e);
      SubsTrans(root.operands[i], e);
      SubsOfMember(root.operands, i);
    }
  }

  /** The operands of a subexpression are subexpressions. */
  lemma OperandsUnder(root: Expr, e: Expr)
    requires e in Subs(root)
    ensures forall c :: c in e.operands ==> c in Subs(root)
  {
    SubsTrans(root, e);
    forall c | c in e.operands
      ensures c in Subs(root)
    {
      var i :| 0 <= i < |e.operands| && e.operands[i] == c;
      SubsOfMember(e.operands, i);
    }
  }

  lemma NodeIdsShrink(root: Expr, e: Expr, seen: set<nat>)
    requires e in Subs(root) && e.node !in seen
    ensures |NodeIds(root) - (seen + {e.node})| < |NodeIds(root) - seen|
  {
    assert e.node in NodeIds(root);
    var a := NodeIds(root) - seen;
    var b := NodeIds(root) - (seen + {e.node});
    assert a == b + {e.node} && e.node !in b;
  }

  /** Every expression on the stack is under the root. */
  ghost predicate Within(root: Expr, stack: seq<Expr>)
  {
    forall i :: 0 <= i < |stack| ==> stack[i] in Subs(root)
  }

  /** What is left of a walk: the expressions still to be yielded and the
      identities visited by the end. */
  datatype Visit = Visit(out: seq<Expr>, seen: set<nat>)

  /** The walk from a given stack and visited set: pop the top; an object already
      visited is dropped; otherwise it is marked visited, yielded when it is one
      bit wide, and its operands are pushed. */
  function Walk(root: Expr, stack: seq<Expr>, seen: set<nat>): Visit
    requires Within(root, stack)
    decreases |NodeIds(root) - seen|, |stack|
  {
    if stack == [] then Visit([], seen)
    else
      var e := stack[|stack| - 1];
      var rest := stack[..|stack| - 1];
      if e.node in seen then Walk(root, rest, seen)
      else
        OperandsUnder(root, e);
        NodeIdsShrink(root, e, seen);
        assert Within(root, rest + e.operands) by {
          forall i | 0 <= i < |rest + e.operands|
            ensures (rest + e.operands)[i] in Subs(root)
          {
            if i >= |rest| {
              assert (rest + e.operands)[i] in e.operands;
            }
          }
        }
        var v := Walk(root, rest + e.operands, seen + {e.node});
        Visit((if e.isBool then [e] else []) + v.out, v.seen)
  }

  /** The one-bit expressions of an assignment's right-hand side, in the order
      `_iter_boolean_subexpressions_from_assign` yields them. */
  function BoolSubexprs(rhs: Expr): seq<Expr>
  {
    Walk(rhs, [rhs], {}).out
  }

  /** Whatever the walk yields is a one-bit expression under the root, not visited
      before the walk started, and no object is yielded twice; the visited set only
      grows. */
  lemma {:induction false} WalkSound(root: Expr, stack: seq<Expr>, seen: set<nat>)
    requires Within(root, stack)
    ensures var v := Walk(root, stack, seen);
      && seen <= v.seen
      && (forall k :: 0 <= k < |v.out| ==>
            v.out[k].isBool && v.out[k] in Subs(root) && v.out[k].node !in seen && v.out[k].node in v.seen)
      && (forall k, l :: 0 <= k < l < |v.out| ==> v.out[k].node != v.out[l].node)
    decreases |NodeIds(root) - seen|, |stack|
  {
    if stack != [] {
      var e := stack[|stack| - 1];
      var rest := stack[..|stack| - 1];
      if e.node in seen {
        WalkSound(root, rest, seen);
      } else {
        OperandsUnder(root, e);
        NodeIdsShrink(root, e, seen);
        assert Within(root, rest + e.operands) by {
          forall i | 0 <= i < |rest + e.operands|
            ensures (rest + e.operands)[i] in Subs(root)
          {
            if i >= |rest| {
              assert (rest + e.operands)[i] in e.operands;
            }
          }
        }
        WalkSound(root, rest + e.operands, seen + {e.node});
      }
    }
  }

  /** Every visited object's operands are visited or still waiting on the stack. */
  ghost predicate Closed(root: Expr, seen: set<nat>, stack: seq<Expr>)
  {
    forall y, c :: y in Subs(root) && y.node in seen && c in y.operands ==> c.node in seen || c in stack
  }

  /** Popping the top of the stack keeps every remaining and pushed object under the root. */
  lemma PopWithin(root: Expr, stack: seq<Expr>)
    requires Within(root, stack) && stack != []
    ensures var e := stack[|stack| - 1];
      Within(root, stack[..|stack| - 1]) && Within(root, stack[..|stack| - 1] + e.operands)
  {
    var e := stack[|stack| - 1];
    var rest := stack[..|stack| - 1];
    assert e in Subs(root);
    OperandsUnder(root, e);
    var stack' := rest + e.operands;
    forall i | 0 <= i < |stack'|
      ensures stack'[i] in Subs(root)
    {
      if i >= |rest| {
        assert stack'[i] in e.operands;
      } else {
        assert stack'[i] == stack[i];
      }
    }
  }

  lemma ClosedSkip(root: Expr, seen: set<nat>, stack: seq<Expr>)
    requires Closed(root, seen, stack) && stack != [] && stack[|stack| - 1].node in seen
    ensures Closed(root, seen, stack[..|stack| - 1])
  {
    var rest := stack[..|stack| - 1];
    assert stack == rest + [stack[|stack| - 1]];
  }

  lemma ClosedVisit(root: Expr, seen: set<nat>, stack: seq<Expr>)
    requires Consistent(root) && Within(root, stack) && Closed(root, seen, stack) && stack != []
    requires stack[|stack| - 1].node !in seen
    ensures var e := stack[|stack| - 1];
      Closed(root, seen + {e.node}, stack[..|stack| - 1] + e.operands)
  {
    var e := stack[|stack| - 1];
    var rest := stack[..|stack| - 1];
    assert stack == rest + [e];
    assert e in Subs(root);
    var stack' := rest + e.operands;
    forall y, c | y in Subs(root) && y.node in seen + {e.node} && c in y.operands
      ensures c.node in seen + {e.node} || c in stack'
    {
      if y.node == e.node {
        assert y == e;
      }
    }
  }

  /** Walking to the end leaves every visited object's operands visited, and every
      object that was on the stack visited. */
  lemma {:induction false} WalkCloses(root: Expr, stack: seq<Expr>, seen: set<nat>)
    requires Within(root, stack) && Consistent(root) && Closed(root, seen, stack)
    ensures var v := Walk(root, stack, seen);
      Closed(root, v.seen, []) && forall x :: x in stack ==> x.node in v.seen
    decreases |NodeIds(root) - seen|, |stack|
  {
    if stack != [] {
      var e := stack[|stack| - 1];
      var rest := stack[..|stack| - 1];
      assert stack == rest + [e];
      PopWithin(root, stack);
      if e.node in seen {
        ClosedSkip(root, seen, stack);
        WalkCloses(root, rest, seen);
        WalkSound(root, rest, seen);
      } else {
        assert e in Subs(root);
        NodeIdsShrink(root, e, seen);
        ClosedVisit(root, seen, stack);
        WalkCloses(root, rest + e.operands, seen + {e.node});
        WalkSound(root, rest + e.operands, seen + {e.node});
      }
    }
  }

  /** Every one-bit object first visited during the walk is yielded. */
  lemma {:induction false} WalkYields(root: Expr, stack: seq<Expr>, seen: set<nat>, y: Expr)
    requires Within(root, stack) && Consistent(root)
    requires y in Subs(root) && y.isBool && y.node !in seen && y.node in Walk(root, stack, seen).seen
    ensures y in Walk(root, stack, seen).out
    decreases |NodeIds(root) - seen|, |stack|
  {
    var e := stack[|stack| - 1];
    var rest := stack[..|stack| - 1];
    if e.node in seen {
      WalkYields(root, rest, seen, y);
    } else {
      OperandsUnder(root, e);
      NodeIdsShrink(root, e, seen);
      var stack' := rest + e.operands;
      assert Within(root, stack') by {
        forall i | 0 <= i < |stack'|
          ensures stack'[i] in Subs(root)
        {
          if i >= |rest| {
            assert stack'[i] in e.operands;
          }
        }
      }
      if y.node == e.node {
        assert y == e;
      } else {
        WalkYields(root, stack', seen + {e.node}, y);
      }
    }
  }

  /** When every visited object's operands are visited, everything under a visited
      object is visited. */
  lemma {:induction false} ClosedCovers(root: Expr, s: set<nat>, e: Expr)
    requires Closed(root, s, []) && e in Subs(root) && e.node in s
    ensures forall z :: z in Subs(e) ==> z.node in s
    decreases e
  {
    OperandsUnder(root, e);
    forall z | z in Subs(e)
      ensures z.node in s
    {
      if z != e {
        var i := SubsOfWitness(e.operands, z);
        assert e.operands[i] in e.operands;
        ClosedCovers(root, s, e.operands[i]);
      }
    }
  }

  /** The walk yields exactly the one-bit expressions of the right-hand side, each
      object once. */
  lemma BoolSubexprsExact(rhs: Expr)
    requires Consistent(rhs)
    ensures forall y :: y in BoolSubexprs(rhs) <==> y in Subs(rhs) && y.isBool
    ensures var r := BoolSubexprs(rhs);
      forall k, l :: 0 <= k < l < |r| ==> r[k].node != r[l].node
  {
    assert Within(rhs, [rhs]);
    var v := Walk(rhs, [rhs], {});
    WalkSound(rhs, [rhs], {});
    WalkCloses(rhs, [rhs], {});
    ClosedCovers(rhs, v.seen, rhs);
    forall y | y in Subs(rhs) && y.isBool
      ensures y in v.out
    {
      WalkYields(rhs, [rhs], {}, y);
    }
  }

  /** One step of the walk, as the loop below takes it. */
  lemma WalkStep(root: Expr, stack: seq<Expr>, seen: set<nat>)
    requires Within(root, stack) && stack != []
    ensures var e := stack[|stack| - 1];
      var rest := stack[..|stack| - 1];
      && Within(root, rest) && Within(root, rest + e.operands)
      && (e.node !in seen ==> |NodeIds(root) - (seen + {e.node})| < |NodeIds(root) - seen|)
      && Walk(root, stack, seen).out
           == if e.node in seen then Walk(root, rest, seen).out
              else (if e.isBool then [e] else []) + Walk(root, rest + e.operands, seen + {e.node}).out
  {
    var e := stack[|stack| - 1];
    PopWithin(root, stack);
    if e.node !in seen {
      NodeIdsShrink(root, e, seen);
    }
  }

  /** The loop of `_iter_boolean_subexpressions_from_assign`: pop, skip what was
      seen, yield one-bit objects, push the operands. */
  method BooleanSubexpressions(rhs: Expr) returns (r: seq<Expr>)
    ensures r == BoolSubexprs(rhs)
  {
    var stack := [rhs];
    var seen: set<nat> := {};
    r := [];
    while stack != []
      invariant Within(rhs, stack)
      invariant BoolSubexprs(rhs) == r + Walk(rhs, stack, seen).out
      decreases |NodeIds(rhs) - seen|, |stack|
    {
      var e := stack[|stack| - 1];
      var rest := stack[..|stack| - 1];
      WalkStep(rhs, stack, seen);
      if e.node in seen {
        stack := rest;
      } else {
        ghost var tail := Walk(rhs, rest + e.operands, seen + {e.node}).out;
        if e.isBool {
          assert r + ([e] + tail) == (r + [e]) + tail;
          r := r + [e];
        } else {
          assert [] + tail == tail;
        }
        seen := seen + {e.node};
        stack := rest + e.operands;
      }
    }
    assert r + [] == r;
  }
}

=== FILE: naming.dfy ===
/** The naming helpers of the coverage engine (tests/test_utils.py:25-64): short
    file and location strings for descriptors, and the names of shadow signals. */
module CoverageNaming {
  import opened Wrappers
  import opened Text
  import opened Design

  /** `_ANCHOR`: file names are shortened to start at the repository directory. */
  const Anchor := "chipflow-digital-ip"

  /** `_shorten_filename`: the part of the path from the repository directory on,
      or the last path component when the directory name does not occur. */
  function ShortenFilename(filename: string): string
  {
    if filename == "" then "unknown"
    else
      var idx := Find(filename, Anchor);
      if idx != -1 then filename[idx..] else Last(Split(filename, '/'))
  }

  /** The short name is "unknown" for an empty name; otherwise it is a suffix of the
      name that starts at the first occurrence of the repository directory, or,
      when that does not occur, the whole last "/"-separated component. */
  lemma ShortenFilenameShape(filename: string)
    ensures var r := ShortenFilename(filename);
      && (filename == "" ==> r == "unknown")
      && (filename != "" && Find(filename, Anchor) >= 0 ==>
            |r| <= |filename| && r == filename[|filename| - |r|..] && Anchor <= r &&
            forall i :: 0 <= i < |filename| - |r| ==> !OccursAt(filename, Anchor, i))
      && (filename != "" && Find(filename, Anchor) < 0 ==>
            '/' !in r && |r| <= |filename| && r == filename[|filename| - |r|..] &&
            (|r| == |filename| || filename[|filename| - |r| - 1] == '/'))
  {
    if filename != "" && Find(filename, Anchor) < 0 {
      LastPieceIsSuffix(filename, '/');
    }
  }

  /** The last piece of a split is a suffix of the string, preceded by the separator
      unless it is the whole string. */
  lemma {:induction false} LastPieceIsSuffix(s: string, sep: char)
    ensures |Split(s, sep)| == 1 ==> Split(s, sep)[0] == s
    ensures |Split(s, sep)| >= 2 ==> |Last(Split(s, sep))| < |s|
    ensures |Last(Split(s, sep))| <= |s|
    ensures Last(Split(s, sep)) == s[|s| - |Last(Split(s, sep))|..]
    ensures |Last(Split(s, sep))| == |s| || s[|s| - |Last(Split(s, sep))| - 1] == sep
    decreases |s|
  {
    if s != [] {
      LastPieceIsSuffix(s[1..], sep);
      var rest := Split(s[1..], sep);
      SplitUnfold(s, sep);
      if s[0] != sep && |rest| == 1 {
        assert [s[0]] + s[1..] == s;
      } else {
        SuffixOfTail(s, |Last(rest)|);
      }
    }
  }

  /** One step of `Split`: the first character either starts a new piece or joins
      the first piece of the rest. */
  lemma SplitUnfold(s: string, sep: char)
    requires s != []
    ensures var rest := Split(s[1..], sep);
      && (s[0] != sep && |rest| == 1 ==> Split(s, sep) == [[s[0]] + rest[0]])
      && (s[0] == sep || |rest| >= 2 ==> |Split(s, sep)| >= 2 && Last(Split(s, sep)) == Last(rest))
  {
  }

  lemma SuffixOfTail<T>(s: seq<T>, k: nat)
    requires k < |s|
    ensures s[1..][|s| - 1 - k..] == s[|s| - k..]
    ensures k < |s| - 1 ==> s[1..][|s| - 1 - k - 1] == s[|s| - k - 1]
  {
  }

  /** `_short_loc`: "unknown" without a location, else "<short file>:<line>". */
  function ShortLoc(loc: Option<Loc>): string
  {
    match loc
    case None => "unknown"
    case Some(Loc(file, line)) => ShortenFilename(file) + ":" + NatToString(line)
  }

  /** A location string starts with the short file name and a colon, and its last
      ":"-separated piece reads back as the line number. */
  lemma ShortLocShape(loc: Option<Loc>)
    ensures loc.None? ==> ShortLoc(loc) == "unknown"
    ensures loc.Some? ==> ShortenFilename(loc.value.file) + ":" <= ShortLoc(loc)
    ensures loc.Some? ==>
      var last := Last(Split(ShortLoc(loc), ':'));
      AllDigits(last) && DigitsValue(last) == loc.value.line
  {
    if loc.Some? {
      var Loc(file, line) := loc.value;
      var r := ShortLoc(loc);
      assert r == ShortenFilename(file) + [':'] + NatToString(line);
      DigitsNoSeparator(NatToString(line), ':');
      LastPieceAfterSep(ShortenFilename(file), NatToString(line), ':');
      DigitsValueOfNatToString(line);
    }
  }

  lemma DigitsNoSeparator(d: string, sep: char)
    requires AllDigits(d) && !IsDigit(sep)
    ensures sep !in d
  {
  }

  /** How `_safe_path_str` shows one component: "anon" for `None` and for "". */
  function SafeComponent(n: Name): string
  {
    if n.None? || n.value == "" then "anon" else n.value
  }

  function SafeComponents(path: Path): (r: seq<string>)
    ensures |r| == |path| && forall i :: 0 <= i < |path| ==> r[i] == SafeComponent(path[i])
  {
    if path == [] then [] else [SafeComponent(path[0])] + SafeComponents(path[1..])
  }

  /** `_safe_path_str`: "top" for the top fragment, else the components joined by "/". */
  function SafePathStr(path: Path): (r: string)
    ensures path == [] ==> r == "top"
  {
    if path == [] then "top" else Join(SafeComponents(path), "/")
  }

  /** When no component holds a "/", splitting the path string recovers every
      component as `_safe_path_str` shows it. */
  lemma SafePathStrRoundTrip(path: Path)
    requires path != []
    requires forall i :: 0 <= i < |path| ==> '/' !in SafeComponent(path[i])
    ensures Split(SafePathStr(path), '/') == SafeComponents(path)
  {
    SplitJoin(SafeComponents(path), '/');
  }

  /** How `_cov_signal_name` shows one component: "anon" for `None` only, so an
      empty component stays empty (unlike `_safe_path_str`). */
  function SignalComponents(path: Path): (r: seq<string>)
    ensures |r| == |path|
    ensures forall i :: 0 <= i < |path| ==> r[i] == (if path[i].None? then "anon" else path[i].value)
  {
    if path == [] then [] else [if path[0].None? then "anon" else path[0].value] + SignalComponents(path[1..])
  }

  /** `_cov_signal_name(prefix, parent_path, domain, serial, *extra)`: the name of a
      shadow signal. */
  function CovSignalName(prefix: string, path: Path, domain: string, serial: nat, extra: seq<string>): string
  {
    SignalHead(prefix, path, domain, extra) + "_" + NatToString(serial)
  }

  /** Everything of a shadow signal's name before its serial. */
  function SignalHead(prefix: string, path: Path, domain: string, extra: seq<string>): string
  {
    var p := if path == [] then "top" else Join(SignalComponents(path), "_");
    var suffix := Join(extra, "_");
    if suffix != "" then prefix + "_" + p + "_" + domain + "_" + suffix
    else prefix + "_" + p + "_" + domain
  }

  /** A shadow signal's name starts with the prefix and an underscore, and its last
      "_"-separated piece reads back as the serial. */
  lemma CovSignalNameShape(prefix: string, path: Path, domain: string, serial: nat, extra: seq<string>)
    ensures var r := CovSignalName(prefix, path, domain, serial, extra);
      prefix + "_" <= r && AllDigits(Last(Split(r, '_'))) && DigitsValue(Last(Split(r, '_'))) == serial
  {
    var head := SignalHead(prefix, path, domain, extra);
    var r := CovSignalName(prefix, path, domain, serial, extra);
    assert r == head + ['_'] + NatToString(serial);
    assert prefix + "_" <= head;
    DigitsNoSeparator(NatToString(serial), '_');
    LastPieceAfterSep(head, NatToString(serial), '_');
    DigitsValueOfNatToString(serial);
  }

  /** Python's `str(loc)` for a `(filename, lineno)` tuple, as used in the switch descriptor. */
  function LocRepr(loc: Option<Loc>): string
  {
    match loc
    case None => "None"
    case Some(Loc(file, line)) => "(" + Repr(file) + ", " + NatToString(line) + ")"
  }

  /** Python's `str(patterns)` for a tuple of pattern strings, and "default" for `None`. */
  function PatternsText(patterns: Option<seq<string>>): string
  {
    match patterns
    case None => "default"
    case Some(ps) =>
      "(" + Join(Quoted(ps), ", ") + (if |ps| == 1 then "," else "") + ")"
  }

  function Quoted(ps: seq<string>): seq<string>
  {
    if ps == [] then [] else [Repr(ps[0])] + Quoted(ps[1..])
  }
}

=== FILE: ordered_dict.dfy ===
/** Python's insertion-ordered `dict`, as the Verilog wrapper uses it: a sequence
    of key/value pairs. `d[k] = v` replaces the value in place when `k` is
    already a key and appends the pair otherwise, so a key keeps the position of
    its first write and the value of its last. */
module OrderedDict {
  import opened Wrappers

  type Dict<K, V> = seq<(K, V)>

  function Keys<K(==), V>(d: Dict<K, V>): set<K>
  {
    set i | 0 <= i < |d| :: d[i].0
  }

  /** No key occurs twice, as in every Python dict. */
  predicate KeysUnique<K(==), V>(d: Dict<K, V>)
  {
    forall i, j :: 0 <= i < j < |d| ==> d[i].0 != d[j].0
  }

  /** `d.get(k)`: the value of the first pair with key `k`. */
  function Lookup<K(==), V>(d: Dict<K, V>, k: K): Option<V>
  {
    if d == [] then None
    else if d[0].0 == k then Some(d[0].1)
    else Lookup(d[1..], k)
  }

  /** `d[k] = v`. */
  function Set<K(==), V>(d: Dict<K, V>, k: K, v: V): Dict<K, V>
  {
    if d == [] then [(k, v)]
    else if d[0].0 == k then [(k, v)] + d[1..]
    else [d[0]] + Set(d[1..], k, v)
  }

  /** The pairs of `ws` written into `d` one after the other. */
  function Apply<K(==), V>(d: Dict<K, V>, ws: seq<(K, V)>): Dict<K, V>
  {
    if ws == [] then d
    else var w := ws[|ws| - 1]; Set(Apply(d, ws[..|ws| - 1]), w.0, w.1)
  }

  /** The value of the last write to `k` in `ws`, if any. */
  function LastWrite<K(==), V>(ws: seq<(K, V)>, k: K): Option<V>
  {
    if ws == [] then None
    else if ws[|ws| - 1].0 == k then Some(ws[|ws| - 1].1)
    else LastWrite(ws[..|ws| - 1], k)
  }

  lemma {:induction false} KeysCons<K, V>(d: Dict<K, V>)
    requires d != []
    ensures Keys(d) == {d[0].0} + Keys(d[1..])
  {
    forall k | k in Keys(d) ensures k in {d[0].0} + Keys(d[1..]) {
      var i :| 0 <= i < |d| && d[i].0 == k;
      if i > 0 {
        assert d[1..][i - 1] == d[i];
      }
    }
    forall k | k in Keys(d[1..]) ensures k in Keys(d) {
      var i :| 0 <= i < |d[1..]| && d[1..][i].0 == k;
      assert d[i + 1] == d[1..][i];
    }
  }

  /** After `d[k] = v`, `k` has value `v` and every other key keeps its value. */
  lemma {:induction false} SetLookup<K, V>(d: Dict<K, V>, k: K, v: V, j: K)
    ensures Lookup(Set(d, k, v), j) == if j == k then Some(v) else Lookup(d, j)
    decreases |d|
  {
    if d != [] && d[0].0 != k {
      assert Set(d, k, v)[1..] == Set(d[1..], k, v);
      SetLookup(d[1..], k, v, j);
    } else if d != [] {
      assert Set(d, k, v)[1..] == d[1..];
    }
  }

  /** `d[k] = v` adds `k` to the keys and nothing else; a key already present keeps
      its position, a new one goes to the end. */
  lemma {:induction false} SetShape<K, V>(d: Dict<K, V>, k: K, v: V)
    ensures Keys(Set(d, k, v)) == Keys(d) + {k}
    ensures k in Keys(d) ==> |Set(d, k, v)| == |d| && forall i :: 0 <= i < |d| ==> Set(d, k, v)[i].0 == d[i].0
    ensures k !in Keys(d) ==> Set(d, k, v) == d + [(k, v)]
    decreases |d|
  {
    var r := Set(d, k, v);
    if d == [] {
      assert r == [(k, v)];
      assert Keys(r) == {k} by {
        assert r[0].0 == k;
      }
    } else {
      KeysCons(d);
      KeysCons(r);
      if d[0].0 == k {
        assert r[1..] == d[1..];
      } else {
        assert r[1..] == Set(d[1..], k, v);
        SetShape(d[1..], k, v);
        if k !in Keys(d) {
          assert d == [d[0]] + d[1..];
        }
      }
    }
  }

  /** Writing into a dict with unique keys leaves its keys unique. */
  lemma SetUnique<K, V>(d: Dict<K, V>, k: K, v: V)
    requires KeysUnique(d)
    ensures KeysUnique(Set(d, k, v))
  {
    SetShape(d, k, v);
    var r := Set(d, k, v);
    if k !in Keys(d) {
      forall i, j | 0 <= i < j < |r| ensures r[i].0 != r[j].0 {
        if j == |d| {
          assert r[i].0 == d[i].0 && d[i].0 in Keys(d);
        }
      }
    }
  }

  /** A dict built by writes has each key's last written value, or its earlier one
      when the writes never touch the key. */
  lemma {:induction false} ApplyLookup<K, V>(d: Dict<K, V>, ws: seq<(K, V)>, k: K)
    ensures Lookup(Apply(d, ws), k) == if LastWrite(ws, k).Some? then LastWrite(ws, k) else Lookup(d, k)
    decreases |ws|
  {
    if ws != [] {
      var w := ws[|ws| - 1];
      ApplyLookup(d, ws[..|ws| - 1], k);
      SetLookup(Apply(d, ws[..|ws| - 1]), w.0, w.1, k);
    }
  }

  /** The keys of a dict built by writes: the earlier keys and every written key. */
  lemma {:induction false} ApplyKeys<K, V>(d: Dict<K, V>, ws: seq<(K, V)>)
    ensures Keys(Apply(d, ws)) == Keys(d) + Keys(ws)
    decreases |ws|
  {
    if ws != [] {
      var w := ws[|ws| - 1];
      var init := ws[..|ws| - 1];
      ApplyKeys(d, init);
      SetShape(Apply(d, init), w.0, w.1);
      assert init + [w] == ws;
      KeysAppend(init, [w]);
      assert Keys([w]) == {w.0} by {
        assert [w][0].0 == w.0;
      }
    }
  }

  /** Writes build a dict with unique keys. */
  lemma {:induction false} ApplyUnique<K, V>(d: Dict<K, V>, ws: seq<(K, V)>)
    requires KeysUnique(d)
    ensures KeysUnique(Apply(d, ws))
    decreases |ws|
  {
    if ws != [] {
      var w := ws[|ws| - 1];
      ApplyUnique(d, ws[..|ws| - 1]);
      SetUnique(Apply(d, ws[..|ws| - 1]), w.0, w.1);
    }
  }

  /** A dict built by writes from nothing has unique keys, and they are the keys
      written. */
  lemma ApplyFromEmpty<K, V>(ws: seq<(K, V)>)
    ensures KeysUnique(Apply([], ws)) && Keys(Apply([], ws)) == Keys(ws)
  {
    ApplyUnique([], ws);
    ApplyKeys([], ws);
    assert Keys<K, V>([]) == {};
  }

  /** Writing two runs of pairs is writing their concatenation. */
  lemma {:induction false} ApplyAppend<K, V>(d: Dict<K, V>, a: seq<(K, V)>, b: seq<(K, V)>)
    ensures Apply(d, a + b) == Apply(Apply(d, a), b)
    decreases |b|
  {
    if b == [] {
      assert a + b == a;
    } else {
      assert (a + b)[..|a + b| - 1] == a + b[..|b| - 1];
      ApplyAppend(d, a, b[..|b| - 1]);
    }
  }

  /** Writing pairs whose keys are all distinct into an empty dict gives the pairs
      back in the same order. */
  lemma {:induction false} ApplyDistinct<K, V>(ws: seq<(K, V)>)
    requires KeysUnique(ws)
    ensures Apply([], ws) == ws
    decreases |ws|
  {
    if ws != [] {
      var init := ws[..|ws| - 1];
      var w := ws[|ws| - 1];
      ApplyDistinct(init);
      assert w.0 !in Keys(init);
      SetShape(init, w.0, w.1);
      assert init + [w] == ws;
    }
  }

  /** One more write. */
  lemma ApplySnoc<K, V>(d: Dict<K, V>, ws: seq<(K, V)>, w: (K, V))
    ensures Apply(d, ws + [w]) == Set(Apply(d, ws), w.0, w.1)
  {
    assert (ws + [w])[..|ws|] == ws;
  }

  /** The keys of two dicts one after the other. */
  lemma KeysAppend<K, V>(a: Dict<K, V>, b: Dict<K, V>)
    ensures Keys(a + b) == Keys(a) + Keys(b)
  {
    forall k | k in Keys(a + b) ensures k in Keys(a) + Keys(b) {
      var j :| 0 <= j < |a + b| && (a + b)[j].0 == k;
      if j >= |a| {
        assert b[j - |a|] == (a + b)[j];
      }
    }
    forall k | k in Keys(a) + Keys(b) ensures k in Keys(a + b) {
      if k in Keys(a) {
        var j :| 0 <= j < |a| && a[j].0 == k;
        assert (a + b)[j] == a[j];
      } else {
        var j :| 0 <= j < |b| && b[j].0 == k;
        assert (a + b)[|a| + j] == b[j];
      }
    }
  }

  /** Two sequences of pairs with the same keys position by position have the same
      keys, and one has unique keys when the other does. */
  lemma KeysPointwise<K, V, W>(a: Dict<K, V>, b: Dict<K, W>)
    requires |a| == |b| && forall i :: 0 <= i < |a| ==> a[i].0 == b[i].0
    ensures Keys(a) == Keys(b)
    ensures KeysUnique(a) <==> KeysUnique(b)
  {
    forall k | k in Keys(a) ensures k in Keys(b) {
      var j :| 0 <= j < |a| && a[j].0 == k;
      assert b[j].0 == k;
    }
    forall k | k in Keys(b) ensures k in Keys(a) {
      var j :| 0 <= j < |b| && b[j].0 == k;
      assert a[j].0 == k;
    }
  }
}

=== FILE: pattern_mask.dfy ===
/** `_pattern_to_mask_value` (tests/test_utils.py:671-687): a Switch case pattern
    string such as "1-0" becomes a pair of integers, the mask of the bits the
    pattern fixes and the value those bits must have. The leftmost character is
    the most significant bit. */
module PatternMask {
  import opened Wrappers
  import opened Text

  /** A character the pattern regular expression `[01-]` accepts. */
  predicate IsPatternChar(c: char)
  {
    c == '0' || c == '1' || c == '-'
  }

  /** `re.fullmatch(r"[01-]+", pattern_str)`: at least one character, each one of
      `0`, `1`, `-`. */
  predicate FullMatch(p: string)
  {
    |p| > 0 && forall i :: 0 <= i < |p| ==> IsPatternChar(p[i])
  }

  /** Bit `i` of a non-negative integer. */
  predicate Bit(x: nat, i: nat)
  {
    if i == 0 then x % 2 == 1 else Bit(x / 2, i - 1)
  }

  /** A character that fixes its bit. */
  predicate Fixes(c: char)
  {
    c == '0' || c == '1'
  }

  /** The mask of a pattern: shift left, then set the new low bit when the
      character fixes it. */
  function MaskOf(p: string): nat
  {
    if p == [] then 0 else 2 * MaskOf(p[..|p| - 1]) + (if Fixes(p[|p| - 1]) then 1 else 0)
  }

  /** The value of a pattern: shift left, then set the new low bit for a `1`. */
  function ValueOf(p: string): nat
  {
    if p == [] then 0 else 2 * ValueOf(p[..|p| - 1]) + (if p[|p| - 1] == '1' then 1 else 0)
  }

  /** The whole conversion: the pattern is checked against the regular expression
      first and against the width second, each with its own error. */
  function PatternToMask(p: string, width: nat): (r: Result<(nat, nat)>)
    ensures r.Ok? <==> FullMatch(p) && |p| == width
    ensures r.Err? && !FullMatch(p) ==> r.msg == "Unsupported switch pattern string: " + Repr(p)
    ensures r.Err? && FullMatch(p) ==> r.msg == "Pattern width " + NatToString(|p|) + " != test width " + NatToString(width)
  {
    if !FullMatch(p) then Err("Unsupported switch pattern string: " + Repr(p))
    else if |p| != width then Err("Pattern width " + NatToString(|p|) + " != test width " + NatToString(width))
    else Ok((MaskOf(p), ValueOf(p)))
  }

  /** A pattern holding a single quote is shown in double quotes, as Python's `!r`
      shows it. */
  lemma QuotedPatternMessage()
    ensures PatternToMask("a'b", 3) == Err("Unsupported switch pattern string: \"a'b\"")
  {
    var p := "a'b";
    assert p[1] == '\'' && '"' !in p;
    assert EscapeAll(p, '"') == p by {
      assert EscapeAll(p[2..], '"') == "b";
      assert EscapeAll(p[1..], '"') == "'b";
    }
  }

  /** Shifting left and setting the new low bit to `b`: the low bit is `b` and
      the higher bits are those of `x`. */
  lemma ShiftIn(x: nat, b: nat)
    requires b < 2
    ensures (2 * x + b) / 2 == x
    ensures (2 * x + b) % 2 == b
  {
  }

  lemma {:induction false} ZeroHasNoBits(i: nat)
    ensures !Bit(0, i)
  {
    if i > 0 {
      ZeroHasNoBits(i - 1);
    }
  }

  /** Bit `i` of the mask is set exactly when the `i`-th character from the right
      is `0` or `1`. */
  lemma {:induction false} MaskBit(p: string, i: nat)
    requires i < |p|
    ensures Bit(MaskOf(p), i) <==> Fixes(p[|p| - 1 - i])
    decreases |p|
  {
    var q := p[..|p| - 1];
    var b := if Fixes(p[|p| - 1]) then 1 else 0;
    assert MaskOf(p) == 2 * MaskOf(q) + b;
    ShiftIn(MaskOf(q), b);
    if i > 0 {
      MaskBit(q, i - 1);
      assert q[|q| - 1 - (i - 1)] == p[|p| - 1 - i];
    }
  }

  /** Bit `i` of the value is set exactly when the `i`-th character from the
      right is `1`. */
  lemma {:induction false} ValueBit(p: string, i: nat)
    requires i < |p|
    ensures Bit(ValueOf(p), i) <==> p[|p| - 1 - i] == '1'
    decreases |p|
  {
    var q := p[..|p| - 1];
    var b := if p[|p| - 1] == '1' then 1 else 0;
    assert ValueOf(p) == 2 * ValueOf(q) + b;
    ShiftIn(ValueOf(q), b);
    if i > 0 {
      ValueBit(q, i - 1);
      assert q[|q| - 1 - (i - 1)] == p[|p| - 1 - i];
    }
  }

  /** Neither integer has a bit at or above the pattern's length. */
  lemma {:induction false} NoBitsAbove(p: string, i: nat)
    requires i >= |p|
    ensures !Bit(MaskOf(p), i) && !Bit(ValueOf(p), i)
    decreases |p|
  {
    if p == [] {
      ZeroHasNoBits(i);
    } else {
      var q := p[..|p| - 1];
      ShiftIn(MaskOf(q), if Fixes(p[|p| - 1]) then 1 else 0);
      ShiftIn(ValueOf(q), if p[|p| - 1] == '1' then 1 else 0);
      NoBitsAbove(q, i - 1);
    }
  }

  /** A successful conversion: the mask has exactly the fixed bits, the value
      exactly the `1` bits, so the value is a submask of the mask, and nothing
      lies above the width. */
  lemma PatternBits(p: string, width: nat)
    requires PatternToMask(p, width).Ok?
    ensures var (mask, value) := PatternToMask(p, width).value;
      && (forall i :: 0 <= i < width ==> (Bit(mask, i) <==> Fixes(p[width - 1 - i])))
      && (forall i :: 0 <= i < width ==> (Bit(value, i) <==> p[width - 1 - i] == '1'))
      && (forall i: nat :: Bit(value, i) ==> Bit(mask, i))
      && (forall i: nat :: i >= width ==> !Bit(mask, i) && !Bit(value, i))
  {
    forall i | 0 <= i < width ensures Bit(MaskOf(p), i) <==> Fixes(p[width - 1 - i]) {
      MaskBit(p, i);
    }
    forall i | 0 <= i < width ensures Bit(ValueOf(p), i) <==> p[width - 1 - i] == '1' {
      ValueBit(p, i);
    }
    forall i: nat ensures Bit(ValueOf(p), i) ==> Bit(MaskOf(p), i) {
      if i < width {
        MaskBit(p, i);
        ValueBit(p, i);
      } else {
        NoBitsAbove(p, i);
      }
    }
    forall i: nat | i >= width ensures !Bit(MaskOf(p), i) && !Bit(ValueOf(p), i) {
      NoBitsAbove(p, i);
    }
  }

  /** The conversion as written: the regular-expression check, the
      width check, then one shift of both integers per character. */
  method PatternToMaskValue(p: string, width: nat) returns (r: Result<(nat, nat)>)
    ensures r == PatternToMask(p, width)
  {
    var ok := |p| > 0;
    for k := 0 to |p|
      invariant ok <==> |p| > 0 && forall j :: 0 <= j < k ==> IsPatternChar(p[j])
    {
      if !IsPatternChar(p[k]) {
        ok := false;
      }
    }
    if !ok {
      return Err("Unsupported switch pattern string: " + Repr(p));
    }
    if |p| != width {
      return Err("Pattern width " + NatToString(|p|) + " != test width " + NatToString(width));
    }
    var mask: nat, value: nat := 0, 0;
    for k := 0 to |p|
      invariant mask == MaskOf(p[..k]) && value == ValueOf(p[..k])
    {
      assert p[..k + 1][..k] == p[..k];
      var ch := p[k];
      mask, value := 2 * mask, 2 * value;
      if ch == '-' {
      } else if ch == '0' {
        mask := mask + 1;
      } else if ch == '1' {
        mask, value := mask + 1, value + 1;
      } else {
        assert false;
      }
    }
    assert p[..|p|] == p;
    r := Ok((mask, value));
  }
}

=== FILE: port_format.dfy ===
/** Python's `str.format(n=0)` as `elaborate` applies it to a Verilog signal name
    that holds an opening brace (chipflow_digital_ip/io/_verilog_wrapper.py): escaped
    braces, the field `n` with a conversion or an integer format spec, and the
    errors of a brace left unmatched. */
module PortFormat {
  import opened Wrappers
  import opened Text

  /** Text with no brace of either kind. */
  predicate BraceFree(s: string)
  {
    forall i :: 0 <= i < |s| ==> s[i] != OpenBrace && s[i] != CloseBrace
  }

  /** The replacement field `n`, written with its braces. */
  const FieldN: string := [OpenBrace, 'n', CloseBrace]

  /** `p` in front of a formatted text; an error passes through. */
  function Prefix(p: string, r: Result<string>): Result<string>
  {
    match r
    case Err(e) => Err(e)
    case Ok(t) => Ok(p + t)
  }

  /** The message for a replacement field outside the forms modelled here. */
  const UnsupportedField: string := "unsupported replacement field in format string"

  /** The first index from `i` on that holds a brace, or `|s|` when there is none. */
  function BraceFrom(s: string, i: nat): (j: nat)
    requires i <= |s|
    ensures i <= j <= |s| && BraceFree(s[i..j])
    ensures j < |s| ==> s[j] == OpenBrace || s[j] == CloseBrace
    decreases |s| - i
  {
    if i == |s| || s[i] == OpenBrace || s[i] == CloseBrace then i
    else
      var j := BraceFrom(s, i + 1);
      assert s[i..j] == [s[i]] + s[i + 1..j];
      j
  }

  /** `width - 1` copies of `fill` followed by the digit `0`: the integer 0
      right-aligned in a field of `width` characters. */
  function Padded(width: nat, fill: char): (s: string)
    ensures |s| == (if width > 1 then width else 1)
    ensures s[|s| - 1] == '0' && forall i :: 0 <= i < |s| - 1 ==> s[i] == fill
    decreases width
  {
    if width <= 1 then "0" else [fill] + Padded(width - 1, fill)
  }

  /** The integer presentation types whose rendering of 0 is the digit `0`. */
  predicate IntType(t: string)
  {
    t == [] || (|t| == 1 && t[0] in "dnxXob")
  }

  /** `format(0, spec)` for a spec made of an optional `0` flag, a decimal width
      and an optional integer type: the zero flag pads with `0`, otherwise with
      spaces. Any other spec is outside the forms modelled here. */
  function FormatZero(spec: string): Result<string>
  {
    var zero := spec != [] && spec[0] == '0';
    var rest := if zero then spec[1..] else spec;
    var k := DigitRun(rest);
    if IntType(rest[k..]) then Ok(Padded(DigitsValue(rest[..k]), if zero then '0' else ' '))
    else Err(UnsupportedField)
  }

  /** The text of one replacement field (its braces stripped) when formatted with
      `n=0`: `n` and its conversions `!s`, `!r` and `!a` give `0`, and `n:` with
      a spec gives `FormatZero(spec)`. */
  function FieldValue(f: string): Result<string>
  {
    if f == [] || f[0] != 'n' then Err(UnsupportedField)
    else if |f| == 1 then Ok("0")
    else if f[1] == '!' && |f| == 3 && f[2] in "sra" then Ok("0")
    else if f[1] == ':' then FormatZero(f[2..])
    else Err(UnsupportedField)
  }

  /** `s.format(n=0)`: a doubled brace is an escaped brace, a replacement field
      without nested braces is `FieldValue` of its text, a lone `}` or a `{` left
      open is an error. */
  function FormatN(s: string): Result<string>
    decreases |s|
  {
    if s == [] then Ok([])
    else if s[0] == OpenBrace then
      if |s| >= 2 && s[1] == OpenBrace then Prefix([OpenBrace], FormatN(s[2..]))
      else if |s| == 1 then Err("Single '" + [OpenBrace] + "' encountered in format string")
      else
        var j := BraceFrom(s, 1);
        if j == |s| then Err("expected '" + [CloseBrace] + "' before end of string")
        else if s[j] == OpenBrace then Err(UnsupportedField)
        else
          var v := FieldValue(s[1..j]);
          if v.Err? then Err(v.msg) else Prefix(v.value, FormatN(s[j + 1..]))
    else if s[0] == CloseBrace then
      if |s| >= 2 && s[1] == CloseBrace then Prefix([CloseBrace], FormatN(s[2..]))
      else Err("Single '" + [CloseBrace] + "' encountered in format string")
    else Prefix([s[0]], FormatN(s[1..]))
  }

  /** The Verilog port name of a mapped signal: formatted only when it holds an
      opening brace. */
  function PortName(v: string): Result<string>
  {
    if OpenBrace in v then FormatN(v) else Ok(v)
  }

  lemma PrefixPrefix(p: string, q: string, r: Result<string>)
    ensures Prefix(p, Prefix(q, r)) == Prefix(p + q, r)
  {
    if r.Ok? {
      assert p + (q + r.value) == p + q + r.value;
    }
  }

  /** A character other than a brace is copied. */
  lemma FormatPlainStep(s: string)
    requires s != [] && s[0] != OpenBrace && s[0] != CloseBrace
    ensures FormatN(s) == Prefix([s[0]], FormatN(s[1..]))
  {
  }

  /** Text without braces is copied through. */
  lemma {:induction false} FormatPrefix(a: string, t: string)
    requires BraceFree(a)
    ensures FormatN(a + t) == Prefix(a, FormatN(t))
    decreases |a|
  {
    if a == [] {
      assert a + t == t;
      if FormatN(t).Ok? {
        assert a + FormatN(t).value == FormatN(t).value;
      }
    } else {
      FormatPlainStep(a + t);
      assert (a + t)[1..] == a[1..] + t;
      FormatPrefix(a[1..], t);
      PrefixPrefix([a[0]], a[1..], FormatN(t));
      assert [a[0]] + a[1..] == a;
    }
  }

  /** The brace search stops at the first brace after brace-free text. */
  lemma {:induction false} BraceFromAt(s: string, i: nat, k: nat)
    requires i <= k < |s| && BraceFree(s[i..k]) && (s[k] == OpenBrace || s[k] == CloseBrace)
    ensures BraceFrom(s, i) == k
    decreases k - i
  {
    if i < k {
      assert s[i] == s[i..k][0];
      assert s[i + 1..k] == s[i..k][1..];
      BraceFromAt(s, i + 1, k);
    }
  }

  /** A replacement field with brace-free text, followed by brace-free text. */
  lemma FormatField(f: string, b: string)
    requires BraceFree(f) && BraceFree(b)
    ensures FormatN([OpenBrace] + f + [CloseBrace] + b)
      == if FieldValue(f).Ok? then Ok(FieldValue(f).value + b) else Err(FieldValue(f).msg)
  {
    var s := [OpenBrace] + f + [CloseBrace] + b;
    assert s[1..1 + |f|] == f;
    assert s[1 + |f|] == CloseBrace;
    BraceFromAt(s, 1, 1 + |f|);
    assert s[1] != OpenBrace by {
      if f != [] { assert s[1] == f[0]; }
    }
    assert s[2 + |f|..] == b;
    FormatPrefix(b, []);
    assert b + [] == b;
  }

  /** A replacement field with brace-free text between brace-free text: the field
      is replaced by its value, or its error is the result. */
  lemma PortNameField(a: string, f: string, b: string)
    requires BraceFree(a) && BraceFree(f) && BraceFree(b)
    ensures PortName(a + [OpenBrace] + f + [CloseBrace] + b)
      == if FieldValue(f).Ok? then Ok(a + FieldValue(f).value + b) else Err(FieldValue(f).msg)
  {
    var rest := [OpenBrace] + f + [CloseBrace] + b;
    assert a + [OpenBrace] + f + [CloseBrace] + b == a + rest;
    assert (a + rest)[|a|] == OpenBrace;
    FormatPrefix(a, rest);
    FormatField(f, b);
    if FieldValue(f).Ok? {
      assert a + (FieldValue(f).value + b) == a + FieldValue(f).value + b;
    }
  }

  /** A name without an opening brace is used as it is; a name with one `n` field
      between brace-free text gets index 0 in its place. */
  lemma PortNameCases(v: string, a: string, b: string)
    ensures OpenBrace !in v ==> PortName(v) == Ok(v)
    ensures BraceFree(a) && BraceFree(b) ==> PortName(a + FieldN + b) == Ok(a + "0" + b)
  {
    if BraceFree(a) && BraceFree(b) {
      assert a + FieldN + b == a + [OpenBrace] + "n" + [CloseBrace] + b;
      PortNameField(a, "n", b);
    }
  }

  /** Python's `str(n)` of a positive number does not start with `0`. */
  lemma {:induction false} NatToStringLead(n: nat)
    requires n > 0
    ensures NatToString(n)[0] != '0'
    decreases n
  {
    if n >= 10 {
      NatToStringLead(n / 10);
    }
  }

  /** A spec of a width alone pads 0 with spaces to that width. */
  lemma FormatZeroSpaces(w: nat, t: string)
    requires IntType(t)
    ensures FormatZero(NatToString(w) + t) == Ok(Padded(w, ' '))
  {
    var d := NatToString(w);
    var spec := d + t;
    if w > 0 {
      NatToStringLead(w);
      assert spec[0] == d[0];
      DigitRunOfDigitsThen(d, t);
      assert spec[..|d|] == d && spec[|d|..] == t;
      DigitsValueOfNatToString(w);
    } else {
      assert d == "0";
      assert spec[0] == '0' && spec[1..] == t;
      DigitRunOfDigitsThen([], t);
      assert t[..0] == [] && t[0..] == t;
    }
  }

  /** A spec of the `0` flag and a width pads 0 with zeros to that width. */
  lemma FormatZeroZeros(w: nat, t: string)
    requires IntType(t)
    ensures FormatZero("0" + NatToString(w) + t) == Ok(Padded(w, '0'))
  {
    var d := NatToString(w);
    var spec := "0" + d + t;
    var rest := d + t;
    assert spec != [] && spec[0] == '0' && spec[1..] == rest;
    DigitRunOfDigitsThen(d, t);
    assert rest[..|d|] == d && rest[|d|..] == t;
    DigitsValueOfNatToString(w);
    assert FormatZero(spec) == Ok(Padded(DigitsValue(d), '0'));
  }

  /** `n` and its conversions `!s`, `!r` and `!a` all give `0`. */
  lemma FieldValueConversions()
    ensures FieldValue("n") == Ok("0") && FieldValue("n!s") == Ok("0")
    ensures FieldValue("n!r") == Ok("0") && FieldValue("n!a") == Ok("0")
  {
  }

  /** `n:` with a width and an integer type pads 0 with spaces to that width. */
  lemma FieldValueSpaces(w: nat, t: string)
    requires IntType(t)
    ensures FieldValue("n:" + NatToString(w) + t) == Ok(Padded(w, ' '))
  {
    var d := NatToString(w);
    FieldValueSpec(d + t);
    assert "n:" + d + t == "n:" + (d + t);
    FormatZeroSpaces(w, t);
  }

  /** `n:0` with a width and an integer type pads 0 with zeros to that width,
      as `"{n:02d}".format(n=0) == "00"`. */
  lemma FieldValueZeros(w: nat, t: string)
    requires IntType(t)
    ensures FieldValue("n:0" + NatToString(w) + t) == Ok(Padded(w, '0'))
  {
    var d := NatToString(w);
    FieldValueSpec("0" + d + t);
    assert "n:0" + d + t == "n:" + ("0" + d + t);
    FormatZeroZeros(w, t);
  }

  /** A field `n:` with a spec is `FormatZero` of the spec. */
  lemma FieldValueSpec(spec: string)
    ensures FieldValue("n:" + spec) == FormatZero(spec)
  {
    var f := "n:" + spec;
    assert f[0] == 'n' && f[1] == ':' && f[2..] == spec;
  }

  /** `format(0, "02d")` is `00`, so the port `o_dat_{n:02d}` is `o_dat_00`
      (see `PortNameField`). */
  lemma FormatZeroExample()
    ensures FormatZero("02d") == Ok("00")
  {
    var rest := "2d";
    assert "02d"[1..] == rest;
    assert DigitRun(rest) == 1 by {
      DigitRunOfDigitsThen("2", "d");
      assert "2" + "d" == rest;
    }
    assert rest[..1] == "2" && rest[1..] == "d";
    assert DigitsValue("2") == 2 by {
      assert "2"[..0] == [];
    }
    assert Padded(2, '0') == "00";
  }
}

=== FILE: stmt_coverage.dfy ===
/** Statement coverage (tests/test_utils.py:113-264): numbering every Assign and
    Switch and every Switch case, splicing `cov := 1` probes into the statement
    lists, and the per-run descriptor map. */
module StatementCoverage {
  import opened Wrappers
  import opened Text
  import opened Design
  import opened CoverageNaming

  /** What a tagging pass returns: the tagged tree, the next free serial, and the
      `id -> descriptor` records it made, in order. */
  datatype Tagged<T> = Tagged(tree: T, next: nat, entries: seq<Entry>)

  /** The records carry the serials `n, n + 1, ...` in order. */
  ghost predicate Numbered(entries: seq<Entry>, n: nat)
  {
    forall i :: 0 <= i < |entries| ==> entries[i].id.serial == n + i
  }

  /** Every record is under one parent path and one domain. */
  ghost predicate AllAt(entries: seq<Entry>, path: Path, domain: string)
  {
    forall i :: 0 <= i < |entries| ==> entries[i].id.path == path && entries[i].id.domain == domain
  }

  /** The records all lie under `path`: they have it as a prefix of their path. */
  ghost predicate AllUnder(entries: seq<Entry>, path: Path)
  {
    forall i :: 0 <= i < |entries| ==> path <= entries[i].id.path
  }

  lemma NumberedAppend(a: seq<Entry>, b: seq<Entry>, n: nat)
    requires Numbered(a, n) && Numbered(b, n + |a|)
    ensures Numbered(a + b, n)
  {
    forall i | 0 <= i < |a + b| ensures (a + b)[i].id.serial == n + i {
      if i >= |a| { assert (a + b)[i] == b[i - |a|]; }
    }
  }

  lemma AllAtAppend(a: seq<Entry>, b: seq<Entry>, path: Path, domain: string)
    requires AllAt(a, path, domain) && AllAt(b, path, domain)
    ensures AllAt(a + b, path, domain)
  {
    forall i | 0 <= i < |a + b| ensures (a + b)[i].id.path == path && (a + b)[i].id.domain == domain {
      if i >= |a| { assert (a + b)[i] == b[i - |a|]; }
    }
  }

  /** Three runs of records, each numbered on from the last and all at one place. */
  lemma NumberedAllAt3(a: seq<Entry>, b: seq<Entry>, c: seq<Entry>, n: nat, path: Path, domain: string)
    requires Numbered(a, n) && Numbered(b, n + |a|) && Numbered(c, n + |a| + |b|)
    requires AllAt(a, path, domain) && AllAt(b, path, domain) && AllAt(c, path, domain)
    ensures Numbered(a + b + c, n) && AllAt(a + b + c, path, domain)
  {
    NumberedAppend(a, b, n);
    NumberedAppend(a + b, c, n);
    AllAtAppend(a, b, path, domain);
    AllAtAppend(a + b, c, path, domain);
  }

  // ---------------------------------------------------------------------------
  // Descriptor names (get_assign_name, the switch name, get_switch_case_name)
  // ---------------------------------------------------------------------------

  function AssignName(domain: string, lhs: Expr, rhs: Expr, loc: Option<Loc>): string
  {
    ShortLoc(loc) + " | " + domain + ":" + lhs.name + " = " + rhs.name
  }

  function SwitchName(domain: string, loc: Option<Loc>): string
  {
    domain + ":switch at " + LocRepr(loc)
  }

  /** A case falls back to its Switch's location when it has none of its own. */
  function CaseName(domain: string, path: Path, patterns: Option<seq<string>>, caseLoc: Option<Loc>, switchLoc: Option<Loc>): string
  {
    ShortLoc(if caseLoc.Some? then caseLoc else switchLoc) + " | " + SafePathStr(path) + " | "
      + domain + ":switch_case(" + PatternsText(patterns) + ")"
  }

  /** The records of a Switch's cases, numbered from `n` in case order. */
  function CaseEntries(cases: seq<Case>, path: Path, domain: string, n: nat, switchLoc: Option<Loc>): (r: seq<Entry>)
    ensures |r| == |cases| && Numbered(r, n) && AllAt(r, path, domain)
  {
    seq(|cases|, i requires 0 <= i < |cases| =>
      Entry(CovId(path, domain, n + i),
            Descriptor(CaseName(domain, path, cases[i].patterns, cases[i].loc, switchLoc), "switch_case")))
  }

  function EntryIds(es: seq<Entry>): (r: seq<CovId>)
  {
    seq(|es|, i requires 0 <= i < |es| => es[i].id)
  }

  /** Every Assign and Switch of the list carries an id. */
  ghost predicate Settled(ss: seq<Stmt>)
  {
    forall i :: 0 <= i < |ss| ==> Coverable(ss[i]) ==> ss[i].mark.id.Some?
  }

  // ---------------------------------------------------------------------------
  // tag_all_statements
  // ---------------------------------------------------------------------------

  /** Tags the statements of one list in order, threading the serial counter. */
  function TagList(ss: seq<Stmt>, path: Path, domain: string, n: nat): (r: Tagged<seq<Stmt>>)
    ensures |r.tree| == |ss| && r.next == n + |r.entries|
    decreases ss
  {
    if ss == [] then Tagged([], n, [])
    else
      var h := TagStmt(ss[0], path, domain, n);
      var t := TagList(ss[1..], path, domain, h.next);
      Tagged([h.tree] + t.tree, t.next, h.entries + t.entries)
  }

  /** An untagged Assign takes the next serial. An untagged Switch takes the next
      serial, its cases the serials right after it, and its case bodies are tagged
      after that under the same path and domain. A statement that already carries
      an id is left alone, case bodies included. */
  function TagStmt(s: Stmt, path: Path, domain: string, n: nat): (r: Tagged<Stmt>)
    ensures r.next == n + |r.entries|
    decreases s
  {
    if !Coverable(s) || s.mark.id.Some? then Tagged(s, n, [])
    else
      var id := CovId(path, domain, n);
      match s
      case Assign(lhs, rhs, loc, mark) =>
        Tagged(Assign(lhs, rhs, loc, mark.(id := Some(id))), n + 1,
               [Entry(id, Descriptor(AssignName(domain, lhs, rhs, loc), "assign"))])
      case Switch(test, cases, loc, mark, _, condIds) =>
        var caseEntries := CaseEntries(cases, path, domain, n + 1, loc);
        var bodies := TagCases(cases, path, domain, n + 1 + |cases|);
        Tagged(Switch(test, bodies.tree, loc, mark.(id := Some(id)), EntryIds(caseEntries), condIds),
               bodies.next, [Entry(id, Descriptor(SwitchName(domain, loc), "switch"))] + caseEntries + bodies.entries)
  }

  function TagCases(cs: seq<Case>, path: Path, domain: string, n: nat): (r: Tagged<seq<Case>>)
    ensures |r.tree| == |cs| && r.next == n + |r.entries|
    decreases cs
  {
    if cs == [] then Tagged([], n, [])
    else
      var h := TagCase(cs[0], path, domain, n);
      var t := TagCases(cs[1..], path, domain, h.next);
      Tagged([h.tree] + t.tree, t.next, h.entries + t.entries)
  }

  function TagCase(c: Case, path: Path, domain: string, n: nat): (r: Tagged<Case>)
    ensures r.next == n + |r.entries|
    decreases c
  {
    var b := TagList(c.body.stmts, path, domain, n);
    Tagged(c.(body := c.body.(stmts := b.tree)), b.next, b.entries)
  }

  /** Tags a fragment: its domains in dictionary order, then its subfragments, each
      under the parent path extended with the subfragment's name. */
  function TagFragment(f: Fragment, path: Path, n: nat): (r: Tagged<Fragment>)
    ensures r.next == n + |r.entries|
    decreases f
  {
    var ds := TagDomains(f.domains, path, n);
    var ss := TagSubs(f.subs, path, ds.next);
    Tagged(Fragment(ds.tree, ss.tree), ss.next, ds.entries + ss.entries)
  }

  function TagDomains(ds: seq<Domain>, path: Path, n: nat): (r: Tagged<seq<Domain>>)
    ensures |r.tree| == |ds| && r.next == n + |r.entries|
    decreases ds
  {
    if ds == [] then Tagged([], n, [])
    else
      var h := TagList(ds[0].list.stmts, path, ds[0].name, n);
      var t := TagDomains(ds[1..], path, h.next);
      Tagged([ds[0].(list := ds[0].list.(stmts := h.tree))] + t.tree, t.next, h.entries + t.entries)
  }

  function TagSubs(subs: seq<Sub>, path: Path, n: nat): (r: Tagged<seq<Sub>>)
    ensures |r.tree| == |subs| && r.next == n + |r.entries|
    decreases subs
  {
    if subs == [] then Tagged([], n, [])
    else
      var h := TagSub(subs[0], path, n);
      var t := TagSubs(subs[1..], path, h.next);
      Tagged([h.tree] + t.tree, t.next, h.entries + t.entries)
  }

  function TagSub(s: Sub, path: Path, n: nat): (r: Tagged<Sub>)
    ensures r.next == n + |r.entries|
    decreases s
  {
    var t := TagFragment(s.frag, path + [s.name], n);
    Tagged(s.(frag := t.tree), t.next, t.entries)
  }

  // ---------------------------------------------------------------------------
  // Properties of the tagger
  // ---------------------------------------------------------------------------

  /** No id is recorded twice. */
  ghost predicate DistinctIds(es: seq<Entry>)
  {
    forall i, j :: 0 <= i < j < |es| ==> es[i].id != es[j].id
  }

  /** Records carrying consecutive serials carry pairwise distinct ids. */
  lemma NumberedDistinct(es: seq<Entry>, n: nat)
    requires Numbered(es, n)
    ensures DistinctIds(es)
  {
    forall i, j | 0 <= i < j < |es| ensures es[i].id != es[j].id {
      assert es[i].id.serial == n + i && es[j].id.serial == n + j;
    }
  }

  /** Each list's records carry consecutive serials from the counter's value, under
      the list's path and domain. */
  lemma {:induction false} TagListNumbered(ss: seq<Stmt>, path: Path, domain: string, n: nat)
    ensures var r := TagList(ss, path, domain, n); Numbered(r.entries, n) && AllAt(r.entries, path, domain)
    decreases ss
  {
    if ss != [] {
      var h := TagStmt(ss[0], path, domain, n);
      TagStmtNumbered(ss[0], path, domain, n);
      TagListNumbered(ss[1..], path, domain, h.next);
      NumberedAppend(h.entries, TagList(ss[1..], path, domain, h.next).entries, n);
    }
  }

  lemma {:induction false} TagStmtNumbered(s: Stmt, path: Path, domain: string, n: nat)
    ensures var r := TagStmt(s, path, domain, n); Numbered(r.entries, n) && AllAt(r.entries, path, domain)
    decreases s
  {
    if Coverable(s) && s.mark.id.None? && s.Switch? {
      TagSwitchNumbered(s, path, domain, n);
    }
  }

  lemma {:induction false} TagSwitchNumbered(s: Stmt, path: Path, domain: string, n: nat)
    requires s.Switch? && s.mark.id.None?
    ensures var r := TagStmt(s, path, domain, n); Numbered(r.entries, n) && AllAt(r.entries, path, domain)
    decreases s, 0
  {
    TagSwitchUnfold(s, path, domain, n);
    var own := [Entry(CovId(path, domain, n), Descriptor(SwitchName(domain, s.loc), "switch"))];
    var ce := CaseEntries(s.cases, path, domain, n + 1, s.loc);
    TagCasesNumbered(s.cases, path, domain, n + 1 + |s.cases|);
    NumberedAllAt3(own, ce, TagCases(s.cases, path, domain, n + 1 + |s.cases|).entries, n, path, domain);
  }

  lemma {:induction false} TagCasesNumbered(cs: seq<Case>, path: Path, domain: string, n: nat)
    ensures var r := TagCases(cs, path, domain, n); Numbered(r.entries, n) && AllAt(r.entries, path, domain)
    decreases cs
  {
    if cs != [] {
      var h := TagCase(cs[0], path, domain, n);
      TagCaseNumbered(cs[0], path, domain, n);
      TagCasesNumbered(cs[1..], path, domain, h.next);
      NumberedAppend(h.entries, TagCases(cs[1..], path, domain, h.next).entries, n);
      AllAtAppend(h.entries, TagCases(cs[1..], path, domain, h.next).entries, path, domain);
    }
  }

  lemma {:induction false} TagCaseNumbered(c: Case, path: Path, domain: string, n: nat)
    ensures var r := TagCase(c, path, domain, n); Numbered(r.entries, n) && AllAt(r.entries, path, domain)
    decreases c
  {
    TagListNumbered(c.body.stmts, path, domain, n);
  }

  /** A fragment's records carry consecutive serials and lie under its path. */
  lemma {:induction false} TagFragmentNumbered(f: Fragment, path: Path, n: nat)
    ensures var r := TagFragment(f, path, n); Numbered(r.entries, n) && AllUnder(r.entries, path)
    decreases f
  {
    var ds := TagDomains(f.domains, path, n);
    var ss := TagSubs(f.subs, path, ds.next);
    TagDomainsNumbered(f.domains, path, n);
    TagSubsNumbered(f.subs, path, ds.next);
    NumberedAppend(ds.entries, ss.entries, n);
    assert TagFragment(f, path, n).entries == ds.entries + ss.entries;
  }

  /** The fragment's own statements keep exactly the fragment's path. */
  lemma {:induction false} TagDomainsNumbered(ds: seq<Domain>, path: Path, n: nat)
    ensures var r := TagDomains(ds, path, n);
      Numbered(r.entries, n) && forall i :: 0 <= i < |r.entries| ==> r.entries[i].id.path == path
    decreases ds
  {
    if ds != [] {
      var h := TagList(ds[0].list.stmts, path, ds[0].name, n);
      var t := TagDomains(ds[1..], path, h.next);
      TagListNumbered(ds[0].list.stmts, path, ds[0].name, n);
      TagDomainsNumbered(ds[1..], path, h.next);
      NumberedAppend(h.entries, t.entries, n);
      var es := h.entries + t.entries;
      forall i | 0 <= i < |es| ensures es[i].id.path == path {
        if i >= |h.entries| { assert es[i] == t.entries[i - |h.entries|]; }
      }
    }
  }

  /** Subfragment records lie strictly below the parent path. */
  lemma {:induction false} TagSubsNumbered(subs: seq<Sub>, path: Path, n: nat)
    ensures var r := TagSubs(subs, path, n);
      && Numbered(r.entries, n) && AllUnder(r.entries, path)
      && forall i :: 0 <= i < |r.entries| ==> |path| < |r.entries[i].id.path|
    decreases subs
  {
    if subs != [] {
      var h := TagSub(subs[0], path, n);
      var t := TagSubs(subs[1..], path, h.next);
      TagSubNumbered(subs[0], path, n);
      TagSubsNumbered(subs[1..], path, h.next);
      NumberedAppend(h.entries, t.entries, n);
      var es := h.entries + t.entries;
      forall i | 0 <= i < |es| ensures path <= es[i].id.path && |path| < |es[i].id.path| {
        if i >= |h.entries| {
          assert es[i] == t.entries[i - |h.entries|];
        } else {
          assert path + [subs[0].name] <= es[i].id.path;
        }
      }
    }
  }

  /** A subfragment's records lie under `parent_path + (name,)`. */
  lemma {:induction false} TagSubNumbered(s: Sub, path: Path, n: nat)
    ensures var r := TagSub(s, path, n); Numbered(r.entries, n) && AllUnder(r.entries, path + [s.name])
    decreases s
  {
    TagFragmentNumbered(s.frag, path + [s.name], n);
  }

  lemma TagSwitchUnfold(s: Stmt, path: Path, domain: string, n: nat)
    requires s.Switch? && s.mark.id.None?
    ensures var id := CovId(path, domain, n);
      var ce := CaseEntries(s.cases, path, domain, n + 1, s.loc);
      var b := TagCases(s.cases, path, domain, n + 1 + |s.cases|);
      TagStmt(s, path, domain, n)
        == Tagged(Switch(s.test, b.tree, s.loc, s.mark.(id := Some(id)), EntryIds(ce), s.condIds), b.next,
                  [Entry(id, Descriptor(SwitchName(domain, s.loc), "switch"))] + ce + b.entries)
  {
  }

  lemma TagAssignUnfold(s: Stmt, path: Path, domain: string, n: nat)
    requires s.Assign? && s.mark.id.None?
    ensures var id := CovId(path, domain, n);
      TagStmt(s, path, domain, n)
        == Tagged(Assign(s.lhs, s.rhs, s.loc, s.mark.(id := Some(id))), n + 1,
                  [Entry(id, Descriptor(AssignName(domain, s.lhs, s.rhs, s.loc), "assign"))])
  {
  }

  /** An untagged Switch takes serial `n`; its case `i` takes `n + 1 + i`, and
      `_coverage_case_ids` lists exactly those ids, recorded right after the
      Switch's own record with the case descriptors. */
  lemma SwitchNumbering(s: Stmt, path: Path, domain: string, n: nat)
    requires s.Switch? && s.mark.id.None?
    ensures var r := TagStmt(s, path, domain, n);
      && r.tree.Switch?
      && r.tree.mark.id == Some(CovId(path, domain, n))
      && |r.tree.caseIds| == |s.cases| == |r.tree.cases|
      && |r.entries| >= 1 + |s.cases|
      && r.entries[0] == Entry(CovId(path, domain, n), Descriptor(SwitchName(domain, s.loc), "switch"))
      && forall i :: 0 <= i < |s.cases| ==>
           && r.tree.caseIds[i] == CovId(path, domain, n + 1 + i)
           && r.entries[1 + i] == Entry(r.tree.caseIds[i],
                Descriptor(CaseName(domain, path, s.cases[i].patterns, s.cases[i].loc, s.loc), "switch_case"))
  {
    TagSwitchUnfold(s, path, domain, n);
    SwitchTaggedShape(s, path, domain, n, TagCases(s.cases, path, domain, n + 1 + |s.cases|));
  }

  /** The same facts about the tagged Switch written out, with its case bodies
      tagged as `b`. */
  lemma SwitchTaggedShape(s: Stmt, path: Path, domain: string, n: nat, b: Tagged<seq<Case>>)
    requires s.Switch? && |b.tree| == |s.cases|
    ensures var id := CovId(path, domain, n);
      var ce := CaseEntries(s.cases, path, domain, n + 1, s.loc);
      var t := Switch(s.test, b.tree, s.loc, s.mark.(id := Some(id)), EntryIds(ce), s.condIds);
      var es := [Entry(id, Descriptor(SwitchName(domain, s.loc), "switch"))] + ce + b.entries;
      && |t.caseIds| == |s.cases|
      && |es| >= 1 + |s.cases|
      && forall i :: 0 <= i < |s.cases| ==>
           && t.caseIds[i] == CovId(path, domain, n + 1 + i)
           && es[1 + i] == Entry(t.caseIds[i],
                Descriptor(CaseName(domain, path, s.cases[i].patterns, s.cases[i].loc, s.loc), "switch_case"))
  {
    var id := CovId(path, domain, n);
    var ce := CaseEntries(s.cases, path, domain, n + 1, s.loc);
    var es := [Entry(id, Descriptor(SwitchName(domain, s.loc), "switch"))] + ce + b.entries;
    forall i | 0 <= i < |s.cases|
      ensures EntryIds(ce)[i] == CovId(path, domain, n + 1 + i)
      ensures es[1 + i] == Entry(EntryIds(ce)[i],
                Descriptor(CaseName(domain, path, s.cases[i].patterns, s.cases[i].loc, s.loc), "switch_case"))
    {
      CaseEntryAt(s.cases, path, domain, n + 1, s.loc, i);
      HeadThenAt(es[0], ce, b.entries, i);
    }
  }

  /** Element `i` of the middle part of `[x] + a + b`. */
  lemma HeadThenAt<T>(x: T, a: seq<T>, b: seq<T>, i: nat)
    requires i < |a|
    ensures |[x] + a + b| == 1 + |a| + |b| && ([x] + a + b)[1 + i] == a[i]
  {
  }

  /** The record of case `i` and the id the case-id list holds for it. */
  lemma CaseEntryAt(cases: seq<Case>, path: Path, domain: string, n: nat, switchLoc: Option<Loc>, i: nat)
    requires i < |cases|
    ensures var ce := CaseEntries(cases, path, domain, n, switchLoc);
      && ce[i] == Entry(CovId(path, domain, n + i),
                        Descriptor(CaseName(domain, path, cases[i].patterns, cases[i].loc, switchLoc), "switch_case"))
      && i < |EntryIds(ce)| && EntryIds(ce)[i] == CovId(path, domain, n + i)
  {
  }

  /** After tagging, every Assign and Switch of the list carries an id, and no
      statement changed kind. */
  lemma {:induction false} TagListSettles(ss: seq<Stmt>, path: Path, domain: string, n: nat)
    ensures var r := TagList(ss, path, domain, n).tree;
      && Settled(r)
      && (forall i :: 0 <= i < |ss| ==> Coverable(r[i]) == Coverable(ss[i]))
      && (forall i :: 0 <= i < |ss| ==> Coverable(ss[i]) ==> r[i].mark.injected == ss[i].mark.injected)
    decreases ss
  {
    if ss != [] {
      var h := TagStmt(ss[0], path, domain, n);
      var t := TagList(ss[1..], path, domain, h.next);
      TagListSettles(ss[1..], path, domain, h.next);
      if Coverable(ss[0]) && ss[0].mark.id.None? {
        if ss[0].Switch? { TagSwitchUnfold(ss[0], path, domain, n); }
      }
      var r := [h.tree] + t.tree;
      forall i | 0 <= i < |ss|
        ensures Coverable(r[i]) == Coverable(ss[i]) && (Coverable(r[i]) ==> r[i].mark.id.Some?)
        ensures Coverable(ss[i]) ==> r[i].mark.injected == ss[i].mark.injected
      {
        if i > 0 { assert r[i] == t.tree[i - 1] && ss[i] == ss[1..][i - 1]; }
      }
    }
  }

  /** Tagging an already tagged list changes nothing and records nothing. */
  lemma {:induction false} TagSettledList(ss: seq<Stmt>, path: Path, domain: string, n: nat)
    requires Settled(ss)
    ensures TagList(ss, path, domain, n) == Tagged(ss, n, [])
    decreases ss
  {
    if ss != [] {
      assert Settled(ss[1..]) by {
        forall i | 0 <= i < |ss[1..]| ensures Coverable(ss[1..][i]) ==> ss[1..][i].mark.id.Some? {
          assert ss[1..][i] == ss[i + 1];
        }
      }
      TagSettledList(ss[1..], path, domain, n);
      assert [ss[0]] + ss[1..] == ss;
    }
  }

  /** Every Assign and Switch in the fragment's own lists carries an id, in all subfragments too. */
  ghost predicate AllSettled(ds: seq<Domain>)
  {
    forall i :: 0 <= i < |ds| ==> Settled(ds[i].list.stmts)
  }

  ghost predicate SettledFragment(f: Fragment)
    decreases f
  {
    && AllSettled(f.domains)
    && SettledSubs(f.subs)
  }

  ghost predicate SettledSubs(subs: seq<Sub>)
    decreases subs
  {
    subs != [] ==> SettledSub(subs[0]) && SettledSubs(subs[1..])
  }

  ghost predicate SettledSub(s: Sub)
    decreases s
  {
    SettledFragment(s.frag)
  }

  lemma {:induction false} TagFragmentSettles(f: Fragment, path: Path, n: nat)
    ensures SettledFragment(TagFragment(f, path, n).tree)
    decreases f
  {
    var ds := TagDomains(f.domains, path, n);
    var ss := TagSubs(f.subs, path, ds.next);
    TagDomainsSettle(f.domains, path, n);
    TagSubsSettle(f.subs, path, ds.next);
    assert TagFragment(f, path, n).tree == Fragment(ds.tree, ss.tree);
  }

  lemma {:induction false} TagDomainsSettle(ds: seq<Domain>, path: Path, n: nat)
    ensures AllSettled(TagDomains(ds, path, n).tree)
    decreases ds
  {
    if ds != [] {
      var h := TagList(ds[0].list.stmts, path, ds[0].name, n);
      var t := TagDomains(ds[1..], path, h.next);
      TagListSettles(ds[0].list.stmts, path, ds[0].name, n);
      TagDomainsSettle(ds[1..], path, h.next);
      var r := TagDomains(ds, path, n).tree;
      assert r == [ds[0].(list := ds[0].list.(stmts := h.tree))] + t.tree;
      forall i | 0 <= i < |r| ensures Settled(r[i].list.stmts) {
        if i > 0 { assert r[i] == t.tree[i - 1]; } else { assert r[0].list.stmts == h.tree; }
      }
    }
  }

  lemma {:induction false} TagSubsSettle(subs: seq<Sub>, path: Path, n: nat)
    ensures SettledSubs(TagSubs(subs, path, n).tree)
    decreases subs
  {
    if subs != [] {
      var h := TagSub(subs[0], path, n);
      TagSubSettles(subs[0], path, n);
      TagSubsSettle(subs[1..], path, h.next);
      var r := TagSubs(subs, path, n).tree;
      assert r[0] == h.tree && r[1..] == TagSubs(subs[1..], path, h.next).tree;
    }
  }

  lemma {:induction false} TagSubSettles(s: Sub, path: Path, n: nat)
    ensures SettledSub(TagSub(s, path, n).tree)
    decreases s
  {
    TagFragmentSettles(s.frag, path + [s.name], n);
  }

  lemma {:induction false} TagSettledFragment(f: Fragment, path: Path, n: nat)
    requires SettledFragment(f)
    ensures TagFragment(f, path, n) == Tagged(f, n, [])
    decreases f
  {
    TagSettledDomains(f.domains, path, n);
    TagSettledSubs(f.subs, path, n);
  }

  lemma {:induction false} TagSettledDomains(ds: seq<Domain>, path: Path, n: nat)
    requires AllSettled(ds)
    ensures TagDomains(ds, path, n) == Tagged(ds, n, [])
    decreases ds
  {
    if ds != [] {
      TagSettledList(ds[0].list.stmts, path, ds[0].name, n);
      TagSettledDomains(ds[1..], path, n);
      assert [ds[0]] + ds[1..] == ds;
    }
  }

  lemma {:induction false} TagSettledSubs(subs: seq<Sub>, path: Path, n: nat)
    requires SettledSubs(subs)
    ensures TagSubs(subs, path, n) == Tagged(subs, n, [])
    decreases subs
  {
    if subs != [] {
      TagSettledSub(subs[0], path, n);
      TagSettledSubs(subs[1..], path, n);
      assert [subs[0]] + subs[1..] == subs;
    }
  }

  lemma {:induction false} TagSettledSub(s: Sub, path: Path, n: nat)
    requires SettledSub(s)
    ensures TagSub(s, path, n) == Tagged(s, n, [])
    decreases s
  {
    TagSettledFragment(s.frag, path + [s.name], n);
  }

  /** Running the tagger twice: the second run changes nothing and records nothing. */
  lemma TagTwice(f: Fragment, path: Path, n: nat, m: nat)
    ensures var t := TagFragment(f, path, n).tree; TagFragment(t, path, m) == Tagged(t, m, [])
  {
    TagFragmentSettles(f, path, n);
    TagSettledFragment(TagFragment(f, path, n).tree, path, m);
  }

  /** Tagging only attaches attributes: the design itself is unchanged. */
  lemma {:induction false} TagListStrip(ss: seq<Stmt>, path: Path, domain: string, n: nat)
    ensures StripList(TagList(ss, path, domain, n).tree) == StripList(ss)
    decreases ss
  {
    if ss != [] {
      var h := TagStmt(ss[0], path, domain, n);
      TagStmtStrip(ss[0], path, domain, n);
      TagListStrip(ss[1..], path, domain, h.next);
      StripListStep(ss[0], ss[1..], h.tree, TagList(ss[1..], path, domain, h.next).tree);
      assert [ss[0]] + ss[1..] == ss;
    }
  }

  lemma {:induction false} TagStmtStrip(s: Stmt, path: Path, domain: string, n: nat)
    ensures var t := TagStmt(s, path, domain, n).tree; t.Probe? == s.Probe? && StripStmt(t) == StripStmt(s)
    decreases s
  {
    if Coverable(s) && s.mark.id.None? && s.Switch? {
      TagSwitchUnfold(s, path, domain, n);
      TagCasesStrip(s.cases, path, domain, n + 1 + |s.cases|);
    }
  }

  lemma {:induction false} TagCasesStrip(cs: seq<Case>, path: Path, domain: string, n: nat)
    ensures StripCases(TagCases(cs, path, domain, n).tree) == StripCases(cs)
    decreases cs
  {
    if cs != [] {
      var h := TagCase(cs[0], path, domain, n);
      TagCaseStrip(cs[0], path, domain, n);
      TagCasesStrip(cs[1..], path, domain, h.next);
    }
  }

  lemma {:induction false} TagCaseStrip(c: Case, path: Path, domain: string, n: nat)
    ensures StripCase(TagCase(c, path, domain, n).tree) == StripCase(c)
    decreases c
  {
    TagListStrip(c.body.stmts, path, domain, n);
  }

  lemma {:induction false} TagFragmentStrip(f: Fragment, path: Path, n: nat)
    ensures StripFragment(TagFragment(f, path, n).tree) == StripFragment(f)
    decreases f
  {
    var ds := TagDomains(f.domains, path, n);
    TagDomainsStrip(f.domains, path, n);
    TagSubsStrip(f.subs, path, ds.next);
  }

  lemma {:induction false} TagDomainsStrip(ds: seq<Domain>, path: Path, n: nat)
    ensures StripDomains(TagDomains(ds, path, n).tree) == StripDomains(ds)
    decreases ds
  {
    if ds != [] {
      var h := TagList(ds[0].list.stmts, path, ds[0].name, n);
      TagListStrip(ds[0].list.stmts, path, ds[0].name, n);
      TagDomainsStrip(ds[1..], path, h.next);
    }
  }

  lemma {:induction false} TagSubsStrip(subs: seq<Sub>, path: Path, n: nat)
    ensures StripSubs(TagSubs(subs, path, n).tree) == StripSubs(subs)
    decreases subs
  {
    if subs != [] {
      var h := TagSub(subs[0], path, n);
      TagSubStrip(subs[0], path, n);
      TagSubsStrip(subs[1..], path, h.next);
    }
  }

  lemma {:induction false} TagSubStrip(s: Sub, path: Path, n: nat)
    ensures StripSub(TagSub(s, path, n).tree) == StripSub(s)
    decreases s
  {
    TagFragmentStrip(s.frag, path + [s.name], n);
  }

  // ---------------------------------------------------------------------------
  // The descriptor map `stmtid_to_info`
  // ---------------------------------------------------------------------------

  /** The map after writing the records in order (a later write of the same id wins). */
  function Record(info: map<CovId, Descriptor>, es: seq<Entry>): map<CovId, Descriptor>
    decreases |es|
  {
    if es == [] then info
    else Record(info, es[..|es| - 1])[es[|es| - 1].id := es[|es| - 1].desc]
  }

  lemma RecordSnoc(info: map<CovId, Descriptor>, es: seq<Entry>, e: Entry)
    ensures Record(info, es + [e]) == Record(info, es)[e.id := e.desc]
  {
    assert (es + [e])[..|es|] == es;
  }

  lemma {:induction false} RecordAppend(info: map<CovId, Descriptor>, a: seq<Entry>, b: seq<Entry>)
    ensures Record(info, a + b) == Record(Record(info, a), b)
    decreases |b|
  {
    if b == [] {
      assert a + b == a;
    } else {
      var b' := b[..|b| - 1];
      assert (a + b)[..|a + b| - 1] == a + b';
      RecordAppend(info, a, b');
    }
  }

  function Ids(es: seq<Entry>): set<CovId>
  {
    set e | e in es :: e.id
  }

  /** The map's keys are the old keys and the recorded ids; keys not recorded keep
      their old descriptor. */
  lemma {:induction false} RecordKeys(info: map<CovId, Descriptor>, es: seq<Entry>)
    ensures var m := Record(info, es);
      && m.Keys == info.Keys + Ids(es)
      && forall k :: k in info && k !in Ids(es) ==> m[k] == info[k]
    decreases |es|
  {
    if es != [] {
      var es' := es[..|es| - 1];
      assert es == es' + [es[|es| - 1]];
      assert Ids(es) == Ids(es') + {es[|es| - 1].id};
      RecordKeys(info, es');
    }
  }

  /** With distinct ids, the map holds every recorded descriptor under its id. */
  lemma {:induction false} RecordValues(info: map<CovId, Descriptor>, es: seq<Entry>)
    requires DistinctIds(es)
    ensures forall i :: 0 <= i < |es| ==> es[i].id in Record(info, es) && Record(info, es)[es[i].id] == es[i].desc
    decreases |es|
  {
    if es != [] {
      var es' := es[..|es| - 1];
      assert DistinctIds(es') by {
        forall i, j | 0 <= i < j < |es'| ensures es'[i].id != es'[j].id {
          assert es'[i] == es[i] && es'[j] == es[j];
        }
      }
      RecordValues(info, es');
      forall i | 0 <= i < |es| - 1 ensures es[i].id != es[|es| - 1].id && es'[i] == es[i] {
      }
    }
  }

  // ---------------------------------------------------------------------------
  // tag_all_statements as written: loops over the lists with the
  // serial counter threaded through.
  // ---------------------------------------------------------------------------

  lemma TagListUnfold(ss: seq<Stmt>, i: nat, path: Path, domain: string, n: nat)
    requires i < |ss|
    ensures var h := TagStmt(ss[i], path, domain, n);
      var t := TagList(ss[i + 1..], path, domain, h.next);
      TagList(ss[i..], path, domain, n) == Tagged([h.tree] + t.tree, t.next, h.entries + t.entries)
  {
    assert ss[i..][1..] == ss[i + 1..];
  }

  /** Re-associates one step of a head-first fold. */
  lemma FoldStep<T, U>(out: seq<T>, h: T, rest: seq<T>, done: seq<U>, hs: seq<U>, restEs: seq<U>)
    ensures out + ([h] + rest) == (out + [h]) + rest
    ensures done + (hs + restEs) == (done + hs) + restEs
  {
  }

  method TagStatementList(ss: seq<Stmt>, path: Path, domain: string, n: nat)
    returns (out: seq<Stmt>, next: nat, es: seq<Entry>)
    ensures Tagged(out, next, es) == TagList(ss, path, domain, n)
    decreases ss
  {
    out, next, es := [], n, [];
    ghost var whole := TagList(ss, path, domain, n);
    var i := 0;
    assert ss[0..] == ss;
    assert out + whole.tree == whole.tree && es + whole.entries == whole.entries;
    while i < |ss|
      invariant 0 <= i <= |ss|
      invariant whole.tree == out + TagList(ss[i..], path, domain, next).tree
      invariant whole.entries == es + TagList(ss[i..], path, domain, next).entries
      invariant whole.next == TagList(ss[i..], path, domain, next).next
    {
      TagListUnfold(ss, i, path, domain, next);
      ghost var h := TagStmt(ss[i], path, domain, next);
      ghost var t := TagList(ss[i + 1..], path, domain, h.next);
      FoldStep(out, h.tree, t.tree, es, h.entries, t.entries);
      var s', nx, made := TagStatement(ss[i], path, domain, next);
      out, next, es := out + [s'], nx, es + made;
      i := i + 1;
    }
    assert ss[|ss|..] == [] && out + [] == out && es + [] == es;
  }

  /** One statement of a list: skipped when already tagged or not an Assign/Switch. */
  method TagStatement(s: Stmt, path: Path, domain: string, n: nat)
    returns (t: Stmt, next: nat, es: seq<Entry>)
    ensures Tagged(t, next, es) == TagStmt(s, path, domain, n)
    decreases s, 1
  {
    if !Coverable(s) || s.mark.id.Some? {
      t, next, es := s, n, [];
    } else if s.Assign? {
      TagAssignUnfold(s, path, domain, n);
      var id := CovId(path, domain, n);
      t, next := Assign(s.lhs, s.rhs, s.loc, s.mark.(id := Some(id))), n + 1;
      es := [Entry(id, Descriptor(AssignName(domain, s.lhs, s.rhs, s.loc), "assign"))];
    } else {
      TagSwitchUnfold(s, path, domain, n);
      t, next, es := TagSwitch(s, path, domain, n);
    }
  }

  /** Numbers an untagged Switch, then its cases, then tags each case body. */
  method TagSwitch(s: Stmt, path: Path, domain: string, n: nat)
    returns (t: Stmt, next: nat, es: seq<Entry>)
    requires s.Switch? && s.mark.id.None?
    ensures var id := CovId(path, domain, n);
      var ce := CaseEntries(s.cases, path, domain, n + 1, s.loc);
      var b := TagCases(s.cases, path, domain, n + 1 + |s.cases|);
      && t == Switch(s.test, b.tree, s.loc, s.mark.(id := Some(id)), EntryIds(ce), s.condIds)
      && next == b.next
      && es == [Entry(id, Descriptor(SwitchName(domain, s.loc), "switch"))] + ce + b.entries
    decreases s, 0
  {
    var id := CovId(path, domain, n);
    var own := Entry(id, Descriptor(SwitchName(domain, s.loc), "switch"));
    var caseIds, caseEs := NumberCases(s, path, domain, n + 1);
    var cases, nx, bodyEs := TagCaseBodies(s.cases, path, domain, n + 1 + |s.cases|);
    t := Switch(s.test, cases, s.loc, s.mark.(id := Some(id)), caseIds, s.condIds);
    next, es := nx, [own] + caseEs + bodyEs;
  }

  /** The record of case `j` of a Switch. */
  function CaseEntry(s: Stmt, path: Path, domain: string, n: nat, j: nat): Entry
    requires s.Switch? && j < |s.cases|
  {
    Entry(CovId(path, domain, n + j),
          Descriptor(CaseName(domain, path, s.cases[j].patterns, s.cases[j].loc, s.loc), "switch_case"))
  }

  lemma CaseEntriesStep(s: Stmt, path: Path, domain: string, n: nat, j: nat)
    requires s.Switch? && j < |s.cases|
    ensures var ce := CaseEntries(s.cases, path, domain, n, s.loc);
      ce[..j + 1] == ce[..j] + [CaseEntry(s, path, domain, n, j)]
  {
    var ce := CaseEntries(s.cases, path, domain, n, s.loc);
    assert ce[j] == CaseEntry(s, path, domain, n, j);
    TakeSnoc(ce, j);
  }

  lemma TakeSnoc<T>(a: seq<T>, j: nat)
    requires j < |a|
    ensures a[..j + 1] == a[..j] + [a[j]]
  {
  }

  lemma EntryIdsSnoc(es: seq<Entry>, e: Entry)
    ensures EntryIds(es + [e]) == EntryIds(es) + [e.id]
  {
  }

  /** The ids and records of a Switch's cases, numbered from `n` in case order. */
  method NumberCases(s: Stmt, path: Path, domain: string, n: nat)
    returns (caseIds: seq<CovId>, es: seq<Entry>)
    requires s.Switch?
    ensures es == CaseEntries(s.cases, path, domain, n, s.loc) && caseIds == EntryIds(es)
  {
    ghost var ce := CaseEntries(s.cases, path, domain, n, s.loc);
    caseIds, es := [], [];
    var j := 0;
    while j < |s.cases|
      invariant 0 <= j <= |s.cases|
      invariant es == ce[..j] && caseIds == EntryIds(es)
    {
      var e := CaseEntry(s, path, domain, n, j);
      CaseEntriesStep(s, path, domain, n, j);
      EntryIdsSnoc(es, e);
      caseIds := caseIds + [e.id];
      es := es + [e];
      j := j + 1;
    }
    assert ce[..|s.cases|] == ce;
  }

  /** Tags the case bodies in order, each as a list under the Switch's domain. */
  method TagCaseBodies(cs: seq<Case>, path: Path, domain: string, n: nat)
    returns (out: seq<Case>, next: nat, es: seq<Entry>)
    ensures Tagged(out, next, es) == TagCases(cs, path, domain, n)
    decreases cs
  {
    out, next, es := [], n, [];
    ghost var whole := TagCases(cs, path, domain, n);
    var j := 0;
    assert cs[0..] == cs;
    assert out + whole.tree == whole.tree && es + whole.entries == whole.entries;
    while j < |cs|
      invariant 0 <= j <= |cs|
      invariant whole.tree == out + TagCases(cs[j..], path, domain, next).tree
      invariant whole.entries == es + TagCases(cs[j..], path, domain, next).entries
      invariant whole.next == TagCases(cs[j..], path, domain, next).next
    {
      assert cs[j..][1..] == cs[j + 1..];
      ghost var h := TagCase(cs[j], path, domain, next);
      ghost var t := TagCases(cs[j + 1..], path, domain, h.next);
      FoldStep(out, h.tree, t.tree, es, h.entries, t.entries);
      var c', nx, made := TagCaseBody(cs[j], path, domain, next);
      out, next, es := out + [c'], nx, es + made;
      j := j + 1;
    }
    assert cs[|cs|..] == [] && out + [] == out && es + [] == es;
  }

  /** One case body, tagged one statement at a time. */
  method TagCaseBody(c: Case, path: Path, domain: string, n: nat)
    returns (c': Case, next: nat, es: seq<Entry>)
    ensures Tagged(c', next, es) == TagCase(c, path, domain, n)
    decreases c
  {
    var body;
    body, next, es := TagStatementList(c.body.stmts, path, domain, n);
    c' := c.(body := c.body.(stmts := body));
  }

  /** The walk of one fragment: its lists domain by domain, then its subfragments. */
  method TagFragmentWalk(f: Fragment, path: Path, n: nat)
    returns (g: Fragment, next: nat, es: seq<Entry>)
    ensures Tagged(g, next, es) == TagFragment(f, path, n)
    decreases f
  {
    var domains, nx, domainEs := TagDomainLists(f.domains, path, n);
    var subs, nx', subEs := TagSubfragments(f.subs, path, nx);
    g, next, es := Fragment(domains, subs), nx', domainEs + subEs;
  }

  method TagDomainLists(ds: seq<Domain>, path: Path, n: nat)
    returns (out: seq<Domain>, next: nat, es: seq<Entry>)
    ensures Tagged(out, next, es) == TagDomains(ds, path, n)
  {
    out, next, es := [], n, [];
    ghost var whole := TagDomains(ds, path, n);
    var i := 0;
    assert ds[0..] == ds;
    assert out + whole.tree == whole.tree && es + whole.entries == whole.entries;
    while i < |ds|
      invariant 0 <= i <= |ds|
      invariant whole.tree == out + TagDomains(ds[i..], path, next).tree
      invariant whole.entries == es + TagDomains(ds[i..], path, next).entries
      invariant whole.next == TagDomains(ds[i..], path, next).next
    {
      assert ds[i..][1..] == ds[i + 1..];
      var d := ds[i];
      ghost var h := TagList(d.list.stmts, path, d.name, next);
      ghost var t := TagDomains(ds[i + 1..], path, h.next);
      FoldStep(out, d.(list := d.list.(stmts := h.tree)), t.tree, es, h.entries, t.entries);
      var stmts, nx, made := TagStatementList(d.list.stmts, path, d.name, next);
      out, next, es := out + [d.(list := d.list.(stmts := stmts))], nx, es + made;
      i := i + 1;
    }
    assert ds[|ds|..] == [] && out + [] == out && es + [] == es;
  }

  method TagSubfragments(subs: seq<Sub>, path: Path, n: nat)
    returns (out: seq<Sub>, next: nat, es: seq<Entry>)
    ensures Tagged(out, next, es) == TagSubs(subs, path, n)
    decreases subs
  {
    out, next, es := [], n, [];
    ghost var whole := TagSubs(subs, path, n);
    var i := 0;
    assert subs[0..] == subs;
    assert out + whole.tree == whole.tree && es + whole.entries == whole.entries;
    while i < |subs|
      invariant 0 <= i <= |subs|
      invariant whole.tree == out + TagSubs(subs[i..], path, next).tree
      invariant whole.entries == es + TagSubs(subs[i..], path, next).entries
      invariant whole.next == TagSubs(subs[i..], path, next).next
    {
      assert subs[i..][1..] == subs[i + 1..];
      ghost var h := TagSub(subs[i], path, next);
      ghost var t := TagSubs(subs[i + 1..], path, h.next);
      FoldStep(out, h.tree, t.tree, es, h.entries, t.entries);
      var sub', nx, made := TagSubfragment(subs[i], path, next);
      out, next, es := out + [sub'], nx, es + made;
      i := i + 1;
    }
    assert subs[|subs|..] == [] && out + [] == out && es + [] == es;
  }

  /** The recursion into one subfragment, under `parent_path + (name,)`. */
  method TagSubfragment(s: Sub, path: Path, n: nat)
    returns (s': Sub, next: nat, es: seq<Entry>)
    ensures Tagged(s', next, es) == TagSub(s, path, n)
    decreases s
  {
    var frag;
    frag, next, es := TagFragmentWalk(s.frag, path + [s.name], n);
    s' := s.(frag := frag);
  }

  /** `tag_all_statements(fragment, coverage_id, parent_path, stmtid_to_info)`: tags
      the fragment and writes every record into the descriptor map, in the order
      the walk makes them; returns the next serial and the map. */
  method TagAllStatements(f: Fragment, n: nat, path: Path, info: map<CovId, Descriptor>)
    returns (g: Fragment, next: nat, info': map<CovId, Descriptor>)
    ensures var r := TagFragment(f, path, n); g == r.tree && next == r.next && info' == Record(info, r.entries)
    ensures var es := TagFragment(f, path, n).entries;
      forall i :: 0 <= i < |es| ==> es[i].id in info' && info'[es[i].id] == es[i].desc
  {
    var es;
    g, next, es := TagFragmentWalk(f, path, n);
    info' := info;
    var k := 0;
    while k < |es|
      invariant 0 <= k <= |es|
      invariant info' == Record(info, es[..k])
    {
      assert es[..k + 1][..k] == es[..k];
      info' := info'[es[k].id := es[k].desc];
      k := k + 1;
    }
    assert es[..|es|] == es;
    TagFragmentNumbered(f, path, n);
    NumberedDistinct(es, n);
    RecordValues(info, es);
  }
}

=== FILE: stmt_probes.dfy ===
/** The statement-coverage injector, `insert_coverage_signals`
    (tests/test_utils.py:181-226): a `cov := 1` probe in front of every tagged,
    not yet instrumented Assign or Switch, and a case probe at the head of every
    numbered case body. */
module StatementProbes {
  import opened Wrappers
  import opened Text
  import opened Design
  import opened CoverageNaming
  import opened StatementCoverage

  /** The name `_cov_signal_name("cov", path, domain, serial, typ)` of the signal of `id`. */
  function SignalName(id: CovId, typ: string): string
  {
    CovSignalName("cov", id.path, id.domain, id.serial, [typ])
  }

  /** A name made for `id` by this facet, whichever of its three kinds. */
  predicate NamedAfter(id: CovId, name: string)
  {
    name == SignalName(id, "assign") || name == SignalName(id, "switch") || name == SignalName(id, "switch_case")
  }

  /** Every signal of the map is named after its id. */
  ghost predicate AllNamed(sigs: map<CovId, string>)
  {
    forall k :: k in sigs ==> NamedAfter(k, sigs[k])
  }

  /** The signal of an id: the one already made for it, else a fresh one named by
      `_cov_signal_name("cov", path, domain, serial, typ)`. */
  function SignalFor(sigs: map<CovId, string>, id: CovId, typ: string): (r: (string, map<CovId, string>))
    requires typ in ["assign", "switch", "switch_case"]
    ensures id in r.1 && r.1[id] == r.0 && Grows(sigs, r.1)
    ensures id in sigs ==> r.1 == sigs
    ensures id !in sigs ==> r.1.Keys == sigs.Keys + {id}
  {
    if id in sigs then (sigs[id], sigs)
    else (SignalName(id, typ), sigs[id := SignalName(id, typ)])
  }

  /** Tagged and not yet instrumented. */
  predicate Pending(s: Stmt)
  {
    Coverable(s) && s.mark.id.Some? && !s.mark.injected
  }

  /** `_coverage_type` of a tagged statement. */
  function KindOf(s: Stmt): string
  {
    if s.Assign? then "assign" else "switch"
  }

  /** `_coverage_injected` is set on every statement that carries an id. */
  function InjectedMark(m: Mark): Mark
  {
    if m.id.Some? then Mark(m.id, true) else m
  }

  // ---------------------------------------------------------------------------
  // inject_in_stmt_list
  // ---------------------------------------------------------------------------

  function InsertList(ss: seq<Stmt>, domain: string, sigs: map<CovId, string>): (r: Injected<seq<Stmt>>)
    ensures Grows(sigs, r.signals)
    decreases ss
  {
    if ss == [] then Injected([], sigs)
    else
      var h := InsertStmt(ss[0], domain, sigs);
      var t := InsertList(ss[1..], domain, h.signals);
      Injected(h.tree + t.tree, t.signals)
  }

  /** The statements one input statement becomes: its probe when pending, then the
      statement itself with its flag set and, for a Switch, its cases instrumented. */
  function InsertStmt(s: Stmt, domain: string, sigs: map<CovId, string>): (r: Injected<seq<Stmt>>)
    ensures Grows(sigs, r.signals)
    decreases s
  {
    var p := if Pending(s) then SignalFor(sigs, s.mark.id.value, KindOf(s)) else ("", sigs);
    var pre := if Pending(s) then [Probe(p.0, Const1)] else [];
    match s
    case Assign(lhs, rhs, loc, mark) =>
      Injected(pre + [Assign(lhs, rhs, loc, InjectedMark(mark))], p.1)
    case Switch(test, cases, loc, mark, caseIds, condIds) =>
      var c := InsertCases(cases, caseIds, domain, p.1);
      Injected(pre + [Switch(test, c.tree, loc, InjectedMark(mark), caseIds, condIds)], c.signals)
    case Formal(_, _, _, _) => Injected([s], sigs)
    case Probe(_, _) => Injected([s], sigs)
  }

  /** Case `i` is paired with `caseIds[i]` when there is one. */
  function InsertCases(cs: seq<Case>, caseIds: seq<CovId>, domain: string, sigs: map<CovId, string>): (r: Injected<seq<Case>>)
    ensures |r.tree| == |cs| && Grows(sigs, r.signals)
    decreases cs
  {
    if cs == [] then Injected([], sigs)
    else
      var h := InsertCase(cs[0], IdAt(caseIds, 0), domain, sigs);
      var t := InsertCases(cs[1..], IdsFrom(caseIds, 1), domain, h.signals);
      Injected([h.tree] + t.tree, t.signals)
  }

  /** A numbered case gets its probe at the head of its body; the body is then
      instrumented in place (the list object is kept). The head probe is itself
      left alone by that pass (`InsertListProbeHead`). */
  function InsertCase(c: Case, caseId: Option<CovId>, domain: string, sigs: map<CovId, string>): (r: Injected<Case>)
    ensures Grows(sigs, r.signals)
    decreases c
  {
    var p := if caseId.Some? then SignalFor(sigs, caseId.value, "switch_case") else ("", sigs);
    var head := if caseId.Some? then [Probe(p.0, Const1)] else [];
    var b := InsertList(c.body.stmts, domain, p.1);
    Injected(Case(c.patterns, StmtList(c.body.key, head + b.tree), c.loc), b.signals)
  }

  /** Running the list pass over a list that starts with a probe keeps the probe
      first and instruments the rest: the case head above is not instrumented again. */
  lemma InsertListProbeHead(sig: string, v: Value, ss: seq<Stmt>, domain: string, sigs: map<CovId, string>)
    ensures InsertList([Probe(sig, v)] + ss, domain, sigs)
      == Injected([Probe(sig, v)] + InsertList(ss, domain, sigs).tree, InsertList(ss, domain, sigs).signals)
  {
    assert ([Probe(sig, v)] + ss)[1..] == ss;
  }

  // ---------------------------------------------------------------------------
  // walk_fragment: every domain list is replaced by a new instrumented list.
  // ---------------------------------------------------------------------------

  function InsertFragment(f: Fragment, sigs: map<CovId, string>): (r: Injected<Fragment>)
    ensures Grows(sigs, r.signals)
    decreases f
  {
    var ds := InsertDomains(f.domains, sigs);
    var ss := InsertSubs(f.subs, ds.signals);
    Injected(Fragment(ds.tree, ss.tree), ss.signals)
  }

  function InsertDomains(ds: seq<Domain>, sigs: map<CovId, string>): (r: Injected<seq<Domain>>)
    ensures |r.tree| == |ds| && Grows(sigs, r.signals)
    decreases ds
  {
    if ds == [] then Injected([], sigs)
    else
      var h := InsertList(ds[0].list.stmts, ds[0].name, sigs);
      var t := InsertDomains(ds[1..], h.signals);
      Injected([Domain(ds[0].name, StmtList(Copy(ds[0].list.key, StatementFacet), h.tree))] + t.tree, t.signals)
  }

  function InsertSubs(subs: seq<Sub>, sigs: map<CovId, string>): (r: Injected<seq<Sub>>)
    ensures |r.tree| == |subs| && Grows(sigs, r.signals)
    decreases subs
  {
    if subs == [] then Injected([], sigs)
    else
      var h := InsertSub(subs[0], sigs);
      var t := InsertSubs(subs[1..], h.signals);
      Injected([h.tree] + t.tree, t.signals)
  }

  function InsertSub(s: Sub, sigs: map<CovId, string>): (r: Injected<Sub>)
    ensures Grows(sigs, r.signals)
    decreases s
  {
    var f := InsertFragment(s.frag, sigs);
    Injected(Sub(s.name, f.tree), f.signals)
  }

  // ---------------------------------------------------------------------------
  // What the pass guarantees
  // ---------------------------------------------------------------------------

  /** Every signal of a map built from nothing by this pass ends in its id's serial. */
  lemma SignalNameEndsInSerial(sigs: map<CovId, string>, id: CovId)
    requires AllNamed(sigs) && id in sigs
    ensures AllDigits(Last(Split(sigs[id], '_'))) && DigitsValue(Last(Split(sigs[id], '_'))) == id.serial
  {
    if sigs[id] == SignalName(id, "assign") {
      CovSignalNameShape("cov", id.path, id.domain, id.serial, ["assign"]);
    } else if sigs[id] == SignalName(id, "switch") {
      CovSignalNameShape("cov", id.path, id.domain, id.serial, ["switch"]);
    } else {
      CovSignalNameShape("cov", id.path, id.domain, id.serial, ["switch_case"]);
    }
  }

  /** The pass names every signal it makes after its id. */
  lemma {:induction false} InsertListNamed(ss: seq<Stmt>, domain: string, sigs: map<CovId, string>)
    requires AllNamed(sigs)
    ensures AllNamed(InsertList(ss, domain, sigs).signals)
    decreases ss
  {
    if ss != [] {
      InsertStmtNamed(ss[0], domain, sigs);
      InsertListNamed(ss[1..], domain, InsertStmt(ss[0], domain, sigs).signals);
    }
  }

  lemma {:induction false} InsertStmtNamed(s: Stmt, domain: string, sigs: map<CovId, string>)
    requires AllNamed(sigs)
    ensures AllNamed(InsertStmt(s, domain, sigs).signals)
    decreases s
  {
    var p := if Pending(s) then SignalFor(sigs, s.mark.id.value, KindOf(s)) else ("", sigs);
    assert AllNamed(p.1);
    if s.Switch? {
      InsertCasesNamed(s.cases, s.caseIds, domain, p.1);
    }
  }

  lemma {:induction false} InsertCasesNamed(cs: seq<Case>, caseIds: seq<CovId>, domain: string, sigs: map<CovId, string>)
    requires AllNamed(sigs)
    ensures AllNamed(InsertCases(cs, caseIds, domain, sigs).signals)
    decreases cs
  {
    if cs != [] {
      var id := IdAt(caseIds, 0);
      InsertCaseNamed(cs[0], id, domain, sigs);
      InsertCasesNamed(cs[1..], IdsFrom(caseIds, 1), domain, InsertCase(cs[0], id, domain, sigs).signals);
    }
  }

  lemma {:induction false} InsertCaseNamed(c: Case, caseId: Option<CovId>, domain: string, sigs: map<CovId, string>)
    requires AllNamed(sigs)
    ensures AllNamed(InsertCase(c, caseId, domain, sigs).signals)
    decreases c
  {
    var p := if caseId.Some? then SignalFor(sigs, caseId.value, "switch_case") else ("", sigs);
    assert AllNamed(p.1);
    InsertListNamed(c.body.stmts, domain, p.1);
  }

  lemma {:induction false} InsertFragmentNamed(f: Fragment, sigs: map<CovId, string>)
    requires AllNamed(sigs)
    ensures AllNamed(InsertFragment(f, sigs).signals)
    decreases f
  {
    InsertDomainsNamed(f.domains, sigs);
    InsertSubsNamed(f.subs, InsertDomains(f.domains, sigs).signals);
  }

  lemma {:induction false} InsertDomainsNamed(ds: seq<Domain>, sigs: map<CovId, string>)
    requires AllNamed(sigs)
    ensures AllNamed(InsertDomains(ds, sigs).signals)
    decreases ds
  {
    if ds != [] {
      InsertListNamed(ds[0].list.stmts, ds[0].name, sigs);
      InsertDomainsNamed(ds[1..], InsertList(ds[0].list.stmts, ds[0].name, sigs).signals);
    }
  }

  lemma {:induction false} InsertSubsNamed(subs: seq<Sub>, sigs: map<CovId, string>)
    requires AllNamed(sigs)
    ensures AllNamed(InsertSubs(subs, sigs).signals)
    decreases subs
  {
    if subs != [] {
      InsertSubNamed(subs[0], sigs);
      InsertSubsNamed(subs[1..], InsertSub(subs[0], sigs).signals);
    }
  }

  lemma {:induction false} InsertSubNamed(s: Sub, sigs: map<CovId, string>)
    requires AllNamed(sigs)
    ensures AllNamed(InsertSub(s, sigs).signals)
    decreases s
  {
    InsertFragmentNamed(s.frag, sigs);
  }

  /** Instrumentation only adds probes and attributes: the design itself is unchanged. */
  lemma {:induction false} InsertListStrip(ss: seq<Stmt>, domain: string, sigs: map<CovId, string>)
    ensures StripList(InsertList(ss, domain, sigs).tree) == StripList(ss)
    decreases ss
  {
    if ss != [] {
      var h := InsertStmt(ss[0], domain, sigs);
      var t := InsertList(ss[1..], domain, h.signals);
      InsertStmtStrip(ss[0], domain, sigs);
      InsertListStrip(ss[1..], domain, h.signals);
      StripListAppend(h.tree, t.tree);
      StripListCons(ss[0], ss[1..]);
      assert [ss[0]] + ss[1..] == ss;
    }
  }

  lemma {:induction false} InsertStmtStrip(s: Stmt, domain: string, sigs: map<CovId, string>)
    ensures StripList(InsertStmt(s, domain, sigs).tree) == StripList([s])
    decreases s
  {
    var p := if Pending(s) then SignalFor(sigs, s.mark.id.value, KindOf(s)) else ("", sigs);
    var pre := if Pending(s) then [Probe(p.0, Const1)] else [];
    var t: Stmt;
    if s.Assign? {
      t := Assign(s.lhs, s.rhs, s.loc, InjectedMark(s.mark));
    } else if s.Switch? {
      var c := InsertCases(s.cases, s.caseIds, domain, p.1);
      InsertCasesStrip(s.cases, s.caseIds, domain, p.1);
      t := Switch(s.test, c.tree, s.loc, InjectedMark(s.mark), s.caseIds, s.condIds);
    } else {
      t := s;
    }
    if s.Assign? || s.Switch? {
      assert InsertStmt(s, domain, sigs).tree == pre + [t];
      StripListAppend(pre, [t]);
      if Pending(s) { StripListProbe(p.0, Const1, []); }
      StripListCons(t, []);
      StripListCons(s, []);
    }
  }

  lemma {:induction false} InsertCasesStrip(cs: seq<Case>, caseIds: seq<CovId>, domain: string, sigs: map<CovId, string>)
    ensures StripCases(InsertCases(cs, caseIds, domain, sigs).tree) == StripCases(cs)
    decreases cs
  {
    if cs != [] {
      var h := InsertCase(cs[0], IdAt(caseIds, 0), domain, sigs);
      InsertCaseStrip(cs[0], IdAt(caseIds, 0), domain, sigs);
      InsertCasesStrip(cs[1..], IdsFrom(caseIds, 1), domain, h.signals);
    }
  }

  lemma {:induction false} InsertCaseStrip(c: Case, caseId: Option<CovId>, domain: string, sigs: map<CovId, string>)
    ensures StripCase(InsertCase(c, caseId, domain, sigs).tree) == StripCase(c)
    decreases c
  {
    var p := if caseId.Some? then SignalFor(sigs, caseId.value, "switch_case") else ("", sigs);
    var head := if caseId.Some? then [Probe(p.0, Const1)] else [];
    var b := InsertList(c.body.stmts, domain, p.1);
    InsertListStrip(c.body.stmts, domain, p.1);
    StripListAppend(head, b.tree);
    if caseId.Some? { StripListProbe(p.0, Const1, []); }
  }

  lemma {:induction false} InsertFragmentStrip(f: Fragment, sigs: map<CovId, string>)
    ensures StripFragment(InsertFragment(f, sigs).tree) == StripFragment(f)
    decreases f
  {
    var ds := InsertDomains(f.domains, sigs);
    InsertDomainsStrip(f.domains, sigs);
    InsertSubsStrip(f.subs, ds.signals);
  }

  lemma {:induction false} InsertDomainsStrip(ds: seq<Domain>, sigs: map<CovId, string>)
    ensures StripDomains(InsertDomains(ds, sigs).tree) == StripDomains(ds)
    decreases ds
  {
    if ds != [] {
      var h := InsertList(ds[0].list.stmts, ds[0].name, sigs);
      InsertListStrip(ds[0].list.stmts, ds[0].name, sigs);
      InsertDomainsStrip(ds[1..], h.signals);
    }
  }

  lemma {:induction false} InsertSubsStrip(subs: seq<Sub>, sigs: map<CovId, string>)
    ensures StripSubs(InsertSubs(subs, sigs).tree) == StripSubs(subs)
    decreases subs
  {
    if subs != [] {
      var h := InsertSub(subs[0], sigs);
      InsertSubStrip(subs[0], sigs);
      InsertSubsStrip(subs[1..], h.signals);
    }
  }

  lemma {:induction false} InsertSubStrip(s: Sub, sigs: map<CovId, string>)
    ensures StripSub(InsertSub(s, sigs).tree) == StripSub(s)
    decreases s
  {
    InsertFragmentStrip(s.frag, sigs);
  }

  /** Number of pending statements of a list: one probe is added for each. */
  function PendingCount(ss: seq<Stmt>): (r: nat)
    ensures r <= |ss|
  {
    if ss == [] then 0 else (if Pending(ss[0]) then 1 else 0) + PendingCount(ss[1..])
  }

  /** Where the statement `ss[i]` lands in the instrumented list: after the statements
      and probes before it, and after its own probe when it has one. */
  function Slot(ss: seq<Stmt>, i: nat): nat
    requires i < |ss|
  {
    i + PendingCount(ss[..i]) + (if Pending(ss[i]) then 1 else 0)
  }

  /** `t` is `s` after the pass: an Assign or Switch keeps everything but gains the
      injected flag when it has an id; every case of a Switch is instrumented as
      `CaseInstrumented` says; any other statement is unchanged. */
  ghost predicate Instrumented(s: Stmt, t: Stmt, sigs: map<CovId, string>)
  {
    match s
    case Assign(lhs, rhs, loc, mark) => t == Assign(lhs, rhs, loc, InjectedMark(mark))
    case Switch(test, cases, loc, mark, caseIds, condIds) =>
      && t.Switch? && t.test == test && t.loc == loc && t.mark == InjectedMark(mark)
      && t.caseIds == caseIds && t.condIds == condIds && |t.cases| == |cases|
      && forall idx :: 0 <= idx < |cases| ==> CaseInstrumented(cases[idx], t.cases[idx], IdAt(caseIds, idx), sigs)
    case Formal(_, _, _, _) => t == s
    case Probe(_, _) => t == s
  }

  /** The id paired with case `idx`: `case_ids[idx]` when `idx < len(case_ids)`. */
  function IdAt(caseIds: seq<CovId>, idx: nat): Option<CovId>
  {
    if idx < |caseIds| then Some(caseIds[idx]) else None
  }

  /** A case keeps its patterns, location and body list, and a numbered case's body
      starts with the probe of its id. */
  ghost predicate CaseInstrumented(c: Case, t: Case, id: Option<CovId>, sigs: map<CovId, string>)
  {
    && t.patterns == c.patterns && t.loc == c.loc && t.body.key == c.body.key
    && (id.Some? ==> id.value in sigs && |t.body.stmts| > 0 && t.body.stmts[0] == Probe(sigs[id.value], Const1))
  }

  lemma InstrumentedGrows(s: Stmt, t: Stmt, sigs: map<CovId, string>, sigs': map<CovId, string>)
    requires Instrumented(s, t, sigs) && Grows(sigs, sigs')
    ensures Instrumented(s, t, sigs')
  {
    if s.Switch? {
      forall idx | 0 <= idx < |s.cases|
        ensures CaseInstrumented(s.cases[idx], t.cases[idx], IdAt(s.caseIds, idx), sigs')
      {
        assert CaseInstrumented(s.cases[idx], t.cases[idx], IdAt(s.caseIds, idx), sigs);
      }
    }
  }

  lemma InsertCaseHead(c: Case, id: Option<CovId>, domain: string, sigs: map<CovId, string>, sigs': map<CovId, string>)
    requires Grows(InsertCase(c, id, domain, sigs).signals, sigs')
    ensures CaseInstrumented(c, InsertCase(c, id, domain, sigs).tree, id, sigs')
  {
  }

  /** Every case of a Switch after the pass, paired with its id. */
  lemma {:induction false} InsertCasesHeads(cs: seq<Case>, caseIds: seq<CovId>, domain: string, sigs: map<CovId, string>)
    ensures var r := InsertCases(cs, caseIds, domain, sigs);
      forall idx :: 0 <= idx < |cs| ==> CaseInstrumented(cs[idx], r.tree[idx], IdAt(caseIds, idx), r.signals)
    decreases cs
  {
    if cs != [] {
      var id := IdAt(caseIds, 0);
      var h := InsertCase(cs[0], id, domain, sigs);
      var rest := IdsFrom(caseIds, 1);
      var t := InsertCases(cs[1..], rest, domain, h.signals);
      InsertCasesHeads(cs[1..], rest, domain, h.signals);
      InsertCaseHead(cs[0], id, domain, sigs, t.signals);
      var r := InsertCases(cs, caseIds, domain, sigs);
      assert r.tree == [h.tree] + t.tree && r.signals == t.signals;
      forall idx | 0 <= idx < |cs|
        ensures CaseInstrumented(cs[idx], r.tree[idx], IdAt(caseIds, idx), r.signals)
      {
        if idx > 0 {
          assert r.tree[idx] == t.tree[idx - 1] && cs[idx] == cs[1..][idx - 1];
          assert IdAt(caseIds, idx) == IdAt(rest, idx - 1);
        } else {
          assert IdAt(caseIds, 0) == id;
        }
      }
    }
  }

  /** The statements one statement becomes: its probe when it was pending, then the
      instrumented statement. */
  lemma InsertStmtShape(s: Stmt, domain: string, sigs: map<CovId, string>)
    ensures var r := InsertStmt(s, domain, sigs);
      && |r.tree| == (if Pending(s) then 2 else 1)
      && Instrumented(s, r.tree[|r.tree| - 1], r.signals)
      && (Pending(s) ==> s.mark.id.value in r.signals && r.tree[0] == Probe(r.signals[s.mark.id.value], Const1))
  {
    if s.Switch? {
      var p := if Pending(s) then SignalFor(sigs, s.mark.id.value, KindOf(s)) else ("", sigs);
      InsertCasesHeads(s.cases, s.caseIds, domain, p.1);
    }
  }

  lemma PendingCountPrefix(ss: seq<Stmt>, i: nat)
    requires 0 < i <= |ss|
    ensures PendingCount(ss[..i]) == (if Pending(ss[0]) then 1 else 0) + PendingCount(ss[1..][..i - 1])
  {
    assert ss[..i][1..] == ss[1..][..i - 1];
  }

  /** The pass puts a probe `cov := 1` right before every pending statement and keeps
      every statement, in order; nothing else is added to the list. */
  lemma {:induction false} InsertListPlacement(ss: seq<Stmt>, domain: string, sigs: map<CovId, string>)
    ensures var r := InsertList(ss, domain, sigs);
      && |r.tree| == |ss| + PendingCount(ss)
      && forall i :: 0 <= i < |ss| ==> Placed(ss, i, r.tree, r.signals)
    decreases ss
  {
    if ss != [] {
      var h := InsertStmt(ss[0], domain, sigs);
      var t := InsertList(ss[1..], domain, h.signals);
      var r := InsertList(ss, domain, sigs);
      InsertStmtShape(ss[0], domain, sigs);
      InsertListPlacement(ss[1..], domain, h.signals);
      InstrumentedGrows(ss[0], h.tree[|h.tree| - 1], h.signals, t.signals);
      forall i | 0 <= i < |ss|
        ensures Placed(ss, i, r.tree, r.signals)
      {
        if i > 0 {
          assert Placed(ss[1..], i - 1, t.tree, t.signals);
          ShiftPlaced(ss, i, h.tree, t.tree, t.signals);
        } else {
          HeadPlaced(ss, h.tree, t.tree, t.signals);
        }
      }
    }
  }

  lemma HeadPlaced(ss: seq<Stmt>, hs: seq<Stmt>, ts: seq<Stmt>, sigs: map<CovId, string>)
    requires 0 < |ss| && |hs| == (if Pending(ss[0]) then 2 else 1)
    requires Instrumented(ss[0], hs[|hs| - 1], sigs)
    requires Pending(ss[0]) ==> ss[0].mark.id.value in sigs && hs[0] == Probe(sigs[ss[0].mark.id.value], Const1)
    ensures Placed(ss, 0, hs + ts, sigs)
  {
    assert ss[..0] == [];
  }

  /** Statement `ss[i]` sits at its slot of `out`, instrumented, behind its probe when pending. */
  ghost predicate Placed(ss: seq<Stmt>, i: nat, out: seq<Stmt>, sigs: map<CovId, string>)
    requires i < |ss|
  {
    && Slot(ss, i) < |out| && Instrumented(ss[i], out[Slot(ss, i)], sigs)
    && (Pending(ss[i]) ==>
          ss[i].mark.id.value in sigs && out[Slot(ss, i) - 1] == Probe(sigs[ss[i].mark.id.value], Const1))
  }

  /** A placement in the output of the tail carries over to the whole list. */
  lemma ShiftPlaced(ss: seq<Stmt>, i: nat, hs: seq<Stmt>, ts: seq<Stmt>, sigs: map<CovId, string>)
    requires 0 < i < |ss| && |hs| == (if Pending(ss[0]) then 2 else 1)
    requires Placed(ss[1..], i - 1, ts, sigs)
    ensures Placed(ss, i, hs + ts, sigs)
  {
    PendingCountPrefix(ss, i);
    assert ss[1..][i - 1] == ss[i];
    assert Slot(ss, i) == |hs| + Slot(ss[1..], i - 1);
  }

  // ---------------------------------------------------------------------------
  // After the pass no statement anywhere is left pending.
  // ---------------------------------------------------------------------------

  ghost predicate DoneList(ss: seq<Stmt>)
    decreases ss
  {
    ss == [] || (DoneStmt(ss[0]) && DoneList(ss[1..]))
  }

  ghost predicate DoneStmt(s: Stmt)
    decreases s
  {
    !Pending(s) && (s.Switch? ==> DoneCases(s.cases))
  }

  ghost predicate DoneCases(cs: seq<Case>)
    decreases cs
  {
    cs == [] || (DoneCase(cs[0]) && DoneCases(cs[1..]))
  }

  ghost predicate DoneCase(c: Case)
    decreases c
  {
    DoneList(c.body.stmts)
  }

  lemma {:induction false} DoneListAppend(a: seq<Stmt>, b: seq<Stmt>)
    requires DoneList(a) && DoneList(b)
    ensures DoneList(a + b)
    decreases a
  {
    if a != [] {
      assert (a + b)[1..] == a[1..] + b;
      DoneListAppend(a[1..], b);
    } else {
      assert a + b == b;
    }
  }

  /** Every Assign and Switch that carries an id is flagged as instrumented, down
      through all case bodies. */
  lemma {:induction false} InsertListDone(ss: seq<Stmt>, domain: string, sigs: map<CovId, string>)
    ensures DoneList(InsertList(ss, domain, sigs).tree)
    decreases ss
  {
    if ss != [] {
      var h := InsertStmt(ss[0], domain, sigs);
      InsertStmtDone(ss[0], domain, sigs);
      InsertListDone(ss[1..], domain, h.signals);
      DoneListAppend(h.tree, InsertList(ss[1..], domain, h.signals).tree);
    }
  }

  lemma {:induction false} InsertStmtDone(s: Stmt, domain: string, sigs: map<CovId, string>)
    ensures DoneList(InsertStmt(s, domain, sigs).tree)
    decreases s
  {
    var r := InsertStmt(s, domain, sigs);
    var p := if Pending(s) then SignalFor(sigs, s.mark.id.value, KindOf(s)) else ("", sigs);
    var pre := if Pending(s) then [Probe(p.0, Const1)] else [];
    assert DoneList(pre) by {
      if Pending(s) { assert DoneList(pre[1..]); }
    }
    if s.Assign? {
      var t := Assign(s.lhs, s.rhs, s.loc, InjectedMark(s.mark));
      assert DoneList([t]) by { assert [t][1..] == []; }
      DoneListAppend(pre, [t]);
    } else if s.Switch? {
      var c := InsertCases(s.cases, s.caseIds, domain, p.1);
      InsertCasesDone(s.cases, s.caseIds, domain, p.1);
      var t := Switch(s.test, c.tree, s.loc, InjectedMark(s.mark), s.caseIds, s.condIds);
      assert DoneList([t]) by { assert [t][1..] == []; }
      DoneListAppend(pre, [t]);
    } else {
      assert r.tree == [s] && [s][1..] == [];
    }
  }

  lemma {:induction false} InsertCasesDone(cs: seq<Case>, caseIds: seq<CovId>, domain: string, sigs: map<CovId, string>)
    ensures DoneCases(InsertCases(cs, caseIds, domain, sigs).tree)
    decreases cs
  {
    if cs != [] {
      var id := IdAt(caseIds, 0);
      var h := InsertCase(cs[0], id, domain, sigs);
      InsertCaseDone(cs[0], id, domain, sigs);
      InsertCasesDone(cs[1..], IdsFrom(caseIds, 1), domain, h.signals);
      var r := InsertCases(cs, caseIds, domain, sigs);
      assert r.tree[0] == h.tree && r.tree[1..] == InsertCases(cs[1..], IdsFrom(caseIds, 1), domain, h.signals).tree;
    }
  }

  lemma {:induction false} InsertCaseDone(c: Case, caseId: Option<CovId>, domain: string, sigs: map<CovId, string>)
    ensures DoneCase(InsertCase(c, caseId, domain, sigs).tree)
    decreases c
  {
    var p := if caseId.Some? then SignalFor(sigs, caseId.value, "switch_case") else ("", sigs);
    var head := if caseId.Some? then [Probe(p.0, Const1)] else [];
    assert DoneList(head) by {
      if caseId.Some? { assert DoneList(head[1..]); }
    }
    InsertListDone(c.body.stmts, domain, p.1);
    DoneListAppend(head, InsertList(c.body.stmts, domain, p.1).tree);
  }

  // ---------------------------------------------------------------------------
  // Tagging then instrumenting a fresh list
  // ---------------------------------------------------------------------------

  /** In a list no pass has instrumented yet, tagging leaves every Assign and Switch
      pending, so the injector then puts a probe of its own id right before it. */
  lemma TagThenInsert(ss: seq<Stmt>, path: Path, domain: string, n: nat, sigs: map<CovId, string>)
    requires forall i :: 0 <= i < |ss| ==> Coverable(ss[i]) ==> !ss[i].mark.injected
    ensures var t := TagList(ss, path, domain, n).tree;
      var r := InsertList(t, domain, sigs);
      && |t| == |ss|
      && forall i :: 0 <= i < |ss| ==> Coverable(ss[i]) ==> Pending(t[i]) && Placed(t, i, r.tree, r.signals)
  {
    TagListSettles(ss, path, domain, n);
    InsertListPlacement(TagList(ss, path, domain, n).tree, domain, sigs);

  }

  // ---------------------------------------------------------------------------
  // insert_coverage_signals as written: loops over the lists, with the
  // signal map threaded through.
  // ---------------------------------------------------------------------------

  lemma InsertListUnfold(ss: seq<Stmt>, i: nat, domain: string, sigs: map<CovId, string>)
    requires i < |ss|
    ensures var h := InsertStmt(ss[i], domain, sigs);
      var t := InsertList(ss[i + 1..], domain, h.signals);
      InsertList(ss[i..], domain, sigs) == Injected(h.tree + t.tree, t.signals)
  {
    assert ss[i..][1..] == ss[i + 1..];
  }

  /** `inject_in_stmt_list(domain, stmts)`: the new list, built statement by statement. */
  method InjectStmtList(ss: seq<Stmt>, domain: string, sigs: map<CovId, string>)
    returns (out: seq<Stmt>, sigs': map<CovId, string>)
    ensures Injected(out, sigs') == InsertList(ss, domain, sigs)
    decreases ss
  {
    out, sigs' := [], sigs;
    ghost var whole := InsertList(ss, domain, sigs);
    var i := 0;
    assert ss[0..] == ss;
    assert out + whole.tree == whole.tree;
    while i < |ss|
      invariant 0 <= i <= |ss|
      invariant whole.tree == out + InsertList(ss[i..], domain, sigs').tree
      invariant whole.signals == InsertList(ss[i..], domain, sigs').signals
    {
      InsertListUnfold(ss, i, domain, sigs');
      ghost var h := InsertStmt(ss[i], domain, sigs');
      ghost var t := InsertList(ss[i + 1..], domain, h.signals);
      assert out + (h.tree + t.tree) == (out + h.tree) + t.tree;
      var chunk;
      chunk, sigs' := InjectStatement(ss[i], domain, sigs');
      out := out + chunk;
      i := i + 1;
    }
    assert ss[|ss|..] == [] && out + [] == out;
  }

  /** One statement: its probe when it is tagged and not yet instrumented (the signal
      is looked up first and made only when missing), the statement itself, and for a
      Switch the instrumentation of its cases. */
  method InjectStatement(s: Stmt, domain: string, sigs: map<CovId, string>)
    returns (chunk: seq<Stmt>, sigs': map<CovId, string>)
    ensures Injected(chunk, sigs') == InsertStmt(s, domain, sigs)
    decreases s, 1
  {
    var pre: seq<Stmt> := [];
    sigs' := sigs;
    if Pending(s) {
      var id := s.mark.id.value;
      var sig;
      if id in sigs' {
        sig := sigs'[id];
      } else {
        sig := SignalName(id, KindOf(s));
        sigs' := sigs'[id := sig];
      }
      pre := [Probe(sig, Const1)];
    }
    match s
    case Assign(lhs, rhs, loc, mark) =>
      chunk := pre + [Assign(lhs, rhs, loc, InjectedMark(mark))];
    case Switch(test, cases, loc, mark, caseIds, condIds) =>
      var cases';
      cases', sigs' := InjectCases(cases, caseIds, domain, sigs');
      chunk := pre + [Switch(test, cases', loc, InjectedMark(mark), caseIds, condIds)];
    case Formal(_, _, _, _) =>
      chunk := [s];
    case Probe(_, _) =>
      chunk := [s];
  }

  /** The ids left for the cases from `idx` on. */
  function IdsFrom(caseIds: seq<CovId>, idx: nat): seq<CovId>
  {
    if idx < |caseIds| then caseIds[idx..] else []
  }

  /** One step of the case loop: the cases from `j` on are case `j` followed by the
      cases from `j + 1` on, with the signals threaded through. */
  lemma InsertCasesStep(out: seq<Case>, cs: seq<Case>, caseIds: seq<CovId>, j: nat, domain: string, sigs: map<CovId, string>)
    requires j < |cs|
    ensures var h := InsertCase(cs[j], IdAt(caseIds, j), domain, sigs);
      var t := InsertCases(cs[j + 1..], IdsFrom(caseIds, j + 1), domain, h.signals);
      var r := InsertCases(cs[j..], IdsFrom(caseIds, j), domain, sigs);
      out + r.tree == (out + [h.tree]) + t.tree && r.signals == t.signals
  {
    var ids := IdsFrom(caseIds, j);
    assert cs[j..][0] == cs[j] && cs[j..][1..] == cs[j + 1..];
    IdsFromStep(caseIds, j);
    var h := InsertCase(cs[j], IdAt(caseIds, j), domain, sigs);
    var t := InsertCases(cs[j + 1..], IdsFrom(caseIds, j + 1), domain, h.signals);
    assert InsertCases(cs[j..], ids, domain, sigs) == Injected([h.tree] + t.tree, t.signals);
    AppendAssoc(out, [h.tree], t.tree);
  }

  lemma IdsFromStep(caseIds: seq<CovId>, j: nat)
    ensures IdAt(IdsFrom(caseIds, j), 0) == IdAt(caseIds, j)
    ensures IdsFrom(IdsFrom(caseIds, j), 1) == IdsFrom(caseIds, j + 1)
  {
  }

  lemma AppendAssoc<T>(a: seq<T>, b: seq<T>, c: seq<T>)
    ensures a + (b + c) == (a + b) + c
  {
  }

  /** The `for idx, (patterns, sub_stmts, _) in enumerate(stmt.cases)` loop. */
  method InjectCases(cs: seq<Case>, caseIds: seq<CovId>, domain: string, sigs: map<CovId, string>)
    returns (out: seq<Case>, sigs': map<CovId, string>)
    ensures Injected(out, sigs') == InsertCases(cs, caseIds, domain, sigs)
    decreases cs
  {
    out, sigs' := [], sigs;
    ghost var whole := InsertCases(cs, caseIds, domain, sigs);
    var j := 0;
    assert cs[0..] == cs && IdsFrom(caseIds, 0) == caseIds;
    assert out + whole.tree == whole.tree;
    while j < |cs|
      invariant 0 <= j <= |cs|
      invariant whole.tree == out + InsertCases(cs[j..], IdsFrom(caseIds, j), domain, sigs').tree
      invariant whole.signals == InsertCases(cs[j..], IdsFrom(caseIds, j), domain, sigs').signals
    {
      InsertCasesStep(out, cs, caseIds, j, domain, sigs');
      var c';
      c', sigs' := InjectCase(cs[j], IdAt(caseIds, j), domain, sigs');
      out := out + [c'];
      j := j + 1;
    }
    assert cs[|cs|..] == [] && out + [] == out;
  }

  /** One case: the probe of its id goes to the head of the body, and the rest of the
      body is instrumented in place; `InsertListProbeHead` shows this is the same as
      instrumenting the body with the probe already at its head, as `insert_coverage_signals` does. */
  method InjectCase(c: Case, caseId: Option<CovId>, domain: string, sigs: map<CovId, string>)
    returns (c': Case, sigs': map<CovId, string>)
    ensures Injected(c', sigs') == InsertCase(c, caseId, domain, sigs)
    decreases c
  {
    var head: seq<Stmt> := [];
    sigs' := sigs;
    if caseId.Some? {
      var sig;
      if caseId.value in sigs' {
        sig := sigs'[caseId.value];
      } else {
        sig := SignalName(caseId.value, "switch_case");
        sigs' := sigs'[caseId.value := sig];
      }
      head := [Probe(sig, Const1)];
    }
    var body;
    body, sigs' := InjectStmtList(c.body.stmts, domain, sigs');
    c' := Case(c.patterns, StmtList(c.body.key, head + body), c.loc);
  }

  /** `walk_fragment(frag)`: every domain list replaced by its instrumented copy, then
      the subfragments. */
  method WalkFragment(f: Fragment, sigs: map<CovId, string>)
    returns (g: Fragment, sigs': map<CovId, string>)
    ensures Injected(g, sigs') == InsertFragment(f, sigs)
    decreases f
  {
    var domains, subs;
    domains, sigs' := InjectDomainLists(f.domains, sigs);
    subs, sigs' := WalkSubfragments(f.subs, sigs');
    g := Fragment(domains, subs);
  }

  method InjectDomainLists(ds: seq<Domain>, sigs: map<CovId, string>)
    returns (out: seq<Domain>, sigs': map<CovId, string>)
    ensures Injected(out, sigs') == InsertDomains(ds, sigs)
  {
    out, sigs' := [], sigs;
    ghost var whole := InsertDomains(ds, sigs);
    var i := 0;
    assert ds[0..] == ds;
    assert out + whole.tree == whole.tree;
    while i < |ds|
      invariant 0 <= i <= |ds|
      invariant whole.tree == out + InsertDomains(ds[i..], sigs').tree
      invariant whole.signals == InsertDomains(ds[i..], sigs').signals
    {
      assert ds[i..][1..] == ds[i + 1..];
      var d := ds[i];
      ghost var h := InsertList(d.list.stmts, d.name, sigs');
      ghost var t := InsertDomains(ds[i + 1..], h.signals);
      var made := Domain(d.name, StmtList(Copy(d.list.key, StatementFacet), h.tree));
      assert out + ([made] + t.tree) == (out + [made]) + t.tree;
      var stmts;
      stmts, sigs' := InjectStmtList(d.list.stmts, d.name, sigs');
      out := out + [Domain(d.name, StmtList(Copy(d.list.key, StatementFacet), stmts))];
      i := i + 1;
    }
    assert ds[|ds|..] == [] && out + [] == out;
  }

  method WalkSubfragments(subs: seq<Sub>, sigs: map<CovId, string>)
    returns (out: seq<Sub>, sigs': map<CovId, string>)
    ensures Injected(out, sigs') == InsertSubs(subs, sigs)
    decreases subs
  {
    out, sigs' := [], sigs;
    ghost var whole := InsertSubs(subs, sigs);
    var i := 0;
    assert subs[0..] == subs;
    assert out + whole.tree == whole.tree;
    while i < |subs|
      invariant 0 <= i <= |subs|
      invariant whole.tree == out + InsertSubs(subs[i..], sigs').tree
      invariant whole.signals == InsertSubs(subs[i..], sigs').signals
    {
      assert subs[i..][1..] == subs[i + 1..];
      ghost var h := InsertSub(subs[i], sigs');
      ghost var t := InsertSubs(subs[i + 1..], h.signals);
      assert out + ([h.tree] + t.tree) == (out + [h.tree]) + t.tree;
      var sub';
      sub', sigs' := WalkSubfragment(subs[i], sigs');
      out := out + [sub'];
      i := i + 1;
    }
    assert subs[|subs|..] == [] && out + [] == out;
  }

  method WalkSubfragment(s: Sub, sigs: map<CovId, string>)
    returns (s': Sub, sigs': map<CovId, string>)
    ensures Injected(s', sigs') == InsertSub(s, sigs)
    decreases s
  {
    var frag;
    frag, sigs' := WalkFragment(s.frag, sigs);
    s' := Sub(s.name, frag);
  }

  /** `insert_coverage_signals(fragment)`: instruments the whole design and returns
      the signal of every id it met. The design is unchanged apart from the probes,
      and every signal is named after its id and ends in the id's serial. */
  method InsertCoverageSignals(f: Fragment) returns (g: Fragment, signals: map<CovId, string>)
    ensures Injected(g, signals) == InsertFragment(f, map[])
    ensures StripFragment(g) == StripFragment(f)
    ensures AllNamed(signals)
  {
    g, signals := WalkFragment(f, map[]);
    InsertFragmentStrip(f, map[]);
    InsertFragmentNamed(f, map[]);
  }
}

=== FILE: text.dfy ===
/** String helpers the naming and parsing code relies on: decimal rendering and
    parsing, Python's `str.split` on one character, `str.join`, and `str.find`. */
module Text {

  /** The brace characters of Python's format strings and of parameter references. */
  const OpenBrace: char := 123 as char
  const CloseBrace: char := 125 as char

  predicate IsDigit(c: char) { '0' <= c <= '9' }

  predicate AllDigits(s: string) { forall i :: 0 <= i < |s| ==> IsDigit(s[i]) }

  function DigitChar(d: nat): (c: char)
    requires d < 10
    ensures IsDigit(c) && (c as int) - ('0' as int) == d
  {
    (('0' as int) + d) as char
  }

  function DigitValue(c: char): nat
    requires IsDigit(c)
  {
    (c as int) - ('0' as int)
  }

  /** Python's `str(n)` for a non-negative integer: its decimal digits. */
  function NatToString(n: nat): (s: string)
    ensures |s| > 0 && AllDigits(s)
    decreases n
  {
    if n < 10 then [DigitChar(n)] else NatToString(n / 10) + [DigitChar(n % 10)]
  }

  /** Python's `int(s)` for a string of decimal digits (leading zeros allowed). */
  function DigitsValue(s: string): nat
    requires AllDigits(s)
    decreases |s|
  {
    if s == [] then 0 else 10 * DigitsValue(s[..|s| - 1]) + DigitValue(s[|s| - 1])
  }

  /** Rendering a number in decimal and reading it back gives the number. */
  lemma {:induction false} DigitsValueOfNatToString(n: nat)
    ensures DigitsValue(NatToString(n)) == n
    decreases n
  {
    var s := NatToString(n);
    if n >= 10 {
      DigitsValueOfNatToString(n / 10);
      assert s[..|s| - 1] == NatToString(n / 10);
    }
  }

  /** Number of leading characters of `s` that are decimal digits (the greedy `\d+`). */
  function DigitRun(s: string): (k: nat)
    ensures k <= |s| && AllDigits(s[..k]) && (k < |s| ==> !IsDigit(s[k]))
    decreases |s|
  {
    if s != [] && IsDigit(s[0]) then
      var k := 1 + DigitRun(s[1..]);
      assert s[..k] == [s[0]] + s[1..][..k - 1];
      k
    else 0
  }

  lemma {:induction false} DigitRunOfDigitsThen(d: string, rest: string)
    requires AllDigits(d) && (rest != [] ==> !IsDigit(rest[0]))
    ensures DigitRun(d + rest) == |d|
    decreases |d|
  {
    if d != [] {
      assert (d + rest)[1..] == d[1..] + rest;
      DigitRunOfDigitsThen(d[1..], rest);
    }
  }

  /** Python's `s.split(sep)` for a one-character separator. */
  function Split(s: string, sep: char): (r: seq<string>)
    ensures |r| >= 1
    ensures forall i :: 0 <= i < |r| ==> sep !in r[i]
    decreases |s|
  {
    if s == [] then [""]
    else
      var rest := Split(s[1..], sep);
      if s[0] == sep then [""] + rest else [[s[0]] + rest[0]] + rest[1..]
  }

  function Last<T>(s: seq<T>): T
    requires |s| > 0
  {
    s[|s| - 1]
  }

  /** Python's `sep.join(parts)`. */
  function Join(parts: seq<string>, sep: string): string
    decreases |parts|
  {
    if parts == [] then ""
    else if |parts| == 1 then parts[0]
    else parts[0] + sep + Join(parts[1..], sep)
  }

  lemma {:induction false} SplitNoSepPrefix(a: string, rest: string, sep: char)
    requires sep !in a
    ensures Split(a + rest, sep) == [a + Split(rest, sep)[0]] + Split(rest, sep)[1..]
    decreases |a|
  {
    if a != [] {
      assert (a + rest)[1..] == a[1..] + rest;
      SplitNoSepPrefix(a[1..], rest, sep);
      assert [a[0]] + (a[1..] + Split(rest, sep)[0]) == a + Split(rest, sep)[0];
    } else {
      assert a + rest == rest;
      assert a + Split(rest, sep)[0] == Split(rest, sep)[0];
    }
  }

  /** Splitting `a + sep + b` where `a` holds no separator yields `a` followed by the pieces of `b`. */
  lemma SplitAtFirstSep(a: string, b: string, sep: char)
    requires sep !in a
    ensures Split(a + [sep] + b, sep) == [a] + Split(b, sep)
  {
    assert a + [sep] + b == a + ([sep] + b);
    SplitNoSepPrefix(a, [sep] + b, sep);
    assert ([sep] + b)[1..] == b;
    assert Split([sep] + b, sep) == [""] + Split(b, sep);
    assert a + "" == a;
  }

  /** The last piece of a split is everything after the last separator. */
  lemma {:induction false} LastPieceAfterSep(a: string, b: string, sep: char)
    requires sep !in b
    ensures |Split(a + [sep] + b, sep)| >= 2 && Last(Split(a + [sep] + b, sep)) == b
    decreases |a|
  {
    if a == [] {
      assert a + [sep] + b == [sep] + b;
      assert ([sep] + b)[1..] == b;
      SplitNoSepPrefix(b, [], sep);
      assert b + [] == b;
      assert Split(b, sep) == [b];
      assert Split([sep] + b, sep) == [""] + [b];
    } else {
      assert (a + [sep] + b)[1..] == a[1..] + [sep] + b;
      LastPieceAfterSep(a[1..], b, sep);
    }
  }

  /** Joining pieces that hold no separator and splitting again gives the pieces back. */
  lemma {:induction false} SplitJoin(parts: seq<string>, sep: char)
    requires |parts| >= 1
    requires forall i :: 0 <= i < |parts| ==> sep !in parts[i]
    ensures Split(Join(parts, [sep]), sep) == parts
    decreases |parts|
  {
    if |parts| == 1 {
      SplitNoSepPrefix(parts[0], [], sep);
      assert parts[0] + [] == parts[0];
    } else {
      SplitJoin(parts[1..], sep);
      assert Join(parts, [sep]) == parts[0] + [sep] + Join(parts[1..], [sep]);
      SplitAtFirstSep(parts[0], Join(parts[1..], [sep]), sep);
    }
  }

  predicate OccursAt(s: string, pat: string, i: nat)
  {
    i + |pat| <= |s| && s[i..i + |pat|] == pat
  }

  /** Python's `s.find(pat)`: the lowest index where `pat` occurs, or -1. */
  function Find(s: string, pat: string): (r: int)
    ensures -1 <= r <= |s|
    ensures r >= 0 ==> OccursAt(s, pat, r)
    ensures r >= 0 ==> forall i :: 0 <= i < r ==> !OccursAt(s, pat, i)
    ensures r == -1 ==> forall i :: 0 <= i <= |s| ==> !OccursAt(s, pat, i)
  {
    FindFrom(s, pat, 0)
  }

  function FindFrom(s: string, pat: string, from: nat): (r: int)
    requires from <= |s|
    requires forall i :: 0 <= i < from ==> !OccursAt(s, pat, i)
    ensures -1 <= r <= |s|
    ensures r >= 0 ==> from <= r && OccursAt(s, pat, r)
    ensures r >= 0 ==> forall i :: 0 <= i < r ==> !OccursAt(s, pat, i)
    ensures r == -1 ==> forall i :: 0 <= i <= |s| ==> !OccursAt(s, pat, i)
    decreases |s| - from
  {
    if OccursAt(s, pat, from) then from
    else if from == |s| then -1
    else FindFrom(s, pat, from + 1)
  }

  /** The quote Python's `repr` of a string puts around it: a double quote when the
      text holds a single quote and no double quote, else a single quote. */
  function ReprQuote(s: string): char
  {
    if '\'' in s && '"' !in s then '"' else '\''
  }

  /** A character `repr` writes as a two-digit hexadecimal escape: the C0 controls
      other than tab, newline and carriage return, DEL, the C1 controls, the
      no-break space and the soft hyphen (the Latin-1 characters Python does not
      count as printable). */
  predicate HexEscaped(c: char)
  {
    (c < ' ' && c != '\t' && c != '\n' && c != '\r') || (0x7f <= c as int <= 0xa0) || c as int == 0xad
  }

  /** A lower-case hexadecimal digit, as `repr` writes it. */
  function HexDigit(d: nat): char
    requires d < 16
  {
    if d < 10 then (('0' as int) + d) as char else (('a' as int) + d - 10) as char
  }

  /** The value of a lower-case hexadecimal digit, and 0 for any other character. */
  function HexValue(c: char): (v: nat)
    ensures v < 16
  {
    if '0' <= c <= '9' then c as int - '0' as int
    else if 'a' <= c <= 'f' then c as int - 'a' as int + 10
    else 0
  }

  /** How `repr` writes one character between the quotes `q`. */
  function EscapeChar(c: char, q: char): string
  {
    if c == q || c == '\\' then ['\\', c]
    else if c == '\t' then "\\t"
    else if c == '\n' then "\\n"
    else if c == '\r' then "\\r"
    else if HexEscaped(c) then ['\\', 'x', HexDigit(c as int / 16), HexDigit(c as int % 16)]
    else [c]
  }

  /** How `repr` writes the text between the quotes `q`. */
  function EscapeAll(s: string, q: char): string
  {
    if s == [] then [] else EscapeChar(s[0], q) + EscapeAll(s[1..], q)
  }

  /** Python's `repr` of a string, as `!r` and `str` of a tuple show it. */
  function Repr(s: string): string
  {
    var q := ReprQuote(s);
    [q] + EscapeAll(s, q) + [q]
  }

  /** What a one-character escape such as `\n` or `\'` stands for. */
  function EscapeMeaning(c: char): char
  {
    if c == 't' then '\t' else if c == 'n' then '\n' else if c == 'r' then '\r' else c
  }

  /** Reads the text between the quotes of a string literal back, escape by escape. */
  function Unescape(t: string): string
    decreases |t|
  {
    if t == [] then []
    else if t[0] == '\\' && |t| >= 4 && t[1] == 'x' then
      [(16 * HexValue(t[2]) + HexValue(t[3])) as char] + Unescape(t[4..])
    else if t[0] == '\\' && |t| >= 2 then [EscapeMeaning(t[1])] + Unescape(t[2..])
    else [t[0]] + Unescape(t[1..])
  }

  /** Reads a quoted string literal back: the text between its first and last
      characters, unescaped. */
  function Unrepr(r: string): string
  {
    if |r| < 2 then [] else Unescape(r[1..|r| - 1])
  }

  /** Reading one written character back gives that character. */
  lemma UnescapeChar(c: char, q: char, rest: string)
    requires q == '\'' || q == '"'
    ensures Unescape(EscapeChar(c, q) + rest) == [c] + Unescape(rest)
  {
    var t := EscapeChar(c, q) + rest;
    if c == q || c == '\\' {
      assert t[0] == '\\' && t[1] == c && t[2..] == rest;
    } else if c == '\t' || c == '\n' || c == '\r' {
      assert t[0] == '\\' && t[1] != 'x' && t[2..] == rest;
    } else if HexEscaped(c) {
      var hi, lo := c as int / 16, c as int % 16;
      assert t[0] == '\\' && t[1] == 'x' && t[2] == HexDigit(hi) && t[3] == HexDigit(lo) && t[4..] == rest;
      assert HexValue(HexDigit(hi)) == hi && HexValue(HexDigit(lo)) == lo;
      assert (16 * hi + lo) as char == c;
    } else {
      assert t[0] == c && t[1..] == rest;
    }
  }

  /** Reading the written text back gives the original text. */
  lemma {:induction false} UnescapeAll(s: string, q: char)
    requires q == '\'' || q == '"'
    ensures Unescape(EscapeAll(s, q)) == s
  {
    if s != [] {
      UnescapeChar(s[0], q, EscapeAll(s[1..], q));
      UnescapeAll(s[1..], q);
      assert [s[0]] + s[1..] == s;
    }
  }

  /** `repr` loses nothing: reading the literal back gives the string. */
  lemma ReprRoundTrip(s: string)
    ensures Unrepr(Repr(s)) == s
  {
    var q := ReprQuote(s);
    var r := Repr(s);
    assert r[1..|r| - 1] == EscapeAll(s, q);
    UnescapeAll(s, q);
  }

  /** The literal starts and ends with its quote, which is a double quote exactly
      when the text holds a single quote and no double quote. */
  lemma ReprQuotes(s: string)
    ensures var r := Repr(s);
      && |r| >= 2 && r[0] == r[|r| - 1]
      && (r[0] == '"' <==> '\'' in s && '"' !in s)
      && (r[0] == '\'' <==> !('\'' in s && '"' !in s))
  {
  }

  /** A character `repr` writes as itself between single quotes. */
  predicate PlainChar(c: char)
  {
    ' ' <= c <= '~' && c != '\'' && c != '\\'
  }

  /** Printable ASCII text without quotes or backslashes is written verbatim. */
  lemma {:induction false} EscapeAllPlain(s: string)
    requires forall i :: 0 <= i < |s| ==> PlainChar(s[i])
    ensures EscapeAll(s, '\'') == s
  {
    if s != [] {
      EscapeAllPlain(s[1..]);
      assert [s[0]] + s[1..] == s;
    }
  }

  /** Such text gets plain single quotes. */
  lemma ReprPlain(s: string)
    requires forall i :: 0 <= i < |s| ==> PlainChar(s[i])
    ensures Repr(s) == "'" + s + "'"
  {
    EscapeAllPlain(s);
  }
}

=== FILE: verilog_wrapper.dfy ===
/** The configuration side of the Verilog wrapper
    (chipflow_digital_ip/io/_verilog_wrapper.py): the `Files` validator, the
    resolution of an interface string, the direction read off a Verilog signal
    name, the flattening of a port map, the parameter references of a signature
    member, the tables `__init__` builds and the port names `elaborate` hands to
    the Verilog instance. Python dicts keep insertion order and are modelled by
    `OrderedDict`; Amaranth objects (signals, interfaces, clock and reset
    signals) are modelled by what identifies them. */
module VerilogWrapper {
  import opened Wrappers
  import opened Text
  import opened OrderedDict

  predicate StartsWith(s: string, p: string)
  {
    |p| <= |s| && s[..|p|] == p
  }

  /* ---------------------------------------------------------------- Files */

  /** Where the Verilog sources come from: an importable module or a path. */
  datatype Files = Files(moduleName: Option<string>, path: Option<string>)

  /** `self.module` is truthy: present and not the empty string. */
  predicate ModuleSet(f: Files)
  {
    f.moduleName.Some? && f.moduleName.value != ""
  }

  /** `self.path` is truthy: a `Path` object is truthy whenever it is present. */
  predicate PathSet(f: Files)
  {
    f.path.Some?
  }

  const ExactlyOneMessage := "You must set exactly one of `module` or `path`."

  /** `Files.verify_module_or_path`: accepted exactly when one source is set. */
  function VerifyModuleOrPath(f: Files): (r: Result<Files>)
    ensures r.Ok? <==> (ModuleSet(f) <==> !PathSet(f))
    ensures r.Ok? ==> r.value == f
    ensures r.Err? ==> r.msg == ExactlyOneMessage
  {
    if (ModuleSet(f) && PathSet(f)) || (!ModuleSet(f) && !PathSet(f)) then Err(ExactlyOneMessage)
    else Ok(f)
  }

  /** An empty module name counts as no module: with no path it is refused, and
      next to a path it is accepted. */
  lemma EmptyModuleIsUnset(p: Option<string>)
    ensures VerifyModuleOrPath(Files(Some(""), p)).Ok? <==> p.Some?
  {
  }

  /* ------------------------------------------------------------ Interfaces */

  const WiringPrefix := "amaranth.lib.wiring."

  /** `re.match(r"amaranth\.lib\.wiring\.(Out|In)\((\d+)\)", s)`: anchored at the
      start only, so anything may follow the closing parenthesis. */
  function MatchSimple(s: string): Option<(string, nat)>
  {
    if StartsWith(s, WiringPrefix) then MatchDirection(s[|WiringPrefix|..]) else None
  }

  /** The `(Out|In)\(` part, then the width. */
  function MatchDirection(rest: string): Option<(string, nat)>
  {
    if StartsWith(rest, "Out(") then MatchWidth("Out", rest[4..])
    else if StartsWith(rest, "In(") then MatchWidth("In", rest[3..])
    else None
  }

  /** The `(\d+)\)` part: a run of at least one digit and a closing parenthesis. */
  function MatchWidth(dir: string, after: string): Option<(string, nat)>
  {
    var k := DigitRun(after);
    if 0 < k < |after| && after[k] == ')' then Some((dir, DigitsValue(after[..k]))) else None
  }

  lemma MatchWidthOf(dir: string, n: nat, tail: string)
    ensures MatchWidth(dir, NatToString(n) + ([')'] + tail)) == Some((dir, n))
  {
    var digits := NatToString(n);
    var after := digits + ([')'] + tail);
    DigitRunOfDigitsThen(digits, [')'] + tail);
    assert after[..|digits|] == digits;
    assert after[|digits|] == ')';
    DigitsValueOfNatToString(n);
  }

  /** What an interface string resolves to: a plain signal of a direction and
      width, or a class named by its module path and its name. */
  datatype Interface = Simple(direction: string, width: nat) | ClassPath(modulePath: string, className: string)

  /** The index of the last `.` in `s`, or -1. */
  function LastDot(s: string): (r: int)
    ensures -1 <= r < |s|
    ensures r >= 0 ==> s[r] == '.'
    ensures forall j :: r < j < |s| ==> s[j] != '.'
    ensures r < 0 <==> '.' !in s
  {
    if s == [] then -1
    else if s[|s| - 1] == '.' then |s| - 1
    else LastDot(s[..|s| - 1])
  }

  /** `_resolve_interface_type` up to the import: the simple form first, then the
      split at the last dot; a string without a dot is refused. */
  function ResolveInterface(s: string): Result<Interface>
  {
    match MatchSimple(s)
    case Some((dir, w)) => Ok(Simple(dir, w))
    case None =>
      var d := LastDot(s);
      if d < 0 then Err("Invalid interface specification: '" + s + "'")
      else Ok(ClassPath(s[..d], s[d + 1..]))
  }

  lemma MatchDirectionOf(dir: string, after: string)
    requires dir == "Out" || dir == "In"
    ensures MatchDirection(dir + (['('] + after)) == MatchWidth(dir, after)
  {
    var rest := dir + (['('] + after);
    if dir == "Out" {
      assert rest[..4] == "Out(";
      assert rest[4..] == after;
    } else {
      assert rest[0] != "Out("[0];
      assert rest[..3] == "In(";
      assert rest[3..] == after;
    }
  }

  /** `Out(n)` and `In(n)` resolve to their direction and width, whatever follows. */
  lemma ResolveSimple(dir: string, n: nat, tail: string)
    requires dir == "Out" || dir == "In"
    ensures ResolveInterface(WiringPrefix + dir + "(" + NatToString(n) + ")" + tail) == Ok(Simple(dir, n))
  {
    var digits := NatToString(n);
    var after := digits + ([')'] + tail);
    var rest := dir + (['('] + after);
    var s := WiringPrefix + rest;
    assert WiringPrefix + dir + "(" + digits + ")" + tail == s;
    assert s[..|WiringPrefix|] == WiringPrefix && s[|WiringPrefix|..] == rest;
    MatchWidthOf(dir, n, tail);
    MatchDirectionOf(dir, after);
    assert MatchSimple(s) == Some((dir, n));
  }

  /** A dotted name that is not of the simple form splits at its last dot. */
  lemma ResolveClassPath(modulePath: string, className: string)
    requires '.' !in className
    requires MatchSimple(modulePath + "." + className).None?
    ensures ResolveInterface(modulePath + "." + className) == Ok(ClassPath(modulePath, className))
  {
    var s := modulePath + "." + className;
    assert s[|modulePath|] == '.';
    var d := LastDot(s);
    assert s[..|modulePath|] == modulePath && s[|modulePath| + 1..] == className;
  }

  /** The simple form begins with the dotted wiring prefix. */
  lemma SimpleHasDot(s: string)
    ensures MatchSimple(s).Some? ==> '.' in s
  {
    if StartsWith(s, WiringPrefix) {
      assert s[8] == s[..|WiringPrefix|][8];
    }
  }

  /** A string without a dot cannot be resolved. */
  lemma ResolveNoDot(s: string)
    requires '.' !in s
    ensures ResolveInterface(s) == Err("Invalid interface specification: '" + s + "'")
  {
    SimpleHasDot(s);
  }

  /* ------------------------------------------------------------ Directions */

  /** `_parse_signal_direction`: `o` for a name starting `o_`, `i` otherwise
      (a name starting `i_` and an unknown prefix alike). */
  function ParseSignalDirection(name: string): (r: string)
    ensures r == "i" || r == "o"
    ensures r == "o" <==> StartsWith(name, "o_")
  {
    if StartsWith(name, "i_") then "i"
    else if StartsWith(name, "o_") then "o"
    else "i"
  }

  /* ------------------------------------------------------------- Port maps */

  /** A value of a port map: one Verilog signal, or a group of named signals. */
  datatype MapValue = Name(signal: string) | Group(members: Dict<string, string>)

  /** A port map: one Verilog signal for the whole port, or a table of members. */
  datatype PortMap = Single(signal: string) | Table(entries: Dict<string, MapValue>)

  /** The writes one entry makes: the key itself, or `key.subkey` per member. */
  function GroupWrites(key: string, ms: Dict<string, string>): seq<(string, string)>
  {
    if ms == [] then []
    else GroupWrites(key, ms[..|ms| - 1]) + [(key + "." + ms[|ms| - 1].0, ms[|ms| - 1].1)]
  }

  function EntryWrites(key: string, v: MapValue): seq<(string, string)>
  {
    match v
    case Name(s) => [(key, s)]
    case Group(ms) => GroupWrites(key, ms)
  }

  /** The writes of the whole table, entry after entry. */
  function FlatWrites(es: Dict<string, MapValue>): seq<(string, string)>
  {
    if es == [] then []
    else FlatWrites(es[..|es| - 1]) + EntryWrites(es[|es| - 1].0, es[|es| - 1].1)
  }

  /** What `_flatten_port_map` returns: a one-entry dict with key `""` for a single signal, the writes
      of the table into an empty dict otherwise. */
  function Flatten(pm: PortMap): Dict<string, string>
  {
    match pm
    case Single(s) => [("", s)]
    case Table(es) => Apply([], FlatWrites(es))
  }

  /** The inner loop of `_flatten_port_map`: one member of a group after the other. */
  method WriteGroup(d: Dict<string, string>, key: string, ms: Dict<string, string>) returns (result: Dict<string, string>)
    ensures result == Apply(d, GroupWrites(key, ms))
  {
    result := d;
    for j := 0 to |ms|
      invariant result == Apply(d, GroupWrites(key, ms[..j]))
    {
      assert ms[..j + 1][..j] == ms[..j];
      var (subkey, subvalue) := ms[j];
      ApplySnoc(d, GroupWrites(key, ms[..j]), (key + "." + subkey, subvalue));
      result := Set(result, key + "." + subkey, subvalue);
    }
    assert ms[..|ms|] == ms;
  }

  /** `_flatten_port_map`. */
  method FlattenPortMap(pm: PortMap) returns (result: Dict<string, string>)
    ensures result == Flatten(pm)
  {
    match pm
    case Single(s) =>
      result := [("", s)];
    case Table(es) =>
      result := [];
      for i := 0 to |es|
        invariant result == Apply([], FlatWrites(es[..i]))
      {
        assert es[..i + 1][..i] == es[..i];
        var (key, value) := es[i];
        match value
        case Name(s) =>
          ApplySnoc([], FlatWrites(es[..i]), (key, s));
          result := Set(result, key, s);
        case Group(ms) =>
          ApplyAppend([], FlatWrites(es[..i]), GroupWrites(key, ms));
          result := WriteGroup(result, key, ms);
      }
      assert es[..|es|] == es;
  }

  /** Every member of a group writes a dotted key. */
  lemma {:induction false} GroupWritesDotted(key: string, ms: Dict<string, string>, k: string)
    requires '.' !in k
    ensures LastWrite(GroupWrites(key, ms), k) == None
    decreases |ms|
  {
    if ms != [] {
      var sub := key + "." + ms[|ms| - 1].0;
      assert sub[|key|] == '.';
      GroupWritesDotted(key, ms[..|ms| - 1], k);
      LastWriteAppend(GroupWrites(key, ms[..|ms| - 1]), [(sub, ms[|ms| - 1].1)], k);
    }
  }

  /** The last write to `k` in `a + b`: the last in `b` when `b` writes `k`. */
  lemma {:induction false} LastWriteAppend<K, V>(a: seq<(K, V)>, b: seq<(K, V)>, k: K)
    ensures LastWrite(a + b, k) == if LastWrite(b, k).Some? then LastWrite(b, k) else LastWrite(a, k)
    decreases |b|
  {
    if b == [] {
      assert a + b == a;
    } else {
      assert (a + b)[..|a + b| - 1] == a + b[..|b| - 1];
      LastWriteAppend(a, b[..|b| - 1], k);
    }
  }

  /** A flattened map has unique keys, and each key has its last written signal. */
  lemma FlattenLookup(es: Dict<string, MapValue>, k: string)
    ensures KeysUnique(Flatten(Table(es)))
    ensures Lookup(Flatten(Table(es)), k) == LastWrite(FlatWrites(es), k)
  {
    ApplyUnique([], FlatWrites(es));
    ApplyLookup([], FlatWrites(es), k);
  }

  /** In a table with unique keys, a plain entry whose key has no dot keeps its
      signal: no group member can write the same key. */
  lemma {:induction false} FlattenNamedEntry(es: Dict<string, MapValue>, i: nat)
    requires KeysUnique(es) && i < |es|
    requires es[i].1.Name? && '.' !in es[i].0
    ensures Lookup(Flatten(Table(es)), es[i].0) == Some(es[i].1.signal)
    decreases |es|
  {
    FlattenLookup(es, es[i].0);
    var init := es[..|es| - 1];
    var last := es[|es| - 1];
    LastWriteAppend(FlatWrites(init), EntryWrites(last.0, last.1), es[i].0);
    if i == |es| - 1 {
      assert LastWrite(EntryWrites(last.0, last.1), es[i].0) == Some(es[i].1.signal);
    } else {
      assert init[i] == es[i];
      FlattenNamedEntry(init, i);
      FlattenLookup(init, es[i].0);
      match last.1
      case Name(s) =>
        assert last.0 != es[i].0;
      case Group(ms) =>
        GroupWritesDotted(last.0, ms, es[i].0);
    }
  }

  /** The nested map of the wrapper's tests (`cyc` to `i_cyc`, and a group `dat`
      mapping `r` to `o_dat_r` and `w` to `i_dat_w`) flattens to `cyc`, `dat.r`,
      `dat.w` in that order. */
  lemma FlattenNestedExample()
    ensures Flatten(Table([("cyc", Name("i_cyc")), ("dat", Group([("r", "o_dat_r"), ("w", "i_dat_w")]))]))
      == [("cyc", "i_cyc"), ("dat.r", "o_dat_r"), ("dat.w", "i_dat_w")]
  {
    var g := [("r", "o_dat_r"), ("w", "i_dat_w")];
    assert g[..1] == [("r", "o_dat_r")] && g[..1][..0] == [];
    assert GroupWrites("dat", g[..1]) == [("dat.r", "o_dat_r")] by {
      assert GroupWrites("dat", g[..1][..0]) == [];
      assert "dat" + "." + "r" == "dat.r";
    }
    assert "dat" + "." + "w" == "dat.w";
    assert GroupWrites("dat", g) == [("dat.r", "o_dat_r"), ("dat.w", "i_dat_w")];
    var es := [("cyc", Name("i_cyc")), ("dat", Group(g))];
    assert es[..1] == [("cyc", Name("i_cyc"))] && es[..1][..0] == [];
    assert FlatWrites(es[..1]) == [("cyc", "i_cyc")] by {
      assert FlatWrites(es[..1][..0]) == [];
    }
    var ws := [("cyc", "i_cyc"), ("dat.r", "o_dat_r"), ("dat.w", "i_dat_w")];
    assert FlatWrites(es) == ws;
    assert KeysUnique(ws);
    ApplyDistinct(ws);
  }

  /* ------------------------------------------------------------ Parameters */

  /** A JSON value of the configuration: a string, or any other value, kept
      as it is. */
  datatype Json = JString(str: string) | JOther(repr: string)

  /** The code-generation table: its `parameters`, if any. */
  datatype Generate = Generate(parameters: Option<Dict<string, Json>>)

  /** A string that opens with a brace and closes with one, around a name: a
      reference to a generation parameter. */
  predicate IsReference(v: Json)
  {
    v.JString? && |v.str| > 0 && v.str[0] == OpenBrace && v.str[|v.str| - 1] == CloseBrace
  }

  function ReferenceName(v: Json): string
    requires IsReference(v)
  {
    v.str[1..|v.str| - 1]
  }

  /** The generation parameters, empty when there are none. */
  function GenerateParams(g: Option<Generate>): Dict<string, Json>
  {
    if g.Some? && g.value.parameters.Some? then g.value.parameters.value else []
  }

  /** One parameter value: a reference is looked up among the generation
      parameters when those are present and non-empty, and stays as it is when
      the name is not there; any other value stays as it is. */
  function ResolveParam(v: Json, g: Option<Generate>): Json
  {
    if IsReference(v) && g.Some? && g.value.parameters.Some? && g.value.parameters.value != [] then
      Lookup(g.value.parameters.value, ReferenceName(v)).GetOr(v)
    else v
  }

  /** The truthiness test on the parameters changes nothing: a reference takes
      the named generation parameter when there is one and stays as it is
      otherwise. */
  lemma ResolveParamMeaning(v: Json, g: Option<Generate>)
    ensures !IsReference(v) ==> ResolveParam(v, g) == v
    ensures IsReference(v) ==> ResolveParam(v, g) == Lookup(GenerateParams(g), ReferenceName(v)).GetOr(v)
  {
  }

  /** `port_config.params`, or the empty dict when there are none. */
  function ParamsOrEmpty(p: Option<Dict<string, Json>>): Dict<string, Json>
  {
    if p.Some? then p.value else []
  }

  function ResolvedWrites(ps: Dict<string, Json>, g: Option<Generate>): seq<(string, Json)>
  {
    if ps == [] then []
    else ResolvedWrites(ps[..|ps| - 1], g) + [(ps[|ps| - 1].0, ResolveParam(ps[|ps| - 1].1, g))]
  }

  /** `resolved_params`: every parameter written with its resolved value. */
  function ResolvedParams(ps: Dict<string, Json>, g: Option<Generate>): Dict<string, Json>
  {
    Apply([], ResolvedWrites(ps, g))
  }

  lemma {:induction false} ResolvedWritesAt(ps: Dict<string, Json>, g: Option<Generate>)
    ensures |ResolvedWrites(ps, g)| == |ps|
    ensures forall i :: 0 <= i < |ps| ==> ResolvedWrites(ps, g)[i] == (ps[i].0, ResolveParam(ps[i].1, g))
    decreases |ps|
  {
    if ps != [] {
      ResolvedWritesAt(ps[..|ps| - 1], g);
    }
  }

  /** The resolved parameters have the same names in the same order, each with
      its resolved value. */
  lemma ResolvedParamsShape(ps: Dict<string, Json>, g: Option<Generate>)
    requires KeysUnique(ps)
    ensures |ResolvedParams(ps, g)| == |ps|
    ensures forall i :: 0 <= i < |ps| ==> ResolvedParams(ps, g)[i] == (ps[i].0, ResolveParam(ps[i].1, g))
  {
    ResolvedWritesAt(ps, g);
    ApplyDistinct(ResolvedWrites(ps, g));
  }

  /** One more parameter written with its resolved value. */
  lemma ResolveParamsStep(ps: Dict<string, Json>, i: nat, g: Option<Generate>, r: Json)
    requires i < |ps| && r == ResolveParam(ps[i].1, g)
    ensures Apply([], ResolvedWrites(ps[..i + 1], g)) == Set(Apply([], ResolvedWrites(ps[..i], g)), ps[i].0, r)
  {
    assert ps[..i + 1][..i] == ps[..i];
    ApplySnoc([], ResolvedWrites(ps[..i], g), (ps[i].0, r));
  }

  /** The parameter loop of `_create_signature_member`. */
  method ResolveParams(params: Option<Dict<string, Json>>, g: Option<Generate>) returns (resolved: Dict<string, Json>)
    ensures resolved == ResolvedParams(ParamsOrEmpty(params), g)
  {
    var ps := ParamsOrEmpty(params);
    resolved := [];
    for i := 0 to |ps|
      invariant resolved == Apply([], ResolvedWrites(ps[..i], g))
    {
      var (k, v) := ps[i];
      var r := v;
      if v.JString? && |v.str| > 0 && v.str[0] == OpenBrace && v.str[|v.str| - 1] == CloseBrace {
        var name := v.str[1..|v.str| - 1];
        if g.Some? && g.value.parameters.Some? && g.value.parameters.value != [] {
          r := Lookup(g.value.parameters.value, name).GetOr(v);
        }
      }
      ResolveParamsStep(ps, i, g, r);
      resolved := Set(resolved, k, r);
    }
    assert ps[..|ps|] == ps;
  }

  /* ----------------------------------------------------- Signature members */

  datatype Flow = In | Out

  /** The shape of a member: a plain signal of a width, or an interface class
      with the parameters it is instantiated with. */
  datatype Shape = Width(bits: nat) | Iface(modulePath: string, className: string, params: Dict<string, Json>)

  datatype Member = Member(flow: Flow, shape: Shape)

  /** A port or pin of the configuration. */
  datatype Port = Port(interface: string, params: Option<Dict<string, Json>>, portMap: PortMap)

  /** `next(iter(port_map.values()), "")`. */
  function FirstSignal(d: Dict<string, string>): string
  {
    if d == [] then "" else d[0].1
  }

  /** `_create_signature_member`: a simple interface keeps its direction; an
      interface class is driven by Amaranth (`Out`) when the first Verilog signal
      of its map is an input of the module, and read by it (`In`) otherwise. */
  function SignatureMember(p: Port, g: Option<Generate>): Result<Member>
  {
    match ResolveInterface(p.interface)
    case Err(e) => Err(e)
    case Ok(Simple(dir, w)) => Ok(Member(if dir == "Out" then Out else In, Width(w)))
    case Ok(ClassPath(m, c)) =>
      var direction := ParseSignalDirection(FirstSignal(Flatten(p.portMap)));
      Ok(Member(if direction == "i" then Out else In, Iface(m, c, ResolvedParams(ParamsOrEmpty(p.params), g))))
  }

  method CreateSignatureMember(p: Port, g: Option<Generate>) returns (r: Result<Member>)
    ensures r == SignatureMember(p, g)
  {
    var info := ResolveInterface(p.interface);
    if info.Err? {
      return Err(info.msg);
    }
    match info.value
    case Simple(dir, w) =>
      if dir == "Out" {
        r := Ok(Member(Out, Width(w)));
      } else {
        r := Ok(Member(In, Width(w)));
      }
    case ClassPath(m, c) =>
      var resolved := ResolveParams(p.params, g);
      var portMap := FlattenPortMap(p.portMap);
      var first := if portMap == [] then "" else portMap[0].1;
      var direction := ParseSignalDirection(first);
      if direction == "i" {
        r := Ok(Member(Out, Iface(m, c, resolved)));
      } else {
        r := Ok(Member(In, Iface(m, c, resolved)));
      }
  }

  /** A simple interface gives a member of its own direction and width. */
  lemma SimpleMember(dir: string, n: nat, tail: string, params: Option<Dict<string, Json>>, pm: PortMap, g: Option<Generate>)
    requires dir == "Out" || dir == "In"
    ensures SignatureMember(Port(WiringPrefix + dir + "(" + NatToString(n) + ")" + tail, params, pm), g)
      == Ok(Member(if dir == "Out" then Out else In, Width(n)))
  {
    ResolveSimple(dir, n, tail);
  }

  /** An interface class is `Out` exactly when the first mapped signal does not
      start `o_`; an empty map therefore gives `Out`. */
  lemma IfaceMemberFlow(p: Port, g: Option<Generate>)
    requires ResolveInterface(p.interface).Ok? && ResolveInterface(p.interface).value.ClassPath?
    ensures SignatureMember(p, g).Ok?
    ensures SignatureMember(p, g).value.flow == Out <==> !StartsWith(FirstSignal(Flatten(p.portMap)), "o_")
    ensures SignatureMember(p, g).value.shape.params == ResolvedParams(ParamsOrEmpty(p.params), g)
  {
  }

  /* ------------------------------------------------------------- Traversal */

  /** Apply `f` to each element in order, stopping at the first error the way a
      Python loop stops at the first exception. */
  function Traverse<A, B>(xs: seq<A>, f: A -> Result<B>): Result<seq<B>>
  {
    if xs == [] then Ok([])
    else
      match Traverse(xs[..|xs| - 1], f)
      case Err(e) => Err(e)
      case Ok(bs) =>
        match f(xs[|xs| - 1])
        case Err(e) => Err(e)
        case Ok(b) => Ok(bs + [b])
  }

  /** A traversal succeeds exactly when every element does, and then holds each
      element's result in order. */
  lemma {:induction false} TraverseOk<A, B>(xs: seq<A>, f: A -> Result<B>)
    ensures Traverse(xs, f).Ok? <==> forall i :: 0 <= i < |xs| ==> f(xs[i]).Ok?
    ensures Traverse(xs, f).Ok? ==> (|Traverse(xs, f).value| == |xs|
      && forall i :: 0 <= i < |xs| ==> Traverse(xs, f).value[i] == f(xs[i]).value)
    decreases |xs|
  {
    if xs != [] {
      var init := xs[..|xs| - 1];
      TraverseOk(init, f);
      assert forall i :: 0 <= i < |init| ==> init[i] == xs[i];
      if Traverse(xs, f).Ok? {
        assert forall i :: 0 <= i < |xs| ==> f(xs[i]).Ok? by {
          assert Traverse(init, f).Ok?;
        }
      }
    }
  }

  /** A traversal that fails reports the first element's error. */
  lemma {:induction false} TraverseFirstError<A, B>(xs: seq<A>, f: A -> Result<B>, i: nat)
    requires i < |xs| && f(xs[i]).Err?
    requires forall j :: 0 <= j < i ==> f(xs[j]).Ok?
    ensures Traverse(xs, f) == Err(f(xs[i]).msg)
    decreases |xs|
  {
    var init := xs[..|xs| - 1];
    if i < |init| {
      assert init[i] == xs[i];
      TraverseFirstError(init, f, i);
    } else {
      TraverseOk(init, f);
    }
  }

  /** An error in a prefix is the error of the whole. */
  lemma {:induction false} TraverseErrStays<A, B>(xs: seq<A>, f: A -> Result<B>, i: nat)
    requires i <= |xs| && Traverse(xs[..i], f).Err?
    ensures Traverse(xs, f) == Traverse(xs[..i], f)
    decreases |xs| - i
  {
    if i < |xs| {
      assert xs[..i + 1][..i] == xs[..i];
      TraverseErrStays(xs, f, i + 1);
    } else {
      assert xs[..i] == xs;
    }
  }

  /** One more element. */
  lemma TraverseSnoc<A, B>(xs: seq<A>, f: A -> Result<B>, i: nat)
    requires i < |xs|
    ensures Traverse(xs[..i], f).Err? ==> Traverse(xs[..i + 1], f) == Traverse(xs[..i], f)
    ensures Traverse(xs[..i], f).Ok? && f(xs[i]).Err? ==> Traverse(xs[..i + 1], f) == Err(f(xs[i]).msg)
    ensures Traverse(xs[..i], f).Ok? && f(xs[i]).Ok? ==>
      Traverse(xs[..i + 1], f) == Ok(Traverse(xs[..i], f).value + [f(xs[i]).value])
  {
    assert xs[..i + 1][..i] == xs[..i];
  }

  /* -------------------------------------------------------------- __init__ */

  /** The configuration of a wrapped module. */
  datatype Config = Config(
    name: string,
    files: Files,
    generate: Option<Generate>,
    clocks: Dict<string, string>,
    resets: Dict<string, string>,
    ports: Dict<string, Port>,
    pins: Dict<string, Port>)

  /** What `__init__` builds: the signature members and `_port_mappings`. */
  datatype Tables = Tables(members: Dict<string, Member>, portMappings: Dict<string, Dict<string, string>>)

  /** The member of one named port, keyed by its name. */
  function MemberItem(g: Option<Generate>, e: (string, Port)): Result<(string, Member)>
  {
    match SignatureMember(e.1, g)
    case Err(msg) => Err(msg)
    case Ok(m) => Ok((e.0, m))
  }

  function MappingWrites(ps: Dict<string, Port>): seq<(string, Dict<string, string>)>
  {
    if ps == [] then []
    else MappingWrites(ps[..|ps| - 1]) + [(ps[|ps| - 1].0, Flatten(ps[|ps| - 1].1.portMap))]
  }

  /** The ports followed by the pins. */
  function AllPorts(c: Config): Dict<string, Port>
  {
    c.ports + c.pins
  }

  /** The members of all ports and pins, or the first error. */
  function MemberWrites(c: Config): Result<seq<(string, Member)>>
  {
    Traverse(AllPorts(c), e => MemberItem(c.generate, e))
  }

  /** The ports, then the pins, each written into both tables; the first member
      that cannot be created aborts the construction. */
  function WrapperTables(c: Config): Result<Tables>
  {
    match MemberWrites(c)
    case Err(msg) => Err(msg)
    case Ok(ws) => Ok(Tables(Apply([], ws), Apply([], MappingWrites(AllPorts(c)))))
  }

  /** `VerilogWrapper.__init__` up to the call of the component constructor. The
      code runs the same body in a loop over the ports and then in a loop over
      the pins; here one loop runs over the ports followed by the pins. */
  method BuildWrapper(c: Config) returns (r: Result<Tables>)
    ensures r == WrapperTables(c)
  {
    var all := c.ports + c.pins;
    var f := e => MemberItem(c.generate, e);
    var members: Dict<string, Member> := [];
    var mappings: Dict<string, Dict<string, string>> := [];
    for i := 0 to |all|
      invariant Traverse(all[..i], f).Ok?
      invariant members == Apply([], Traverse(all[..i], f).value)
      invariant mappings == Apply([], MappingWrites(all[..i]))
    {
      var (name, port) := all[i];
      TraverseSnoc(all, f, i);
      assert all[..i + 1][..i] == all[..i];
      var member := CreateSignatureMember(port, c.generate);
      if member.Err? {
        TraverseErrStays(all, f, i + 1);
        return Err(member.msg);
      }
      ApplySnoc([], Traverse(all[..i], f).value, (name, member.value));
      members := Set(members, name, member.value);
      var flat := FlattenPortMap(port.portMap);
      ApplySnoc([], MappingWrites(all[..i]), (name, flat));
      mappings := Set(mappings, name, flat);
    }
    assert all[..|all|] == all;
    r := Ok(Tables(members, mappings));
  }

  lemma {:induction false} MappingWritesAt(ps: Dict<string, Port>)
    ensures |MappingWrites(ps)| == |ps|
    ensures forall i :: 0 <= i < |ps| ==> MappingWrites(ps)[i] == (ps[i].0, Flatten(ps[i].1.portMap))
    decreases |ps|
  {
    if ps != [] {
      MappingWritesAt(ps[..|ps| - 1]);
    }
  }

  /** The construction succeeds exactly when every port and pin gives a member,
      and then writes one member per port or pin, in order. */
  lemma MemberWritesAt(c: Config)
    ensures MemberWrites(c).Ok? <==> forall j :: 0 <= j < |AllPorts(c)| ==> SignatureMember(AllPorts(c)[j].1, c.generate).Ok?
    ensures MemberWrites(c).Ok? ==> (|MemberWrites(c).value| == |AllPorts(c)|
      && forall j :: 0 <= j < |AllPorts(c)| ==>
        MemberWrites(c).value[j] == (AllPorts(c)[j].0, SignatureMember(AllPorts(c)[j].1, c.generate).value))
  {
    TraverseOk(AllPorts(c), e => MemberItem(c.generate, e));
  }

  /** The last write of a key is the value of its last pair. */
  lemma {:induction false} LastWriteAt<K, V>(ws: seq<(K, V)>, i: nat)
    requires i < |ws|
    requires forall j :: i < j < |ws| ==> ws[j].0 != ws[i].0
    ensures LastWrite(ws, ws[i].0) == Some(ws[i].1)
    decreases |ws|
  {
    if i < |ws| - 1 {
      var init := ws[..|ws| - 1];
      assert init[i] == ws[i];
      LastWriteAt(init, i);
    }
  }

  /** A port or pin not followed by a pin of the same name has its own member, so
      a pin replaces a port of its name. */
  lemma WrapperMemberAt(c: Config, i: nat)
    requires WrapperTables(c).Ok? && i < |AllPorts(c)|
    requires forall j :: i < j < |AllPorts(c)| ==> AllPorts(c)[j].0 != AllPorts(c)[i].0
    ensures SignatureMember(AllPorts(c)[i].1, c.generate).Ok?
    ensures Lookup(WrapperTables(c).value.members, AllPorts(c)[i].0)
      == Some(SignatureMember(AllPorts(c)[i].1, c.generate).value)
  {
    MemberWritesAt(c);
    var ws := MemberWrites(c).value;
    ApplyLookup([], ws, ws[i].0);
    LastWriteAt(ws, i);
  }

  /** A port or pin not followed by a pin of the same name has its own flattened
      map in `_port_mappings`. */
  lemma WrapperMappingAt(c: Config, i: nat)
    requires WrapperTables(c).Ok? && i < |AllPorts(c)|
    requires forall j :: i < j < |AllPorts(c)| ==> AllPorts(c)[j].0 != AllPorts(c)[i].0
    ensures Lookup(WrapperTables(c).value.portMappings, AllPorts(c)[i].0) == Some(Flatten(AllPorts(c)[i].1.portMap))
  {
    var ws := MappingWrites(AllPorts(c));
    MappingWritesAt(AllPorts(c));
    ApplyLookup([], ws, ws[i].0);
    LastWriteAt(ws, i);
  }

  /** Both tables have unique keys: the names of the ports and of the pins. */
  lemma WrapperTablesKeys(c: Config)
    requires WrapperTables(c).Ok?
    ensures KeysUnique(WrapperTables(c).value.members) && KeysUnique(WrapperTables(c).value.portMappings)
    ensures Keys(WrapperTables(c).value.portMappings) == Keys(c.ports) + Keys(c.pins)
    ensures Keys(WrapperTables(c).value.members) == Keys(c.ports) + Keys(c.pins)
  {
    var all := AllPorts(c);
    var ws := MemberWrites(c).value;
    var ms := MappingWrites(all);
    assert WrapperTables(c).value == Tables(Apply([], ws), Apply([], ms));
    MemberWritesAt(c);
    MappingWritesAt(all);
    KeysAppend(c.ports, c.pins);
    KeysPointwise(ws, all);
    KeysPointwise(ms, all);
    ApplyFromEmpty(ws);
    ApplyFromEmpty(ms);
  }
}

=== FILE: wb_timer.dfy ===
/** The Wishbone timer driver (chipflow_digital_ip/io/sv_timer/drivers/wb_timer.h):
    four 32-bit registers and the inline functions that update them. Each
    register is a plain field; what the hardware does on a store (write-one-to-
    clear status, reload on a counter write) is not part of the driver. */
module WishboneTimer {

  const CTRL_ENABLE: bv32 := 1
  const CTRL_IRQ_EN: bv32 := 2
  const CTRL_PRESCALER_SHIFT: bv32 := 16
  const STATUS_IRQ_PENDING: bv32 := 1
  const STATUS_MATCH: bv32 := 2

  /** The control word `wb_timer_init` stores: the prescaler in bits 31..16,
      enable and interrupt enable set, every other bit clear. */
  function InitCtrl(prescaler: bv16): (r: bv32)
    ensures (r >> 16) as bv16 == prescaler
    ensures r & CTRL_ENABLE != 0 && r & CTRL_IRQ_EN != 0
    ensures r & 0xFFFC == 0
  {
    ((prescaler as bv32) << CTRL_PRESCALER_SHIFT) | CTRL_ENABLE | CTRL_IRQ_EN
  }

  /** `ctrl |= WB_TIMER_CTRL_ENABLE`: bit 0 set, every other bit kept. */
  function WithEnable(ctrl: bv32): (r: bv32)
    ensures r & CTRL_ENABLE != 0
    ensures r & !CTRL_ENABLE == ctrl & !CTRL_ENABLE
  {
    ctrl | CTRL_ENABLE
  }

  /** `ctrl &= ~WB_TIMER_CTRL_ENABLE`: bit 0 clear, every other bit kept. */
  function WithoutEnable(ctrl: bv32): (r: bv32)
    ensures r & CTRL_ENABLE == 0
    ensures r & !CTRL_ENABLE == ctrl & !CTRL_ENABLE
  {
    ctrl & !CTRL_ENABLE
  }

  /** Enabling twice is enabling once. */
  lemma EnableIdempotent(ctrl: bv32)
    ensures WithEnable(WithEnable(ctrl)) == WithEnable(ctrl)
  {
  }

  /** Disabling twice is disabling once. */
  lemma DisableIdempotent(ctrl: bv32)
    ensures WithoutEnable(WithoutEnable(ctrl)) == WithoutEnable(ctrl)
  {
  }

  /** A disable followed by an enable gives back an enabled control word. */
  lemma DisableThenEnable(ctrl: bv32)
    ensures WithEnable(WithoutEnable(ctrl)) == WithEnable(ctrl)
    ensures ctrl & CTRL_ENABLE != 0 ==> WithEnable(WithoutEnable(ctrl)) == ctrl
  {
  }

  /** `wb_timer_regs_t`: the register block a driver function is handed. */
  class TimerRegs {
    var ctrl: bv32
    var compare: bv32
    var counter: bv32
    var status: bv32

    constructor (ctrl0: bv32, compare0: bv32, counter0: bv32, status0: bv32)
      ensures ctrl == ctrl0 && compare == compare0 && counter == counter0 && status == status0
    {
      ctrl, compare, counter, status := ctrl0, compare0, counter0, status0;
    }

    /** `wb_timer_init`: compare value, counter cleared, control word set;
        status untouched. */
    method Init(prescaler: bv16, compareValue: bv32)
      modifies this`compare, this`counter, this`ctrl
      ensures compare == compareValue && counter == 0 && ctrl == InitCtrl(prescaler)
    {
      compare := compareValue;
      counter := 0;
      ctrl := ((prescaler as bv32) << CTRL_PRESCALER_SHIFT) | CTRL_ENABLE | CTRL_IRQ_EN;
    }

    /** `wb_timer_enable`. */
    method Enable()
      modifies this`ctrl
      ensures ctrl == WithEnable(old(ctrl))
    {
      ctrl := ctrl | CTRL_ENABLE;
    }

    /** `wb_timer_disable`. */
    method Disable()
      modifies this`ctrl
      ensures ctrl == WithoutEnable(old(ctrl))
    {
      ctrl := ctrl & !CTRL_ENABLE;
    }

    /** `wb_timer_set_compare`. */
    method SetCompare(value: bv32)
      modifies this`compare
      ensures compare == value
    {
      compare := value;
    }

    /** `wb_timer_get_counter`: reads the counter and changes nothing. */
    method GetCounter() returns (r: bv32)
      ensures r == counter
    {
      r := counter;
    }

    /** `wb_timer_clear_irq`: stores pending and match into status. */
    method ClearIrq()
      modifies this`status
      ensures status == STATUS_IRQ_PENDING | STATUS_MATCH
      ensures status == 3
    {
      status := STATUS_IRQ_PENDING | STATUS_MATCH;
    }

    /** `wb_timer_irq_pending`: the C comparison yields 1 or 0. */
    method IrqPending() returns (r: int)
      ensures r == 0 || r == 1
      ensures r == 1 <==> status & STATUS_IRQ_PENDING != 0
    {
      r := if status & STATUS_IRQ_PENDING != 0 then 1 else 0;
    }
  }

  /** A driver sequence: initialise, disable, enable. The control word ends as
      `wb_timer_init` left it, and the other registers keep their values. */
  method InitDisableEnable(regs: TimerRegs, prescaler: bv16, compareValue: bv32)
    modifies regs
    ensures regs.ctrl == InitCtrl(prescaler) && regs.compare == compareValue && regs.counter == 0
    ensures regs.status == old(regs.status)
  {
    regs.Init(prescaler, compareValue);
    regs.Disable();
    regs.Enable();
    DisableThenEnable(InitCtrl(prescaler));
  }
}

=== FILE: wrapper_elaborate.dfy ===
/** `VerilogWrapper.elaborate` (chipflow_digital_ip/io/_verilog_wrapper.py): the
    port arguments of the Verilog instance. Clocks and resets come first, each as
    `i_<signal>`, and Amaranth refuses a clock or reset of the `comb` domain; then
    every flattened port mapping gives the Verilog signal name, its `n` replacement
    fields formatted with index 0, and the Amaranth signal at its path.
    Later writes of the same name replace earlier ones, as in a Python dict. */
module WrapperElaborate {
  import opened Wrappers
  import opened Text
  import opened OrderedDict
  import opened VerilogWrapper
  import opened PortFormat

  /** What an instance port is connected to. */
  datatype PortValue =
    | ClockOf(domain: string)
    | InvertedResetOf(domain: string)
    | SignalAt(port: string, path: string)

  /** The clock domain a configured name refers to: `sys` is Amaranth's default
      domain `sync`, any other name is its own domain. */
  function DomainOf(name: string): string
  {
    if name == "sys" then "sync" else name
  }

  /** The writes of the clock loop. */
  function ClockWrites(cs: Dict<string, string>): seq<(string, PortValue)>
  {
    if cs == [] then []
    else ClockWrites(cs[..|cs| - 1]) + [("i_" + cs[|cs| - 1].1, ClockOf(DomainOf(cs[|cs| - 1].0)))]
  }

  /** The writes of the reset loop: each reset is inverted (active low). */
  function ResetWrites(rs: Dict<string, string>): seq<(string, PortValue)>
  {
    if rs == [] then []
    else ResetWrites(rs[..|rs| - 1]) + [("i_" + rs[|rs| - 1].1, InvertedResetOf(DomainOf(rs[|rs| - 1].0)))]
  }

  /* ------------------------------------------------------------ Port writes */

  /** One mapped signal of a port: its Verilog name and its Amaranth signal. */
  function SignalItem(port: string, e: (string, string)): Result<(string, PortValue)>
  {
    match PortName(e.1)
    case Err(msg) => Err(msg)
    case Ok(name) => Ok((name, SignalAt(port, e.0)))
  }

  function SignalItems(port: string): ((string, string)) -> Result<(string, PortValue)>
  {
    e => SignalItem(port, e)
  }

  /** The writes of one port's mapping, or the first error. */
  function MappingItem(e: (string, Dict<string, string>)): Result<seq<(string, PortValue)>>
  {
    Traverse(e.1, SignalItems(e.0))
  }

  function MappingItems(): ((string, Dict<string, string>)) -> Result<seq<(string, PortValue)>>
  {
    e => MappingItem(e)
  }

  function Concat<T>(ss: seq<seq<T>>): seq<T>
  {
    if ss == [] then [] else Concat(ss[..|ss| - 1]) + ss[|ss| - 1]
  }

  /** The writes of every port mapping in order, or the first error. */
  function PortWrites(ms: Dict<string, Dict<string, string>>): Result<seq<(string, PortValue)>>
  {
    match Traverse(ms, MappingItems())
    case Err(msg) => Err(msg)
    case Ok(wss) => Ok(Concat(wss))
  }

  /** Amaranth's `ClockSignal` and `ResetSignal` refuse the combinational domain
      `comb` with a `ValueError`. */
  predicate NamesComb(d: Dict<string, string>)
  {
    exists i :: 0 <= i < |d| && d[i].0 == "comb"
  }

  const NoCombClock: string := "Domain 'comb' does not have a clock"
  const NoCombReset: string := "Domain 'comb' does not have a reset"

  /** `instance_ports`: clocks, then resets, then the port signals; the first
      loop that raises decides the error. */
  function InstancePorts(c: Config, ms: Dict<string, Dict<string, string>>): Result<Dict<string, PortValue>>
  {
    if NamesComb(c.clocks) then Err(NoCombClock)
    else if NamesComb(c.resets) then Err(NoCombReset)
    else match PortWrites(ms)
      case Err(msg) => Err(msg)
      case Ok(ws) => Ok(Apply([], ClockWrites(c.clocks) + ResetWrites(c.resets) + ws))
  }

  /** The inner loop of `elaborate`: the signals of one port written into
      `ports`, or the first name that cannot be formatted. */
  method WritePortSignals(ports: Dict<string, PortValue>, port: string, pm: Dict<string, string>)
    returns (r: Result<Dict<string, PortValue>>)
    ensures Traverse(pm, SignalItems(port)).Err? ==> r == Err(Traverse(pm, SignalItems(port)).msg)
    ensures Traverse(pm, SignalItems(port)).Ok? ==> r == Ok(Apply(ports, Traverse(pm, SignalItems(port)).value))
  {
    var out := ports;
    for j := 0 to |pm|
      invariant Traverse(pm[..j], SignalItems(port)).Ok?
      invariant out == Apply(ports, Traverse(pm[..j], SignalItems(port)).value)
    {
      TraverseSnoc(pm, SignalItems(port), j);
      var (path, vsig) := pm[j];
      var name := vsig;
      if OpenBrace in vsig {
        var formatted := FormatN(vsig);
        if formatted.Err? {
          TraverseErrStays(pm, SignalItems(port), j + 1);
          return Err(formatted.msg);
        }
        name := formatted.value;
      }
      ApplySnoc(ports, Traverse(pm[..j], SignalItems(port)).value, (name, SignalAt(port, path)));
      out := Set(out, name, SignalAt(port, path));
    }
    assert pm[..|pm|] == pm;
    r := Ok(out);
  }

  lemma ConcatSnoc<T>(ss: seq<seq<T>>, s: seq<T>)
    ensures Concat(ss + [s]) == Concat(ss) + s
  {
    assert (ss + [s])[..|ss|] == ss;
  }

  /** The clock loop of `elaborate`: it stops at a clock of the `comb` domain. */
  method WriteClocks(ports: Dict<string, PortValue>, cs: Dict<string, string>)
    returns (r: Result<Dict<string, PortValue>>)
    ensures NamesComb(cs) ==> r == Err(NoCombClock)
    ensures !NamesComb(cs) ==> r == Ok(Apply(ports, ClockWrites(cs)))
  {
    var out := ports;
    for i := 0 to |cs|
      invariant forall j :: 0 <= j < i ==> cs[j].0 != "comb"
      invariant out == Apply(ports, ClockWrites(cs[..i]))
    {
      assert cs[..i + 1][..i] == cs[..i];
      var (name, vsig) := cs[i];
      if name == "comb" {
        return Err(NoCombClock);
      }
      var domain := if name == "sys" then "sync" else name;
      ApplySnoc(ports, ClockWrites(cs[..i]), ("i_" + vsig, ClockOf(domain)));
      out := Set(out, "i_" + vsig, ClockOf(domain));
    }
    assert cs[..|cs|] == cs;
    r := Ok(out);
  }

  /** The reset loop of `elaborate`: it stops at a reset of the `comb` domain. */
  method WriteResets(ports: Dict<string, PortValue>, rs: Dict<string, string>)
    returns (r: Result<Dict<string, PortValue>>)
    ensures NamesComb(rs) ==> r == Err(NoCombReset)
    ensures !NamesComb(rs) ==> r == Ok(Apply(ports, ResetWrites(rs)))
  {
    var out := ports;
    for i := 0 to |rs|
      invariant forall j :: 0 <= j < i ==> rs[j].0 != "comb"
      invariant out == Apply(ports, ResetWrites(rs[..i]))
    {
      assert rs[..i + 1][..i] == rs[..i];
      var (name, vsig) := rs[i];
      if name == "comb" {
        return Err(NoCombReset);
      }
      var domain := if name == "sys" then "sync" else name;
      ApplySnoc(ports, ResetWrites(rs[..i]), ("i_" + vsig, InvertedResetOf(domain)));
      out := Set(out, "i_" + vsig, InvertedResetOf(domain));
    }
    assert rs[..|rs|] == rs;
    r := Ok(out);
  }

  /** The port loop of `elaborate`: every port mapping in order, stopping at
      the first name that cannot be formatted. */
  method WritePorts(ports: Dict<string, PortValue>, ms: Dict<string, Dict<string, string>>)
    returns (r: Result<Dict<string, PortValue>>)
    ensures Traverse(ms, MappingItems()).Err? ==> r == Err(Traverse(ms, MappingItems()).msg)
    ensures Traverse(ms, MappingItems()).Ok? ==> r == Ok(Apply(ports, Concat(Traverse(ms, MappingItems()).value)))
  {
    var out := ports;
    assert Traverse(ms[..0], MappingItems()) == Ok([]);
    for i := 0 to |ms|
      invariant Traverse(ms[..i], MappingItems()).Ok?
      invariant out == Apply(ports, Concat(Traverse(ms[..i], MappingItems()).value))
    {
      TraverseSnoc(ms, MappingItems(), i);
      var (port, pm) := ms[i];
      var written := WritePortSignals(out, port, pm);
      if written.Err? {
        TraverseErrStays(ms, MappingItems(), i + 1);
        return Err(written.msg);
      }
      var done := Traverse(ms[..i], MappingItems()).value;
      ConcatSnoc(done, Traverse(pm, SignalItems(port)).value);
      ApplyAppend(ports, Concat(done), Traverse(pm, SignalItems(port)).value);
      out := written.value;
    }
    assert ms[..|ms|] == ms;
    r := Ok(out);
  }

  /** `elaborate` up to the construction of the instance. */
  method Elaborate(c: Config, ms: Dict<string, Dict<string, string>>) returns (r: Result<Dict<string, PortValue>>)
    ensures r == InstancePorts(c, ms)
  {
    var clocked := WriteClocks([], c.clocks);
    if clocked.Err? {
      return clocked;
    }
    var reset := WriteResets(clocked.value, c.resets);
    if reset.Err? {
      return reset;
    }
    ApplyAppend([], ClockWrites(c.clocks), ResetWrites(c.resets));
    r := WritePorts(reset.value, ms);
    if r.Ok? {
      ApplyAppend([], ClockWrites(c.clocks) + ResetWrites(c.resets), PortWrites(ms).value);
    }
  }

  /** The wrapper as a whole: `__init__` builds the tables, then `elaborate` reads
      the port mappings `__init__` stored in `_port_mappings`. */
  function WrapperInstance(c: Config): Result<Dict<string, PortValue>>
  {
    var t := WrapperTables(c);
    if t.Err? then Err(t.msg) else InstancePorts(c, t.value.portMappings)
  }

  /** Construction followed by elaboration of the same wrapper. */
  method ConstructAndElaborate(c: Config) returns (r: Result<Dict<string, PortValue>>)
    ensures r == WrapperInstance(c)
  {
    var t := BuildWrapper(c);
    if t.Err? {
      return Err(t.msg);
    }
    r := Elaborate(c, t.value.portMappings);
  }

  /* ---------------------------------------------------------------- Lemmas */

  lemma {:induction false} ClockWritesAt(cs: Dict<string, string>)
    ensures |ClockWrites(cs)| == |cs|
    ensures forall i :: 0 <= i < |cs| ==> ClockWrites(cs)[i] == ("i_" + cs[i].1, ClockOf(DomainOf(cs[i].0)))
    decreases |cs|
  {
    if cs != [] {
      ClockWritesAt(cs[..|cs| - 1]);
    }
  }

  lemma {:induction false} ResetWritesAt(rs: Dict<string, string>)
    ensures |ResetWrites(rs)| == |rs|
    ensures forall i :: 0 <= i < |rs| ==> ResetWrites(rs)[i] == ("i_" + rs[i].1, InvertedResetOf(DomainOf(rs[i].0)))
    decreases |rs|
  {
    if rs != [] {
      ResetWritesAt(rs[..|rs| - 1]);
    }
  }

  /** Elaboration fails exactly when some mapped signal name cannot be formatted. */
  lemma PortWritesOk(ms: Dict<string, Dict<string, string>>)
    ensures PortWrites(ms).Ok? <==>
      forall i, j :: 0 <= i < |ms| && 0 <= j < |ms[i].1| ==> PortName(ms[i].1[j].1).Ok?
  {
    TraverseOk(ms, MappingItems());
    forall i | 0 <= i < |ms|
      ensures MappingItem(ms[i]).Ok? <==> forall j :: 0 <= j < |ms[i].1| ==> PortName(ms[i].1[j].1).Ok?
    {
      TraverseOk(ms[i].1, SignalItems(ms[i].0));
    }
  }

  /** A clock of the `comb` domain is the error; otherwise a reset of it; otherwise
      elaboration succeeds exactly when every mapped signal name can be formatted. */
  lemma ElaborateFails(c: Config, ms: Dict<string, Dict<string, string>>)
    ensures NamesComb(c.clocks) ==> InstancePorts(c, ms) == Err(NoCombClock)
    ensures !NamesComb(c.clocks) && NamesComb(c.resets) ==> InstancePorts(c, ms) == Err(NoCombReset)
    ensures InstancePorts(c, ms).Ok? <==>
      && (forall i :: 0 <= i < |c.clocks| ==> c.clocks[i].0 != "comb")
      && (forall i :: 0 <= i < |c.resets| ==> c.resets[i].0 != "comb")
      && (forall i, j :: 0 <= i < |ms| && 0 <= j < |ms[i].1| ==> PortName(ms[i].1[j].1).Ok?)
  {
    PortWritesOk(ms);
  }

  /** A clock named `comb` makes `elaborate` fail, whatever the ports. */
  lemma CombClockRefused(ms: Dict<string, Dict<string, string>>)
    ensures InstancePorts(Config("timer", Files(None, Some("rtl")), None, [("comb", "clk")], [], [], []), ms)
      == Err(NoCombClock)
  {
    var c := Config("timer", Files(None, Some("rtl")), None, [("comb", "clk")], [], [], []);
    assert c.clocks[0].0 == "comb";
  }

  /** The instance ports have unique names; each name has the value of its last
      write, so a port signal replaces a clock or reset of the same name. */
  lemma InstancePortsLookup(c: Config, ms: Dict<string, Dict<string, string>>, k: string)
    requires InstancePorts(c, ms).Ok?
    ensures KeysUnique(InstancePorts(c, ms).value)
    ensures Lookup(InstancePorts(c, ms).value, k)
      == LastWrite(ClockWrites(c.clocks) + ResetWrites(c.resets) + PortWrites(ms).value, k)
  {
    var ws := ClockWrites(c.clocks) + ResetWrites(c.resets) + PortWrites(ms).value;
    ApplyUnique([], ws);
    ApplyLookup([], ws, k);
  }

  /** Every clock and every reset gives an instance port `i_<signal>`. */
  lemma ClockAndResetPorts(c: Config, ms: Dict<string, Dict<string, string>>)
    requires InstancePorts(c, ms).Ok?
    ensures forall i :: 0 <= i < |c.clocks| ==> "i_" + c.clocks[i].1 in Keys(InstancePorts(c, ms).value)
    ensures forall i :: 0 <= i < |c.resets| ==> "i_" + c.resets[i].1 in Keys(InstancePorts(c, ms).value)
  {
    assert !NamesComb(c.clocks) && !NamesComb(c.resets) && PortWrites(ms).Ok?;
    var cw, rw := ClockWrites(c.clocks), ResetWrites(c.resets);
    var ws := cw + rw + PortWrites(ms).value;
    assert InstancePorts(c, ms).value == Apply([], ws);
    ClockWritesAt(c.clocks);
    ResetWritesAt(c.resets);
    var keys := Keys(InstancePorts(c, ms).value);
    assert keys == Keys(ws) by {
      ApplyKeys([], ws);
      assert Keys<string, PortValue>([]) == {};
    }
    forall i | 0 <= i < |c.clocks| ensures "i_" + c.clocks[i].1 in keys {
      assert ws[i] == cw[i];
      assert ws[i].0 in Keys(ws);
    }
    forall i | 0 <= i < |c.resets| ensures "i_" + c.resets[i].1 in keys {
      assert ws[|cw| + i] == rw[i];
      assert ws[|cw| + i].0 in Keys(ws);
    }
  }

  /** The example's plain signal keeps its name, its indexed one gets index 0. */
  lemma ExampleNames()
    ensures SignalItem("bus", ("cyc", "i_cyc")) == Ok(("i_cyc", SignalAt("bus", "cyc")))
    ensures SignalItem("bus", ("dat.r", "o_dat_" + FieldN)) == Ok(("o_dat_0", SignalAt("bus", "dat.r")))
  {
    PortNameCases("i_cyc", "o_dat_", []);
    assert "o_dat_" + FieldN + [] == "o_dat_" + FieldN;
    assert "o_dat_" + "0" + [] == "o_dat_0";
    assert OpenBrace !in "i_cyc" by {
      assert "i_cyc" == ['i', '_', 'c', 'y', 'c'];
    }
  }

  /** The signals of the example's bus port. */
  lemma ExampleSignals()
    ensures Traverse([("cyc", "i_cyc"), ("dat.r", "o_dat_" + FieldN)], SignalItems("bus"))
      == Ok([("i_cyc", SignalAt("bus", "cyc")), ("o_dat_0", SignalAt("bus", "dat.r"))])
  {
    var pm := [("cyc", "i_cyc"), ("dat.r", "o_dat_" + FieldN)];
    var f := SignalItems("bus");
    var w0, w1 := ("i_cyc", SignalAt("bus", "cyc")), ("o_dat_0", SignalAt("bus", "dat.r"));
    ExampleNames();
    assert pm[..0] == [] && pm[..2] == pm;
    TraverseSnoc(pm, f, 0);
    TraverseSnoc(pm, f, 1);
    assert Traverse(pm[..0], f) == Ok([]);
    assert f(pm[0]) == Ok(w0);
    assert [] + [w0] == [w0];
    assert Traverse(pm[..1], f) == Ok([] + [w0]);
    assert f(pm[1]) == Ok(w1);
    assert Traverse(pm[..2], f) == Ok([w0] + [w1]);
    assert [w0] + [w1] == [w0, w1];
  }

  /** The port writes of the example. */
  lemma ExamplePortWrites()
    ensures PortWrites([("bus", [("cyc", "i_cyc"), ("dat.r", "o_dat_" + FieldN)])])
      == Ok([("i_cyc", SignalAt("bus", "cyc")), ("o_dat_0", SignalAt("bus", "dat.r"))])
  {
    var ws := [("i_cyc", SignalAt("bus", "cyc")), ("o_dat_0", SignalAt("bus", "dat.r"))];
    var ms := [("bus", [("cyc", "i_cyc"), ("dat.r", "o_dat_" + FieldN)])];
    ExampleSignals();
    assert MappingItem(ms[0]) == Ok(ws);
    assert ms[..0] == [] && ms[..1] == ms;
    TraverseSnoc(ms, MappingItems(), 0);
    assert [ws][..0] == [];
    assert Concat([ws]) == ws;
  }

  /** A system clock and reset and a bus port with one plain and one indexed
      signal. */
  lemma ElaborateExample()
    ensures var c := Config("timer", Files(None, Some("rtl")), None, [("sys", "clk")], [("sys", "rst_n")], [], []);
      InstancePorts(c, [("bus", [("cyc", "i_cyc"), ("dat.r", "o_dat_" + FieldN)])])
        == Ok([("i_clk", ClockOf("sync")), ("i_rst_n", InvertedResetOf("sync")),
               ("i_cyc", SignalAt("bus", "cyc")), ("o_dat_0", SignalAt("bus", "dat.r"))])
  {
    var c := Config("timer", Files(None, Some("rtl")), None, [("sys", "clk")], [("sys", "rst_n")], [], []);
    var ws := [("i_cyc", SignalAt("bus", "cyc")), ("o_dat_0", SignalAt("bus", "dat.r"))];
    ExamplePortWrites();
    assert ClockWrites(c.clocks) == [("i_clk", ClockOf("sync"))] by {
      assert c.clocks[..|c.clocks| - 1] == [];
      assert ClockWrites([]) == [];
      assert "i_" + "clk" == "i_clk" && DomainOf("sys") == "sync";
    }
    assert ResetWrites(c.resets) == [("i_rst_n", InvertedResetOf("sync"))] by {
      assert c.resets[..|c.resets| - 1] == [];
      assert ResetWrites([]) == [];
      assert "i_" + "rst_n" == "i_rst_n" && DomainOf("sys") == "sync";
    }
    var all := [("i_clk", ClockOf("sync")), ("i_rst_n", InvertedResetOf("sync"))] + ws;
    assert ClockWrites(c.clocks) + ResetWrites(c.resets) + ws == all;
    assert KeysUnique(all);
    ApplyDistinct(all);
    assert InstancePorts(c, [("bus", [("cyc", "i_cyc"), ("dat.r", "o_dat_" + FieldN)])]) == Ok(Apply([], all));
    assert all == [("i_clk", ClockOf("sync")), ("i_rst_n", InvertedResetOf("sync")),
                   ("i_cyc", SignalAt("bus", "cyc")), ("o_dat_0", SignalAt("bus", "dat.r"))];
  }

  /** A construction error is the wrapper's error. A wrapper that elaborates loops
      over exactly its port and pin names, has unique instance-port names and a
      port for every clock and reset, and each name holds its last write among the
      clocks, the resets and the signals of the mappings `__init__` stored. */
  lemma WrapperInstancePorts(c: Config, k: string)
    ensures WrapperTables(c).Err? ==> WrapperInstance(c) == Err(WrapperTables(c).msg)
    ensures WrapperInstance(c).Ok? ==> WrapperTables(c).Ok? && PortWrites(WrapperTables(c).value.portMappings).Ok?
    ensures WrapperInstance(c).Ok? ==>
      var ms := WrapperTables(c).value.portMappings;
      var ports := WrapperInstance(c).value;
      && Keys(ms) == Keys(c.ports) + Keys(c.pins)
      && KeysUnique(ports)
      && (forall i :: 0 <= i < |c.clocks| ==> "i_" + c.clocks[i].1 in Keys(ports))
      && (forall i :: 0 <= i < |c.resets| ==> "i_" + c.resets[i].1 in Keys(ports))
      && Lookup(ports, k) == LastWrite(ClockWrites(c.clocks) + ResetWrites(c.resets) + PortWrites(ms).value, k)
  {
    if WrapperInstance(c).Ok? {
      var ms := WrapperTables(c).value.portMappings;
      assert WrapperInstance(c) == InstancePorts(c, ms);
      WrapperTablesKeys(c);
      ClockAndResetPorts(c, ms);
      InstancePortsLookup(c, ms, k);
    }
  }
}

=== FILE: wrappers.dfy ===
/** The optional and fallible values shared by every module of the model. */
module Wrappers {

  /** A value that may be absent: Python's `None` versus a present value. */
  datatype Option<+T> = None | Some(value: T) {
    function GetOr(default: T): T {
      match this
      case Some(v) => v
      case None => default
    }
  }

  /** A computation that either produced a value or raised an error with a message. */
  datatype Result<+T> = Ok(value: T) | Err(msg: string)
}
